=== FILE: README.md ===
# OPTIK website logic in Dafny

The OPTIK website is a Next.js front end and API for a Solana memecoin platform. It has a token launchpad with priced tiers and Stripe checkout, a perpetuals trading page backed by a price oracle, an arcade of small games that pays OPTIK rewards, a staking page and an AI assistant. Its on-chain programs only log and return, so everything here is the TypeScript logic of the site, modelled one Dafny module per source file:

- **Arcade games.** `Game2048`, `Snake`, `TapToEarn`, `Crash` (the crash game on the games page) and `ArcadePage` (level curve, claim guard). Each handler or timer callback is one atomic step over an immutable state. Every `Math.random()` draw is a parameter in [0, 1).
- **Rewards.** `ArcadeRewards` is the client library: the earnings cap, achievement progress, the OPTIK formatter, and the wallet and claim guards. `Ledger` holds the pending-reward table shared by `PendingRewards`, `ClaimRewards` and `StripeWebhook`. `DailyStats` and `Achievements` are the remaining arcade routes.
- **Prices and money.**
  - `MemecoinPricing` holds the tier and projection tables. `RevenueCalculator` holds the launch and trading fees.
  - `PaymentCheckout` and `StripeSession` price checkouts in integer cents.
  - `Staking` is the staking estimate. `PriceOracle` is the price cache.
  - `PerpsClient` is the perpetuals client. `DexPage` is the trading page.
- **API routes and middleware.**
  - Trading data: `Leaderboard`, `StatsTable` (the shared `user_stats` table), `UserStatsRoute`, `PositionsRoute` and `CompetitionsRoute`.
  - Token and chat routes: `MemecoinCreateRoute` and `OptikGptRoute`.
  - Shared helpers: `Api` (response envelope, error classification, auth, CORS, body validation), `Security` (rate limiter, sanitizer, API key) and `OpenAi` (token estimate, truncation, validation).
- **Wizards and pages.** `TokenForm` is the memecoin form, `LaunchpadPage` the launch wizard with its payment and deploy status machine, and `HomePage` the home page's launch quote and assistant box.
- **Shared modules.** `Basics`, `Http`, `Text` and `Routes` hold the shared vocabulary:
  - option and result types;
  - replies with an HTTP status;
  - the string functions of JavaScript that the site uses;
  - the set of API paths the site serves.

How the outside world is modelled:

- **Database.** Supabase tables are sequences of records, and their filters are comprehensions. Ids the database assigns are fresh values passed in. A database error is a boolean parameter, or an error value, of the operation that meets it. This includes the errors a route does not read: a failed `.single()` lookup whose error is ignored reads as "no row", and a failed count reads as 0.
- **Services.** Stripe, OpenAI and Solana calls are parameters carrying their answers.
- **Numbers.** JavaScript numbers are `real`, and money in cents is `int`.

## Model

| member | source | states |
|---|---|---|
| Api.CreateApiResponse | optik-website/src/lib/api.ts:17-27 | the envelope reports success exactly when no error is given, and carries the data, the error and the timestamp unchanged |
| Api.ErrorResponse | optik-website/src/lib/api.ts:29-41 | an error response has the given HTTP status, an unsuccessful envelope and the error record built from message, status and code |
| Api.HandleApiError | optik-website/src/lib/api.ts:51-110 | an `Error` is classified by the first of "rate limit", "validation", "unauthorized", "forbidden", "not found" its message contains (429, 400, 401, 403, 404), otherwise 500 carrying the message; a non-`Error` gets the generic 500 |
| Api.ClassificationOrder | optik-website/src/lib/api.ts:57-94 | the checks are ordered and case-sensitive: a message mentioning both rate limit and validation is a 429, and "Not Found" falls through to 500 |
| Api.MissingFields | optik-website/src/lib/api.ts:123-127 | lists exactly the required fields that are absent, undefined or null, in the order asked |
| Api.MissingFieldsCounts | optik-website/src/lib/api.ts:123-127 | each missing field is listed as often as it was asked for, and a supplied one never |
| Api.ValidateJsonBody | optik-website/src/lib/api.ts:112-133 | a non-object body is rejected with the single object error; an object is valid exactly when every required field is supplied, with one "Missing required field" error per missing field |
| Api.WithAuth | optik-website/src/lib/api.ts:135-165 | without a `Bearer ` header the answer is 401 UNAUTHORIZED; an empty or "invalid" token is 401 INVALID_TOKEN; any other token runs the handler |
| Api.AuthGate | optik-website/src/lib/api.ts:142-158 | without a usable bearer token the answer is a 401 that does not depend on the handler at all |
| Api.WithValidation | optik-website/src/lib/api.ts:190-218 | malformed JSON and a handler's `SyntaxError` both answer 400 INVALID_JSON; a failed validation answers 400 listing the errors joined by ", "; otherwise the handler's answer, or its error classified by handleApiError |
| Api.AllowedOrigins | optik-website/src/lib/api.ts:221-225 | the two fixed origins, localhost first, followed by the configured app URL when it is set |
| Api.AllowOrigin | optik-website/src/lib/api.ts:227-229 | the allowed origin is always one of the allowed list: the request's own origin when listed, localhost otherwise |
| Api.NeverWildcard | optik-website/src/lib/api.ts:229 | the `*` fallback is unreachable because the list is never empty |
| Api.CorsHeaders | optik-website/src/lib/api.ts:220-234 | exactly the four CORS headers, with the allowed origin, the fixed method and header lists and a max age of 86400 |
| Api.WithCors | optik-website/src/lib/api.ts:236-256 | a preflight OPTIONS request is answered 200 with the CORS headers without calling the handler; any other request gets the handler's answer with the CORS headers set over its own |
| Achievements.Active | optik-website/src/app/api/arcade/achievements/route.ts:22-25 | the achievements shown are exactly the active ones, in table order |
| Achievements.ActiveCounts | optik-website/src/app/api/arcade/achievements/route.ts:22-25 | each active achievement is shown as often as the table holds it, and an inactive one never |
| Achievements.FindIndex | optik-website/src/app/api/arcade/achievements/route.ts:43-45 | `find` picks the first unlock row of the achievement, and finds none exactly when no row carries its id |
| Achievements.Join | optik-website/src/app/api/arcade/achievements/route.ts:47-58 | an entry keeps the achievement's id, name and reward, is unlocked exactly when an unlock row was found, and is claimed only when that row is |
| Achievements.Mine | optik-website/src/app/api/arcade/achievements/route.ts:32-35 | the wallet's unlock rows are exactly the rows with its address, in table order, so `find` meets the table's first matching row first |
| Achievements.MineCounts | optik-website/src/app/api/arcade/achievements/route.ts:32-35 | each unlock row of the wallet is kept as often as the table holds it, and a row of another wallet never |
| Achievements.FindMine | optik-website/src/app/api/arcade/achievements/route.ts:32-45 | an achievement shows as unlocked exactly when the wallet holds an unlock row for it |
| Achievements.Entries | optik-website/src/app/api/arcade/achievements/route.ts:42-59 | one entry per active achievement, in order, each joined with that achievement's unlock row |
| Achievements.Get | optik-website/src/app/api/arcade/achievements/route.ts:9-66 | no wallet is a 400; a database failure answers an empty list; otherwise one entry per active achievement, unlocked exactly when the wallet unlocked it and never claimed when locked, each entry being the achievement joined with the wallet's unlock row (`Entries`), so its name, reward, unlock time and claimed flag come from those rows |
| ArcadePage.FloorSqrt | optik-website/src/app/arcade/page.tsx:93 | `Math.floor(Math.sqrt(x))` is the natural r with r² ≤ x < (r+1)² |
| ArcadePage.Level | optik-website/src/app/arcade/page.tsx:93 | the level l is at least 1 and its band [100(l−1)², 100l²) contains the experience |
| ArcadePage.LevelUnique | optik-website/src/app/arcade/page.tsx:93 | the level is the only number whose band contains the experience |
| ArcadePage.LevelMonotone | optik-website/src/app/arcade/page.tsx:93 | more experience never gives a lower level |
| ArcadePage.Progress | optik-website/src/app/arcade/page.tsx:94-99 | the progress through the current level lies in [0, 100), and is 0 exactly at the start of the level's band |
| ArcadePage.Received | optik-website/src/lib/arcade-rewards.ts:238-260 | a failed request yields an empty object; an aggregate answer (no game id) has no `totalOptikEarned` field |
| ArcadePage.Panel | optik-website/src/app/arcade/page.tsx:58-64 | absent figures count as 0, the level is at least 1 with progress in [0, 100), and a missing total gives level 1 with no progress |
| ArcadePage.AggregateLevelIsOne | optik-website/src/app/arcade/page.tsx:51-64 | because the page asks for the aggregate daily stats, whose answer has no `totalOptikEarned`, the panel always shows level 1, progress 0 and 0 earned, whatever the wallet's rows |
| ArcadePage.PendingTotal | optik-website/src/app/arcade/page.tsx:68 | the pending total is 0 for an empty list, never negative when no amount is, and adds the amounts in list order |
| ArcadeRewards.Guard | optik-website/src/lib/arcade-rewards.ts:65-279 | every call but the games and leaderboard lists throws "Wallet not connected" exactly when no wallet is connected; a claim also needs a signing wallet |
| ArcadeRewards.Claim | optik-website/src/lib/arcade-rewards.ts:199-233 | a claim without a signing wallet throws and writes nothing; a non-positive pending total throws "No rewards to claim" and writes nothing; otherwise the claim route's write happens, a route failure throws "Failed to claim rewards", and a success returns a non-empty signature |
| ArcadeRewards.ClaimCreditsListed | optik-website/src/lib/arcade-rewards.ts:206-228 | with a signing wallet and a positive claimable total, a client claim returns, having credited exactly the total it listed, and an immediate second claim throws "No rewards to claim" without touching the table |
| ArcadeRewards.PotentialEarnings | optik-website/src/lib/arcade-rewards.ts:284-293 | the earning is the score times the rate, capped by what is left of the daily allowance (never negative) |
| ArcadeRewards.EarningsRespectCap | optik-website/src/lib/arcade-rewards.ts:290-292 | crediting the potential earning never takes the day's total past the daily maximum |
| ArcadeRewards.FormatOptik | optik-website/src/lib/arcade-rewards.ts:297-304 | millions from 1,000,000, thousands from 1,000, the plain amount below, the shown value times the unit giving back the amount |
| ArcadeRewards.AchievementProgress | optik-website/src/lib/arcade-rewards.ts:307-312 | the percentage is at most 100, is 100 exactly when the requirement is met, and is otherwise the proportion met |
| Ledger.Select | optik-website/src/app/api/arcade/pending-rewards/route.ts:21-26 | the selection is exactly the rows of the wallet that are unclaimed and not yet expired, in table order |
| Ledger.SelectCounts | optik-website/src/app/api/arcade/pending-rewards/route.ts:21-26 | each claimable row is selected as often as the table holds it, and any other never |
| Ledger.SelectEmpty | optik-website/src/app/api/arcade/claim-rewards/route.ts:29 | nothing is selected exactly when no row of the table is claimable by the wallet |
| Ledger.Ids | optik-website/src/app/api/arcade/claim-rewards/route.ts:37 | the id set holds the id of every selected row and nothing else |
| Ledger.MarkClaimed | optik-website/src/app/api/arcade/claim-rewards/route.ts:40-46 | the update keeps the table's length and sets claimed and the claim time on exactly the rows whose id is in the set |
| Ledger.MarkSelectedEmpties | optik-website/src/app/api/arcade/claim-rewards/route.ts:22-46 | after the selected rows are marked, no row remains claimable by that wallet |
| Ledger.MarkTouchesOnlySelected | optik-website/src/app/api/arcade/claim-rewards/route.ts:40-46 | with unique ids, marking changes exactly the claimable rows of the wallet and leaves every other row as it was |
| ClaimRewards.Claim | optik-website/src/app/api/arcade/claim-rewards/route.ts:9-85 | no wallet is a 400; a failed lookup or nothing claimable is a 400 "No rewards to claim" with no write; a failed update is a 500 with no write; otherwise the claimable rows are marked and the answer reports their total and their count; a claim record for that total is appended unless its insert fails, which the answer does not show |
| ClaimRewards.RecordFailureUnseen | optik-website/src/app/api/arcade/claim-rewards/route.ts:60-72 | a failed insert of the claim record changes neither the answer nor the rewards table; only the record is missing |
| ClaimRewards.ClaimTwice | optik-website/src/app/api/arcade/claim-rewards/route.ts:22-46 | a successful claim leaves nothing to claim: an immediate second claim is a 400 that changes nothing |
| ClaimRewards.ClaimOnlyTouchesOwnRows | optik-website/src/app/api/arcade/claim-rewards/route.ts:40-46 | with unique row ids a claim changes exactly the wallet's claimable rows |
| PendingRewards.ToView | optik-website/src/app/api/arcade/pending-rewards/route.ts:33-39 | the listed record carries the row's id, amount, source, creation and expiry unchanged |
| PendingRewards.Views | optik-website/src/app/api/arcade/pending-rewards/route.ts:33-39 | one listed record per row, in order |
| PendingRewards.Pending | optik-website/src/app/api/arcade/pending-rewards/route.ts:9-46 | no wallet is a 400; a database error lists nothing; otherwise the wallet's unclaimed, unexpired rows |
| PendingRewards.ListedIsClaimed | optik-website/src/app/api/arcade/pending-rewards/route.ts:21-26 | listing and claiming use the same filter: the total the page shows is the amount a claim at the same instant credits, and the number listed is the number claimed |
| DailyStats.Today | optik-website/src/app/api/arcade/daily-stats/route.ts:22-32 | the query returns exactly the wallet's rows dated today, restricted to the game when one is named, in table order |
| DailyStats.TodayCounts | optik-website/src/app/api/arcade/daily-stats/route.ts:22-32 | each matching row is returned as often as the table holds it, and any other never |
| DailyStats.Get | optik-website/src/app/api/arcade/daily-stats/route.ts:9-72 | no wallet is a 400; a database error other than no-rows answers an empty object; with a game the first matching row's figures (zeros when none); without one the sum of today's earnings and the number of rows |
| DailyStats.AggregateBounds | optik-website/src/app/api/arcade/daily-stats/route.ts:55-66 | the all-games answer counts at most one game per row and, with no negative amounts, never reports a negative total |
| CompetitionsRoute.Split | optik-website/src/app/api/competitions/route.ts:156-158 | whole days, hours of the last day (below 24) and minutes of the last hour (below 60), which together fall within a minute below the remaining time |
| CompetitionsRoute.HourRemainder | optik-website/src/app/api/competitions/route.ts:157-158 | the minutes taken from the remainder within the hour equal those taken from the remainder within the day's hour, so the source's two remainders agree |
| CompetitionsRoute.TimeLeft | optik-website/src/app/api/competitions/route.ts:149-163 | "Ended" exactly when the end is not in the future; otherwise days and hours, hours and minutes, or minutes alone, by the largest non-zero unit |
| CompetitionsRoute.LastMinute | optik-website/src/app/api/competitions/route.ts:154-162 | with less than a minute left the label is "0m", not "Ended" |
| CompetitionsRoute.Icon | optik-website/src/app/api/competitions/route.ts:165-173 | the four known kinds map to their own icons and every other kind, only those, to the target icon |
| CompetitionsRoute.PrizeLabelDigits | optik-website/src/app/api/competitions/route.ts:35 | the prize label is the pool's decimal digits, grouped by commas, followed by " OPTIK" |
| CompetitionsRoute.CardOf | optik-website/src/app/api/competitions/route.ts:32-43 | a card carries the row's id, name, pool and kind, the pool's label, the kind's icon, a missing participant count as 0, and the time left |
| CompetitionsRoute.MockConsistent | optik-website/src/app/api/competitions/route.ts:112-147 | the fixed fallback list agrees with the live rendering: its labels come from its pools and its icons from its kinds |
| CompetitionsRoute.LabelOfFifty | optik-website/src/app/api/competitions/route.ts:118-119 | a 50000 pool is labelled "50,000 OPTIK" |
| CompetitionsRoute.LabelOfHundred | optik-website/src/app/api/competitions/route.ts:128-129 | a 100000 pool is labelled "100,000 OPTIK" |
| CompetitionsRoute.LabelOfTwentyFive | optik-website/src/app/api/competitions/route.ts:138-139 | a 25000 pool is labelled "25,000 OPTIK" |
| CompetitionsRoute.Running | optik-website/src/app/api/competitions/route.ts:20-22 | the active filter keeps exactly the competitions whose end is still ahead, in table order |
| CompetitionsRoute.RunningCounts | optik-website/src/app/api/competitions/route.ts:20-22 | each competition still running is kept as often as the table holds it, and an ended one never |
| CompetitionsRoute.Get | optik-website/src/app/api/competitions/route.ts:9-50 | a database error answers the fixed list; otherwise one card per row shown, the active view showing only running competitions |
| CompetitionsRoute.ActiveNotEnded | optik-website/src/app/api/competitions/route.ts:20-38 | no card of the active view reads "Ended" |
| CompetitionsRoute.CountEntries | optik-website/src/app/api/competitions/route.ts:65-70 | the count of the wallet's entries for the competition is zero exactly when none exists |
| CompetitionsRoute.Increment | optik-website/src/app/api/competitions/route.ts:98-100 | the competition with that id gains one participant (a missing count becomes 1); every other row stays |
| CompetitionsRoute.Join | optik-website/src/app/api/competitions/route.ts:52-110 | a missing wallet or competition id is a 400; exactly one existing entry, found by an answered lookup, is a 400 "Already joined"; a failed lookup finds nothing; a failed insert is a 500 with no write; otherwise the entry is appended and answered, and the participant count is raised unless that call fails, which the answer does not show |
| CompetitionsRoute.JoinOnce | optik-website/src/app/api/competitions/route.ts:64-100 | when the existence lookups are answered, joining keeps every wallet to one entry per competition, whether or not the count update fails, and any second attempt is refused |
| CompetitionsRoute.FailedLookupJoinsTwice | optik-website/src/app/api/competitions/route.ts:65-77 | a failed existence lookup lets a wallet already entered join again: its entries become two and the one-entry rule breaks |
| Crash.Initial | optik-website/src/app/games/page.tsx:11-17 | the page starts with a balance of 1000, a bet of 10, multiplier 1.00, no round and no running interval |
| Crash.CrashPoint | optik-website/src/app/games/page.tsx:52 | the hidden crash point lies in [1, 10) |
| Crash.SetBet | optik-website/src/app/games/page.tsx:95 | the bet becomes the parsed number when it is at least 1, and 1 when the text does not parse or is below 1; nothing else changes |
| Crash.Play | optik-website/src/app/games/page.tsx:44-66 | a live round or a bet above the balance changes nothing; otherwise the bet is taken from the balance, the multiplier restarts at 1.00 and a new interval with a fresh crash point starts |
| Crash.Fire | optik-website/src/app/games/page.tsx:54-65 | each firing of any interval raises the multiplier by 0.01; reaching that interval's crash point clears it and marks the round crashed and stopped, otherwise nothing else changes |
| Crash.CashOutAsWritten | optik-website/src/app/games/page.tsx:68-73 | cashing out stops the round and pays bet × multiplier but leaves the round's interval running |
| Crash.CashOut | optik-website/src/app/games/page.tsx:68-73 | the corrected cash-out also stops the round's interval; it pays bet × multiplier, at least the bet back |
| Crash.FireSane | optik-website/src/app/games/page.tsx:54-62 | with only the live round's interval running, a firing ends the round exactly when the multiplier reaches that round's crash point |
| Crash.SaneRounds | optik-website/src/app/games/page.tsx:44-73 | starting a round and the corrected cash-out both keep exactly one interval running while a round is live and none otherwise |
| Crash.StaleTimerEndsNextRound | optik-website/src/app/games/page.tsx:54-73 | as written: a round cashed out before its crash point leaves its interval running, and that interval ends the next round as crashed at 1.03 although that round's own crash point is 5.5 |
| Crash.StaleTimerGone | optik-website/src/app/games/page.tsx:44-73 | with the corrected cash-out the same plays leave only the second round's interval running |
| DexPage.InitialPrices | optik-website/src/app/DEX/page.tsx:84-89 | the page's starting prices are the price oracle's fallback prices, pair by pair |
| DexPage.Drift | optik-website/src/app/DEX/page.tsx:121-131 | every pair's price moves by its own draw, `(u − 0.5)·0.5` percent, floored at 0 |
| DexPage.DriftBounded | optik-website/src/app/DEX/page.tsx:126-127 | a positive price stays positive and moves by less than a quarter of a percent per step |
| DexPage.Mark | optik-website/src/app/DEX/page.tsx:165 | a position is valued at the market price, or at its recorded price when the market shows 0 |
| DexPage.PnL | optik-website/src/app/DEX/page.tsx:164-171 | a position at its entry price shows no profit; with positive entry, size and leverage it shows a profit exactly when the price has moved its way (up for a long, down for a short) |
| DexPage.PnLAgreesWithClient | optik-website/src/app/DEX/page.tsx:164-171 | the page's profit figure equals the perpetuals client's profit for the same position at the same price, on both sides |
| DexPage.PnLAtEntry | optik-website/src/app/DEX/page.tsx:164-171 | a position valued at its own entry price shows no profit |
| DexPage.Trade | optik-website/src/app/DEX/page.tsx:173-201 | without an amount or a connected wallet nothing changes; otherwise a position at the market price is appended and the amount is cleared |
| DexPage.NewPositionBreaksEven | optik-website/src/app/DEX/page.tsx:182-192 | a freshly opened position shows no profit until the price moves |
| DexPage.Record | optik-website/src/app/DEX/page.tsx:213-219 | closing adds the profit and one trade; a win raises the win rate by half a point and extends the streak, anything else lowers it by half a point and resets the streak; no other figure changes |
| DexPage.ClosePosition | optik-website/src/app/DEX/page.tsx:203-228 | the closed position leaves the list, the others keep their order, and its profit at the current price goes into the stats |
| DexPage.CloseKeepsSound | optik-website/src/app/DEX/page.tsx:209 | every position left after a close can still be valued |
| DexPage.TradeThenClose | optik-website/src/app/DEX/page.tsx:173-228 | opening and at once closing at an unchanged price gives the list back, counts a trade with no profit, and, a break-even close not being a win, costs half a point of win rate and the streak |
| DexPage.PositionSize | optik-website/src/app/DEX/page.tsx:584 | the shown position size is amount × leverage, an empty amount reading as 0 |
| DexPage.EstimatedLiquidation | optik-website/src/app/DEX/page.tsx:589 | the estimated liquidation price is 10% below the price for a long and 10% above for a short |
| DexPage.EstimateIsLeverageNine | optik-website/src/app/DEX/page.tsx:589 | the page's estimate is the perpetuals client's liquidation price at leverage 9, whatever leverage is selected |
| Game2048.NonZero | optik-website/src/components/arcade/Game2048.tsx:62 | the filter keeps only tiles, never more cells than the line has |
| Game2048.NonZeroTotal | optik-website/src/components/arcade/Game2048.tsx:62 | dropping the empty cells keeps the sum of the tiles |
| Game2048.Merge | optik-website/src/components/arcade/Game2048.tsx:65-73 | merging never lengthens the line, keeps the sum of the tiles, and yields only tiles from tiles |
| Game2048.MergeNoPair | optik-website/src/components/arcade/Game2048.tsx:65-73 | on a line of tiles, merging changes nothing and earns nothing when no neighbours are equal, and otherwise shortens the line and earns points |
| Game2048.MergeGainedZero | optik-website/src/components/arcade/Game2048.tsx:66-68 | a merge earns zero points exactly when no two neighbouring tiles are equal |
| Game2048.Pad | optik-website/src/components/arcade/Game2048.tsx:75-77 | the line is filled up to four cells with empty cells after the merged tiles |
| Game2048.SlideLine | optik-website/src/components/arcade/Game2048.tsx:61-80 | a slid line always has four cells |
| Game2048.SlideTotal | optik-website/src/components/arcade/Game2048.tsx:61-80 | sliding keeps the sum of the tiles on the line |
| Game2048.SlidePacked | optik-website/src/components/arcade/Game2048.tsx:61-80 | after a slide the tiles sit at the start of the line and the empty cells at its end, and there are never more tiles than before |
| Game2048.SlideNonZero | optik-website/src/components/arcade/Game2048.tsx:61-80 | the tiles of a slid line are the merged tiles of the original line |
| Game2048.SlideFixed | optik-website/src/components/arcade/Game2048.tsx:61-80 | a slide leaves a line unchanged exactly when its tiles are already packed and no two neighbouring tiles are equal |
| Game2048.FilterLoop | optik-website/src/components/arcade/Game2048.tsx:62 | the filter written as a loop keeps exactly the tiles, in order |
| Game2048.MergeLoop | optik-website/src/components/arcade/Game2048.tsx:65-73 | the merge loop as written, skipping the absorbed tile, computes the merged line and the points it earns |
| Game2048.SlideLoop | optik-website/src/components/arcade/Game2048.tsx:61-80 | `slide` as written, with its three loops, computes the slid line and its points |
| Game2048.Line | optik-website/src/components/arcade/Game2048.tsx:82-102 | the line of a direction holds four cells, read from the edge the tiles move toward (rows reversed for right, columns for up, reversed columns for down) |
| Game2048.Move | optik-website/src/components/arcade/Game2048.tsx:54-102 | a move in any direction produces a 4×4 board |
| Game2048.FixedMove | optik-website/src/components/arcade/Game2048.tsx:104-105 | a move whose every line is left as it is leaves the board as it is |
| Game2048.MoveFixed | optik-website/src/components/arcade/Game2048.tsx:104-107 | a move changes nothing exactly when it leaves each of its lines as it is |
| Game2048.CheckGameOver | optik-website/src/components/arcade/Game2048.tsx:126-142 | `isGameOver` with its loops answers true exactly when no cell is empty and no two neighbouring cells are equal |
| Game2048.GameOverStuck | optik-website/src/components/arcade/Game2048.tsx:126-142 | on a finished board no move changes anything |
| Game2048.StuckGameOver | optik-website/src/components/arcade/Game2048.tsx:126-142 | a board with a tile that no move can change is finished |
| Game2048.GameOverIffStuck | optik-website/src/components/arcade/Game2048.tsx:126-142 | on a board with a tile, the game-over check holds exactly when no move can change the board |
| Game2048.EmptyCells | optik-website/src/components/arcade/Game2048.tsx:41-46 | the list of empty cells holds exactly the empty cells of the board |
| Game2048.SpawnCell | optik-website/src/components/arcade/Game2048.tsx:48-49 | the drawn cell is an empty one, and there is none exactly when the board is full |
| Game2048.SpawnValue | optik-website/src/components/arcade/Game2048.tsx:50 | the new tile is 2 when the draw is below 0.9 and 4 otherwise |
| Game2048.SetCell | optik-website/src/components/arcade/Game2048.tsx:50 | the board with one cell set and every other cell as it was |
| Game2048.AddTile | optik-website/src/components/arcade/Game2048.tsx:40-52 | a full board is left as it is; otherwise exactly one empty cell receives a 2 or a 4 |
| Game2048.AddTileCount | optik-website/src/components/arcade/Game2048.tsx:40-52 | a spawn on a board with room adds exactly one tile |
| Game2048.InitBoard | optik-website/src/components/arcade/Game2048.tsx:20-25 | a fresh board is 4×4 |
| Game2048.InitBoardTiles | optik-website/src/components/arcade/Game2048.tsx:20-25 | a fresh board holds exactly two tiles |
| Game2048.Reset | optik-website/src/components/arcade/Game2048.tsx:31-38 | a reset gives a fresh board, zero score and moves, a running game, and keeps the best score |
| Game2048.Play | optik-website/src/components/arcade/Game2048.tsx:54-124 | a finished game or a move that changes nothing leaves everything as it is; otherwise the new board is the moved board with a tile spawned by `AddTile`, the move's points are added, one more move is counted, the best score follows the score, and the game ends, reporting its score, exactly when the new board is finished |
| Game2048.Reward | optik-website/src/components/arcade/Game2048.tsx:229 | the reward shown is the score divided by ten, rounded down |
| Game2048.SlideExampleFourTwos | optik-website/src/components/arcade/Game2048.tsx:65-73 | four 2s slide into two 4s, not one 8, earning 8 points |
| Game2048.SlideExampleNoChain | optik-website/src/components/arcade/Game2048.tsx:65-73 | a tile made by a merge does not merge again in the same move |
| HomePage.ContractAddress | optik-website/src/app/page.tsx:34 | the configured mint is shown when it is set and non-empty, "Coming Soon" otherwise |
| HomePage.EditSymbol | optik-website/src/app/page.tsx:236-238 | the symbol field never holds more than ten characters or a lower-case letter, and no other field changes |
| HomePage.EditLiquidity | optik-website/src/app/page.tsx:277 | the liquidity becomes the parsed number, or 0 when the text does not parse; nothing else changes |
| HomePage.CostOf | optik-website/src/app/page.tsx:35-37 | the quote charges the tier's SOL price, the liquidity, and a platform fee of one fortieth of the price, so the total is 102.5% of the price plus the liquidity |
| HomePage.CostMatchesRevenue | optik-website/src/app/page.tsx:35-37 | the SOL quoted beyond liquidity, valued at the oracle's SOL price, is the launch total the revenue calculator books for that tier |
| HomePage.InitialQuote | optik-website/src/app/page.tsx:14-21 | the opening form quotes 2.5 SOL for a standard launch, 1 SOL of liquidity and a 0.0625 SOL fee, 3.5625 SOL in all |
| HomePage.Request | optik-website/src/app/page.tsx:56-64 | the request carries the typed line and the panel's earlier messages, with the wallet falling back to "demo" |
| HomePage.ReplyText | optik-website/src/app/page.tsx:67-78 | the reply shown is the answer's text, "Error. Try again." when it has none, and the connection message when the request failed; it is never empty |
| HomePage.Send | optik-website/src/app/page.tsx:47-82 | a blank line or a pending reply changes nothing; otherwise the user's line and the reply are appended, and the input is cleared and unlocked |
| HomePage.SendKeepsWellformed | optik-website/src/app/page.tsx:23-29 | the panel keeps its greeting first and only ever holds the roles "user" and "optik" |
| HomePage.HistoryForwardedWhole | optik-website/src/app/api/optik-gpt/route.ts:25-34 | every message the panel sends as history reaches the model, text unchanged |
| HomePage.GreetingCoversMemecoin | optik-website/src/app/api/optik-gpt/route.ts:62-71 | a first demo question "memecoin" is answered as already covered, because the greeting mentions it |
| OptikGptRoute.Forwarded | optik-website/src/app/api/optik-gpt/route.ts:25-34 | the forwarded history never grows and never carries a system message |
| OptikGptRoute.ForwardedKeepsAll | optik-website/src/app/api/optik-gpt/route.ts:25-34 | a history of the three accepted roles is forwarded entry for entry, text unchanged, with only the user's entries sent as the user's |
| OptikGptRoute.Prompt | optik-website/src/app/api/optik-gpt/route.ts:23-36 | the model sees the system prompt first, the new message last as the user's, and no other system message |
| OptikGptRoute.DemoMode | optik-website/src/app/api/optik-gpt/route.ts:38 | demo mode holds exactly when no API key is configured or the demo flag is the text "true" |
| OptikGptRoute.Answered | optik-website/src/app/api/optik-gpt/route.ts:65-67 | a question counts as answered exactly when some earlier `optik` entry, lower-cased, contains its first twenty lower-cased characters |
| OptikGptRoute.Demo | optik-website/src/app/api/optik-gpt/route.ts:62-90 | the "already covered" answer comes exactly when the question was answered and does not ask for more; the menu comes exactly when no rule's keyword occurs |
| OptikGptRoute.DemoIgnoresCase | optik-website/src/app/api/optik-gpt/route.ts:63 | the demo answer does not depend on letter case |
| OptikGptRoute.NeverCoveredFirst | optik-website/src/app/api/optik-gpt/route.ts:65-71 | without an earlier `optik` entry, or when asking for "more", the answer is never "already covered" |
| OptikGptRoute.TrendsFirst | optik-website/src/app/api/optik-gpt/route.ts:73-75 | a question mentioning trends that was not answered before gets the trends answer, whatever else it mentions |
| OptikGptRoute.Post | optik-website/src/app/api/optik-gpt/route.ts:14-60 | the request is refused with 400 exactly when the message is missing or blank; in demo mode the answer is the demo's; otherwise the model's text, "Please rephrase." when it has none, with its token count or 0 |
| OptikGptRoute.BlankRefused | optik-website/src/app/api/optik-gpt/route.ts:19-21 | a message of spaces is refused in either mode |
| LaunchpadPage.FromForm | optik-website/src/app/launchpad/create/page.tsx:42-45 | the page keeps the form's name, symbol and description, an image exactly when a file was chosen, and decimals read from the form's digits; no supply is carried, because the form names it `totalSupply` |
| LaunchpadPage.Submit | optik-website/src/app/launchpad/create/page.tsx:42-45 | submitting the form on step 1 stores its data and moves to review; elsewhere nothing changes |
| LaunchpadPage.AfterCheckout | optik-website/src/app/launchpad/create/page.tsx:70-81 | the page follows the session URL exactly when the route created a session with a non-empty URL; otherwise it records the payment failure, never changing step or data |
| LaunchpadPage.PaymentBodyAsWritten | optik-website/src/app/launchpad/create/page.tsx:58-67 | the body the page posts carries no tier and no liquidity |
| LaunchpadPage.PayAsWritten | optik-website/src/app/launchpad/create/page.tsx:47-82 | "Pay & Continue" does nothing off step 2 or while paying, and asks for a wallet when none is connected |
| LaunchpadPage.PaymentAlwaysFails | optik-website/src/app/api/payment/create-checkout/route.ts:17-21 | whatever Stripe would answer, the route refuses the page's tierless body, so the page ends in the error state and never redirects |
| LaunchpadPage.PaymentBody | optik-website/src/app/api/payment/create-checkout/route.ts:17-24 | the intended body names a tier the route prices, the liquidity, the token and the creator's wallet |
| LaunchpadPage.Pay | optik-website/src/app/launchpad/create/page.tsx:47-82 | with the intended body: the same guards, and paying never changes step or data |
| LaunchpadPage.PaymentRedirects | optik-website/src/app/launchpad/create/page.tsx:70-73 | with the intended body, a created session with a URL is followed |
| LaunchpadPage.CreateRequest | optik-website/src/app/launchpad/create/page.tsx:95-101 | the create request spreads every token field (name, symbol, description, image, decimals, supply) and adds the creator's wallet |
| LaunchpadPage.FormReachesRoute | optik-website/src/app/launchpad/create/page.tsx:95-101 | when the create route accepts the page's request, the token metadata has the form's decimals, the route's default supply in base units, and the chosen file as image |
| LaunchpadPage.DeployAsWritten | optik-website/src/app/launchpad/create/page.tsx:84-150 | as written, Deploy does nothing unless enabled, asks for a wallet when none is connected, and otherwise always ends in the error state with the JSON parser's message |
| LaunchpadPage.CreatePathMissing | optik-website/src/app/launchpad/create/page.tsx:95 | the page posts to /api/incoin/create and /api/incoin/deploy, which no route serves, while /api/memecoin/create and /api/memecoin/deploy exist |
| LaunchpadPage.Deploy | optik-website/src/app/launchpad/create/page.tsx:84-150 | with the served routes, a deployment succeeds exactly when the create route answers, Phantom is present and the deploy route reports a mint; success moves to step 4 with its mint and signature, any failure stays on step 3 with a non-empty message |
| LaunchpadPage.DeployNeedsDetails | optik-website/src/app/launchpad/create/page.tsx:104-108 | data without a description stops the deployment with the create route's "required" message |
| LaunchpadPage.Back | optik-website/src/app/launchpad/create/page.tsx:455-458 | "Back" moves one step back strictly between the first and the last step, and does nothing elsewhere |
| LaunchpadPage.Reset | optik-website/src/app/launchpad/create/page.tsx:348-349 | "Create Another Token" on step 4 returns the page to its initial state |
| LaunchpadPage.StepThreeUnreachable | optik-website/src/app/launchpad/create/page.tsx:18-82 | from steps 1 and 2 no sequence of events reaches step 3, because nothing but the unread return URL names it |
| LaunchpadPage.BackKeepsData | optik-website/src/app/launchpad/create/page.tsx:42-45 | going back from review keeps the submitted data |
| Leaderboard.SortColumn | optik-website/src/app/api/leaderboard/route.ts:13-19 | the board is ordered by profit when the type is absent or "pnl", by volume for "volume", and by win rate for any other type |
| Leaderboard.QueryOf | optik-website/src/app/api/leaderboard/route.ts:12-20 | the query orders by the type's column and asks for the given limit, 50 when none is given |
| Leaderboard.DisplayName | optik-website/src/app/api/leaderboard/route.ts:31 | the username is shown when set, otherwise "Trader" and at most the first six characters of the wallet |
| Leaderboard.EntryOf | optik-website/src/app/api/leaderboard/route.ts:29-38 | a board line ranks the row by its position, shows its wallet and name, reads missing figures as 0, and draws its avatar from the ten avatars |
| Leaderboard.Shape | optik-website/src/app/api/leaderboard/route.ts:29-38 | the board has one line per row, each line made from its own row and position |
| Leaderboard.Get | optik-website/src/app/api/leaderboard/route.ts:9-45 | a database error gives the fixed board; otherwise one line per row, ranked 1, 2, … in the database's order, each with its row's wallet, display name, the row's P&L, volume, win rate and trade count, and the avatar its draw picks |
| Leaderboard.MockBoardRanked | optik-website/src/app/api/leaderboard/route.ts:80-90 | the fixed board is ranked 1 to 5 by strictly falling profit |
| Leaderboard.SortedEntries | optik-website/src/app/api/leaderboard/route.ts:16-38 | rows returned in descending order of the query's column give a board in descending order of the figure shown for that column |
| Leaderboard.Post | optik-website/src/app/api/leaderboard/route.ts:47-78 | a missing wallet gets 400 and a failed write 500, each leaving the table as it was; otherwise the supplied totals are upserted and the answer lists the wallet's rows, at least one |
| Leaderboard.OfWallet | optik-website/src/app/api/leaderboard/route.ts:66 | the rows of one wallet are exactly the table's rows with that wallet, in table order, and there is one whenever the wallet has a row |
| Leaderboard.OfWalletCounts | optik-website/src/app/api/leaderboard/route.ts:66 | each row of the wallet is kept as often as the table holds it, so `.single()` sees one row exactly when the table holds one for the wallet |
| MemecoinCreateRoute.ImageOf | optik-website/src/app/api/memecoin/create/route.ts:55 | the given image is used when set; otherwise the placeholder URL followed by the symbol |
| MemecoinCreateRoute.BaseUnits | optik-website/src/app/api/memecoin/create/route.ts:68 | the supply in base units is never below the whole-token supply and equals it at zero decimals |
| MemecoinCreateRoute.BaseUnitsStep | optik-website/src/app/api/memecoin/create/route.ts:68 | each extra decimal multiplies the base units by ten |
| MemecoinCreateRoute.DefaultBaseUnits | optik-website/src/app/api/memecoin/create/route.ts:24-25 | a request without supply or decimals mints 10^15 base units (a million tokens at nine decimals) |
| MemecoinCreateRoute.Post | optik-website/src/app/api/memecoin/create/route.ts:17-110 | a missing name, symbol, description or wallet gives exactly the 400 "required" answer; a rejected wallet exactly the 400 invalid-wallet answer; a failing node the 500 answer; otherwise the metadata carries the request's fields with defaults filled in, the "image" category and the site URL, and the transaction, with the fetched blockhash, creates one 82-byte mint account owned by the token program and paid for by the creator |
| MemecoinPricing.TierOf | optik-website/src/lib/memecoin-pricing.ts:6-95 | every tier's SOL price is its dollar price at $200 per SOL, every price is positive, and only the standard tier is marked popular |
| MemecoinPricing.PricesIncrease | optik-website/src/lib/memecoin-pricing.ts:6-95 | a tier listed later always costs more, in dollars and in SOL |
| MemecoinPricing.LineOf | optik-website/src/lib/memecoin-pricing.ts:105-125 | each projected line's revenue is its launch count times its tier's dollar price |
| MemecoinPricing.ProjectionTotals | optik-website/src/lib/memecoin-pricing.ts:105-125 | each scenario's listed totals are the sums of its four tier lines, in launches and in revenue |
| MemecoinPricing.ProjectionMix | optik-website/src/lib/memecoin-pricing.ts:106-124 | in both scenarios the launches split 50/30/15/5 percent over the four tiers |
| MemecoinPricing.SecondaryConsistent | optik-website/src/lib/memecoin-pricing.ts:130-154 | each secondary stream's monthly revenue follows from its own figures, the staking one rounded to the nearest dollar |
| MemecoinPricing.OfferOf | optik-website/src/lib/memecoin-pricing.ts:159-175 | Optik's listed creation fee is the standard tier's price and its trading fee the secondary trading fee |
| MemecoinPricing.OptikPositioning | optik-website/src/lib/memecoin-pricing.ts:159-175 | Optik charges the most to create a token, and a trading fee between Raydium's and pump.fun's |
| OpenAi.SystemMessage | optik-website/src/lib/openai.ts:90-95 | a system message carries the chosen prompt's text |
| OpenAi.UserMessage | optik-website/src/lib/openai.ts:97-102 | a user message carries the given text unchanged |
| OpenAi.AssistantMessage | optik-website/src/lib/openai.ts:104-109 | an assistant message carries the given text unchanged |
| OpenAi.EstimateTokens | optik-website/src/lib/openai.ts:133-136 | the estimate is the least whole number of four-character blocks covering the text |
| OpenAi.Conversation | optik-website/src/lib/openai.ts:149-151 | the loop only ever considers non-system messages, and never more than there are |
| OpenAi.ConversationMembers | optik-website/src/lib/openai.ts:149-151 | every non-system message, and only those, is considered by the loop |
| OpenAi.RecentIsSuffix | optik-website/src/lib/openai.ts:148-158 | what the backwards loop keeps is a suffix of the conversation: it stops at the first message that does not fit |
| OpenAi.RecentFits | optik-website/src/lib/openai.ts:153-157 | the kept messages' estimate never exceeds the budget, and nothing is kept from a negative budget |
| OpenAi.RecentIsLongest | optik-website/src/lib/openai.ts:153-154 | the kept suffix is the longest that fits: the next older conversation message would exceed the budget |
| OpenAi.TruncateMessages | optik-website/src/lib/openai.ts:138-161 | the loop of `truncateMessages` as written computes the truncation: a leading system message, then the newest messages that fit, each put in front |
| OpenAi.Truncate | optik-website/src/lib/openai.ts:138-161 | without a leading system message the result is a suffix of the conversation whose estimate fits the budget; with one, that message always comes back, last |
| OpenAi.TruncateKeepsSystem | optik-website/src/lib/openai.ts:142-158 | a leading system message always survives, but at the end, after the newest conversation messages that fit |
| OpenAi.SystemMovesLast | optik-website/src/lib/openai.ts:143-156 | a system prompt followed by one short user message comes back with the user message first |
| OpenAi.TruncateIntended | optik-website/src/lib/openai.ts:142-146 | the intended truncation puts a leading system message first, followed by a suffix of the conversation |
| OpenAi.IntendedIsRotation | optik-website/src/lib/openai.ts:156 | the intended result holds the same messages as the source's, with the system message moved from the end to the front |
| OpenAi.LaterSystemDropped | optik-website/src/lib/openai.ts:151 | a system message other than the first is never kept |
| OpenAi.AllWellFormed | optik-website/src/lib/openai.ts:116-120 | every message has a non-empty role among the three known ones and non-empty content |
| OpenAi.ValidateChatRequest | optik-website/src/lib/openai.ts:111-122 | a request is valid exactly when it is present, its messages form a non-empty list, and every one is well-formed |
| OpenAi.Messages | optik-website/src/lib/openai.ts:111-122 | a valid request reads as one chat message per entry, each with its entry's non-empty text |
| OpenAi.IndexOf | optik-website/src/lib/openai.ts:127-128 | the search finds the first occurrence at or after the start, or reports that there is none |
| OpenAi.CloseScript | optik-website/src/lib/openai.ts:127 | the closing `</script>` found lies wholly inside the text after the opening tag |
| OpenAi.ScriptMatch | optik-website/src/lib/openai.ts:127 | a script match at the front is non-empty and inside the text |
| OpenAi.StripScripts | optik-website/src/lib/openai.ts:127 | removing scripts never lengthens the text, and text without `<` is unchanged |
| OpenAi.StripTags | optik-website/src/lib/openai.ts:128 | removing tags never lengthens the text |
| OpenAi.NoTagLeft | optik-website/src/lib/openai.ts:128 | after the tag removal no `<` is followed anywhere by a `>` |
| OpenAi.StripTagsKeepsOnly | optik-website/src/lib/openai.ts:128 | the tag removal only deletes characters, never introduces one |
| OpenAi.StripTagsPlain | optik-website/src/lib/openai.ts:128 | text without `<` passes the tag removal unchanged |
| OpenAi.SanitizeMessage | optik-website/src/lib/openai.ts:124-131 | the sanitized text is at most 10000 characters, never longer than the input, and contains no `<…>` tag |
| OpenAi.SanitizePlain | optik-website/src/lib/openai.ts:124-131 | text without `<` is only trimmed and cut to 10000 characters |
| OpenAi.ScriptRemoved | optik-website/src/lib/openai.ts:127-128 | a closed script element is removed together with its body |
| PaymentCheckout.ParseTier | optik-website/src/app/api/payment/create-checkout/route.ts:8-21 | exactly the names BASIC, STANDARD and PREMIUM are priced, each as its own launch tier |
| PaymentCheckout.EnterpriseRejected | optik-website/src/app/api/payment/create-checkout/route.ts:8-12 | the enterprise tier of the price list cannot be bought through this route |
| PaymentCheckout.TierCents | optik-website/src/app/api/payment/create-checkout/route.ts:8-12 | each tier's price in cents is a hundred times the revenue calculator's launch fee for it |
| PaymentCheckout.PlatformFeeCents | optik-website/src/app/api/payment/create-checkout/route.ts:24 | the platform fee is 2.5% of the price rounded down to whole cents |
| PaymentCheckout.Checkout | optik-website/src/app/api/payment/create-checkout/route.ts:14-69 | an unpriced tier gets 400 "Invalid tier" and a missing liquidity the 500 type error, neither reaching Stripe; otherwise Stripe is asked for one USD line item named after the tier at price plus fee, with the fee and liquidity in the metadata, and its session or its error (defaulting to "Payment failed") is passed on |
| PaymentCheckout.ChargedTotals | optik-website/src/app/api/payment/create-checkout/route.ts:23-25 | the amounts charged are 102.5% of the tier price, 10250, 51250 and 256250 cents, matching the revenue calculator's launch totals and fees |
| PerpsClient.PnL | optik-website/src/lib/perps-client.ts:298-302 | the profit is the relative price move since entry, scaled by size and leverage and signed by the side; it is zero at the entry price |
| PerpsClient.OppositeSides | optik-website/src/lib/perps-client.ts:298-302 | the same position on the other side earns exactly the opposite |
| PerpsClient.Liquidation | optik-website/src/lib/perps-client.ts:307-320 | a liquidation price exists exactly when the leverage is non-zero, and for a positive entry and leverage it lies below the entry for a long and above it for a short |
| PerpsClient.LossAtLiquidation | optik-website/src/lib/perps-client.ts:298-320 | at its liquidation price every position, long or short, has lost exactly 90% of its size |
| PerpsClient.Keys | optik-website/src/lib/perps-client.ts:59 | the book has one key per stored position |
| PerpsClient.Lookup | optik-website/src/lib/perps-client.ts:160 | a key is found exactly when it is in the book, and what is found is stored under it |
| PerpsClient.Put | optik-website/src/lib/perps-client.ts:138 | storing under a key adds it to the keys, replacing rather than duplicating an existing key, and adds no other position |
| PerpsClient.PutLookup | optik-website/src/lib/perps-client.ts:138 | after storing, the key maps to the new position and every other key to what it did |
| PerpsClient.PutDistinct | optik-website/src/lib/perps-client.ts:138 | storing keeps the keys distinct, as a map's are |
| PerpsClient.Remove | optik-website/src/lib/perps-client.ts:189 | deleting removes exactly that key and never grows the book |
| PerpsClient.RemoveLookup | optik-website/src/lib/perps-client.ts:189 | after deleting, the key is gone and every other key keeps its position |
| PerpsClient.RemoveDistinct | optik-website/src/lib/perps-client.ts:189 | deleting keeps the keys distinct |
| PerpsClient.RemovePut | optik-website/src/lib/perps-client.ts:138-189 | deleting a key that was just added gives the book back as it was |
| PerpsClient.KeyInjective | optik-website/src/lib/perps-client.ts:107 | two position keys are equal exactly when they name the same pair at the same millisecond |
| PerpsClient.PositionKey | optik-website/src/lib/perps-client.ts:107 | the key is the pair's name, a dash, and decimal digits that read back as the opening time |
| PerpsClient.Open | optik-website/src/lib/perps-client.ts:78-150 | without a key and signer, or without a price, nothing changes and the matching error is raised; otherwise the new key maps to a position at the oracle price with no profit yet and its liquidation price, every other key is untouched, and distinct keys stay distinct |
| PerpsClient.Close | optik-website/src/lib/perps-client.ts:155-199 | without a key and signer, an unknown key or a price nothing changes and the matching error is raised; otherwise exactly that key is removed and the position's profit at the oracle price is returned |
| PerpsClient.OpenThenClose | optik-website/src/lib/perps-client.ts:78-199 | opening a position and closing it at an unchanged price gives the book back and a profit of exactly zero |
| PerpsClient.Revalue | optik-website/src/lib/perps-client.ts:208-213 | a position whose pair has a price shows that price and the profit at it; one without keeps its figures; entry, pair and side never change |
| PerpsClient.Refresh | optik-website/src/lib/perps-client.ts:204-217 | refreshing revalues every position in place, keeping its key |
| PerpsClient.Pnls | optik-website/src/lib/perps-client.ts:230 | one profit per position, in order |
| PerpsClient.Wins | optik-website/src/lib/perps-client.ts:232 | the winning count never exceeds the number of trades and is zero exactly when no profit is positive |
| PerpsClient.WinRate | optik-website/src/lib/perps-client.ts:233 | the win rate is the percentage of winning trades, between 0 and 100, and 0 without trades |
| PerpsClient.AvgWin | optik-website/src/lib/perps-client.ts:240 | the average win is the total profit shared over the winning trades, 0 without one |
| PerpsClient.StatsOf | optik-website/src/lib/perps-client.ts:229-248 | the statistics total the profits and count the trades; the multiplier lies between 1 and 2 following the win rate; the revenue share is a tenth of the profit; the remaining figures are the fixed ones |
| PerpsClient.GetUserStats | optik-website/src/lib/perps-client.ts:222-249 | without a key nothing changes and an error is raised; otherwise the positions are revalued and the statistics are those of their profits |
| PerpsClient.ClaimRewards | optik-website/src/lib/perps-client.ts:273-293 | without a key and signer an error is raised; otherwise the positions are revalued and the claim succeeds exactly when their total profit is positive, failing with "No rewards to claim" |
| PerpsClient.JoinCompetition | optik-website/src/lib/perps-client.ts:254-268 | joining fails exactly when no key and signer are present and otherwise returns the fixed signature |
| PerpsClient.EmptyBookNoClaim | optik-website/src/lib/perps-client.ts:279-283 | with no open position there is nothing to claim |
| PositionsRoute.Matching | optik-website/src/app/api/positions/route.ts:23-31 | the query returns exactly the wallet's rows with the requested status, or with any status when no filter applies, in table order |
| PositionsRoute.MatchingCounts | optik-website/src/app/api/positions/route.ts:23-31 | each matching row is returned as often as the table holds it, and no other row |
| Basics.Reverse | optik-website/src/app/api/positions/route.ts:27 | the reversed list holds the same entries, last first |
| PositionsRoute.StatusFilter | optik-website/src/app/api/positions/route.ts:13-31 | the status filter is "open" when none is given, absent exactly for "all", and otherwise the given status |
| PositionsRoute.Get | optik-website/src/app/api/positions/route.ts:9-45 | a missing wallet gets 400; a database error an empty list; otherwise exactly the wallet's rows with the requested status (open by default, any for "all"), each listed as often as the query matches it |
| PositionsRoute.MatchingOrdered | optik-website/src/app/api/positions/route.ts:23-31 | the query keeps the table's creation order |
| PositionsRoute.NewestFirst | optik-website/src/app/api/positions/route.ts:27 | on a table stored in creation order the answer lists newest first |
| PositionsRoute.MaxId | optik-website/src/app/api/positions/route.ts:68-85 | no row has an id above the largest one |
| PositionsRoute.Post | optik-website/src/app/api/positions/route.ts:47-103 | a missing or zero required field gets 400 and a failed insert 500, each leaving the table as it was; otherwise one open row is appended under a fresh id with the sent wallet, pair, side, size, leverage and liquidation price, priced at its entry with zero profit, created and updated at the request time and with no close time or exit price |
| PositionsRoute.PostKeepsInvariants | optik-website/src/app/api/positions/route.ts:68-85 | opening keeps ids unique and, with a later clock, the table in creation order |
| PositionsRoute.Apply | optik-website/src/app/api/positions/route.ts:118-130 | an update stamps the time, overwrites only the fields sent, sets a non-empty status, and a close also stamps the close time; id, wallet, entry and size never change |
| PositionsRoute.UpdateWhere | optik-website/src/app/api/positions/route.ts:132-135 | every row with the id is updated and every other row is left as it is |
| PositionsRoute.CountId | optik-website/src/app/api/positions/route.ts:136-137 | the count of rows with an id is zero exactly when no row has it |
| PositionsRoute.IndexOfId | optik-website/src/app/api/positions/route.ts:136-137 | the position found holds the id |
| PositionsRoute.Put | optik-website/src/app/api/positions/route.ts:105-155 | a missing or zero id gets 400; a failed write 500 with the table unchanged; otherwise every row with the id is updated, and the answer is the updated row exactly when one row has the id, 500 otherwise |
| PositionsRoute.OpenThenClose | optik-website/src/app/api/positions/route.ts:47-155 | a position opened and then closed at a price is answered as closed at that price and time, is listed among the closed positions, and no longer among the open ones |
| PositionsRoute.CountIdAppend | optik-website/src/app/api/positions/route.ts:136-137 | appending a row adds one to the count of its own id and nothing to the others |
| PriceOracle.MockPrice | optik-website/src/lib/price-oracle.ts:87-94 | every fallback price is positive |
| PriceOracle.UseMockPrices | optik-website/src/lib/price-oracle.ts:87-103 | the fallback gives every feed pair its fixed price with confidence 0.01, stamped now |
| PriceOracle.GetPrice | optik-website/src/lib/price-oracle.ts:120-135 | a pair's cached entry is returned, however old, and nothing when it has none |
| PriceOracle.GetAllPrices | optik-website/src/lib/price-oracle.ts:137-146 | one answer per feed pair, each what `getPrice` gives |
| PriceOracle.Refreshed | optik-website/src/lib/price-oracle.ts:61-79 | a non-zero feed price replaces the entry with its confidence (0 when missing); no price keeps the entry; a failed request keeps a cached entry and otherwise sets the fallback |
| PriceOracle.UpdatePrices | optik-website/src/lib/price-oracle.ts:52-85 | without a client every pair falls back to its fixed price; with one each pair is refreshed from its own request |
| PriceOracle.Initialize | optik-website/src/lib/price-oracle.ts:30-50 | a client that cannot be set up leaves every pair at its fallback price; otherwise a pair is priced afterwards exactly when it was before, its request failed, or its feed reported a non-zero price, and each entry is the one that pair's refresh gives |
| PriceOracle.UpdateKeepsPrices | optik-website/src/lib/price-oracle.ts:61-79 | a refresh never loses a cached price, and a failed request leaves it exactly as it was |
| PriceOracle.FailedUpdateFillsAll | optik-website/src/lib/price-oracle.ts:73-78 | a pair whose request fails has a price afterwards |
| PriceOracle.Simulate | optik-website/src/lib/price-oracle.ts:149-166 | the simulated move keeps the cached pairs and their confidence, moves each price by its own draw, and keeps positive prices positive |
| PriceOracle.SimulateBounded | optik-website/src/lib/price-oracle.ts:155-157 | a simulated price moves by at most half a percent either way |
| PriceOracle.UpdatePositive | optik-website/src/lib/price-oracle.ts:52-118 | with feeds that never report negative prices, a refresh keeps every cached price positive |
| PriceOracle.GetPriceOracle | optik-website/src/lib/price-oracle.ts:176-184 | the call returns the stored instance, creating and storing one on first use |
| PriceOracle.SingleInstance | optik-website/src/lib/price-oracle.ts:176-184 | every later call returns the instance the first call created and leaves the slot as it is |
| RevenueCalculator.LaunchFee | optik-website/src/lib/revenue-calculator.ts:3-7 | each tier's launch fee is the dollar price the memecoin price list gives that tier |
| RevenueCalculator.TradingFeeAdvertised | optik-website/src/lib/revenue-calculator.ts:9 | the trading fee percentage is the one the price list advertises |
| RevenueCalculator.LaunchRevenueOf | optik-website/src/lib/revenue-calculator.ts:15-25 | a launch books the tier's price plus a platform fee of one fortieth of it, 102.5% in all |
| RevenueCalculator.BasicLaunchTotal | optik-website/src/lib/revenue-calculator.ts:15-25 | a basic launch brings in 102.5 dollars |
| RevenueCalculator.TradingFeeShare | optik-website/src/lib/revenue-calculator.ts:27-37 | the trading fee is one two-hundredth of the volume, split evenly between creator and platform, and never negative for a non-negative volume |
| RevenueCalculator.ProjectRevenue | optik-website/src/lib/revenue-calculator.ts:39-59 | a projected day is the standard launches' fees, their platform fees and the platform's share of their trading |
| RevenueCalculator.ProjectionClosedForm | optik-website/src/lib/revenue-calculator.ts:39-59 | per launched token a day brings 512.5 dollars plus a quarter percent of its volume, and each longer period is that day times its number of days |
| Security.Recent | optik-website/src/middleware/security.ts:12 | the filter keeps exactly the stored times still inside the window, in the order they were stored |
| Security.RecentCounts | optik-website/src/middleware/security.ts:12 | each time inside the window is kept as often as it was stored, so two requests in one millisecond count twice against the limit; a time outside is never kept |
| Security.RateLimit | optik-website/src/middleware/security.ts:7-21 | a request passes exactly when fewer than `limit` of the caller's times lie inside the window; a refusal stores nothing, a pass stores the recent times plus now; other callers are untouched |
| Security.StaysWithinLimit | optik-website/src/middleware/security.ts:14-19 | with one limit throughout, no caller ever has more than `limit` times stored |
| Security.SaturatedRefused | optik-website/src/middleware/security.ts:14-16 | a caller at the limit is refused, and the refusal changes nothing, so it stays refused at that instant |
| Security.BurstAllowed | optik-website/src/middleware/security.ts:7-21 | a fresh caller gets up to `limit` requests through at one instant, each recorded |
| Security.RecentAllInside | optik-website/src/middleware/security.ts:12 | times at the current instant all stay inside a positive window |
| Security.SanitizeInput | optik-website/src/middleware/security.ts:48-50 | the cleaned input has no angle bracket, at most 1000 characters, and is never longer than the input |
| Security.SanitizeClean | optik-website/src/middleware/security.ts:48-50 | input that is short enough, bracket-free and without surrounding blanks comes back unchanged |
| Security.SanitizeKeepsText | optik-website/src/middleware/security.ts:48-50 | only the brackets are removed: when the text left after removing them has no white space at its ends and fits the 1000-character cut, it is the answer |
| Security.BracketsCut | optik-website/src/middleware/security.ts:49 | "a<b>c" loses its brackets and keeps "abc" |
| Security.ValidateApiKey | optik-website/src/middleware/security.ts:52-55 | a key is accepted exactly when it equals the configured key; with none configured no key passes |
| Snake.PushShaped | optik-website/src/components/arcade/SnakeGame.tsx:111-121 | pushing a free neighbouring cell as the new head keeps the body well-shaped, with or without dropping the tail |
| Snake.Initial | optik-website/src/components/arcade/SnakeGame.tsx:19-25 | the game before its first start is well-formed, neither running nor over |
| Snake.GenerateFood | optik-website/src/components/arcade/SnakeGame.tsx:42-47 | food always lands inside the grid |
| Snake.StartGame | optik-website/src/components/arcade/SnakeGame.tsx:31-40 | a start gives a running one-cell snake at the centre heading right, zero score, the initial speed and food at the drawn cell |
| Snake.Wanted | optik-website/src/components/arcade/SnakeGame.tsx:63-76 | an arrow key only ever asks for a unit step |
| Snake.KeyPressAsWritten | optik-website/src/components/arcade/SnakeGame.tsx:60-77 | as written, a key changes the direction only while playing and only to the direction it asks for when that is perpendicular to the current one, and such a key always does |
| Snake.KeyPress | optik-website/src/components/arcade/SnakeGame.tsx:60-77 | as intended, a key changes the direction only while playing, only to a step perpendicular to the one the head last took, and such a key always does |
| Snake.EndGame | optik-website/src/components/arcade/SnakeGame.tsx:49-56 | ending stops the game, marks it over and reports its score |
| Snake.Tick | optik-website/src/components/arcade/SnakeGame.tsx:84-130 | the game ends exactly when the next head leaves the grid or hits the body, reporting the score and changing only the running flags; otherwise the head advances one cell in the same direction and the body follows; eating grows the snake by one, adds the food points, speeds the timer by 2% down to its floor and draws new food; a plain move changes only the body |
| Snake.TickFacesAway | optik-website/src/components/arcade/SnakeGame.tsx:89-123 | a tick keeps the head facing away from the neck |
| Snake.KeyPressFacesAway | optik-website/src/components/arcade/SnakeGame.tsx:60-77 | the intended key handler keeps the head facing away from the neck |
| Snake.NeverIntoNeck | optik-website/src/components/arcade/SnakeGame.tsx:60-109 | with the intended handler, a tick after any two presses never runs into the neck |
| Snake.TwoLong | optik-website/src/components/arcade/SnakeGame.tsx:19-25 | the two-cell example snake is well-formed, running and faces away from its neck |
| Snake.QuickTurnEndsGame | optik-website/src/components/arcade/SnakeGame.tsx:60-109 | as written, Up then Left pressed between two ticks turns the snake back on itself, and the next tick ends the game on its own neck |
| Snake.QuickTurnIntended | optik-website/src/components/arcade/SnakeGame.tsx:60-109 | with the intended handler the same presses only turn the snake up, and the game goes on |
| Snake.TickBookkeeping | optik-website/src/components/arcade/SnakeGame.tsx:113-121 | the timer only speeds up and stays between 50 and 150 ms, and the score is ten per segment grown |
| Staking.DefaultTier | optik-website/src/app/optik-token/page.tsx:19 | the page opens on the 365-day tier, which has the highest APY and multiplier of all |
| Staking.TiersIncrease | optik-website/src/app/optik-token/page.tsx:9-14 | a tier listed later locks longer and pays a strictly higher APY and multiplier |
| Staking.Rewards | optik-website/src/app/optik-token/page.tsx:21-25 | the reward is the stake (0 when it does not parse) times the APY over the lock's share of a 365-day year |
| Staking.YearEarnsApy | optik-website/src/app/optik-token/page.tsx:21-25 | a full year at 36% earns 36% of the stake |
| Staking.LongerEarnsMore | optik-website/src/app/optik-token/page.tsx:9-25 | for a positive stake a longer tier always earns more |
| Staking.TotalReturn | optik-website/src/app/optik-token/page.tsx:231 | the total return is undefined exactly when the stake does not parse, and otherwise the stake grown by the lock's simple interest |
| Staking.ReturnCoversStake | optik-website/src/app/optik-token/page.tsx:231 | the total return never falls below a non-negative stake |
| StatsTable.Value | optik-website/src/app/api/leaderboard/route.ts:33-36 | a column has a value exactly when the row holds one; otherwise it reads as null |
| StatsTable.Update | optik-website/src/app/api/leaderboard/route.ts:57-66 | every row of the wallet gets the supplied columns and the update time, and every other row is left as it is |
| StatsTable.Upsert | optik-website/src/app/api/leaderboard/route.ts:57-66 | with the table keyed by wallet, after an upsert the wallet has a row: its existing rows are updated, or a new row holding just the supplied columns is appended |
| StatsTable.UpsertEffect | optik-website/src/app/api/user-stats/route.ts:106-123 | after an upsert each row of the wallet holds every supplied value and keeps every unsupplied column, and other wallets' rows are unchanged |
| StatsTable.Supply | optik-website/src/app/api/leaderboard/route.ts:59-65 | a request field enters the written columns exactly when it is supplied |
| UserStatsRoute.NewStats | optik-website/src/app/api/user-stats/route.ts:35-49 | a new trader's row has every figure 0 except a multiplier of 1, and no username |
| UserStatsRoute.MockStats | optik-website/src/app/api/user-stats/route.ts:143-160 | the fallback figures belong to the asked wallet, with the fixed profit and trade count |
| UserStatsRoute.CountAbove | optik-website/src/app/api/user-stats/route.ts:61-64 | the count of rows with a strictly higher profit never exceeds the table, and is 0 when the trader's profit is null |
| UserStatsRoute.Rank | optik-website/src/app/api/user-stats/route.ts:66 | a rank is between 1 and one more than the number of rows |
| UserStatsRoute.CountAboveMonotone | optik-website/src/app/api/user-stats/route.ts:61-66 | a higher profit never has more rows above it |
| UserStatsRoute.RankOrder | optik-website/src/app/api/user-stats/route.ts:61-66 | a trader with at least another's profit never ranks below them, and equal profits share a rank |
| UserStatsRoute.TopIsFirst | optik-website/src/app/api/user-stats/route.ts:61-66 | a trader nobody out-earns ranks first |
| UserStatsRoute.Get | optik-website/src/app/api/user-stats/route.ts:9-79 | a missing wallet gets 400; a failed row lookup the fallback figures ranked 42; exactly one row is answered with its rank, or with rank 1 when the count query fails; otherwise a zeroed row is answered unranked and appended unless the insert fails |
| UserStatsRoute.SecondVisitFindsRow | optik-website/src/app/api/user-stats/route.ts:22-73 | a first visit creates the wallet's row, and the next visit finds that row, ranks it and writes nothing |
| UserStatsRoute.NoRowsOfNewWallet | optik-website/src/app/api/user-stats/route.ts:22-26 | a wallet without rows matches nothing |
| UserStatsRoute.OfWalletAppend | optik-website/src/app/api/user-stats/route.ts:22-26 | appending a row adds it to its own wallet's matches and leaves other wallets' matches as they were |
| UserStatsRoute.PatchOf | optik-website/src/app/api/user-stats/route.ts:108-121 | the written columns are exactly the figures the request carries, with their values |
| UserStatsRoute.Post | optik-website/src/app/api/user-stats/route.ts:81-141 | a missing wallet gets 400 and a failed write 500, each leaving the table as it was; otherwise the figures are upserted, and the answer is the wallet's row exactly when it has one row afterwards |
| UserStatsRoute.FirstPostStoresFigures | optik-website/src/app/api/user-stats/route.ts:105-133 | a new wallet's first POST answers a row holding exactly the figures it carried |
| StripeSession.PackageOf | optik-website/src/app/api/stripe/create-checkout-session/route.ts:16-51 | exactly the ids small, medium and large name a pack, each a one-off purchase at a positive price |
| StripeSession.PackTable | optik-website/src/app/api/stripe/create-checkout-session/route.ts:16-38 | the packs sell 500, 1100 and 2500 OPTIK for 25, 50 and 100 dollars, each pack giving more than twice the OPTIK of the one before |
| StripeSession.Create | optik-website/src/app/api/stripe/create-checkout-session/route.ts:40-93 | a missing wallet or an unknown pack gets 400 without reaching Stripe; otherwise Stripe is asked for a one-off payment of the pack's price with the wallet, OPTIK amount and pack in the metadata, and its URL or "Internal Error" with 500 is answered |
| StripeSession.WebhookCreditsPack | optik-website/src/app/api/stripe/create-checkout-session/route.ts:81-85 | the session carries the pack's OPTIK amount, so the webhook credits exactly that; without it the webhook would credit 20 per dollar, right for the small pack only |
| StripeWebhook.Buyer | optik-website/src/app/api/webhooks/stripe/route.ts:34 | the buyer is the metadata wallet when it is set and non-empty, the client reference otherwise |
| StripeWebhook.OptikAmount | optik-website/src/app/api/webhooks/stripe/route.ts:39 | the OPTIK credited is the metadata amount when present, and otherwise 20 per dollar of the amount paid in cents |
| StripeWebhook.NewReward | optik-website/src/app/api/webhooks/stripe/route.ts:79-85 | the new reward is an unclaimed purchase reward of the session's OPTIK for the buyer, keyed by the session and expiring a year from now |
| StripeWebhook.SourceCount | optik-website/src/app/api/webhooks/stripe/route.ts:68-72 | the number of rows naming a session is 0 exactly when no row names it |
| StripeWebhook.ProcessedIffRecorded | optik-website/src/app/api/webhooks/stripe/route.ts:68-74 | on a table with one row per source, the `.single()` duplicate check finds a session exactly when some row records it |
| StripeWebhook.Handle | optik-website/src/app/api/webhooks/stripe/route.ts:12-99 | a bad signature gets 400 and any other event type 200, both writing nothing; a completed checkout without a buyer gets 400; one already rewarded, found by an answered lookup, 200 "Already processed"; a failed lookup finds nothing; a failed insert 500; each of these writes nothing; otherwise exactly one reward row is appended and 200 answered |
| StripeWebhook.Idempotent | optik-website/src/app/api/webhooks/stripe/route.ts:66-77 | on a table with one row per payment source, a redelivered event whose duplicate lookup is answered adds nothing, at any later time and whether or not its insert would fail |
| StripeWebhook.FailedLookupReinserts | optik-website/src/app/api/webhooks/stripe/route.ts:68-77 | a redelivery whose duplicate lookup fails is answered 200 and credits the session a second time, so its source appears twice |
| StripeWebhook.DuplicatesDefeatCheck | optik-website/src/app/api/webhooks/stripe/route.ts:68-85 | with two rows for one session the duplicate check sees none and the event inserts a third row |
| StripeWebhook.KeepsKeys | optik-website/src/app/api/webhooks/stripe/route.ts:79-85 | given a fresh id the handler keeps unique row ids and, when its duplicate lookup is answered, at most one reward per payment source |
| TapToEarn.Levels.Bump | optik-website/src/components/arcade/TapToEarn.tsx:115 | buying raises exactly the bought upgrade's level by one and leaves the other three |
| TapToEarn.Initial | optik-website/src/components/arcade/TapToEarn.tsx:11-32 | the starting state (no balance, 1000 of 1000 energy, tap power 1, levels 1/1/1/0) satisfies the component's consistency invariant |
| TapToEarn.MultiplierAt | optik-website/src/components/arcade/TapToEarn.tsx:98-100 | the multiplier a combo reaches lies between 1 and 3 |
| TapToEarn.MultiplierMonotone | optik-website/src/components/arcade/TapToEarn.tsx:98-100 | along a combo the multiplier never falls |
| TapToEarn.Cost | optik-website/src/components/arcade/TapToEarn.tsx:34-39 | an upgrade's price is the floor of base times growth to the level: at most the unrounded price and less than one below it |
| TapToEarn.CostIncreases | optik-website/src/components/arcade/TapToEarn.tsx:34-39 | each upgrade is strictly dearer at the next level |
| TapToEarn.CostMonotone | optik-website/src/components/arcade/TapToEarn.tsx:34-39 | prices never fall as levels rise, and rise strictly across any increase |
| TapToEarn.StartingCosts | optik-website/src/components/arcade/TapToEarn.tsx:27-39 | the first prices offered are 75, 160, 105 and 200 |
| TapToEarn.Tap | optik-website/src/components/arcade/TapToEarn.tsx:76-108 | a tap with too little energy changes nothing; otherwise it earns tap power plus a tenth of the combo times the multiplier, spends tap power energy, extends combo, tap count and peak, and keeps the invariant |
| TapToEarn.FirstTapsEarnOne | optik-website/src/components/arcade/TapToEarn.tsx:84-100 | the first tap of a fresh combo at tap power 1 earns exactly 1 and keeps the multiplier at 1 |
| TapToEarn.Decay | optik-website/src/components/arcade/TapToEarn.tsx:66-74 | the combo timeout resets combo and multiplier, keeps balance, energy and peak, and keeps the invariant |
| TapToEarn.Regen | optik-website/src/components/arcade/TapToEarn.tsx:46-53 | regeneration never lowers energy, adds at most 1 + recharge/2, stops at the cap, changes nothing else, and keeps the invariant |
| TapToEarn.AutoEarn | optik-website/src/components/arcade/TapToEarn.tsx:55-63 | a second of passive income adds the auto-earn level to the balance, changes nothing else, and keeps the invariant |
| TapToEarn.Purchase | optik-website/src/components/arcade/TapToEarn.tsx:110-130 | a purchase the balance cannot cover changes nothing; otherwise the balance pays exactly the price, that level rises by one, its effect applies, the combo is untouched, and the invariant holds |
| TokenForm.Edit | optik-website/src/components/memecoin/create-token-form.tsx:37-39 | editing a text field replaces exactly that field and leaves the symbol and the image alone |
| TokenForm.EditSymbol | optik-website/src/components/memecoin/create-token-form.tsx:139-141 | the stored symbol has at most 10 characters, no lower-case letter, and is the only field that changes |
| TokenForm.EditSymbolIdempotent | optik-website/src/components/memecoin/create-token-form.tsx:139-141 | typing the stored symbol back in changes nothing |
| TokenForm.Upload | optik-website/src/components/memecoin/create-token-form.tsx:41-46 | a chosen file replaces the image; cancelling the picker keeps the form |
| TokenForm.Next | optik-website/src/components/memecoin/create-token-form.tsx:263-266 | "Next" advances exactly when below the review step with a name and a symbol, and otherwise stays; the step stays within 1 to 4 |
| TokenForm.Previous | optik-website/src/components/memecoin/create-token-form.tsx:257-258 | "Previous" goes one step back, and on step 1 stays |
| TokenForm.NextThenPrevious | optik-website/src/components/memecoin/create-token-form.tsx:257-266 | going back after an enabled "Next" returns to the same step |
| TokenForm.Walk | optik-website/src/components/memecoin/create-token-form.tsx:263-266 | any number of "Next" presses stays within steps 1 to 4 |
| TokenForm.ReviewNeedsName | optik-website/src/components/memecoin/create-token-form.tsx:263-266 | without a name or a symbol no number of presses leaves step 1 |
| TokenForm.ThreePressesToReview | optik-website/src/components/memecoin/create-token-form.tsx:263-266 | with a name and a symbol three presses reach the review step |
| TokenForm.StepLook | optik-website/src/components/memecoin/create-token-form.tsx:89-101 | a step is drawn completed exactly when passed and active exactly when current |
| TokenForm.OneActive | optik-website/src/components/memecoin/create-token-form.tsx:89-101 | every step before the active one is drawn completed |
| TokenForm.CanCreate | optik-website/src/components/memecoin/create-token-form.tsx:272-274 | the create button is enabled exactly with a connected wallet, a name and a symbol |
| TokenForm.HandleCreateAsWritten | optik-website/src/components/memecoin/create-token-form.tsx:48-75 | without a wallet nothing happens; with a page callback the form goes to it; otherwise it is posted to /api/incoin/create |
| TokenForm.FallbackPathMissing | optik-website/src/components/memecoin/create-token-form.tsx:56 | the path the fallback posts to is served by no API route |
| TokenForm.HandleCreate | optik-website/src/components/memecoin/create-token-form.tsx:48-75 | as written, but a posted form goes to an API route that exists, with the form unchanged |
| TokenForm.OnlyThePathDiffers | optik-website/src/components/memecoin/create-token-form.tsx:56 | the intended and the written handler agree on every input except the path of the post |
| Text.TrimStart | optik-website/src/middleware/security.ts:49 | the result is the suffix of the input left after the white space it skipped, and starts with no white space |
| Text.TrimEnd | optik-website/src/middleware/security.ts:49 | the result is the prefix of the input before the white space it dropped, and ends with no white space |
| Text.Trim | optik-website/src/middleware/security.ts:49 | the result is never longer than the input, and when it is not empty it neither starts nor ends with white space |
| Text.TrimIsSlice | optik-website/src/middleware/security.ts:49 | the result is a contiguous piece of the input with nothing but white space before it and nothing but white space after it |
| Text.TrimEmptyIffAllSpace | optik-website/src/app/page.tsx:48 | a string trims to nothing exactly when it is all white space, so `!s.trim()` rejects exactly the blank inputs |
| Text.TrimUnchanged | optik-website/src/middleware/security.ts:49 | trimming a string with no white space at either end gives it back |
| Text.Drop | optik-website/src/middleware/security.ts:49 | removing a set of characters leaves none of them and keeps every other character in order, so it never lengthens the string and leaves a string without them unchanged |
| Text.DropCounts | optik-website/src/middleware/security.ts:49 | each character outside the set is kept as often as the string holds it, and a character of the set never |
| Text.TrimWithin | optik-website/src/middleware/security.ts:49 | trimming never lengthens a string and brings in no character that was removed before |
| Text.Take | optik-website/src/middleware/security.ts:49 | slicing to n keeps the first min(n, length) characters |
| Text.ToUpper | optik-website/src/components/memecoin/create-token-form.tsx:139 | ASCII upper-casing keeps the length and maps every character on its own |
| Text.ToLower | optik-website/src/app/api/optik-gpt/route.ts:65-67 | lower-casing keeps the length and maps each ASCII capital to its small letter, leaving every other character |
| Text.ToUpperIdempotent | optik-website/src/components/memecoin/create-token-form.tsx:139 | upper-casing an upper-cased string changes nothing |
| Text.ContainsSpec | optik-website/src/lib/api.ts:58-90 | the left-to-right scan answers true exactly when some window of the string equals the searched text |
| Text.ContainsEmpty | optik-website/src/lib/api.ts:58-90 | the empty text occurs in every string |
| Text.NatToString | optik-website/src/app/api/competitions/route.ts:35 | a number renders as at least one decimal digit, with no leading zero |
| Text.NatToStringValue | optik-website/src/app/api/competitions/route.ts:35 | reading the rendered digits back gives the number |


## Left out

- The three on-chain programs (`programs/*/src/lib.rs`): each `initialize` only logs and returns success, so there is nothing to model.
- Network and service calls are parameters carrying their answers. This covers Supabase queries, Stripe session creation, webhook signature checking (`constructEvent`), OpenAI completions and streaming, Solana `PublicKey` parsing, and RPC sends. `createChatCompletion`, `createStreamingChatCompletion`, `generateTokenAdvice`, `analyzeMarketTrend` and `provideTechnicalSupport` in openai.ts are network calls and are not modelled. In middleware/security.ts, `verifyTransaction` fetches the transaction over RPC and is not modelled either.
- `verifyWallet` in middleware/security.ts is a local check, with no network call: it parses the address and tests that the key lies on the ed25519 curve. Curve arithmetic is outside this model, so it is left out.
- Timers, intervals and React state batching: each handler or timer firing is one atomic step, and the caller decides when timers fire. The price oracle's two-second refresh interval and `destroy` are left out, as is the component clean-up of intervals.
- `Date.now()`, `performance.now()` and `Math.random()` are parameters. The durations that Game2048 and Snake report on game over come from the clock and are not modelled.
- IEEE-754 arithmetic: numbers are exact reals, and NaN and Infinity are not modelled. `parseFloat`/`parseInt` results are parameters (`None` for NaN). `toFixed` and `toLocaleString` are modelled only where a contract states the text (the competition prize label); elsewhere the rendering is left out.
- Logging (`console.*`, `logApiRequest`), `generateRequestId` and `createSuccessResponse` produce no behaviour the routes depend on. `withRateLimit` in api.ts passes the request through unchanged.
- The catch-all 500 "Internal server error" answers that the routes give when a library call throws unexpectedly are left out.
- The DEX page's mock data loaders and canned order book are presentation data.
- The prompt texts of the assistant and the demo answers: the demo routing is modelled by topic, not by the wording of each reply.
- GET /api/optik-gpt, which only reports the service status, is not modelled.
- The forms' `isCreating`/`loading` flags (spinners) and Phantom transaction signing are left out.
- A `history` in the assistant request that is not an array is not modelled; the history is always a sequence.
- The launchpad's "Launch" button on the home page has no handler beyond its enabled state, which is modelled.
- The user-stats route answers a thrown exception with mock stats for the requested wallet, or for the empty string when the request has none. Only the lookup-error path is modelled.
- The Stripe webhook also inserts a `payments` audit row whose outcome the handler ignores; it is not modelled.
- `PACKAGES[packageId]` in the checkout-session route would also find inherited object keys (`"constructor"`); the model looks up only the three declared packages.
- `user_stats` is assumed to be keyed by `wallet_address`. Neither upsert names a conflict column, so Supabase resolves conflicts on the table's primary key, and the table's schema is not part of this model. If the key were another column, every upsert would insert a new row.
- The leaderboard's database ordering and `limit` are a parameter (the rows arrive in the order the query returns them); a `limit` that does not parse gives NaN in the source and is not modelled.
- The singleton `getPriceOracle` is modelled as creating the cache on first use; object identity is not modelled.
- ArcadeRewards.AchievementProgress: requires a positive requirement; the source divides by it and gives Infinity or NaN for 0.
- ArcadePage.Level: requires non-negative experience; the square root of a negative number is NaN in the source.
- ArcadePage.Progress: requires non-negative experience, as Level does.
- DexPage.PnL: requires a non-zero entry price; the source divides by it and gives NaN or Infinity.
- DexPage.ClosePosition: requires a non-zero entry price of the closed position, as PnL does.
- Crash.Fire: the multiplier is not rounded by `toFixed(2)` after each increment; the model adds exactly 0.01.
- LaunchpadPage.FromForm: decimals text that is not a run of digits is read as absent, so the create route uses its default of 9. The source passes the text on, and the route's `Math.pow(10, decimals)` reads "" as 0 and other text as NaN. The chosen image file is sent as the JSON of a `File`, `{}`.
- PerpsClient.PnL: requires a non-zero entry price; the source gives NaN or Infinity.
- PerpsClient.Close: requires every stored position to have a non-zero entry price, as PnL does.
- PerpsClient.Refresh: requires non-zero entry prices, as PnL does.
- PerpsClient.GetUserStats: requires non-zero entry prices, as PnL does.
- PerpsClient.ClaimRewards: requires non-zero entry prices, as PnL does.
- PerpsClient.Liquidation: leverage 0 gives no price in the model, where the source computes Infinity.
- PerpsClient.Open: the unused `positionSize` the source computes is not modelled.
- StripeWebhook.Idempotent: requires at most one reward row per payment source, which StripeWebhook.KeepsKeys shows the handler maintains. With duplicate rows `.single()` finds nothing and a redelivery inserts again (StripeWebhook.DuplicatesDefeatCheck).
- StripeWebhook.Idempotent: holds only for a redelivery whose duplicate lookup is answered. The route ignores that lookup's error, and a failed lookup credits the session again (StripeWebhook.FailedLookupReinserts).
- StripeWebhook.KeepsKeys: one reward per payment source is kept only when the duplicate lookup is answered, for the same reason.
- CompetitionsRoute.JoinOnce: holds only when both existence lookups are answered. The route ignores that lookup's error, and a failed lookup lets a wallet join twice (CompetitionsRoute.FailedLookupJoinsTwice).
- StripeWebhook.Handle: the 400 answer to a bad signature is "Webhook Error" without the library's message that the source appends.
- Text.ToUpper: maps ASCII letters only and keeps the length. JavaScript's `toUpperCase` also maps other letters and can lengthen a string ("ß" becomes "SS").
- Text.ToLower: maps ASCII letters only, where JavaScript's `toLowerCase` maps every Unicode letter.
- TokenForm.EditSymbol: the 10-character limit counts Unicode scalar values, where the source's `length` counts UTF-16 code units. The upper-casing is ASCII-only, as in Text.ToUpper.
- HomePage.EditSymbol: counts and upper-cases as TokenForm.EditSymbol does.
- OptikGptRoute.Answered: lengths count Unicode scalar values, not the UTF-16 code units of the source's `length`.
- OpenAi.EstimateTokens: the length divided by 4 counts Unicode scalar values, not UTF-16 code units.
- OpenAi.SanitizeMessage: the 10000-character cut counts Unicode scalar values, not UTF-16 code units, so it never splits a surrogate pair.
- Security.SanitizeInput: the length cut counts Unicode scalar values, not UTF-16 code units.
- PaymentCheckout.ParseTier: looks up only the three declared tiers. The source's `TIER_PRICING[tier]` would also find inherited object keys such as `"constructor"`.
- CompetitionsRoute.Icon: looks up only the declared competition types. The source's `icons[type]` would also find inherited object keys such as `"constructor"`, and would return that key's value rather than the default icon.
- TokenForm.HandleCreate: corrects only the path of the fallback post. Its body still has no `creatorWallet`, which the create route requires, so the corrected fallback is answered 400 as well.
- The perpetuals client's persistence of positions in `localStorage` (load on start, save on change) is left out: the client starts from an empty book, or from the book it is given.

## Findings

| source | as written | input that shows it | evidently intended | confidence | as-written member | corrected member |
|---|---|---|---|---|---|---|
| optik-website/src/components/arcade/SnakeGame.tsx:60-77 | a turn is accepted when it is perpendicular to the current direction, which the key handler updates at once, before the snake has moved | a two-segment snake heading right; Up then Left pressed before the next tick | reject a turn that points back at the neck, whatever was pressed since the last tick | not executed | Snake.KeyPressAsWritten, Snake.QuickTurnEndsGame | Snake.KeyPress, Snake.QuickTurnIntended |
| optik-website/src/app/games/page.tsx:52-73 | cashing out stops the round but leaves its interval running | crash point 1.0225, cash out at once, start a round with crash point 5.5; three firings later that round ends crashed at 1.03 | clear the round's interval on cash-out | not executed | Crash.CashOutAsWritten, Crash.StaleTimerEndsNextRound | Crash.CashOut, Crash.StaleTimerGone |
| optik-website/src/lib/openai.ts:138-161 | kept messages are added at the front and the system message last, so the prompt ends up after the conversation | a system message "be brief" and a user message "hi" with a budget of 8000 | the system message first, then the newest messages that fit | not executed | OpenAi.Truncate, OpenAi.SystemMovesLast | OpenAi.TruncateIntended, OpenAi.IntendedIsRotation |
| optik-website/src/app/launchpad/create/page.tsx:58-67 | the payment request carries no `tier` or `liquiditySOL`, which the checkout route demands, so every payment is refused | any token data and a connected wallet | send the chosen tier and liquidity | not executed | LaunchpadPage.PayAsWritten, LaunchpadPage.PaymentAlwaysFails | LaunchpadPage.Pay, LaunchpadPage.PaymentRedirects |
| optik-website/src/components/memecoin/create-token-form.tsx:56 | the fallback posts to `/api/incoin/create`, a path no route serves | a connected wallet and no page callback | post to `/api/memecoin/create` | not executed | TokenForm.HandleCreateAsWritten, TokenForm.FallbackPathMissing | TokenForm.HandleCreate, TokenForm.OnlyThePathDiffers |
| optik-website/src/app/launchpad/create/page.tsx:95 | deploying posts to `/api/incoin/create` and `/api/incoin/deploy`, paths no route serves, so every deployment ends in an error | a connected wallet on the deploy step | post to the memecoin create and deploy routes | not executed | LaunchpadPage.DeployAsWritten, LaunchpadPage.CreatePathMissing | LaunchpadPage.Deploy |

Two further discrepancies are proved but have no corrected member, because the code does not show what was meant:

- ArcadePage.AggregateLevelIsOne: the arcade panel computes the level from `totalOptikEarned`, but the daily-stats route returns that field only for one game's stats of today. No route returns lifetime earnings, so a correction would have to choose between a new query and a different field.
- LaunchpadPage.StepThreeUnreachable: the payment's return URL names `step=3`, but the page never reads it. After the Stripe redirect the page has also lost the token data of steps 1 and 2. A correction needs storage across the redirect that the code does not have, so the deploy step is modelled only as written.

=== FILE: achievements.dfy ===
/** GET /api/arcade/achievements (app/api/arcade/achievements/route.ts):
    every active achievement, in table order, joined with the wallet's
    unlock row when there is one. Any query failure (`fails`) answers with
    an empty list. */
module Achievements {
  import opened Basics
  import opened Http

  datatype Achievement = Achievement(
    id: nat, name: string, description: string, icon: string,
    requirementType: string, requirementValue: real, rewardOptik: real, active: bool)

  datatype Unlock = Unlock(wallet: string, achievementId: nat, unlockedAt: string, claimed: bool)

  /** The record sent to the page. */
  datatype Entry = Entry(
    id: nat, name: string, description: string, icon: string,
    requirementType: string, requirementValue: real, rewardOptik: real,
    unlocked: bool, unlockedAt: Option<string>, claimed: bool)

  function Active(all: seq<Achievement>): (a: seq<Achievement>)
    ensures |a| <= |all|
    ensures forall x :: x in a <==> x in all && x.active
    ensures Subsequence(a, all)
  {
    if |all| == 0 then []
    else
      var rest := Active(all[1..]);
      var a := if all[0].active then [all[0]] + rest else rest;
      FilterStep((x: Achievement) => x.active, all, rest, a);
      a
  }

  /** Every active achievement is listed as often as the table holds it, and no other is. */
  lemma {:induction false} ActiveCounts(all: seq<Achievement>)
    ensures forall x :: multiset(Active(all))[x] == if x.active then multiset(all)[x] else 0
  {
    if |all| > 0 {
      ActiveCounts(all[1..]);
      FilterCountStep((x: Achievement) => x.active, all, Active(all[1..]), Active(all));
    }
  }

  /** The position `userAchievements.find(ua => ua.achievement_id === id)`
      stops at: the first matching unlock. */
  function FindIndex(us: seq<Unlock>, id: nat): (k: Option<nat>)
    ensures k.None? <==> forall i :: 0 <= i < |us| ==> us[i].achievementId != id
    ensures k.Some? ==> k.value < |us| && us[k.value].achievementId == id
    ensures k.Some? ==> forall j :: 0 <= j < k.value ==> us[j].achievementId != id
  {
    if |us| == 0 then None
    else if us[0].achievementId == id then Some(0)
    else
      match FindIndex(us[1..], id)
      case None => None
      case Some(k) => Some(k + 1)
  }

  function Find(us: seq<Unlock>, id: nat): Option<Unlock> {
    match FindIndex(us, id)
    case None => None
    case Some(k) => Some(us[k])
  }

  function Join(a: Achievement, u: Option<Unlock>): (e: Entry)
    ensures e.id == a.id && e.name == a.name && e.rewardOptik == a.rewardOptik
    ensures e.unlocked <==> u.Some?
    ensures e.claimed <==> u.Some? && u.value.claimed
    ensures e.unlockedAt == if u.Some? then Some(u.value.unlockedAt) else None
  {
    Entry(a.id, a.name, a.description, a.icon, a.requirementType, a.requirementValue,
          a.rewardOptik, u.Some?, if u.Some? then Some(u.value.unlockedAt) else None,
          u.Some? && u.value.claimed)
  }

  /** The wallet's unlock rows, in table order. */
  function Mine(us: seq<Unlock>, wallet: string): (m: seq<Unlock>)
    ensures forall x :: x in m <==> x in us && x.wallet == wallet
    ensures Subsequence(m, us)
  {
    if |us| == 0 then []
    else
      var rest := Mine(us[1..], wallet);
      var m := if us[0].wallet == wallet then [us[0]] + rest else rest;
      FilterStep((x: Unlock) => x.wallet == wallet, us, rest, m);
      m
  }

  /** Every unlock row of the wallet is kept as often as the table holds it, and no other is. */
  lemma {:induction false} MineCounts(us: seq<Unlock>, wallet: string)
    ensures forall x :: multiset(Mine(us, wallet))[x] == if x.wallet == wallet then multiset(us)[x] else 0
  {
    if |us| > 0 {
      MineCounts(us[1..], wallet);
      FilterCountStep((x: Unlock) => x.wallet == wallet, us, Mine(us[1..], wallet), Mine(us, wallet));
    }
  }

  /** The wallet holds an unlock row for achievement `id`. */
  predicate UnlockedBy(unlocks: seq<Unlock>, wallet: string, id: nat) {
    exists u :: u in unlocks && u.wallet == wallet && u.achievementId == id
  }

  lemma FindMine(unlocks: seq<Unlock>, wallet: string, id: nat)
    ensures Find(Mine(unlocks, wallet), id).Some? <==> UnlockedBy(unlocks, wallet, id)
  {
    var mine := Mine(unlocks, wallet);
    if UnlockedBy(unlocks, wallet, id) {
      var u :| u in unlocks && u.wallet == wallet && u.achievementId == id;
      assert u in mine;
      var k :| 0 <= k < |mine| && mine[k] == u;
    }
  }

  function Entries(act: seq<Achievement>, mine: seq<Unlock>): (out: seq<Entry>)
    ensures |out| == |act|
    ensures forall i :: 0 <= i < |act| ==> out[i] == Join(act[i], Find(mine, act[i].id))
  {
    seq(|act|, i requires 0 <= i < |act| => Join(act[i], Find(mine, act[i].id)))
  }

  function Get(all: seq<Achievement>, unlocks: seq<Unlock>, wallet: Option<string>, fails: bool): (r: Reply<seq<Entry>>)
    ensures r.Fail? <==> !Present(wallet)
    ensures r.Fail? ==> r.status == BadRequest
    ensures Present(wallet) && fails ==> r == Ok([])
    ensures Present(wallet) && !fails ==>
      var act := Active(all);
      && |r.body| == |act|
      && forall i :: 0 <= i < |act| ==>
           && r.body[i].id == act[i].id
           && (r.body[i].unlocked <==> UnlockedBy(unlocks, wallet.value, act[i].id))
           && (!r.body[i].unlocked ==> !r.body[i].claimed)
    ensures Present(wallet) && !fails ==> r.body == Entries(Active(all), Mine(unlocks, wallet.value))
  {
    if !Present(wallet) then Fail(BadRequest, "Wallet address required")
    else if fails then Ok([])
    else
      var act := Active(all);
      var out := Entries(act, Mine(unlocks, wallet.value));
      assert forall i :: 0 <= i < |act| ==>
        (out[i].unlocked <==> UnlockedBy(unlocks, wallet.value, act[i].id)) by {
        forall i | 0 <= i < |act|
          ensures out[i].unlocked <==> UnlockedBy(unlocks, wallet.value, act[i].id)
        {
          FindMine(unlocks, wallet.value, act[i].id);
        }
      }
      Ok(out)
  }
}

=== FILE: api.dfy ===
/** lib/api.ts: the response envelope, the classification of thrown errors
    into HTTP answers, required-field validation, and the bearer-token,
    validation and CORS wrappers around a route handler. A handler is
    modelled by its outcome (the response it gives or what it throws);
    `now` is `Date.now()`. */
module Api {
  import opened Basics
  import opened Text

  datatype ApiError = ApiError(message: string, status: nat, code: Option<string>)

  /** The JSON envelope; `data` is the payload, whatever its shape. */
  datatype Envelope<T> = Envelope(success: bool, data: Option<T>, error: Option<ApiError>, timestamp: int)

  /** `createApiResponse(data, error)`. */
  function CreateApiResponse<T>(data: Option<T>, error: Option<ApiError>, now: int): (e: Envelope<T>)
    ensures e.success <==> error.None?
    ensures e.data == data && e.error == error && e.timestamp == now
  {
    Envelope(error.None?, data, error, now)
  }

  datatype Response = Response(status: nat, body: Envelope<string>, headers: map<string, string>)

  /** `createErrorResponse(message, status, code)`. */
  function ErrorResponse(message: string, status: nat, code: string, now: int): (r: Response)
    ensures r.status == status && !r.body.success
    ensures r.body.error == Some(ApiError(message, status, Some(code)))
  {
    Response(status, CreateApiResponse(None, Some(ApiError(message, status, Some(code))), now), map[])
  }

  /** What a handler throws: an `Error` (with whether it is a
      `SyntaxError`) or any other value. */
  datatype Thrown = ErrorValue(message: string, syntax: bool) | NonError

  /** `handleApiError`: the first phrase the message contains decides. */
  function HandleApiError(e: Thrown, now: int): (r: Response)
    ensures var m := if e.ErrorValue? then e.message else "";
      && (r.status == 429 <==> e.ErrorValue? && Contains(m, "rate limit"))
      && (r.status == 400 <==> e.ErrorValue? && !Contains(m, "rate limit") && Contains(m, "validation"))
      && (r.status == 401 <==> e.ErrorValue? && !Contains(m, "rate limit") && !Contains(m, "validation")
                               && Contains(m, "unauthorized"))
      && (r.status == 403 <==> e.ErrorValue? && !Contains(m, "rate limit") && !Contains(m, "validation")
                               && !Contains(m, "unauthorized") && Contains(m, "forbidden"))
      && (r.status == 404 <==> e.ErrorValue? && !Contains(m, "rate limit") && !Contains(m, "validation")
                               && !Contains(m, "unauthorized") && !Contains(m, "forbidden") && Contains(m, "not found"))
    ensures r.status in {400, 401, 403, 404, 429, 500}
    ensures r.status == 400 ==> e.ErrorValue? && r.body.error == Some(ApiError(e.message, 400, Some("VALIDATION_ERROR")))
    ensures r.status == 500 && e.ErrorValue? ==> r.body.error == Some(ApiError(e.message, 500, Some("INTERNAL_ERROR")))
    ensures e.NonError? ==> r == ErrorResponse("An unexpected error occurred", 500, "UNKNOWN_ERROR", now)
  {
    match e
    case NonError => ErrorResponse("An unexpected error occurred", 500, "UNKNOWN_ERROR", now)
    case ErrorValue(m, _) =>
      if Contains(m, "rate limit") then ErrorResponse("Too many requests. Please try again later.", 429, "RATE_LIMIT_EXCEEDED", now)
      else if Contains(m, "validation") then ErrorResponse(m, 400, "VALIDATION_ERROR", now)
      else if Contains(m, "unauthorized") then ErrorResponse("Unauthorized access", 401, "UNAUTHORIZED", now)
      else if Contains(m, "forbidden") then ErrorResponse("Forbidden access", 403, "FORBIDDEN", now)
      else if Contains(m, "not found") then ErrorResponse("Resource not found", 404, "NOT_FOUND", now)
      else ErrorResponse(m, 500, "INTERNAL_ERROR", now)
  }

  /** The check is case-sensitive and ordered: a rate-limit message wins
      over every other phrase, and `Not Found` is not `not found`. */
  lemma ClassificationOrder(now: int)
    ensures HandleApiError(ErrorValue("rate limit during validation", false), now).status == 429
    ensures HandleApiError(ErrorValue("Not Found", false), now).status == 500
  {
    assert Contains("rate limit during validation", "rate limit") by {
      ContainsSpec("rate limit during validation", "rate limit");
      assert OccursAt("rate limit during validation", "rate limit", 0);
    }
    NotContained("Not Found", "rate limit");
    NotContained("Not Found", "validation");
    NotContained("Not Found", "unauthorized");
    NotContained("Not Found", "forbidden");
    NotContained("Not Found", "not found");
  }

  lemma NotContained(s: string, sub: string)
    requires |sub| > |s| || (|sub| == |s| && s != sub)
    ensures !Contains(s, sub)
  {
    ContainsSpec(s, sub);
    if |sub| == |s| {
      assert s[0..|s|] == s;
    }
  }

  /** A field of a JSON object: absent, `undefined`, `null`, or a value. */
  datatype Field = Undefined | Null | Value(json: string)

  /** A parsed body: an object (arrays included, by their index keys) or
      any non-object or falsy value. */
  datatype Body = Object(fields: map<string, Field>) | NotObject

  predicate Supplied(fields: map<string, Field>, f: string) {
    f in fields && fields[f].Value?
  }

  /** The required fields the object lacks, in the order asked. */
  function MissingFields(fields: map<string, Field>, required: seq<string>): (m: seq<string>)
    ensures |m| <= |required|
    ensures forall f :: f in m <==> f in required && !Supplied(fields, f)
    ensures Subsequence(m, required)
  {
    if |required| == 0 then []
    else
      var rest := MissingFields(fields, required[1..]);
      var keep := !Supplied(fields, required[0]);
      var m := if keep then [required[0]] + rest else rest;
      FilterStep(f => !Supplied(fields, f), required, rest, m);
      m
  }

  /** Every field not supplied is reported as often as it is asked for, and no other is. */
  lemma {:induction false} MissingFieldsCounts(fields: map<string, Field>, required: seq<string>)
    ensures forall f :: multiset(MissingFields(fields, required))[f] == if Supplied(fields, f) then 0 else multiset(required)[f]
  {
    if |required| > 0 {
      MissingFieldsCounts(fields, required[1..]);
      FilterCountStep(f => !Supplied(fields, f), required, MissingFields(fields, required[1..]), MissingFields(fields, required));
    }
  }

  datatype Validation = Validation(isValid: bool, errors: seq<string>)

  function MissingMessage(f: string): string {
    "Missing required field: " + f
  }

  /** `validateJsonBody`. */
  function ValidateJsonBody(body: Body, required: seq<string>): (v: Validation)
    ensures body.NotObject? ==> v == Validation(false, ["Request body must be a valid JSON object"])
    ensures body.Object? ==>
      && (v.isValid <==> forall f :: f in required ==> Supplied(body.fields, f))
      && |v.errors| == |MissingFields(body.fields, required)|
      && forall i :: 0 <= i < |v.errors| ==> v.errors[i] == MissingMessage(MissingFields(body.fields, required)[i])
  {
    match body
    case NotObject => Validation(false, ["Request body must be a valid JSON object"])
    case Object(fields) =>
      var missing := MissingFields(fields, required);
      var errors := seq(|missing|, i requires 0 <= i < |missing| => MissingMessage(missing[i]));
      assert |missing| > 0 ==> missing[0] in missing;
      Validation(|errors| == 0, errors)
  }

  /** What the wrapped handler does when it runs. */
  datatype Handler = Responds(response: Response) | Throws(thrown: Thrown)

  function Run(h: Handler, now: int): Response {
    match h
    case Responds(r) => r
    case Throws(e) => HandleApiError(e, now)
  }

  /** `withAuth`: a `Bearer ` header with a non-empty token other than
      `invalid` runs the handler. */
  function WithAuth(header: Option<string>, h: Handler, now: int): (r: Response)
    ensures !Present(header) || !StartsWith(header.value, "Bearer ") ==>
      r == ErrorResponse("Missing or invalid authorization header", 401, "UNAUTHORIZED", now)
    ensures Present(header) && StartsWith(header.value, "Bearer ") ==>
      var token := header.value[7..];
      && (token == "" || token == "invalid" ==> r == ErrorResponse("Invalid token", 401, "INVALID_TOKEN", now))
      && (token != "" && token != "invalid" ==> r == Run(h, now))
  {
    if !Present(header) || !StartsWith(header.value, "Bearer ") then
      ErrorResponse("Missing or invalid authorization header", 401, "UNAUTHORIZED", now)
    else
      var token := header.value[7..];
      if token == "" || token == "invalid" then ErrorResponse("Invalid token", 401, "INVALID_TOKEN", now)
      else Run(h, now)
  }

  /** Without a usable bearer token the handler has no effect on the
      answer, which is a 401. */
  lemma AuthGate(header: Option<string>, h1: Handler, h2: Handler, now: int)
    requires !(Present(header) && StartsWith(header.value, "Bearer ")
               && |header.value| > 7 && header.value[7..] != "invalid")
    ensures WithAuth(header, h1, now) == WithAuth(header, h2, now)
    ensures WithAuth(header, h1, now).status == 401
  {
  }

  /** The request body: JSON that does not parse, or the parsed value. */
  datatype Json = Malformed | Parsed(body: Body)

  /** `withValidation`: a `SyntaxError`, from parsing or from the handler,
      is answered as invalid JSON. */
  function WithValidation(request: Json, required: seq<string>, h: Handler, now: int): (r: Response)
    ensures request.Malformed? ==> r == ErrorResponse("Invalid JSON in request body", 400, "INVALID_JSON", now)
    ensures request.Parsed? && !ValidateJsonBody(request.body, required).isValid ==>
      r == ErrorResponse("Validation failed: " + Join(ValidateJsonBody(request.body, required).errors, ", "),
                         400, "VALIDATION_ERROR", now)
    ensures request.Parsed? && ValidateJsonBody(request.body, required).isValid ==>
      && (h.Responds? ==> r == h.response)
      && (h.Throws? && h.thrown.ErrorValue? && h.thrown.syntax ==>
            r == ErrorResponse("Invalid JSON in request body", 400, "INVALID_JSON", now))
      && (h.Throws? && !(h.thrown.ErrorValue? && h.thrown.syntax) ==> r == HandleApiError(h.thrown, now))
  {
    match request
    case Malformed => ErrorResponse("Invalid JSON in request body", 400, "INVALID_JSON", now)
    case Parsed(body) =>
      var v := ValidateJsonBody(body, required);
      if !v.isValid then ErrorResponse("Validation failed: " + Join(v.errors, ", "), 400, "VALIDATION_ERROR", now)
      else
        match h
        case Responds(resp) => resp
        case Throws(e) =>
          if e.ErrorValue? && e.syntax then ErrorResponse("Invalid JSON in request body", 400, "INVALID_JSON", now)
          else HandleApiError(e, now)
  }

  /** `allowedOrigins`: the two fixed origins and `NEXT_PUBLIC_APP_URL`
      when set. */
  function AllowedOrigins(appUrl: Option<string>): (a: seq<string>)
    ensures |a| >= 2 && a[0] == "http://localhost:3000"
  {
    ["http://localhost:3000", "https://optik.vercel.app"] + (if Present(appUrl) then [appUrl.value] else [])
  }

  /** The `Access-Control-Allow-Origin` value: the request's origin when it
      is allowed, else the first allowed origin. */
  function AllowOrigin(origin: Option<string>, appUrl: Option<string>): (o: string)
    ensures o in AllowedOrigins(appUrl)
    ensures Present(origin) && origin.value in AllowedOrigins(appUrl) ==> o == origin.value
    ensures !(Present(origin) && origin.value in AllowedOrigins(appUrl)) ==> o == "http://localhost:3000"
  {
    var allowed := AllowedOrigins(appUrl);
    if Present(origin) && origin.value in allowed then origin.value
    else if |allowed| > 0 then allowed[0] else "*"
  }

  /** The wildcard fallback never applies. */
  lemma NeverWildcard(origin: Option<string>, appUrl: Option<string>)
    requires appUrl != Some("*")
    ensures AllowOrigin(origin, appUrl) != "*"
  {
  }

  /** `corsHeaders(origin)`. */
  function CorsHeaders(origin: Option<string>, appUrl: Option<string>): (h: map<string, string>)
    ensures h.Keys == {"Access-Control-Allow-Origin", "Access-Control-Allow-Methods",
                       "Access-Control-Allow-Headers", "Access-Control-Max-Age"}
    ensures h["Access-Control-Allow-Origin"] == AllowOrigin(origin, appUrl)
    ensures h["Access-Control-Max-Age"] == "86400"
  {
    map["Access-Control-Allow-Origin" := AllowOrigin(origin, appUrl),
        "Access-Control-Allow-Methods" := "GET, POST, PUT, DELETE, OPTIONS",
        "Access-Control-Allow-Headers" := "Content-Type, Authorization",
        "Access-Control-Max-Age" := "86400"]
  }

  /** The answer and whether the handler was called. */
  datatype Served = Served(response: Response, handled: bool)

  /** `withCors`: a preflight is answered directly; any other request gets
      the handler's response with the CORS headers set over its own. A
      preflight's body is `null`, here an envelope with nothing in it. */
  function WithCors(verb: string, origin: Option<string>, appUrl: Option<string>, handler: Response, now: int): (s: Served)
    ensures verb == "OPTIONS" <==> !s.handled
    ensures verb == "OPTIONS" ==> s.response.status == 200 && s.response.headers == CorsHeaders(origin, appUrl)
    ensures verb != "OPTIONS" ==>
      && s.response.status == handler.status && s.response.body == handler.body
      && s.response.headers == handler.headers + CorsHeaders(origin, appUrl)
  {
    if verb == "OPTIONS" then Served(Response(200, Envelope(false, None, None, now), CorsHeaders(origin, appUrl)), false)
    else Served(handler.(headers := handler.headers + CorsHeaders(origin, appUrl)), true)
  }
}

=== FILE: arcadepage.dfy ===
/** The arcade hub page (app/arcade/page.tsx): the player's level curve,
    the stats panel built from the daily-stats answer, the pending-reward
    total and the claim button's guard.

    The page fills the stats panel from `getDailyStats()` without a game
    id, whose answer carries `totalDailyEarned` and `gamesPlayed` but no
    `totalOptikEarned`; the level is computed from the latter, so
    `AggregateLevelIsOne` shows it is always 1 with no progress. */
module ArcadePage {
  import opened Basics
  import opened Http
  import DailyStats
  import PendingRewards

  // ------------------------------------------------------------ level curve

  /** `Math.floor(Math.sqrt(x))`, searching upwards from a known root. */
  function FloorSqrtFrom(x: real, n: nat): (r: nat)
    requires x >= 0.0 && (n * n) as real <= x
    ensures (r * r) as real <= x < ((r + 1) * (r + 1)) as real
    decreases x.Floor - n
  {
    if ((n + 1) * (n + 1)) as real > x then n
    else
      assert n + 1 <= (n + 1) * (n + 1);
      FloorSqrtFrom(x, n + 1)
  }

  function FloorSqrt(x: real): (r: nat)
    requires x >= 0.0
    ensures (r * r) as real <= x < ((r + 1) * (r + 1)) as real
  {
    FloorSqrtFrom(x, 0)
  }

  /** `calculateLevel(xp) = ⌊√(xp/100)⌋ + 1`. */
  function Level(xp: real): (l: nat)
    requires xp >= 0.0
    ensures l >= 1
    ensures 100.0 * ((l - 1) * (l - 1)) as real <= xp < 100.0 * (l * l) as real
  {
    FloorSqrt(xp / 100.0) + 1
  }

  /** The level is the unique one whose band [100(l−1)², 100l²) holds xp. */
  lemma LevelUnique(xp: real, l: nat)
    requires xp >= 0.0 && l >= 1
    requires 100.0 * ((l - 1) * (l - 1)) as real <= xp < 100.0 * (l * l) as real
    ensures Level(xp) == l
  {
    var m := Level(xp);
    assert (m - 1) * (m - 1) < l * l;
    SquareLess(m - 1, l);
    assert (l - 1) * (l - 1) < m * m;
    SquareLess(l - 1, m);
  }

  lemma SquareLess(a: nat, b: nat)
    requires a * a < b * b
    ensures a < b
  {
    if b <= a {
      MulMono(b, a);
      assert false;
    }
  }

  lemma MulMono(a: nat, b: nat)
    requires a <= b
    ensures a * a <= b * b
  {
    assert a * a <= a * b <= b * b;
  }

  /** More experience never lowers the level. */
  lemma LevelMonotone(x: real, y: real)
    requires 0.0 <= x <= y
    ensures Level(x) <= Level(y)
  {
    var a, b := Level(x), Level(y);
    if a > b {
      assert b <= a - 1;
      MulMono(b, a - 1);
    }
  }

  /** `calculateLevelProgress`: how far xp is through its level's band, in
      percent. */
  function Progress(xp: real): (p: real)
    requires xp >= 0.0
    ensures 0.0 <= p < 100.0
    ensures p == 0.0 <==> xp == 100.0 * ((Level(xp) - 1) * (Level(xp) - 1)) as real
  {
    var l := Level(xp);
    var next := (l * l) as real * 100.0;
    var cur := ((l - 1) * (l - 1)) as real * 100.0;
    FractionBelowOne(xp - cur, next - cur);
    (xp - cur) / (next - cur) * 100.0
  }

  lemma FractionBelowOne(a: real, b: real)
    requires 0.0 <= a < b
    ensures 0.0 <= a / b < 1.0
    ensures a / b == 0.0 <==> a == 0.0
  {
    var q := a / b;
    assert q * b == a;
    if q >= 1.0 {
      MulNonNeg(q - 1.0, b);
      assert false;
    }
    if q < 0.0 {
      MulNonNeg(-q, b);
      assert false;
    }
  }

  lemma MulNonNeg(x: real, y: real)
    requires x >= 0.0 && y >= 0.0
    ensures x * y >= 0.0
  {
  }

  // ------------------------------------------------------------ stats panel

  /** The `stats` object as JSON: each field present or absent. */
  datatype StatsJson = StatsJson(totalOptikEarned: Option<real>, totalDailyEarned: Option<real>, gamesPlayed: Option<real>)

  /** The daily-stats answer as the client's `getDailyStats` returns it:
      the `stats` object, or `{}` when the request failed. */
  function Received(r: Reply<DailyStats.Stats>): (j: StatsJson)
    ensures r.Fail? ==> j == StatsJson(None, None, None)
    ensures r.Ok? && r.body.Aggregate? ==> j.totalOptikEarned.None?
  {
    match r
    case Fail(_, _) => StatsJson(None, None, None)
    case Ok(s) =>
      match s
      case Empty => StatsJson(None, None, None)
      case PerGame(e, g, _) => StatsJson(Some(e), None, Some(g as real))
      case Aggregate(d, g) => StatsJson(None, Some(d), Some(g as real))
  }

  datatype UserStats = UserStats(totalEarned: real, dailyEarned: real, gamesPlayed: real, level: nat, nextLevelProgress: real)

  /** `loadUserData`'s stats panel: absent fields count as 0 (`x || 0`). */
  function Panel(j: StatsJson): (u: UserStats)
    requires OrZero(j.totalOptikEarned) >= 0.0
    ensures u.totalEarned == OrZero(j.totalOptikEarned)
    ensures u.dailyEarned == OrZero(j.totalDailyEarned)
    ensures u.gamesPlayed == OrZero(j.gamesPlayed)
    ensures u.level >= 1 && 0.0 <= u.nextLevelProgress < 100.0
    ensures j.totalOptikEarned.None? ==> u.level == 1 && u.nextLevelProgress == 0.0
  {
    var xp := OrZero(j.totalOptikEarned);
    UserStats(xp, OrZero(j.totalDailyEarned), OrZero(j.gamesPlayed), Level(xp), Progress(xp))
  }

  /** Whatever the daily rows, the panel the page builds from the
      all-games answer (or a failed request) shows level 1 and no
      progress: the field the level reads is never sent. */
  lemma AggregateLevelIsOne(rows: seq<DailyStats.Row>, wallet: Option<string>, today: string, err: DailyStats.DbError)
    ensures var j := Received(DailyStats.Get(rows, wallet, None, today, err));
            Panel(j).level == 1 && Panel(j).nextLevelProgress == 0.0
  {
  }

  // ------------------------------------------------------------ claiming

  /** `pending.reduce((sum, r) => sum + r.amount, 0)`: 0 for an empty
      list, never negative when no amount is, and the list's sum split at
      any point. */
  function PendingTotal(vs: seq<PendingRewards.View>): (r: real)
    ensures |vs| == 0 ==> r == 0.0
    ensures (forall i :: 0 <= i < |vs| ==> vs[i].amount >= 0.0) ==> r >= 0.0
    ensures |vs| > 0 ==> r == PendingTotal(vs[..|vs| - 1]) + vs[|vs| - 1].amount
  {
    var amounts := seq(|vs|, i requires 0 <= i < |vs| => vs[i].amount);
    assert |vs| > 0 ==>
      amounts[..|vs| - 1] == seq(|vs| - 1, i requires 0 <= i < |vs| - 1 => vs[..|vs| - 1][i].amount);
    if forall i :: 0 <= i < |vs| ==> vs[i].amount >= 0.0 then
      SumNonNegative(amounts);
      PendingRewards.ViewTotal(vs)
    else
    PendingRewards.ViewTotal(vs)
  }

  /** `handleClaim` goes ahead only with a rewards client and a positive
      pending total. */
  predicate ClaimEnabled(hasClient: bool, pending: real) {
    hasClient && pending > 0.0
  }
}

=== FILE: arcaderewards.dfy ===
/** The browser-side arcade rewards client (lib/arcade-rewards.ts): the
    wallet guards in front of each call, the claim flow over the
    pending-rewards and claim routes, and the pure helpers for potential
    earnings, amount formatting and achievement progress. */
module ArcadeRewards {
  import opened Basics
  import opened Http
  import ClaimRewards
  import PendingRewards
  import Ledger

  datatype Call = SubmitScore | GameHistory | GetAchievements | GetPendingRewards
                | ClaimRewardsCall | GetDailyStats | GetGames | GetLeaderboard

  const NotConnected: string := "Wallet not connected"

  /** The error a call throws before doing anything, if any. */
  function Guard(c: Call, w: Wallet): (e: Option<string>)
    ensures (c == GetGames || c == GetLeaderboard) ==> e.None?
    ensures c == ClaimRewardsCall ==> (e.Some? <==> w.publicKey.None? || !w.canSign)
    ensures c !in {GetGames, GetLeaderboard, ClaimRewardsCall} ==> (e.Some? <==> w.publicKey.None?)
    ensures e.Some? ==> e.value == NotConnected
  {
    match c
    case GetGames => None
    case GetLeaderboard => None
    case ClaimRewardsCall => if w.publicKey.None? || !w.canSign then Some(NotConnected) else None
    case _ => if w.publicKey.None? then Some(NotConnected) else None
  }

  datatype ClaimOutcome = ClaimOutcome(db: ClaimRewards.Db, result: Result<string>)

  /** `claimRewards()`: list the pending rewards (a failed listing counts as
      none), refuse when their total is not positive, then post the claim;
      the flags are the failures of the listing query and of the claim
      route's three queries. */
  function Claim(db: ClaimRewards.Db, w: Wallet, now: nat, listFails: bool, fetchFails: bool, updateFails: bool,
                 recordFails: bool): (o: ClaimOutcome)
    ensures Guard(ClaimRewardsCall, w).Some? ==> o == ClaimOutcome(db, Throws(NotConnected))
    ensures Guard(ClaimRewardsCall, w).None? ==>
      var listed := PendingRewards.Pending(db.rewards, w.publicKey, now, listFails);
      var total := if listed.Ok? then PendingRewards.ViewTotal(listed.body) else 0.0;
      && (total <= 0.0 ==> o == ClaimOutcome(db, Throws("No rewards to claim")))
      && (total > 0.0 ==>
           var route := ClaimRewards.Claim(db, w.publicKey, now, fetchFails, updateFails, recordFails);
           && o.db == route.db
           && (route.reply.Fail? ==> o.result == Throws("Failed to claim rewards"))
           && (route.reply.Ok? ==> o.result == Returns(route.reply.body.signature)))
    ensures o.result.Returns? ==> o.result.value != ""
  {
    if Guard(ClaimRewardsCall, w).Some? then ClaimOutcome(db, Throws(NotConnected))
    else
      var listed := PendingRewards.Pending(db.rewards, w.publicKey, now, listFails);
      var total := if listed.Ok? then PendingRewards.ViewTotal(listed.body) else 0.0;
      if total <= 0.0 then ClaimOutcome(db, Throws("No rewards to claim"))
      else
        var route := ClaimRewards.Claim(db, w.publicKey, now, fetchFails, updateFails, recordFails);
        if route.reply.Fail? then ClaimOutcome(route.db, Throws("Failed to claim rewards"))
        else
          var sig := route.reply.body.signature;
          ClaimOutcome(route.db, Returns(if sig != "" then sig else "claimed"))
  }

  /** With every query working and a positive total to claim, a client claim
      returns, having credited exactly the total it listed, and a second
      claim right after throws "No rewards to claim" without touching the
      table. */
  lemma ClaimCreditsListed(db: ClaimRewards.Db, w: Wallet, now: nat)
    requires Present(w.publicKey) && w.canSign && Ledger.Total(Ledger.Select(db.rewards, w.publicKey.value, now)) > 0.0
    ensures Claim(db, w, now, false, false, false, false).result.Returns?
    ensures var listed := PendingRewards.Pending(db.rewards, w.publicKey, now, false);
            var route := ClaimRewards.Claim(db, w.publicKey, now, false, false, false);
            route.reply.Ok? && route.reply.body.amount == PendingRewards.ViewTotal(listed.body)
    ensures var db1 := Claim(db, w, now, false, false, false, false).db;
            Claim(db1, w, now, false, false, false, false) == ClaimOutcome(db1, Throws("No rewards to claim"))
  {
    var route := ClaimRewards.Claim(db, w.publicKey, now, false, false, false);
    assert Ledger.Select(db.rewards, w.publicKey.value, now) != [] by {
      assert Ledger.Total([]) == 0.0;
    }
    PendingRewards.ListedIsClaimed(db, w.publicKey, now);
    ClaimRewards.ClaimTwice(db, w.publicKey, now, false, false, false);
    var db1 := route.db;
    assert PendingRewards.Pending(db1.rewards, w.publicKey, now, false) == Ok([]) by {
      Ledger.MarkSelectedEmpties(db.rewards, w.publicKey.value, now, now);
    }
    assert PendingRewards.ViewTotal([]) == 0.0;
  }

  /** `calculatePotentialEarnings`: what a score earns, capped by what is
      left of the daily allowance. */
  function PotentialEarnings(score: real, rewardPerScore: real, dailyEarned: real, maxDaily: real): (e: real)
    ensures e <= MaxR(0.0, maxDaily - dailyEarned)
    ensures score * rewardPerScore <= MaxR(0.0, maxDaily - dailyEarned) ==> e == score * rewardPerScore
    ensures score * rewardPerScore > MaxR(0.0, maxDaily - dailyEarned) ==> e == MaxR(0.0, maxDaily - dailyEarned)
    ensures score >= 0.0 && rewardPerScore >= 0.0 ==> e >= 0.0
  {
    MinR(score * rewardPerScore, MaxR(0.0, maxDaily - dailyEarned))
  }

  /** Crediting a potential earning never takes the day's total past the
      cap (when it was not already past it). */
  lemma EarningsRespectCap(score: real, rate: real, dailyEarned: real, maxDaily: real)
    requires dailyEarned <= maxDaily
    ensures dailyEarned + PotentialEarnings(score, rate, dailyEarned, maxDaily) <= maxDaily
  {
  }

  /** A formatted amount: `value` followed by `suffix`, `value` being the
      amount in units of the suffix (digits rendering is not modelled). */
  datatype Scaled = Scaled(value: real, suffix: string)

  function Unit(suffix: string): real {
    if suffix == "M" then 1000000.0 else if suffix == "K" then 1000.0 else 1.0
  }

  /** `formatOptik`: millions from 1,000,000, thousands from 1,000, the
      plain amount below. */
  function FormatOptik(amount: real): (s: Scaled)
    ensures s.suffix == "M" <==> amount >= 1000000.0
    ensures s.suffix == "K" <==> 1000.0 <= amount < 1000000.0
    ensures s.suffix == "" <==> amount < 1000.0
    ensures s.value * Unit(s.suffix) == amount
    ensures s.suffix != "" ==> 1.0 <= s.value
    ensures s.suffix == "K" ==> s.value < 1000.0
  {
    if amount >= 1000000.0 then Scaled(amount / 1000000.0, "M")
    else if amount >= 1000.0 then Scaled(amount / 1000.0, "K")
    else Scaled(amount, "")
  }

  /** `getAchievementProgress`: percent of the requirement met, at most 100. */
  function AchievementProgress(current: real, requirement: real): (p: real)
    requires requirement > 0.0
    ensures p <= 100.0
    ensures p == 100.0 <==> current >= requirement
    ensures current < requirement ==> p * requirement == current * 100.0
    ensures current >= 0.0 ==> p >= 0.0
  {
    MinR(100.0, current / requirement * 100.0)
  }
}

=== FILE: basics.dfy ===
/** Small shared vocabulary: optional values, JavaScript truthiness of the
    few value shapes the site tests with `!x`, and left-to-right sums
    (`xs.reduce((sum, x) => sum + x, 0)`). */
module Basics {

  /** A value that may be absent (`undefined` / `null` in the site). */
  datatype Option<+T> = None | Some(value: T) {
    /** `x ?? d`, also `x || d` when every present value is truthy. */
    function GetOr(default: T): T {
      match this
      case Some(v) => v
      case None => default
    }
  }

  /** The outcome of a client call that may throw an `Error` with a
      message. */
  datatype Result<T> = Throws(message: string) | Returns(value: T)

  /** The connected wallet as the site's clients see it: its public key
      (absent when disconnected) and whether it can sign transactions. */
  datatype Wallet = Wallet(publicKey: Option<string>, canSign: bool)

  /** `!!s` for an optional string: present and not the empty string. */
  predicate Present(s: Option<string>) {
    s.Some? && s.value != ""
  }

  /** `!!n` for an optional number: present and not zero (NaN is not modelled). */
  predicate PresentNum(n: Option<real>) {
    n.Some? && n.value != 0.0
  }

  /** `n || 0` for an optional number. */
  function OrZero(n: Option<real>): (r: real)
    ensures n.Some? ==> r == n.value
    ensures n.None? ==> r == 0.0
  {
    n.GetOr(0.0)
  }

  function MaxR(a: real, b: real): real { if a >= b then a else b }
  function MinR(a: real, b: real): real { if a <= b then a else b }
  function MaxI(a: int, b: int): int { if a >= b then a else b }
  function MinI(a: int, b: int): int { if a <= b then a else b }

  /** Left fold of `+` starting at 0, in the order of the sequence. */
  function Sum(xs: seq<real>): real
  {
    if |xs| == 0 then 0.0 else Sum(xs[..|xs| - 1]) + xs[|xs| - 1]
  }

  lemma {:induction false} SumAppend(xs: seq<real>, ys: seq<real>)
    ensures Sum(xs + ys) == Sum(xs) + Sum(ys)
    decreases |ys|
  {
    if |ys| == 0 {
      assert xs + ys == xs;
    } else {
      var ys' := ys[..|ys| - 1];
      assert (xs + ys)[..|xs + ys| - 1] == xs + ys';
      SumAppend(xs, ys');
    }
  }

  lemma SumCons(x: real, xs: seq<real>)
    ensures Sum([x] + xs) == x + Sum(xs)
  {
    SumAppend([x], xs);
    assert [x][..0] == [];
  }

  /** A sum of non-negative terms is non-negative. */
  lemma {:induction false} SumNonNegative(xs: seq<real>)
    requires forall i :: 0 <= i < |xs| ==> xs[i] >= 0.0
    ensures Sum(xs) >= 0.0
    decreases |xs|
  {
    if |xs| > 0 {
      SumNonNegative(xs[..|xs| - 1]);
    }
  }

  /** `a` is `b` with some entries left out and the rest in their order. */
  predicate Subsequence<T(==)>(a: seq<T>, b: seq<T>)
    decreases |b|
  {
    if |a| == 0 then true
    else if |b| == 0 then false
    else if a[0] == b[0] then Subsequence(a[1..], b[1..])
    else Subsequence(a, b[1..])
  }

  /** One step of an order-keeping filter by `p`: given what the filtered
      tail `rest` keeps of `t[1..]`, the head kept in front of it or dropped
      keeps the same of all of `t`, in order. */
  lemma FilterStep<T>(p: T -> bool, t: seq<T>, rest: seq<T>, out: seq<T>)
    requires |t| > 0
    requires out == if p(t[0]) then [t[0]] + rest else rest
    requires forall x :: x in rest <==> x in t[1..] && p(x)
    requires Subsequence(rest, t[1..])
    ensures forall x :: x in out <==> x in t && p(x)
    ensures Subsequence(out, t)
  {
    assert t == [t[0]] + t[1..];
    if p(t[0]) {
      assert out[1..] == rest;
    } else if |rest| > 0 {
      assert rest[0] in rest;
    }
  }

  /** The same step counted: if the filtered tail holds each kept value as
      often as `t[1..]` does, the result holds it as often as `t` does. */
  lemma FilterCountStep<T>(p: T -> bool, t: seq<T>, rest: seq<T>, out: seq<T>)
    requires |t| > 0
    requires out == if p(t[0]) then [t[0]] + rest else rest
    requires forall x :: multiset(rest)[x] == if p(x) then multiset(t[1..])[x] else 0
    ensures forall x :: multiset(out)[x] == if p(x) then multiset(t)[x] else 0
  {
    assert t == [t[0]] + t[1..];
    forall x
      ensures multiset(out)[x] == if p(x) then multiset(t)[x] else 0
    {
      assert multiset(t) == multiset{t[0]} + multiset(t[1..]);
      if p(t[0]) {
        assert multiset(out) == multiset{t[0]} + multiset(rest);
      }
    }
  }

  /** `[...s].reverse()`: the same entries, last first. */
  function Reverse<T>(s: seq<T>): (r: seq<T>)
    ensures |r| == |s|
    ensures forall i :: 0 <= i < |s| ==> r[i] == s[|s| - 1 - i]
    ensures multiset(r) == multiset(s)
  {
    if |s| == 0 then []
    else
      var r := Reverse(s[1..]) + [s[0]];
      assert s == [s[0]] + s[1..];
      r
  }

  /** Non-negative integer power of a real. */
  function Pow(b: real, n: nat): real
  {
    if n == 0 then 1.0 else b * Pow(b, n - 1)
  }

  lemma {:induction false} PowAtLeastOne(b: real, n: nat)
    requires b >= 1.0
    ensures Pow(b, n) >= 1.0
  {
    if n > 0 {
      PowAtLeastOne(b, n - 1);
      assert b * Pow(b, n - 1) >= 1.0 * Pow(b, n - 1);
    }
  }

  /** `Math.floor(Math.random() * n)` for a draw `u` of `Math.random()`. */
  function RandomIndex(u: real, n: nat): (i: nat)
    requires 0.0 <= u < 1.0 && n > 0
    ensures i < n
    ensures i as real <= u * n as real < i as real + 1.0
  {
    var x := u * n as real;
    assert n as real - x == (1.0 - u) * n as real;
    assert (1.0 - u) * n as real > 0.0;
    x.Floor
  }
}

=== FILE: claimrewards.dfy ===
/** POST /api/arcade/claim-rewards (app/api/arcade/claim-rewards/route.ts):
    select the wallet's claimable rewards, mark them all claimed, record
    one claim and report the summed amount. The database calls that can
    fail are the flags `fetchFails`, `updateFails` and `recordFails`; a
    failed update is taken to leave the table as it was, and a failed
    insert of the claim record is ignored by the route. */
module ClaimRewards {
  import opened Basics
  import opened Http
  import opened Ledger
  import Text

  datatype ClaimRecord = ClaimRecord(wallet: string, amount: real, signature: string, completedAt: int)

  datatype Db = Db(rewards: seq<Reward>, claims: seq<ClaimRecord>)

  datatype Claimed = Claimed(amount: real, signature: string, rewardsClaimed: nat)

  datatype Outcome = Outcome(db: Db, reply: Reply<Claimed>)

  /** The mock transaction signature, `mock_tx_` followed by the clock. */
  function Signature(now: nat): string {
    "mock_tx_" + Text.NatToString(now)
  }

  function Claim(db: Db, wallet: Option<string>, now: nat, fetchFails: bool, updateFails: bool, recordFails: bool): (o: Outcome)
    ensures !Present(wallet) ==> o == Outcome(db, Fail(BadRequest, "Wallet address required"))
    ensures Present(wallet) && (fetchFails || Select(db.rewards, wallet.value, now) == []) ==>
      o == Outcome(db, Fail(BadRequest, "No rewards to claim"))
    ensures o.reply.Fail? && o.reply.status == ServerError ==> o.db == db
    ensures Present(wallet) && !fetchFails && updateFails && Select(db.rewards, wallet.value, now) != [] ==>
      o == Outcome(db, Fail(ServerError, "Failed to update rewards status"))
    ensures o.reply.Ok? ==>
      var sel := Select(db.rewards, wallet.value, now);
      && Present(wallet) && !fetchFails && !updateFails && sel != []
      && o.reply.body.amount == Total(sel)
      && o.reply.body.rewardsClaimed == |sel|
      && o.db.rewards == MarkClaimed(db.rewards, Ids(sel), now)
      && (!recordFails ==> o.db.claims == db.claims + [ClaimRecord(wallet.value, Total(sel), o.reply.body.signature, now)])
      && (recordFails ==> o.db.claims == db.claims)
    ensures Present(wallet) && !fetchFails && !updateFails && Select(db.rewards, wallet.value, now) != [] ==>
      o.reply.Ok?
  {
    if !Present(wallet) then Outcome(db, Fail(BadRequest, "Wallet address required"))
    else
      var sel := Select(db.rewards, wallet.value, now);
      if fetchFails || |sel| == 0 then Outcome(db, Fail(BadRequest, "No rewards to claim"))
      else if updateFails then Outcome(db, Fail(ServerError, "Failed to update rewards status"))
      else
        var total := Total(sel);
        var sig := Signature(now);
        var rows := MarkClaimed(db.rewards, Ids(sel), now);
        var claims := if recordFails then db.claims else db.claims + [ClaimRecord(wallet.value, total, sig, now)];
        Outcome(Db(rows, claims), Ok(Claimed(total, sig, |sel|)))
  }

  /** A successful claim leaves nothing to claim: an immediate second claim
      (same wallet, same instant) is answered 400 and changes nothing. */
  lemma ClaimTwice(db: Db, wallet: Option<string>, now: nat, f2: bool, u2: bool, r2: bool)
    requires Claim(db, wallet, now, false, false, false).reply.Ok?
    ensures var db1 := Claim(db, wallet, now, false, false, false).db;
            Claim(db1, wallet, now, f2, u2, r2) == Outcome(db1, Fail(BadRequest, "No rewards to claim"))
  {
    MarkSelectedEmpties(db.rewards, wallet.value, now, now);
  }

  /** With unique row ids a claim changes exactly the claimable rows of the
      wallet, leaving every other row as it was. */
  lemma ClaimOnlyTouchesOwnRows(db: Db, wallet: Option<string>, now: nat)
    requires UniqueIds(db.rewards)
    requires Claim(db, wallet, now, false, false, false).reply.Ok?
    ensures var rows := Claim(db, wallet, now, false, false, false).db.rewards;
            |rows| == |db.rewards| &&
            forall i :: 0 <= i < |rows| ==>
              (rows[i] != db.rewards[i] <==> Claimable(db.rewards[i], wallet.value, now))
  {
    MarkTouchesOnlySelected(db.rewards, wallet.value, now, now);
  }

  /** The route ignores the claim record's insert: its failure changes
      neither the answer nor the rewards table, only the missing record. */
  lemma RecordFailureUnseen(db: Db, wallet: Option<string>, now: nat, fetchFails: bool, updateFails: bool)
    ensures var lost := Claim(db, wallet, now, fetchFails, updateFails, true);
            var kept := Claim(db, wallet, now, fetchFails, updateFails, false);
            lost.reply == kept.reply && lost.db.rewards == kept.db.rewards
            && (kept.reply.Ok? ==> |kept.db.claims| == |lost.db.claims| + 1)
  {
  }
}

=== FILE: competitions.dfy ===
/** /api/competitions (app/api/competitions/route.ts): GET lists the
    trading competitions with a prize label, an icon and the time left;
    POST enters a wallet into one, at most once. Times are milliseconds
    since the epoch; `now` is the request time; the database's failures
    are flags. */
module CompetitionsRoute {
  import opened Basics
  import opened Http
  import opened Text

  /** Whole days, hours of the last day and minutes of the last hour. */
  datatype Remaining = Remaining(days: nat, hours: nat, minutes: nat)

  /** The split in `calculateTimeLeft`, of a time in milliseconds. */
  function Split(diff: nat): (r: Remaining)
    ensures r.hours < 24 && r.minutes < 60
    ensures r.days * 86400000 + r.hours * 3600000 + r.minutes * 60000 <= diff
    ensures diff < r.days * 86400000 + r.hours * 3600000 + r.minutes * 60000 + 60000
  {
    var d := diff / 86400000;
    var h := diff % 86400000 / 3600000;
    var m := diff % 3600000 / 60000;
    HourRemainder(diff);
    Remaining(d, h, m)
  }

  /** The remainder within the hour is the remainder within the day's hour. */
  lemma HourRemainder(diff: nat)
    ensures diff % 3600000 == diff % 86400000 % 3600000
  {
    var d, rd := diff / 86400000, diff % 86400000;
    var h, rh := rd / 3600000, rd % 3600000;
    assert diff == d * 86400000 + rd;
    assert rd == h * 3600000 + rh;
    RemainderOf(diff, d * 24 + h, rh);
  }

  lemma RemainderOf(a: int, q: int, r: int)
    requires a == q * 3600000 + r && 0 <= r < 3600000
    ensures a % 3600000 == r
  {
  }

  /** `calculateTimeLeft`: the two largest non-zero units, or `Ended`. */
  function TimeLeft(endTime: int, now: int): (s: string)
    ensures endTime <= now <==> s == "Ended"
    ensures endTime > now ==>
      var r := Split(endTime - now);
      && (r.days > 0 ==> s == NatToString(r.days) + "d " + NatToString(r.hours) + "h")
      && (r.days == 0 && r.hours > 0 ==> s == NatToString(r.hours) + "h " + NatToString(r.minutes) + "m")
      && (r.days == 0 && r.hours == 0 ==> s == NatToString(r.minutes) + "m")
  {
    var diff := endTime - now;
    if diff <= 0 then "Ended"
    else
      var r := Split(diff);
      var s := if r.days > 0 then NatToString(r.days) + "d " + NatToString(r.hours) + "h"
               else if r.hours > 0 then NatToString(r.hours) + "h " + NatToString(r.minutes) + "m"
               else NatToString(r.minutes) + "m";
      assert s[0] == NatToString(if r.days > 0 then r.days else if r.hours > 0 then r.hours else r.minutes)[0];
      s
  }

  /** Less than a minute to go shows `0m`, not `Ended`. */
  lemma LastMinute(endTime: int, now: int)
    requires now < endTime < now + 60000
    ensures TimeLeft(endTime, now) == "0m"
  {
  }

  /** `getCompetitionIcon`. */
  function Icon(kind: string): (icon: string)
    ensures kind == "volume" <==> icon == "\U{26A1}"
    ensures kind == "profit" <==> icon == "\U{1F3C6}"
    ensures kind == "streak" <==> icon == "\U{1F525}"
    ensures kind == "pnl" <==> icon == "\U{1F4B0}"
    ensures kind !in {"volume", "profit", "streak", "pnl"} <==> icon == "\U{1F3AF}"
  {
    if kind == "volume" then "\U{26A1}"
    else if kind == "profit" then "\U{1F3C6}"
    else if kind == "streak" then "\U{1F525}"
    else if kind == "pnl" then "\U{1F4B0}"
    else "\U{1F3AF}"
  }

  datatype CompRow = CompRow(id: nat, name: string, prizePool: nat, participantCount: Option<nat>,
                             kind: string, startTime: int, endTime: int)

  /** A competition as the page receives it; the fixed list has no times. */
  datatype Card = Card(id: nat, name: string, prize: string, prizePool: nat, participants: nat,
                       timeLeft: string, kind: string, icon: string, times: Option<(int, int)>)

  /** The label of a prize pool, e.g. `50,000 OPTIK`. */
  function PrizeLabel(pool: nat): string {
    Grouped(pool) + " OPTIK"
  }

  /** The label is the pool's digits, grouped, and the token name. */
  lemma PrizeLabelDigits(pool: nat)
    ensures WithoutCommas(PrizeLabel(pool)) == NatToString(pool) + " OPTIK"
  {
    GroupedDigits(pool);
    WithoutCommasAppend(Grouped(pool), " OPTIK");
    assert WithoutCommas(" OPTIK") == " OPTIK" by {
      assert WithoutCommas(" OPTIK") == [' '] + WithoutCommas("OPTIK");
      assert WithoutCommas("OPTIK") == ['O'] + WithoutCommas("PTIK");
      assert WithoutCommas("PTIK") == ['P'] + WithoutCommas("TIK");
      assert WithoutCommas("TIK") == ['T'] + WithoutCommas("IK");
      assert WithoutCommas("IK") == ['I'] + WithoutCommas("K");
      assert WithoutCommas("K") == ['K'] + WithoutCommas("");
    }
  }

  function CardOf(c: CompRow, now: int): (card: Card)
    ensures card.id == c.id && card.name == c.name && card.prizePool == c.prizePool && card.kind == c.kind
    ensures card.prize == PrizeLabel(c.prizePool) && card.icon == Icon(c.kind)
    ensures card.participants == if c.participantCount.Some? then c.participantCount.value else 0
    ensures card.timeLeft == TimeLeft(c.endTime, now) && card.times == Some((c.startTime, c.endTime))
  {
    Card(c.id, c.name, PrizeLabel(c.prizePool), c.prizePool,
         if c.participantCount.Some? then c.participantCount.value else 0,
         TimeLeft(c.endTime, now), c.kind, Icon(c.kind), Some((c.startTime, c.endTime)))
  }

  const MockCompetitions: seq<Card> := [
    Card(1, "Weekly Thunder", "50,000 OPTIK", 50000, 1247, "2d 14h", "volume", "\U{26A1}", None),
    Card(2, "PnL Masters", "100,000 OPTIK", 100000, 892, "5d 8h", "profit", "\U{1F3C6}", None),
    Card(3, "Streak Challenge", "25,000 OPTIK", 25000, 2134, "12h 45m", "streak", "\U{1F525}", None)]

  /** The fixed list is consistent with the live rendering: labels from the
      pools and icons from the kinds. */
  lemma MockConsistent()
    ensures forall i :: 0 <= i < |MockCompetitions| ==>
      MockCompetitions[i].prize == PrizeLabel(MockCompetitions[i].prizePool)
      && MockCompetitions[i].icon == Icon(MockCompetitions[i].kind)
  {
    LabelOfFifty();
    LabelOfHundred();
    LabelOfTwentyFive();
  }

  lemma LabelOfFifty() ensures PrizeLabel(50000) == "50,000 OPTIK" {}
  lemma LabelOfHundred() ensures PrizeLabel(100000) == "100,000 OPTIK" {}
  lemma LabelOfTwentyFive() ensures PrizeLabel(25000) == "25,000 OPTIK" {}

  /** The competitions still running, in table order. */
  function Running(t: seq<CompRow>, now: int): (r: seq<CompRow>)
    ensures forall c :: c in r <==> c in t && c.endTime > now
    ensures Subsequence(r, t)
  {
    if |t| == 0 then []
    else
      var rest := Running(t[1..], now);
      var r := if t[0].endTime > now then [t[0]] + rest else rest;
      FilterStep((c: CompRow) => c.endTime > now, t, rest, r);
      r
  }

  /** Every competition that has not ended is kept as often as the table holds it, and no other is. */
  lemma {:induction false} RunningCounts(t: seq<CompRow>, now: int)
    ensures forall c :: multiset(Running(t, now))[c] == if c.endTime > now then multiset(t)[c] else 0
  {
    if |t| > 0 {
      RunningCounts(t[1..], now);
      FilterCountStep((c: CompRow) => c.endTime > now, t, Running(t[1..], now), Running(t, now));
    }
  }

  datatype CompAnswer = Rows(rows: seq<CompRow>) | DbError

  /** GET. `rows` is the table ordered by end time; `active=true` keeps the
      competitions that have not ended. */
  function Get(answer: CompAnswer, active: Option<string>, now: int): (cards: seq<Card>)
    ensures answer.DbError? ==> cards == MockCompetitions
    ensures answer.Rows? ==>
      var shown := if active == Some("true") then Running(answer.rows, now) else answer.rows;
      |cards| == |shown| && forall i :: 0 <= i < |shown| ==> cards[i] == CardOf(shown[i], now)
  {
    match answer
    case DbError => MockCompetitions
    case Rows(rows) =>
      var shown := if active == Some("true") then Running(rows, now) else rows;
      seq(|shown|, i requires 0 <= i < |shown| => CardOf(shown[i], now))
  }

  /** Every competition the active view lists shows time left. */
  lemma ActiveNotEnded(rows: seq<CompRow>, now: int)
    ensures forall c :: c in Get(Rows(rows), Some("true"), now) ==> c.timeLeft != "Ended"
  {
    var shown := Running(rows, now);
    forall c | c in Get(Rows(rows), Some("true"), now) ensures c.timeLeft != "Ended" {
      var i :| 0 <= i < |shown| && Get(Rows(rows), Some("true"), now)[i] == c;
      assert shown[i] in shown;
    }
  }

  datatype EntryRow = EntryRow(wallet: string, competitionId: nat, joinedAt: int)

  datatype Db = Db(competitions: seq<CompRow>, entries: seq<EntryRow>)

  function CountEntries(es: seq<EntryRow>, wallet: string, id: nat): (n: nat)
    ensures n <= |es|
    ensures n == 0 <==> forall e :: e in es ==> e.wallet != wallet || e.competitionId != id
  {
    if |es| == 0 then 0
    else
      assert forall e :: e in es <==> e == es[0] || e in es[1..];
      (if es[0].wallet == wallet && es[0].competitionId == id then 1 else 0) + CountEntries(es[1..], wallet, id)
  }

  /** `increment_competition_participants`: one more participant (a null
      count becomes 1). */
  function Increment(t: seq<CompRow>, id: nat): (u: seq<CompRow>)
    ensures |u| == |t|
    ensures forall i :: 0 <= i < |t| ==> u[i] == if t[i].id == id then
      t[i].(participantCount := Some(if t[i].participantCount.Some? then t[i].participantCount.value + 1 else 1))
      else t[i]
  {
    seq(|t|, i requires 0 <= i < |t| =>
      if t[i].id == id then
        t[i].(participantCount := Some(if t[i].participantCount.Some? then t[i].participantCount.value + 1 else 1))
      else t[i])
  }

  datatype Joined = Joined(db: Db, reply: Reply<EntryRow>)

  /** POST. `.single()` finds an existing entry only when exactly one
      matches, and a failed existence lookup (`lookupFails`), whose error
      the route does not read, finds none; `fails` is a failed insert and
      `countFails` a failed participant increment, whose error the route
      ignores too. */
  function Join(db: Db, wallet: Option<string>, id: Option<nat>, now: int,
                lookupFails: bool, fails: bool, countFails: bool): (o: Joined)
    ensures !Present(wallet) || id.None? || id == Some(0) ==>
      o == Joined(db, Fail(BadRequest, "Wallet address and competition ID required"))
    ensures Present(wallet) && id.Some? && id.value != 0 ==>
      var found := !lookupFails && CountEntries(db.entries, wallet.value, id.value) == 1;
      && (found ==> o == Joined(db, Fail(BadRequest, "Already joined this competition")))
      && (!found && fails ==> o == Joined(db, Fail(ServerError, "Failed to join competition")))
      && (!found && !fails ==>
            var e := EntryRow(wallet.value, id.value, now);
            && o.reply == Ok(e) && o.db.entries == db.entries + [e]
            && o.db.competitions == if countFails then db.competitions else Increment(db.competitions, id.value))
  {
    if !Present(wallet) || id.None? || id.value == 0 then
      Joined(db, Fail(BadRequest, "Wallet address and competition ID required"))
    else if !lookupFails && CountEntries(db.entries, wallet.value, id.value) == 1 then
      Joined(db, Fail(BadRequest, "Already joined this competition"))
    else if fails then Joined(db, Fail(ServerError, "Failed to join competition"))
    else
      var e := EntryRow(wallet.value, id.value, now);
      var counted := if countFails then db.competitions else Increment(db.competitions, id.value);
      Joined(Db(counted, db.entries + [e]), Ok(e))
  }

  lemma {:induction false} CountEntriesAppend(es: seq<EntryRow>, e: EntryRow, wallet: string, id: nat)
    ensures CountEntries(es + [e], wallet, id)
         == CountEntries(es, wallet, id) + (if e.wallet == wallet && e.competitionId == id then 1 else 0)
  {
    if |es| == 0 {
      assert es + [e] == [e];
      assert ([e])[1..] == [];
    } else {
      assert (es + [e])[1..] == es[1..] + [e];
      CountEntriesAppend(es[1..], e, wallet, id);
    }
  }

  /** Each wallet holds at most one entry per competition. */
  predicate JoinedOnce(db: Db) {
    forall e :: e in db.entries ==> CountEntries(db.entries, e.wallet, e.competitionId) == 1
  }

  /** With its existence lookup answered, joining keeps every wallet to one
      entry per competition, and a second attempt is refused. */
  lemma JoinOnce(db: Db, wallet: string, id: nat, now: int, later: int, c1: bool, f2: bool, c2: bool)
    requires JoinedOnce(db) && wallet != "" && id != 0
    ensures JoinedOnce(Join(db, Some(wallet), Some(id), now, false, false, c1).db)
    ensures var o := Join(db, Some(wallet), Some(id), now, false, false, c1);
            Join(o.db, Some(wallet), Some(id), later, false, f2, c2).reply == Fail(BadRequest, "Already joined this competition")
  {
    var n := CountEntries(db.entries, wallet, id);
    if n != 1 {
      assert n == 0;
      var e := EntryRow(wallet, id, now);
      var es := db.entries + [e];
      forall x | x in es ensures CountEntries(es, x.wallet, x.competitionId) == 1 {
        CountEntriesAppend(db.entries, e, x.wallet, x.competitionId);
        if x != e && x.wallet == wallet && x.competitionId == id {
          assert x in db.entries;
        }
      }
      CountEntriesAppend(db.entries, e, wallet, id);
    }
  }

  /** A failed existence lookup reads as "not joined": a wallet already
      entered is entered a second time, and the table no longer holds one
      entry per wallet and competition. */
  lemma FailedLookupJoinsTwice(db: Db, wallet: string, id: nat, now: int, c: bool)
    requires wallet != "" && id != 0 && CountEntries(db.entries, wallet, id) == 1
    ensures var o := Join(db, Some(wallet), Some(id), now, true, false, c);
            o.reply.Ok? && CountEntries(o.db.entries, wallet, id) == 2 && !JoinedOnce(o.db)
  {
    var e := EntryRow(wallet, id, now);
    CountEntriesAppend(db.entries, e, wallet, id);
    assert e in db.entries + [e];
  }
}

=== FILE: crash.dfy ===
/** The crash game of the arcade page (app/games/page.tsx): a bet is taken
    from the balance, a multiplier climbs from 1.00 by 0.01 every 50 ms
    until it reaches a hidden crash point drawn uniformly from [1, 10), and
    cashing out before that pays bet × multiplier.

    Every `setInterval` the page starts is kept in `timers` (its crash
    point), because the page clears an interval only when that interval
    reaches its own crash point: cashing out leaves the round's interval
    running. `CashOutAsWritten` is that behaviour and `StaleTimerEndsNextRound`
    shows a later round ended by the earlier round's timer; `CashOut` also
    stops the round's interval, and `Sane` (one interval exactly while a
    round is live) is the invariant it keeps. */
module Crash {
  import opened Basics

  const StartBalance: real := 1000.0
  const StartBet: real := 10.0
  const Step: real := 0.01

  datatype State = State(
    balance: real,
    bet: real,
    multiplier: real,
    playing: bool,
    crashed: bool,
    timers: seq<real>)

  function Initial(): (s: State)
    ensures Valid(s) && Sane(s)
  {
    State(StartBalance, StartBet, 1.0, false, false, [])
  }

  /** `1 + Math.random() * 9` for a draw `u` of `Math.random()`. */
  function CrashPoint(u: real): (p: real)
    requires 0.0 <= u < 1.0
    ensures 1.0 <= p < 10.0
  {
    1.0 + u * 9.0
  }

  predicate Valid(s: State) {
    && s.balance >= 0.0
    && s.bet >= 1.0
    && s.multiplier >= 1.0
    && (forall i :: 0 <= i < |s.timers| ==> 1.0 <= s.timers[i] < 10.0)
  }

  /** One running interval exactly while a round is live. */
  predicate Sane(s: State) {
    |s.timers| == if s.playing then 1 else 0
  }

  /** The bet field: `Math.max(1, parseFloat(text) || 0)`, with `None` for
      text that does not parse. */
  function SetBet(s: State, parsed: Option<real>): (t: State)
    requires Valid(s)
    ensures Valid(t) && (Sane(s) ==> Sane(t))
    ensures t.bet >= 1.0
    ensures parsed.Some? && parsed.value >= 1.0 ==> t.bet == parsed.value
    ensures (parsed.None? || parsed.value < 1.0) ==> t.bet == 1.0
    ensures t.(bet := s.bet) == s
  {
    s.(bet := MaxR(1.0, OrZero(parsed)))
  }

  /** Starting a round: ignored while one is live or when the bet exceeds
      the balance; otherwise the bet is taken, the multiplier reset to 1.00
      and an interval with crash point `CrashPoint(u)` started. */
  function Play(s: State, u: real): (t: State)
    requires Valid(s) && 0.0 <= u < 1.0
    ensures Valid(t) && (Sane(s) ==> Sane(t))
    ensures (s.playing || s.bet > s.balance) ==> t == s
    ensures !(s.playing || s.bet > s.balance) ==>
      && t.balance == s.balance - s.bet
      && t.playing && !t.crashed && t.multiplier == 1.0
      && t.timers == s.timers + [CrashPoint(u)]
      && t.bet == s.bet
  {
    if s.playing || s.bet > s.balance then s
    else s.(balance := s.balance - s.bet, playing := true, crashed := false,
            multiplier := 1.0, timers := s.timers + [CrashPoint(u)])
  }

  /** Interval `i` fires: the multiplier goes up by 0.01; on reaching that
      interval's crash point the interval is cleared and the round is
      marked crashed and stopped. It fires whether or not a round is live. */
  function Fire(s: State, i: nat): (t: State)
    requires Valid(s) && i < |s.timers|
    ensures Valid(t)
    ensures t.multiplier == s.multiplier + Step
    ensures t.balance == s.balance && t.bet == s.bet
    ensures s.multiplier + Step >= s.timers[i] ==>
      && t.crashed && !t.playing
      && t.timers == s.timers[..i] + s.timers[i + 1..]
    ensures s.multiplier + Step < s.timers[i] ==>
      t.playing == s.playing && t.crashed == s.crashed && t.timers == s.timers
  {
    var next := s.multiplier + Step;
    if next >= s.timers[i] then
      s.(multiplier := next, crashed := true, playing := false,
         timers := s.timers[..i] + s.timers[i + 1..])
    else s.(multiplier := next)
  }

  /** Cashing out as the page does it: stop the round and pay
      bet × multiplier, leaving the round's interval running. */
  function CashOutAsWritten(s: State): (t: State)
    requires Valid(s)
    ensures Valid(t)
    ensures !s.playing ==> t == s
    ensures s.playing ==>
      && !t.playing
      && t.balance == s.balance + s.bet * s.multiplier
      && t.timers == s.timers
  {
    if !s.playing then s
    else s.(playing := false, balance := s.balance + s.bet * s.multiplier)
  }

  /** Cashing out with the round's interval stopped as well. */
  function CashOut(s: State): (t: State)
    requires Valid(s)
    ensures Valid(t) && (Sane(s) ==> Sane(t))
    ensures !s.playing ==> t == s
    ensures s.playing ==>
      && !t.playing && t.timers == []
      && t.balance == s.balance + s.bet * s.multiplier
      && t.balance >= s.balance + s.bet
      && t.crashed == s.crashed && t.multiplier == s.multiplier
  {
    if !s.playing then s
    else
      assert s.bet * s.multiplier >= s.bet * 1.0;
      s.(playing := false, timers := [], balance := s.balance + s.bet * s.multiplier)
  }

  /** In a sane state the one running interval is the live round's own:
      a firing ends the round exactly when the multiplier reaches that
      round's crash point, and sanity is kept. */
  lemma FireSane(s: State)
    requires Valid(s) && Sane(s) && s.playing
    ensures Sane(Fire(s, 0))
    ensures !Fire(s, 0).playing <==> s.multiplier + Step >= s.timers[0]
    ensures Fire(s, 0).crashed <==> (s.crashed || s.multiplier + Step >= s.timers[0])
  {
  }

  /** A round of the corrected game ends only by its own crash point or by
      cashing out: whatever sane state a player reaches, at most the live
      round's interval is running. */
  lemma SaneRounds(s: State, u: real)
    requires Valid(s) && Sane(s) && 0.0 <= u < 1.0
    ensures Sane(Play(s, u)) && Sane(CashOut(s))
    ensures Play(s, u).playing ==> Play(s, u).timers == if s.playing then s.timers else [CrashPoint(u)]
  {
  }

  /** As written: a round with crash point 1.0225 is cashed out at once,
      then a second round (crash point 5.5) starts; the first round's
      interval is still running and, three firings later, stops the second
      round at 1.03 as crashed, although its own crash point is far away. */
  lemma StaleTimerEndsNextRound()
    ensures var s0 := Play(Initial(), 0.0025);
            var s1 := CashOutAsWritten(s0);
            var s2 := Play(s1, 0.5);
            var s3 := Fire(Fire(Fire(s2, 0), 0), 0);
            && s2.playing && s2.timers == [1.0225, 5.5]
            && !s3.playing && s3.crashed && s3.timers == [5.5]
            && s3.multiplier == 1.03 < 5.5
  {
    var s0 := Play(Initial(), 0.0025);
    assert s0.timers == [1.0225];
    var s1 := CashOutAsWritten(s0);
    var s2 := Play(s1, 0.5);
    assert s2.timers == [1.0225, 5.5];
    var a := Fire(s2, 0);
    assert a.multiplier == 1.01 && a.timers == s2.timers;
    var b := Fire(a, 0);
    assert b.multiplier == 1.02 && b.timers == s2.timers;
    var c := Fire(b, 0);
    assert c.timers == s2.timers[..0] + s2.timers[1..];
  }

  /** Corrected: the same play leaves only the second round's interval
      running, so by `FireSane` the round ends at 5.5 or by a cash-out. */
  lemma StaleTimerGone()
    ensures var s2 := Play(CashOut(Play(Initial(), 0.0025)), 0.5);
            s2.playing && s2.timers == [5.5]
  {
    var s0 := Play(Initial(), 0.0025);
    assert CashOut(s0).timers == [];
  }
}

=== FILE: dailystats.dfy ===
/** GET /api/arcade/daily-stats (app/api/arcade/daily-stats/route.ts): a
    wallet's `daily_rewards` rows dated today, reported for one game (the
    first row, or zeros) or summed over all games. The query outcome is
    `err`: PostgREST's "no rows" code (`PGRST116`) still counts as an
    answer, with no data; any other error gives empty stats. */
module DailyStats {
  import opened Basics
  import opened Http

  datatype Row = Row(wallet: string, date: string, gameId: nat, earned: real, gamesPlayed: nat, bestScore: nat)

  datatype DbError = NoError | NoRows | OtherError

  /** The three shapes of the `stats` object the route answers with. */
  datatype Stats =
    | Empty
    | PerGame(totalOptikEarned: real, gamesPlayed: nat, bestScore: nat)
    | Aggregate(totalDailyEarned: real, gamesPlayed: nat)

  /** The query's filters: the wallet, today's date, and the game when one
      is asked for. */
  predicate Asked(r: Row, wallet: string, today: string, game: Option<nat>) {
    r.wallet == wallet && r.date == today && (game.Some? ==> r.gameId == game.value)
  }

  /** The rows the query returns, in table order. */
  function Today(rows: seq<Row>, wallet: string, today: string, game: Option<nat>): (s: seq<Row>)
    ensures |s| <= |rows|
    ensures forall r :: r in s <==> r in rows && Asked(r, wallet, today, game)
    ensures Subsequence(s, rows)
  {
    if |rows| == 0 then []
    else
      var rest := Today(rows[1..], wallet, today, game);
      var r := rows[0];
      var s := if Asked(r, wallet, today, game) then [r] + rest else rest;
      FilterStep(x => Asked(x, wallet, today, game), rows, rest, s);
      s
  }

  /** Every row the query asks for is returned as often as the table holds it, and no other is. */
  lemma {:induction false} TodayCounts(rows: seq<Row>, wallet: string, today: string, game: Option<nat>)
    ensures forall r :: multiset(Today(rows, wallet, today, game))[r] == if Asked(r, wallet, today, game) then multiset(rows)[r] else 0
  {
    if |rows| > 0 {
      TodayCounts(rows[1..], wallet, today, game);
      FilterCountStep(x => Asked(x, wallet, today, game), rows, Today(rows[1..], wallet, today, game), Today(rows, wallet, today, game));
    }
  }

  function Earnings(rs: seq<Row>): (e: seq<real>)
    ensures |e| == |rs| && forall i :: 0 <= i < |rs| ==> e[i] == rs[i].earned
  {
    seq(|rs|, i requires 0 <= i < |rs| => rs[i].earned)
  }

  /** The route. `game` is the `gameId` parameter when present and
      non-empty. */
  function Get(rows: seq<Row>, wallet: Option<string>, game: Option<nat>, today: string, err: DbError): (r: Reply<Stats>)
    ensures r.Fail? <==> !Present(wallet)
    ensures r.Fail? ==> r.status == BadRequest
    ensures Present(wallet) && err == OtherError ==> r == Ok(Empty)
    ensures Present(wallet) && err == NoError && game.Some? ==>
      var data := Today(rows, wallet.value, today, game);
      r == Ok(if |data| == 0 then PerGame(0.0, 0, 0)
              else PerGame(data[0].earned, data[0].gamesPlayed, data[0].bestScore))
    ensures Present(wallet) && err == NoError && game.None? ==>
      var data := Today(rows, wallet.value, today, None);
      r == Ok(Aggregate(Sum(Earnings(data)), |data|))
    ensures Present(wallet) && err == NoRows ==> r == Ok(Aggregate(0.0, 0))
  {
    if !Present(wallet) then Fail(BadRequest, "Wallet address required")
    else if err == OtherError then Ok(Empty)
    else if err == NoRows then Ok(Aggregate(Sum([]), 0))
    else
      var data := Today(rows, wallet.value, today, game);
      if game.Some? then
        if |data| == 0 then Ok(PerGame(0.0, 0, 0))
        else Ok(PerGame(data[0].earned, data[0].gamesPlayed, data[0].bestScore))
      else Ok(Aggregate(Sum(Earnings(data)), |data|))
  }

  /** The aggregate counts one game per row and its total is never
      negative when no row records a negative amount. */
  lemma AggregateBounds(rows: seq<Row>, wallet: Option<string>, today: string)
    requires Present(wallet)
    requires forall i :: 0 <= i < |rows| ==> rows[i].earned >= 0.0
    ensures Get(rows, wallet, None, today, NoError).body.Aggregate?
    ensures Get(rows, wallet, None, today, NoError).body.totalDailyEarned >= 0.0
    ensures Get(rows, wallet, None, today, NoError).body.gamesPlayed <= |rows|
  {
    var data := Today(rows, wallet.value, today, None);
    forall i | 0 <= i < |data|
      ensures Earnings(data)[i] >= 0.0
    {
      assert data[i] in rows;
    }
    SumNonNegative(Earnings(data));
  }
}

=== FILE: dexpage.dfy ===
/** The trading dashboard (app/DEX/page.tsx): simulated market prices, the
    trade form that appends a position, the close button that removes one
    and updates the running stats, and the figures shown under the form.
    The page keeps its own position list; the perpetuals client is not
    called. */
module DexPage {
  import opened Basics
  import PriceOracle
  import PerpsClient

  type Pair = PriceOracle.Pair

  /** The `marketData` prices, one per pair. */
  type Prices = Pair -> real

  /** The initial `marketData` prices, the same as the oracle's fallbacks. */
  function InitialPrices(): (m: Prices)
    ensures forall p :: m(p) == PriceOracle.MockPrice(p)
  {
    p => PriceOracle.MockPrice(p)
  }

  /** One price step: each price moves by `(u − 0.5)·0.5` percent for its
      draw `u`, floored at 0. */
  function Drift(m: Prices, draw: Pair -> real): (d: Prices)
    requires forall p :: 0.0 <= draw(p) < 1.0
    ensures forall p :: d(p) == Moved(m(p), draw(p))
  {
    p => Moved(m(p), draw(p))
  }

  function Moved(price: real, u: real): real {
    MaxR(0.0, price * (1.0 + (u - 0.5) * 0.5 / 100.0))
  }

  /** A positive price stays positive and moves by at most a quarter of a
      percent per step. */
  lemma DriftBounded(m: Prices, draw: Pair -> real, p: Pair)
    requires forall q :: 0.0 <= draw(q) < 1.0
    requires m(p) > 0.0
    ensures 0.9975 * m(p) <= Drift(m, draw)(p) < 1.0025 * m(p)
    ensures Drift(m, draw)(p) > 0.0
  {
  }

  datatype Position = Position(pair: Pair, side: PerpsClient.Side, size: real, entry: real,
                               current: real, pnl: real, leverage: real)

  /** The price a position is valued at: the market's, unless that is 0
      (`marketData[pair]?.price || pos.current`). */
  function Mark(m: Prices, pos: Position): (r: real)
    ensures m(pos.pair) != 0.0 ==> r == m(pos.pair)
    ensures m(pos.pair) == 0.0 ==> r == pos.current
  {
    if m(pos.pair) != 0.0 then m(pos.pair) else pos.current
  }

  /** `calculatePnL`: the long formula, or its mirror for a short. */
  function PnL(m: Prices, pos: Position): (r: real)
    requires pos.entry != 0.0
    ensures Mark(m, pos) == pos.entry ==> r == 0.0
    ensures pos.entry > 0.0 && pos.size * pos.leverage > 0.0 ==>
      (r > 0.0 <==> if pos.side == PerpsClient.Long then Mark(m, pos) > pos.entry else Mark(m, pos) < pos.entry)
  {
    var cur := Mark(m, pos);
    if pos.side == PerpsClient.Long then (cur - pos.entry) / pos.entry * pos.size * pos.leverage
    else (pos.entry - cur) / pos.entry * pos.size * pos.leverage
  }

  /** The page's figure agrees with the perpetuals client's at the same
      price, for both sides. */
  lemma PnLAgreesWithClient(m: Prices, pos: Position, t: int)
    requires pos.entry != 0.0
    ensures var p := PerpsClient.Position(pos.pair, pos.side, pos.size, pos.entry, pos.current, pos.pnl,
                                          pos.leverage, None, t);
            PnL(m, pos) == PerpsClient.PnL(p, Mark(m, pos))
  {
    var cur := Mark(m, pos);
    if pos.side == PerpsClient.Short {
      assert (pos.entry - cur) / pos.entry == -((cur - pos.entry) / pos.entry);
    }
  }

  /** A position at its own entry price shows no profit. */
  lemma PnLAtEntry(m: Prices, pos: Position)
    requires pos.entry != 0.0 && Mark(m, pos) == pos.entry
    ensures PnL(m, pos) == 0.0
  {
  }

  /** The page's stats record; only the first four and the streak change. */
  type Stats = PerpsClient.UserStats

  /** The stats before `loadUserStats` replaces them. */
  const InitialStats: Stats := PerpsClient.UserStats(0.0, 0.0, 0, 0.0, 0, 0.0, 1.0, 0, 0.0, 0.0, 0.0)

  datatype Page = Page(prices: Prices, positions: seq<Position>, stats: Stats, amount: string)

  /** Every listed position can be valued. */
  predicate Sound(positions: seq<Position>) {
    forall i :: 0 <= i < |positions| ==> positions[i].entry != 0.0
  }

  /** `handleTrade` for the selected pair, side and leverage; `parsed` is
      `parseFloat(amount)`. Nothing happens with an empty amount or without
      a connected wallet; otherwise a position opened at the market price
      is appended and the amount cleared. */
  function Trade(s: Page, connected: bool, hasKey: bool, pair: Pair, side: PerpsClient.Side,
                 leverage: real, parsed: real): (t: Page)
    ensures s.amount == "" || !connected || !hasKey ==> t == s
    ensures s.amount != "" && connected && hasKey ==>
      && t.positions == s.positions + [Position(pair, side, parsed, s.prices(pair), s.prices(pair), 0.0, leverage)]
      && t.amount == "" && t.stats == s.stats && t.prices == s.prices
  {
    if s.amount == "" || !connected || !hasKey then s
    else
      var pos := Position(pair, side, parsed, s.prices(pair), s.prices(pair), 0.0, leverage);
      s.(positions := s.positions + [pos], amount := "")
  }

  /** A new position shows no profit until the price moves. */
  lemma NewPositionBreaksEven(s: Page, pair: Pair, side: PerpsClient.Side, leverage: real, parsed: real)
    requires s.amount != "" && s.prices(pair) != 0.0
    ensures var t := Trade(s, true, true, pair, side, leverage, parsed);
            PnL(t.prices, t.positions[|t.positions| - 1]) == 0.0
  {
  }

  /** The running stats after closing a position with profit `pnl`:
      a win raises the win rate by half a point and extends the streak,
      anything else lowers it and resets the streak. */
  function Record(st: Stats, pnl: real): (r: Stats)
    ensures r.totalPnL == st.totalPnL + pnl && r.totalTrades == st.totalTrades + 1
    ensures pnl > 0.0 ==> r.winRate == st.winRate + 0.5 && r.streak == st.streak + 1
    ensures pnl <= 0.0 ==> r.winRate == st.winRate - 0.5 && r.streak == 0
    ensures r.(totalPnL := st.totalPnL, totalTrades := st.totalTrades, winRate := st.winRate, streak := st.streak) == st
  {
    st.(totalPnL := st.totalPnL + pnl, totalTrades := st.totalTrades + 1,
        winRate := if pnl > 0.0 then st.winRate + 0.5 else st.winRate - 0.5,
        streak := if pnl > 0.0 then st.streak + 1 else 0)
  }

  /** The list without its `i`-th element. */
  function Without(ps: seq<Position>, i: nat): (r: seq<Position>)
    requires i < |ps|
    ensures |r| == |ps| - 1
    ensures forall j :: 0 <= j < i ==> r[j] == ps[j]
    ensures forall j :: i <= j < |r| ==> r[j] == ps[j + 1]
  {
    ps[..i] + ps[i + 1..]
  }

  /** `handleClosePosition` for the `i`-th listed position: it leaves the
      list and its profit at the current price goes into the stats. */
  function ClosePosition(s: Page, i: nat): (t: Page)
    requires i < |s.positions| && Sound(s.positions)
    ensures t.positions == Without(s.positions, i)
    ensures t.stats == Record(s.stats, PnL(s.prices, s.positions[i]))
    ensures t.prices == s.prices && t.amount == s.amount
  {
    var pos := s.positions[i];
    s.(positions := Without(s.positions, i), stats := Record(s.stats, PnL(s.prices, pos)))
  }

  /** Closing keeps every other position valuable. */
  lemma CloseKeepsSound(s: Page, i: nat)
    requires i < |s.positions| && Sound(s.positions)
    ensures Sound(ClosePosition(s, i).positions)
  {
  }

  /** Opening and immediately closing at an unchanged price gives the list
      back, counts one trade and, since a break-even close is not a win,
      lowers the win rate and ends the streak. */
  lemma TradeThenClose(s: Page, pair: Pair, side: PerpsClient.Side, leverage: real, parsed: real)
    requires s.amount != "" && s.prices(pair) != 0.0 && Sound(s.positions)
    ensures var t := Trade(s, true, true, pair, side, leverage, parsed);
            var u := ClosePosition(t, |s.positions|);
            && u.positions == s.positions
            && u.stats.totalTrades == s.stats.totalTrades + 1
            && u.stats.totalPnL == s.stats.totalPnL
            && u.stats.winRate == s.stats.winRate - 0.5
            && u.stats.streak == 0
  {
    var t := Trade(s, true, true, pair, side, leverage, parsed);
    assert Without(t.positions, |s.positions|) == s.positions;
    NewPositionBreaksEven(s, pair, side, leverage, parsed);
  }

  /** The order-form figures: position size `amount·leverage` (an empty
      amount reads as 0) and the estimated liquidation price, 10% below the
      price for a long and 10% above for a short. */
  function PositionSize(parsed: Option<real>, leverage: real): (r: real)
    ensures parsed.None? ==> r == 0.0
    ensures parsed.Some? ==> r == parsed.value * leverage
  {
    OrZero(parsed) * leverage
  }

  function EstimatedLiquidation(price: real, side: PerpsClient.Side): (r: real)
    ensures price > 0.0 && side == PerpsClient.Long ==> r < price && r == price * 0.9
    ensures price > 0.0 && side == PerpsClient.Short ==> r > price && r == price * 1.1
  {
    price * (if side == PerpsClient.Long then 0.9 else 1.1)
  }

  /** The page's estimate is the client's liquidation price at leverage 9
      (a 10% move), whatever leverage the slider shows. */
  lemma EstimateIsLeverageNine(price: real, side: PerpsClient.Side)
    ensures PerpsClient.Liquidation(price, 9.0, side == PerpsClient.Long) == Some(EstimatedLiquidation(price, side))
  {
  }
}

=== FILE: game2048.dfy ===
/** The arcade's 2048 game (components/arcade/Game2048.tsx): a 4 by 4 board of
    tiles, each move slides every line toward one edge merging equal
    neighbours once, and a move that changes the board spawns a new tile.
    The two `Math.random()` draws of a spawn are parameters. */
module Game2048 {
  import opened Basics

  const Size: nat := 4

  /** A line of cells; 0 is an empty cell. */
  type Row = seq<nat>
  type Board = seq<Row>

  predicate IsBoard(b: Board) {
    |b| == Size && forall i :: 0 <= i < |b| ==> |b[i]| == Size
  }

  /** Sum of the tiles of a line. */
  function Total(row: Row): nat {
    if |row| == 0 then 0 else row[0] + Total(row[1..])
  }

  lemma {:induction false} TotalAppend(a: Row, b: Row)
    ensures Total(a + b) == Total(a) + Total(b)
  {
    if |a| > 0 {
      assert (a + b)[1..] == a[1..] + b;
      TotalAppend(a[1..], b);
    } else {
      assert a + b == b;
    }
  }

  predicate AllNonZero(row: Row) {
    forall i :: 0 <= i < |row| ==> row[i] != 0
  }

  predicate AllZero(row: Row) {
    forall i :: 0 <= i < |row| ==> row[i] == 0
  }

  function Zeros(n: nat): (r: Row)
    ensures |r| == n && AllZero(r)
  {
    seq(n, _ => 0)
  }

  /** `row.filter(cell => cell !== 0)`. */
  function NonZero(row: Row): (r: Row)
    ensures |r| <= |row|
    ensures AllNonZero(r)
  {
    if |row| == 0 then []
    else if row[0] != 0 then [row[0]] + NonZero(row[1..])
    else NonZero(row[1..])
  }

  lemma {:induction false} NonZeroAppend(a: Row, b: Row)
    ensures NonZero(a + b) == NonZero(a) + NonZero(b)
  {
    if |a| == 0 {
      assert a + b == b;
    } else {
      assert (a + b)[1..] == a[1..] + b;
      NonZeroAppend(a[1..], b);
    }
  }

  /** Filtering keeps exactly the tiles: nothing to drop in an all-tile line,
      nothing kept from an all-empty one. */
  lemma {:induction false} NonZeroExtremes(row: Row)
    ensures AllNonZero(row) ==> NonZero(row) == row
    ensures AllZero(row) ==> NonZero(row) == []
  {
    if |row| > 0 {
      NonZeroExtremes(row[1..]);
    }
  }

  lemma {:induction false} NonZeroTotal(row: Row)
    ensures Total(NonZero(row)) == Total(row)
  {
    if |row| > 0 {
      NonZeroTotal(row[1..]);
    }
  }

  /** No two neighbours are equal, so nothing can merge. */
  predicate NoPair(f: Row) {
    forall i :: 0 <= i < |f| - 1 ==> f[i] != f[i + 1]
  }

  /** Tiles to the left of every empty cell only: empty cells come last. */
  predicate Packed(row: Row) {
    forall i, j :: 0 <= i < j < |row| && row[i] == 0 ==> row[j] == 0
  }

  /** A slid line and the points its merges earned. */
  datatype Slid = Slid(cells: Row, gained: nat)

  /** The merge loop of `slide`: scanning left to right, a tile equal to its
      right neighbour doubles and absorbs it, and the absorbed tile takes part
      in no further merge. */
  function Merge(f: Row): (m: Slid)
    ensures |m.cells| <= |f|
    ensures Total(m.cells) == Total(f)
    ensures AllNonZero(f) ==> AllNonZero(m.cells)
    decreases |f|
  {
    if |f| == 0 then Slid([], 0)
    else if |f| >= 2 && f[0] == f[1] then
      var rest := Merge(f[2..]);
      Slid([2 * f[0]] + rest.cells, 2 * f[0] + rest.gained)
    else
      var rest := Merge(f[1..]);
      Slid([f[0]] + rest.cells, rest.gained)
  }

  /** On a line of tiles, merging earns nothing and changes nothing exactly
      when no two neighbours are equal; otherwise it shortens the line. */
  lemma {:induction false} MergeNoPair(f: Row)
    requires AllNonZero(f)
    ensures NoPair(f) ==> Merge(f) == Slid(f, 0)
    ensures !NoPair(f) ==> |Merge(f).cells| < |f| && Merge(f).gained > 0
    decreases |f|
  {
    if |f| >= 2 && f[0] == f[1] {
      var rest := Merge(f[2..]);
      assert !NoPair(f);
    } else if |f| >= 1 {
      var t := f[1..];
      MergeNoPair(t);
      assert NoPair(f) ==> NoPair(t);
      if !NoPair(f) {
        var i :| 0 <= i < |f| - 1 && f[i] == f[i + 1];
        assert i >= 1;
        assert t[i - 1] == t[i];
      }
      assert NoPair(t) && |f| >= 2 ==> f[0] != f[1];
    }
  }

  /** The points a merge earns are zero exactly when nothing merges. */
  lemma MergeGainedZero(f: Row)
    requires AllNonZero(f)
    ensures Merge(f).gained == 0 <==> NoPair(f)
  {
    MergeNoPair(f);
  }

  /** `while (merged.length < 4) merged.push(0)`. */
  function Pad(xs: Row): (r: Row)
    ensures |r| == if |xs| < Size then Size else |xs|
    ensures r[..|xs|] == xs
    ensures forall i :: |xs| <= i < |r| ==> r[i] == 0
  {
    if |xs| < Size then xs + Zeros(Size - |xs|) else xs
  }

  /** `slide`: drop the empty cells, merge, pad with empty cells. */
  function SlideLine(row: Row): (s: Slid)
    requires |row| == Size
    ensures |s.cells| == Size
  {
    var m := Merge(NonZero(row));
    Slid(Pad(m.cells), m.gained)
  }

  /** Sliding keeps the sum of the tiles: merging only redistributes it. */
  lemma SlideTotal(row: Row)
    requires |row| == Size
    ensures Total(SlideLine(row).cells) == Total(row)
  {
    var m := Merge(NonZero(row));
    NonZeroTotal(row);
    var p := Pad(m.cells);
    if |m.cells| < Size {
      TotalAppend(m.cells, Zeros(Size - |m.cells|));
      ZerosTotal(Size - |m.cells|);
    }
  }

  lemma {:induction false} ZerosTotal(n: nat)
    ensures Total(Zeros(n)) == 0
  {
    if n > 0 {
      assert Zeros(n)[1..] == Zeros(n - 1);
      ZerosTotal(n - 1);
    }
  }

  /** The result of a slide has its tiles at the start and its empty cells at
      the end, and never more tiles than the line had. */
  lemma SlidePacked(row: Row)
    requires |row| == Size
    ensures Packed(SlideLine(row).cells)
    ensures |NonZero(SlideLine(row).cells)| <= |NonZero(row)|
  {
    var m := Merge(NonZero(row));
    var p := Pad(m.cells);
    assert p == m.cells + Zeros(Size - |m.cells|);
    NonZeroAppend(m.cells, Zeros(Size - |m.cells|));
    NonZeroExtremes(m.cells);
    NonZeroExtremes(Zeros(Size - |m.cells|));
  }

  lemma {:induction false} PackedSplit(row: Row)
    requires Packed(row)
    ensures row == NonZero(row) + Zeros(|row| - |NonZero(row)|)
  {
    if |row| > 0 {
      if row[0] == 0 {
        assert AllZero(row);
        NonZeroExtremes(row);
      } else {
        PackedSplit(row[1..]);
      }
    }
  }

  /** The tiles of a slid line, read back by the filter, are the merged
      tiles. */
  lemma SlideNonZero(row: Row)
    requires |row| == Size
    ensures NonZero(SlideLine(row).cells) == Merge(NonZero(row)).cells
  {
    var m := Merge(NonZero(row));
    var p := Pad(m.cells);
    assert p == m.cells + Zeros(Size - |m.cells|);
    NonZeroAppend(m.cells, Zeros(Size - |m.cells|));
    NonZeroExtremes(m.cells);
    NonZeroExtremes(Zeros(Size - |m.cells|));
  }

  /** A slide leaves a line as it is exactly when its tiles are already packed
      to the start and no two neighbouring tiles are equal. */
  lemma SlideFixed(row: Row)
    requires |row| == Size
    ensures SlideLine(row).cells == row <==> Packed(row) && NoPair(NonZero(row))
  {
    if SlideLine(row).cells == row {
      SlideFixedOnly(row);
    }
    if Packed(row) && NoPair(NonZero(row)) {
      FixedIfPackedNoPair(row);
    }
  }

  lemma SlideFixedOnly(row: Row)
    requires |row| == Size && SlideLine(row).cells == row
    ensures Packed(row) && NoPair(NonZero(row))
  {
    var f := NonZero(row);
    MergeNoPair(f);
    SlideNonZero(row);
    SlidePacked(row);
  }

  lemma FixedIfPackedNoPair(row: Row)
    requires |row| == Size && Packed(row) && NoPair(NonZero(row))
    ensures SlideLine(row).cells == row
  {
    var f := NonZero(row);
    MergeNoPair(f);
    PackedSplit(row);
  }

  /** The `filter` of `slide`, as a loop. */
  method FilterLoop(row: Row) returns (filtered: Row)
    ensures filtered == NonZero(row)
  {
    filtered := [];
    var k := 0;
    while k < |row|
      invariant 0 <= k <= |row|
      invariant filtered == NonZero(row[..k])
    {
      NonZeroAppend(row[..k], [row[k]]);
      assert row[..k + 1] == row[..k] + [row[k]];
      if row[k] != 0 {
        filtered := filtered + [row[k]];
      }
      k := k + 1;
    }
    assert row[..k] == row;
  }

  /** One step of `Merge` from position i. */
  lemma MergeUnfold(f: Row, i: nat)
    requires i < |f|
    ensures i < |f| - 1 && f[i] == f[i + 1] ==>
      Merge(f[i..]) == Slid([2 * f[i]] + Merge(f[i + 2..]).cells, 2 * f[i] + Merge(f[i + 2..]).gained)
    ensures !(i < |f| - 1 && f[i] == f[i + 1]) ==>
      Merge(f[i..]) == Slid([f[i]] + Merge(f[i + 1..]).cells, Merge(f[i + 1..]).gained)
  {
    if i < |f| - 1 {
      assert f[i..][2..] == f[i + 2..];
    }
    assert f[i..][1..] == f[i + 1..];
  }

  /** A turn of the merge loop that merges keeps its invariant. */
  lemma MergeLoopMerges(f: Row, i: nat, merged: Row)
    requires i < |f| - 1 && f[i] == f[i + 1]
    ensures merged + Merge(f[i..]).cells == (merged + [f[i] * 2]) + Merge(f[i + 2..]).cells
    ensures Merge(f[i..]).gained == f[i] * 2 + Merge(f[i + 2..]).gained
  {
    MergeUnfold(f, i);
    ConcatAssoc(merged, [f[i] * 2], Merge(f[i + 2..]).cells);
  }

  /** A turn of the merge loop that copies a tile keeps its invariant. */
  lemma MergeLoopCopies(f: Row, i: nat, merged: Row)
    requires i < |f| && !(i < |f| - 1 && f[i] == f[i + 1])
    ensures merged + Merge(f[i..]).cells == (merged + [f[i]]) + Merge(f[i + 1..]).cells
    ensures Merge(f[i..]).gained == Merge(f[i + 1..]).gained
  {
    MergeUnfold(f, i);
    ConcatAssoc(merged, [f[i]], Merge(f[i + 1..]).cells);
  }

  lemma ConcatAssoc(a: Row, b: Row, c: Row)
    ensures a + (b + c) == (a + b) + c
  {
  }

  /** The merge loop of `slide` as written: a merge skips the absorbed tile
      with `i++`. */
  method MergeLoop(filtered: Row) returns (merged: Row, gained: nat)
    ensures Slid(merged, gained) == Merge(filtered)
  {
    merged := [];
    gained := 0;
    var i := 0;
    assert filtered[0..] == filtered;
    while i < |filtered|
      invariant 0 <= i <= |filtered|
      invariant merged + Merge(filtered[i..]).cells == Merge(filtered).cells
      invariant gained + Merge(filtered[i..]).gained == Merge(filtered).gained
    {
      if i < |filtered| - 1 && filtered[i] == filtered[i + 1] {
        MergeLoopMerges(filtered, i, merged);
        merged := merged + [filtered[i] * 2];
        gained := gained + filtered[i] * 2;
        i := i + 1;
      } else {
        MergeLoopCopies(filtered, i, merged);
        merged := merged + [filtered[i]];
      }
      i := i + 1;
    }
    assert filtered[i..] == [];
  }

  /** `slide` as written, with its three loops. */
  method SlideLoop(row: Row) returns (cells: Row, gained: nat)
    requires |row| == Size
    ensures cells == SlideLine(row).cells && gained == SlideLine(row).gained
  {
    var filtered := FilterLoop(row);
    var merged;
    merged, gained := MergeLoop(filtered);
    cells := merged;
    while |cells| < Size
      invariant |merged| <= |cells| <= Size
      invariant cells[..|merged|] == merged
      invariant forall j :: |merged| <= j < |cells| ==> cells[j] == 0
    {
      cells := cells + [0];
    }
    assert cells == Pad(merged);
  }

  function Column(b: Board, c: nat): (col: Row)
    requires IsBoard(b) && c < Size
    ensures |col| == Size
    ensures forall i :: 0 <= i < Size ==> col[i] == b[i][c]
  {
    seq(Size, i requires 0 <= i < Size => b[i][c])
  }

  datatype Direction = Up | Down | Left | Right

  /** The k-th line of the board, read from the edge the tiles move toward. */
  function Line(b: Board, d: Direction, k: nat): (line: Row)
    requires IsBoard(b) && k < Size
    ensures |line| == Size
  {
    match d
    case Left => b[k]
    case Right => Reverse(b[k])
    case Up => Column(b, k)
    case Down => Reverse(Column(b, k))
  }

  /** The board a move produces and the score it earns. */
  datatype Moved = Moved(board: Board, gained: nat)

  /** The line of direction d that cell (i, j) lies on. */
  function LineOf(d: Direction, i: nat, j: nat): nat {
    if d == Left || d == Right then i else j
  }

  /** The place of cell (i, j) within its line, counted from the edge the
      tiles move toward. */
  function IndexIn(d: Direction, i: nat, j: nat): (t: nat)
    requires i < Size && j < Size
    ensures t < Size
  {
    match d
    case Left => j
    case Right => Size - 1 - j
    case Up => i
    case Down => Size - 1 - i
  }

  /** The cell at place t of line k. */
  function Origin(d: Direction, k: nat, t: nat): (p: Pos)
    requires k < Size && t < Size
    ensures p.r < Size && p.c < Size
    ensures LineOf(d, p.r, p.c) == k && IndexIn(d, p.r, p.c) == t
  {
    match d
    case Left => Pos(k, t)
    case Right => Pos(k, Size - 1 - t)
    case Up => Pos(t, k)
    case Down => Pos(Size - 1 - t, k)
  }

  lemma LineAt(b: Board, d: Direction, i: nat, j: nat)
    requires IsBoard(b) && i < Size && j < Size
    ensures LineOf(d, i, j) < Size
    ensures Line(b, d, LineOf(d, i, j))[IndexIn(d, i, j)] == b[i][j]
  {
  }

  /** The cell at row i, column j after a move in direction d. */
  function Slided(b: Board, d: Direction, i: nat, j: nat): nat
    requires IsBoard(b) && i < Size && j < Size
  {
    SlideLine(Line(b, d, LineOf(d, i, j))).cells[IndexIn(d, i, j)]
  }

  /** `move(direction)` before the tile spawn: every line slid toward the
      edge, and the points of all merges. */
  function Move(b: Board, d: Direction): (m: Moved)
    requires IsBoard(b)
    ensures IsBoard(m.board)
  {
    var rows := seq(Size, i requires 0 <= i < Size =>
                  seq(Size, j requires 0 <= j < Size => Slided(b, d, i, j)));
    Moved(rows, SlideLine(Line(b, d, 0)).gained + SlideLine(Line(b, d, 1)).gained
              + SlideLine(Line(b, d, 2)).gained + SlideLine(Line(b, d, 3)).gained)
  }

  lemma MoveAt(b: Board, d: Direction, i: nat, j: nat)
    requires IsBoard(b) && i < Size && j < Size
    ensures Move(b, d).board[i][j] == Slided(b, d, i, j)
  {
  }

  lemma BoardExt(a: Board, b: Board)
    requires IsBoard(a) && IsBoard(b)
    requires forall i, j :: 0 <= i < Size && 0 <= j < Size ==> a[i][j] == b[i][j]
    ensures a == b
  {
    forall i | 0 <= i < Size
      ensures a[i] == b[i]
    {
      assert forall j :: 0 <= j < Size ==> a[i][j] == b[i][j];
    }
  }

  /** A move that leaves the board as it is leaves each cell as it is. */
  lemma UnmovedCells(b: Board, d: Direction)
    requires IsBoard(b)
    ensures Move(b, d).board == b ==>
      forall i, j :: 0 <= i < Size && 0 <= j < Size ==> Slided(b, d, i, j) == b[i][j]
  {
    forall i, j | 0 <= i < Size && 0 <= j < Size
      ensures Move(b, d).board[i][j] == Slided(b, d, i, j)
    {
      MoveAt(b, d, i, j);
    }
  }

  /** A move that leaves every cell as it is leaves each line as it is. */
  lemma MoveFixedLine(b: Board, d: Direction, k: nat)
    requires IsBoard(b) && k < Size
    requires forall i, j :: 0 <= i < Size && 0 <= j < Size ==> Slided(b, d, i, j) == b[i][j]
    ensures SlideLine(Line(b, d, k)).cells == Line(b, d, k)
  {
    forall t | 0 <= t < Size
      ensures SlideLine(Line(b, d, k)).cells[t] == Line(b, d, k)[t]
    {
      var p := Origin(d, k, t);
      OriginCell(b, d, k, t);
    }
  }

  /** Place t of line k is the cell `Origin(d, k, t)`, before the move and
      after it. */
  lemma OriginCell(b: Board, d: Direction, k: nat, t: nat)
    requires IsBoard(b) && k < Size && t < Size
    ensures var p := Origin(d, k, t);
            && Line(b, d, k)[t] == b[p.r][p.c]
            && SlideLine(Line(b, d, k)).cells[t] == Slided(b, d, p.r, p.c)
  {
    var p := Origin(d, k, t);
    LineAt(b, d, p.r, p.c);
  }

  /** The move in direction d leaves line k as it is. */
  predicate LineFixed(b: Board, d: Direction, k: nat)
    requires IsBoard(b) && k < Size
  {
    SlideLine(Line(b, d, k)).cells == Line(b, d, k)
  }

  /** A move whose every line is left as it is leaves the board as it is. */
  lemma FixedMove(b: Board, d: Direction)
    requires IsBoard(b)
    requires forall k :: 0 <= k < Size ==> LineFixed(b, d, k)
    ensures Move(b, d).board == b
  {
    var m := Move(b, d).board;
    forall i, j | 0 <= i < Size && 0 <= j < Size
      ensures m[i][j] == b[i][j]
    {
      FixedCell(b, d, i, j);
    }
    BoardExt(m, b);
  }

  /** A cell whose line the move leaves as it is keeps its value. */
  lemma FixedCell(b: Board, d: Direction, i: nat, j: nat)
    requires IsBoard(b) && i < Size && j < Size
    requires forall k :: 0 <= k < Size ==> LineFixed(b, d, k)
    ensures Move(b, d).board[i][j] == b[i][j]
  {
    LineAt(b, d, i, j);
    var k := LineOf(d, i, j);
    assert LineFixed(b, d, k);
    MoveAt(b, d, i, j);
  }

  /** A move leaves the board as it is exactly when each of its lines is left
      as it is. */
  lemma MoveFixed(b: Board, d: Direction)
    requires IsBoard(b)
    ensures Move(b, d).board == b <==> forall k :: 0 <= k < Size ==> LineFixed(b, d, k)
  {
    UnmovedCells(b, d);
    if Move(b, d).board == b {
      forall k | 0 <= k < Size
        ensures LineFixed(b, d, k)
      {
        MoveFixedLine(b, d, k);
      }
    }
    if forall k :: 0 <= k < Size ==> LineFixed(b, d, k) {
      FixedMove(b, d);
    }
  }

  predicate InGrid(i: int, j: int) {
    0 <= i < Size && 0 <= j < Size
  }

  /** Every cell holds a tile. */
  predicate Full(b: Board)
    requires IsBoard(b)
  {
    forall i, j :: 0 <= i < Size && 0 <= j < Size ==> b[i][j] != 0
  }

  predicate HasTile(b: Board)
    requires IsBoard(b)
  {
    exists i, j :: 0 <= i < Size && 0 <= j < Size && b[i][j] != 0
  }

  /** The tile below cell (i, j). */
  function Below(b: Board, i: nat, j: nat): nat
    requires IsBoard(b) && i < Size - 1 && j < Size
  {
    b[i + 1][j]
  }

  /** No empty cell and no two equal tiles side by side or one above the
      other: the condition `isGameOver` checks. */
  predicate GameOver(b: Board)
    requires IsBoard(b)
  {
    && Full(b)
    && (forall i, j :: 0 <= i < Size && 0 <= j < Size - 1 ==> b[i][j] != b[i][j + 1])
    && (forall i, j :: 0 <= i < Size - 1 && 0 <= j < Size ==> b[i][j] != Below(b, i, j))
  }

  /** `isGameOver` with its loops: first look for an empty cell row by row,
      then for a neighbour to the right or below with the same tile. */
  method CheckGameOver(b: Board) returns (over: bool)
    requires IsBoard(b)
    ensures over <==> GameOver(b)
  {
    var r := 0;
    while r < Size
      invariant 0 <= r <= Size
      invariant forall i, j :: 0 <= i < r && 0 <= j < Size ==> b[i][j] != 0
    {
      if 0 in b[r] {
        return false;
      }
      r := r + 1;
    }
    var i := 0;
    while i < Size
      invariant 0 <= i <= Size
      invariant forall p, q :: 0 <= p < i && 0 <= q < Size - 1 ==> b[p][q] != b[p][q + 1]
      invariant forall p, q :: 0 <= p < i && p < Size - 1 && 0 <= q < Size ==> b[p][q] != Below(b, p, q)
    {
      var j := 0;
      while j < Size
        invariant 0 <= j <= Size
        invariant forall q :: 0 <= q < j && q < Size - 1 ==> b[i][q] != b[i][q + 1]
        invariant forall q :: 0 <= q < j && i < Size - 1 ==> b[i][q] != Below(b, i, q)
      {
        var current := b[i][j];
        if j < Size - 1 && current == b[i][j + 1] {
          return false;
        }
        if i < Size - 1 && current == b[i + 1][j] {
          return false;
        }
        j := j + 1;
      }
      i := i + 1;
    }
    return true;
  }

  /** No move changes the board. */
  ghost predicate Stuck(b: Board)
    requires IsBoard(b)
  {
    forall d: Direction :: Move(b, d).board == b
  }

  lemma ReverseNoPair(f: Row)
    requires AllNonZero(f) && NoPair(f)
    ensures AllNonZero(Reverse(f)) && NoPair(Reverse(f))
  {
    var r := Reverse(f);
    forall i | 0 <= i < |r| - 1
      ensures r[i] != r[i + 1]
    {
      assert r[i] == f[|f| - 1 - i] && r[i + 1] == f[|f| - 1 - i - 1];
    }
  }

  /** A line of tiles without equal neighbours is left as it is. */
  lemma FixedWhenNoPair(l: Row)
    requires |l| == Size && AllNonZero(l) && NoPair(l)
    ensures SlideLine(l).cells == l
  {
    NonZeroExtremes(l);
    SlideFixed(l);
  }

  /** A line that is packed toward both ends is all tiles or all empty. */
  lemma PackedBothWays(l: Row)
    requires Packed(l) && Packed(Reverse(l))
    ensures AllNonZero(l) || AllZero(l)
  {
    var r := Reverse(l);
    forall i, j | 0 <= i < |l| && 0 <= j < |l| && l[i] == 0
      ensures l[j] == 0
    {
      if j < i {
        assert r[|l| - 1 - i] == 0;
        assert r[|l| - 1 - j] == l[j];
      }
    }
  }

  /** On a finished board every row and column is a line of tiles without
      equal neighbours. */
  lemma GameOverLines(b: Board, k: nat)
    requires IsBoard(b) && GameOver(b) && k < Size
    ensures AllNonZero(b[k]) && NoPair(b[k])
    ensures AllNonZero(Column(b, k)) && NoPair(Column(b, k))
  {
    var c := Column(b, k);
    forall i | 0 <= i < Size - 1
      ensures c[i] != c[i + 1]
    {
      assert b[i][k] != Below(b, i, k);
    }
  }

  /** On a finished board no line of any direction changes. */
  lemma GameOverLineFixed(b: Board, d: Direction, k: nat)
    requires IsBoard(b) && GameOver(b) && k < Size
    ensures SlideLine(Line(b, d, k)).cells == Line(b, d, k)
  {
    GameOverLines(b, k);
    ReverseNoPair(b[k]);
    ReverseNoPair(Column(b, k));
    FixedWhenNoPair(Line(b, d, k));
  }

  /** On a finished board no move changes anything. */
  lemma GameOverStuck(b: Board)
    requires IsBoard(b) && GameOver(b)
    ensures Stuck(b)
  {
    forall d: Direction
      ensures Move(b, d).board == b
    {
      forall k | 0 <= k < Size
        ensures LineFixed(b, d, k)
      {
        GameOverLineFixed(b, d, k);
      }
      FixedMove(b, d);
    }
  }

  /** A line that no slide changes in either direction is all tiles or all
      empty, with no equal neighbours among its tiles. */
  lemma FixedBothWays(l: Row)
    requires |l| == Size
    requires SlideLine(l).cells == l && SlideLine(Reverse(l)).cells == Reverse(l)
    ensures AllNonZero(l) || AllZero(l)
    ensures NoPair(NonZero(l))
  {
    SlideFixed(l);
    SlideFixed(Reverse(l));
    PackedBothWays(l);
  }

  /** On a stuck board each row is all tiles or all empty, with no equal
      neighbours among its tiles. */
  lemma StuckRow(b: Board, k: nat)
    requires IsBoard(b) && Stuck(b) && k < Size
    ensures AllNonZero(b[k]) || AllZero(b[k])
    ensures NoPair(NonZero(b[k]))
  {
    assert Move(b, Left).board == b;
    assert Move(b, Right).board == b;
    UnmovedCells(b, Left);
    UnmovedCells(b, Right);
    MoveFixedLine(b, Left, k);
    MoveFixedLine(b, Right, k);
    FixedBothWays(b[k]);
  }

  /** The same for each column. */
  lemma StuckColumn(b: Board, k: nat)
    requires IsBoard(b) && Stuck(b) && k < Size
    ensures AllNonZero(Column(b, k)) || AllZero(Column(b, k))
    ensures NoPair(NonZero(Column(b, k)))
  {
    assert Move(b, Up).board == b;
    assert Move(b, Down).board == b;
    UnmovedCells(b, Up);
    UnmovedCells(b, Down);
    MoveFixedLine(b, Up, k);
    MoveFixedLine(b, Down, k);
    FixedBothWays(Column(b, k));
  }

  /** A stuck board with a tile on it is finished. */
  lemma StuckGameOver(b: Board)
    requires IsBoard(b) && Stuck(b) && HasTile(b)
    ensures GameOver(b)
  {
    var i0, j0 :| 0 <= i0 < Size && 0 <= j0 < Size && b[i0][j0] != 0;
    StuckRow(b, i0);
    forall j | 0 <= j < Size
      ensures AllNonZero(Column(b, j)) && NoPair(Column(b, j))
    {
      StuckColumn(b, j);
      assert Column(b, j)[i0] == b[i0][j];
      NonZeroExtremes(Column(b, j));
    }
    forall i | 0 <= i < Size
      ensures AllNonZero(b[i]) && NoPair(b[i])
    {
      StuckRow(b, i);
      assert Column(b, 0)[i] == b[i][0];
      NonZeroExtremes(b[i]);
    }
    forall i, j | 0 <= i < Size - 1 && 0 <= j < Size
      ensures b[i][j] != Below(b, i, j)
    {
      assert Column(b, j)[i] == b[i][j] && Column(b, j)[i + 1] == b[i + 1][j];
    }
  }

  /** `isGameOver` holds exactly when no move can change a board that has a
      tile on it. */
  lemma GameOverIffStuck(b: Board)
    requires IsBoard(b) && HasTile(b)
    ensures GameOver(b) <==> Stuck(b)
  {
    if GameOver(b) {
      GameOverStuck(b);
    }
    if Stuck(b) {
      StuckGameOver(b);
    }
  }

  /** A position on the board, row then column. */
  datatype Pos = Pos(r: nat, c: nat)

  /** Empty cells of row i from column j on, left to right. */
  function EmptyInRow(b: Board, i: nat, j: nat): (e: seq<Pos>)
    requires IsBoard(b) && i < Size && j <= Size
    ensures forall p :: p in e <==> p.r == i && j <= p.c < Size && b[i][p.c] == 0
    decreases Size - j
  {
    if j == Size then []
    else (if b[i][j] == 0 then [Pos(i, j)] else []) + EmptyInRow(b, i, j + 1)
  }

  /** Empty cells from row i down, in row-major order. */
  function EmptyFrom(b: Board, i: nat): (e: seq<Pos>)
    requires IsBoard(b) && i <= Size
    ensures forall p :: p in e <==> i <= p.r < Size && p.c < Size && b[p.r][p.c] == 0
    decreases Size - i
  {
    if i == Size then [] else EmptyInRow(b, i, 0) + EmptyFrom(b, i + 1)
  }

  /** The `emptyCells` list: exactly the empty cells. */
  function EmptyCells(b: Board): (e: seq<Pos>)
    requires IsBoard(b)
    ensures forall p :: p in e <==> InGrid(p.r, p.c) && b[p.r][p.c] == 0
  {
    EmptyFrom(b, 0)
  }

  /** Tile count of a board. */
  function Tiles(b: Board): nat
    requires IsBoard(b)
  {
    |NonZero(b[0])| + |NonZero(b[1])| + |NonZero(b[2])| + |NonZero(b[3])|
  }

  lemma {:induction false} NonZeroUpdate(row: Row, j: nat, v: nat)
    requires j < |row| && row[j] == 0 && v != 0
    ensures |NonZero(row[j := v])| == |NonZero(row)| + 1
  {
    if j > 0 {
      assert row[j := v][1..] == row[1..][j - 1 := v];
      NonZeroUpdate(row[1..], j - 1, v);
    } else {
      assert row[j := v][1..] == row[1..];
    }
  }

  /** The cell `addNewTile` fills: the entry of `emptyCells` that the draw
      `u` selects, none when the board is full. */
  function SpawnCell(b: Board, u: real): (p: Option<Pos>)
    requires IsBoard(b) && 0.0 <= u < 1.0
    ensures p.None? <==> Full(b)
    ensures p.Some? ==> InGrid(p.value.r, p.value.c) && b[p.value.r][p.value.c] == 0
  {
    var e := EmptyCells(b);
    if |e| == 0 then
      assert Full(b) by {
        forall i, j | InGrid(i, j)
          ensures b[i][j] != 0
        {
          assert Pos(i, j) !in e;
        }
      }
      None
    else
      var p := e[RandomIndex(u, |e|)];
      assert p in e;
      Some(p)
  }

  /** The new tile: 2 when the draw `w` is below 0.9, otherwise 4. */
  function SpawnValue(w: real): (v: nat)
    ensures v == 2 || v == 4
    ensures v == 2 <==> w < 0.9
  {
    if w < 0.9 then 2 else 4
  }

  /** The board with cell p set to v, every other cell as it was. */
  function SetCell(b: Board, p: Pos, v: nat): (nb: Board)
    requires IsBoard(b) && InGrid(p.r, p.c)
    ensures IsBoard(nb)
    ensures nb[p.r] == b[p.r][p.c := v]
    ensures forall i :: 0 <= i < Size && i != p.r ==> nb[i] == b[i]
  {
    var row: Row := b[p.r][p.c := v];
    b[p.r := row]
  }

  /** `addNewTile`: the drawn empty cell gets the drawn tile; a full board is
      left alone. */
  function AddTile(b: Board, u: real, w: real): (nb: Board)
    requires IsBoard(b) && 0.0 <= u < 1.0
    ensures IsBoard(nb)
    ensures Full(b) ==> nb == b
    ensures !Full(b) ==>
      var p := SpawnCell(b, u).value;
      && b[p.r][p.c] == 0
      && nb[p.r] == b[p.r][p.c := SpawnValue(w)]
      && forall i :: 0 <= i < Size && i != p.r ==> nb[i] == b[i]
  {
    match SpawnCell(b, u)
    case None => b
    case Some(p) => SetCell(b, p, SpawnValue(w))
  }

  /** A spawn on a board with room adds exactly one tile. */
  lemma AddTileCount(b: Board, u: real, w: real)
    requires IsBoard(b) && 0.0 <= u < 1.0 && !Full(b)
    ensures Tiles(AddTile(b, u, w)) == Tiles(b) + 1
  {
    var p := SpawnCell(b, u).value;
    NonZeroUpdate(b[p.r], p.c, SpawnValue(w));
  }

  function EmptyBoard(): (b: Board)
    ensures IsBoard(b) && AllZero(b[0]) && AllZero(b[1]) && AllZero(b[2]) && AllZero(b[3])
  {
    seq(Size, _ => Zeros(Size))
  }

  /** `initBoard`: an empty board with two spawns. */
  function InitBoard(u1: real, w1: real, u2: real, w2: real): (b: Board)
    requires 0.0 <= u1 < 1.0 && 0.0 <= u2 < 1.0
    ensures IsBoard(b)
  {
    AddTile(AddTile(EmptyBoard(), u1, w1), u2, w2)
  }

  /** A fresh board holds exactly two tiles. */
  lemma InitBoardTiles(u1: real, w1: real, u2: real, w2: real)
    requires 0.0 <= u1 < 1.0 && 0.0 <= u2 < 1.0
    ensures Tiles(InitBoard(u1, w1, u2, w2)) == 2
  {
    var e := EmptyBoard();
    EmptyBoardTiles();
    AddTileCount(e, u1, w1);
    var b1 := AddTile(e, u1, w1);
    assert Tiles(b1) == 1;
    FullTiles(b1);
    assert !Full(b1);
    AddTileCount(b1, u2, w2);
  }

  lemma EmptyBoardTiles()
    ensures Tiles(EmptyBoard()) == 0 && !Full(EmptyBoard())
  {
    var e := EmptyBoard();
    assert e[0][0] == 0;
    NonZeroExtremes(e[0]);
    NonZeroExtremes(e[1]);
    NonZeroExtremes(e[2]);
    NonZeroExtremes(e[3]);
  }

  /** A full board has a tile in each of its sixteen cells. */
  lemma FullTiles(b: Board)
    requires IsBoard(b)
    ensures Full(b) ==> Tiles(b) == Size * Size
  {
    if Full(b) {
      forall i | 0 <= i < Size
        ensures NonZero(b[i]) == b[i]
      {
        assert AllNonZero(b[i]);
        NonZeroExtremes(b[i]);
      }
    }
  }

  /** The component's state. */
  datatype Game = Game(board: Board, score: nat, best: nat, moves: nat, over: bool)

  predicate Valid(g: Game) {
    IsBoard(g.board) && g.score <= g.best
  }

  /** `resetGame`: a fresh board, score and moves back to zero; the best score
      survives. */
  function Reset(g: Game, u1: real, w1: real, u2: real, w2: real): (ng: Game)
    requires 0.0 <= u1 < 1.0 && 0.0 <= u2 < 1.0
    ensures ng.score == 0 && ng.moves == 0 && !ng.over && ng.best == g.best
    ensures Valid(ng)
  {
    Game(InitBoard(u1, w1, u2, w2), 0, g.best, 0, false)
  }

  /** A key press: the new state and, when the game ends, the score handed to
      `onGameOver`. */
  datatype Step = Step(game: Game, finished: Option<nat>)

  /** `move(direction)` with its spawn and bookkeeping. */
  function Play(g: Game, d: Direction, u: real, w: real): (s: Step)
    requires Valid(g) && 0.0 <= u < 1.0
    ensures Valid(s.game)
    ensures s.game.score >= g.score && s.game.best >= g.best
    ensures g.over ==> s == Step(g, None)
    ensures !g.over && Move(g.board, d).board == g.board ==> s == Step(g, None)
    ensures !g.over && Move(g.board, d).board != g.board ==>
      && s.game.board == AddTile(Move(g.board, d).board, u, w)
      && s.game.score == g.score + Move(g.board, d).gained
      && s.game.moves == g.moves + 1
      && s.game.best == MaxI(g.best, s.game.score)
      && (s.game.over <==> GameOver(s.game.board))
      && (s.finished.Some? <==> s.game.over)
      && (s.finished.Some? ==> s.finished.value == s.game.score)
  {
    if g.over then Step(g, None)
    else
      var m := Move(g.board, d);
      if m.board == g.board then Step(g, None)
      else
        var nb := AddTile(m.board, u, w);
        var score := g.score + m.gained;
        var best := if score > g.best then score else g.best;
        var over := GameOver(nb);
        Step(Game(nb, score, best, g.moves + 1, over), if over then Some(score) else None)
  }

  /** The OPTIK reward shown for a score: `Math.floor(score / 10)`. */
  function Reward(score: nat): (r: nat)
    ensures 10 * r <= score < 10 * r + 10
  {
    score / 10
  }

  /** Sliding [2, 2, 2, 2] left makes two 4s, not one 8. */
  lemma SlideExampleFourTwos()
    ensures SlideLine([2, 2, 2, 2]) == Slid([4, 4, 0, 0], 8)
  {
    assert NonZero([2, 2, 2, 2]) == [2, 2, 2, 2];
    assert [2, 2, 2, 2][2..] == [2, 2];
    assert Merge([2, 2]) == Slid([4], 4);
    assert Merge([2, 2, 2, 2]) == Slid([4, 4], 8);
  }

  /** A tile made by a merge does not merge again in the same move. */
  lemma SlideExampleNoChain()
    ensures SlideLine([2, 2, 4, 0]) == Slid([4, 4, 0, 0], 4)
  {
    assert [2, 2, 4, 0][1..] == [2, 4, 0];
    assert [2, 4, 0][1..] == [4, 0];
    assert [4, 0][1..] == [0];
    assert NonZero([2, 2, 4, 0]) == [2, 2, 4];
    assert [2, 2, 4][2..] == [4];
    assert Merge([2, 2, 4]) == Slid([4, 4], 4);
  }
}

=== FILE: homepage.dfy ===
/** The home page (app/page.tsx; the root page.tsx is the same component):
    the launch form with its cost breakdown, and the OPTIK GPT chat panel
    that talks to /api/optik-gpt. Clocks (message ids), scrolling and
    rendering are left out. */
module HomePage {
  import opened Basics
  import opened Text
  import MemecoinPricing
  import RevenueCalculator
  import OptikGptRoute

  /** The launch form; `liquiditySOL` is already a number. */
  datatype Form = Form(name: string, symbol: string, description: string, totalSupply: string, liquiditySOL: real)

  const InitialForm: Form := Form("", "", "", "1000000000", 1.0)

  /** The tier the page prices; nothing on the page changes it. */
  const SelectedTier: MemecoinPricing.TierName := MemecoinPricing.Standard

  /** `NEXT_PUBLIC_OPTIKCOIN_MINT || 'Coming Soon'`. */
  function ContractAddress(mint: Option<string>): (s: string)
    ensures Present(mint) ==> s == mint.value
    ensures !Present(mint) ==> s == "Coming Soon"
  {
    if Present(mint) then mint.value else "Coming Soon"
  }

  /** The symbol input: `maxLength` 10, upper-cased on change. */
  function EditSymbol(f: Form, typed: string): (g: Form)
    ensures |g.symbol| <= 10
    ensures forall i :: 0 <= i < |g.symbol| ==> !('a' <= g.symbol[i] <= 'z')
    ensures g == f.(symbol := g.symbol)
  {
    f.(symbol := ToUpper(Take(typed, 10)))
  }

  /** The liquidity input: `parseFloat(value) || 0`, with `parsed` the
      parse (`None` for NaN). */
  function EditLiquidity(f: Form, parsed: Option<real>): (g: Form)
    ensures g == f.(liquiditySOL := g.liquiditySOL)
    ensures parsed.None? ==> g.liquiditySOL == 0.0
    ensures parsed.Some? ==> g.liquiditySOL == parsed.value
  {
    f.(liquiditySOL := OrZero(parsed))
  }

  /** "Launch Token" is enabled once name and symbol are filled; the form's
      submit handler only prevents the default, so pressing it changes
      nothing. */
  predicate LaunchEnabled(f: Form) {
    f.name != "" && f.symbol != ""
  }

  datatype Cost = Cost(launchFee: real, liquidity: real, platformFee: real, total: real)

  /** The cost breakdown: the tier's SOL price, the liquidity, and 2.5% of
      the price. */
  function CostOf(t: MemecoinPricing.TierName, f: Form): (c: Cost)
    ensures c.launchFee == MemecoinPricing.TierOf(t).priceSOL && c.liquidity == f.liquiditySOL
    ensures c.platformFee * 40.0 == c.launchFee
    ensures c.total == c.launchFee + c.liquidity + c.platformFee
    ensures c.total == c.launchFee * 1.025 + f.liquiditySOL
  {
    var price := MemecoinPricing.TierOf(t).priceSOL;
    var fee := (price * 2.5) / 100.0;
    Cost(price, f.liquiditySOL, fee, price + f.liquiditySOL + fee)
  }

  /** The SOL the page quotes beyond liquidity is, at $200 per SOL, the
      launch total the revenue calculator books. */
  lemma CostMatchesRevenue(t: RevenueCalculator.LaunchTier, f: Form)
    ensures var c := CostOf(RevenueCalculator.AsTier(t), f);
            (c.launchFee + c.platformFee) * MemecoinPricing.SolUsd == RevenueCalculator.LaunchRevenueOf(t).total
  {
  }

  /** The opening quote: 2.5 SOL for the standard launch, 1 SOL liquidity,
      0.0625 SOL fee. */
  lemma InitialQuote()
    ensures CostOf(SelectedTier, InitialForm) == Cost(2.5, 1.0, 0.0625, 3.5625)
  {
  }

  const GreetingHead: string := "I am OPTIK GPT. I will help you create a successful "
  const Greeting: string := GreetingHead + "memecoin" + ". What are you thinking of launching?"

  /** The chat panel: its messages (as the route receives them), the input
      line and whether a reply is awaited. */
  datatype Chat = Chat(messages: seq<OptikGptRoute.Turn>, input: string, loading: bool)

  const InitialChat: Chat := Chat([OptikGptRoute.Turn("optik", Greeting)], "", false)

  /** The body `sendToGPT` posts. */
  datatype GptRequest = GptRequest(message: string, history: seq<OptikGptRoute.Turn>, userWallet: string, form: Form)

  /** How the request ended: parsed JSON with its `response` field, or a
      thrown fetch or parse. */
  datatype GptResult = Answered(response: Option<string>) | ConnectionError

  predicate CanSend(c: Chat) {
    Trim(c.input) != "" && !c.loading
  }

  /** The request for the current input: the history is the panel as it was
      before the new message, and the wallet falls back to `demo`. */
  function Request(c: Chat, publicKey: Option<string>, f: Form): (r: GptRequest)
    ensures r.message == c.input && r.history == c.messages
    ensures Present(publicKey) ==> r.userWallet == publicKey.value
    ensures !Present(publicKey) ==> r.userWallet == "demo"
  {
    GptRequest(c.input, c.messages, if Present(publicKey) then publicKey.value else "demo", f)
  }

  /** The text shown for a reply. */
  function ReplyText(result: GptResult): (s: string)
    ensures s != ""
    ensures result.Answered? && Present(result.response) ==> s == result.response.value
    ensures result.Answered? && !Present(result.response) ==> s == "Error. Try again."
    ensures result.ConnectionError? ==> s == "Connection error. Please try again."
  {
    match result
    case Answered(r) => if Present(r) then r.value else "Error. Try again."
    case ConnectionError => "Connection error. Please try again."
  }

  /** `sendToGPT` from press to `finally`: a blank input or a pending reply
      is ignored; otherwise the user's line and the reply are appended. */
  function Send(c: Chat, result: GptResult): (d: Chat)
    ensures !CanSend(c) ==> d == c
    ensures CanSend(c) ==>
      && d.messages == c.messages + [OptikGptRoute.Turn("user", c.input), OptikGptRoute.Turn("optik", ReplyText(result))]
      && d.input == "" && !d.loading
  {
    if !CanSend(c) then c
    else Chat(c.messages + [OptikGptRoute.Turn("user", c.input), OptikGptRoute.Turn("optik", ReplyText(result))], "", false)
  }

  /** The panel only ever holds the page's two roles, both of which the
      route forwards. */
  predicate Wellformed(c: Chat) {
    |c.messages| > 0 && c.messages[0] == OptikGptRoute.Turn("optik", Greeting)
    && forall i :: 0 <= i < |c.messages| ==> c.messages[i].role in {"user", "optik"}
  }

  lemma SendKeepsWellformed(c: Chat, result: GptResult)
    requires Wellformed(c)
    ensures Wellformed(Send(c, result))
  {
  }

  /** Every message the panel sends as history reaches the model, text
      unchanged. */
  lemma HistoryForwardedWhole(c: Chat, publicKey: Option<string>, f: Form)
    requires Wellformed(c)
    ensures var h := Request(c, publicKey, f).history;
            |OptikGptRoute.Forwarded(h)| == |h|
            && forall i :: 0 <= i < |h| ==> OptikGptRoute.Forwarded(h)[i].content == h[i].content
  {
    OptikGptRoute.ForwardedKeepsAll(c.messages);
  }

  /** In demo mode, a first question whose opening words occur in the
      greeting is answered as already covered. */
  lemma GreetingCoversMemecoin()
    ensures OptikGptRoute.Demo("memecoin", InitialChat.messages) == OptikGptRoute.AlreadyCovered
  {
    var lower := ToLower("memecoin");
    LowerWord();
    GreetingMentions();
    ContainsSpec(ToLower(Greeting), "memecoin");
    assert OptikGptRoute.Answered(InitialChat.messages, lower) by {
      assert InitialChat.messages[0].role == "optik";
      assert Take(lower, 20) == "memecoin";
    }
    NoMore();
  }

  lemma LowerWord()
    ensures ToLower("memecoin") == "memecoin"
  {
  }

  /** The lower-cased greeting holds "memecoin" right after its head. */
  lemma GreetingMentions()
    ensures OccursAt(ToLower(Greeting), "memecoin", |GreetingHead|)
  {
    var n := |GreetingHead|;
    assert Greeting[n..n + 8] == "memecoin";
    var g := ToLower(Greeting);
    forall k | 0 <= k < 8 ensures g[n + k] == "memecoin"[k] {
      assert Greeting[n + k] == "memecoin"[k];
    }
    assert g[n..n + 8] == "memecoin";
  }

  lemma NoMore()
    ensures !Contains("memecoin", "more")
  {
    ContainsSpec("memecoin", "more");
    var w := "memecoin";
    forall i ensures !OccursAt(w, "more", i) {
      if 0 <= i <= 4 {
        assert w[i..i + 4][0] == w[i] && w[i..i + 4][1] == w[i + 1];
        assert w[i] != 'm' || w[i + 1] != 'o';
      }
    }
  }
}

=== FILE: http.dfy ===
/** The shape of a route handler's answer: an error object with an HTTP
    status (`NextResponse.json({ error }, { status })`) or a 200 body. */
module Http {

  datatype Reply<T> = Fail(status: nat, error: string) | Ok(body: T)
  {
    /** The HTTP status the client sees. */
    function Status(): nat {
      match this
      case Fail(status, _) => status
      case Ok(_) => 200
    }
  }

  const BadRequest: nat := 400
  const Unauthorized: nat := 401
  const Forbidden: nat := 403
  const NotFound: nat := 404
  const TooManyRequests: nat := 429
  const ServerError: nat := 500
}

=== FILE: launchpad.dfy ===
/** The launch page (app/launchpad/create/page.tsx): details → review and
    pay → deploy → complete, with a deployment status beside the step. The
    page's requests are modelled by the routes they reach; the wallet, the
    Stripe session, the chain and the deploy route's answer are parameters. */
module LaunchpadPage {
  import opened Basics
  import opened Http
  import PaymentCheckout
  import MemecoinCreateRoute
  import TokenForm
  import Routes
  import Text

  datatype Status = Idle | Creating | Paying | Deploying | Success | Error

  /** `tokenData`: the fields the page passes on. */
  datatype TokenData = TokenData(name: string, symbol: string, description: string,
                                 image: Option<string>, decimals: Option<nat>, supply: Option<real>)

  const InitialData: TokenData := TokenData("", "", "", Some(""), Some(9), Some(1000000.0))

  datatype State = State(step: nat, data: TokenData, status: Status, mint: Option<string>,
                         signature: Option<string>, error: Option<string>, redirect: Option<string>)

  const Initial: State := State(1, InitialData, Idle, None, None, None, None)

  /** What `JSON.stringify` makes of a chosen `File`: it has no own
      enumerable fields, so it arrives as the object `{}`, written here as
      its text. It is truthy, so the create route takes it as the image. */
  const FileAsJson: string := "{}"

  /** The form's decimals text as the create route computes with it: a
      run of digits is its value; any other text is left out. */
  function DecimalsOf(s: string): (d: Option<nat>)
    ensures d.Some? <==> |s| > 0 && forall i :: 0 <= i < |s| ==> '0' <= s[i] <= '9'
    ensures d.Some? ==> d.value == Text.DigitsValue(s)
  {
    if |s| > 0 && forall i :: 0 <= i < |s| ==> '0' <= s[i] <= '9' then Some(Text.DigitsValue(s)) else None
  }

  /** The data the form hands over, as the page later spreads it into the
      create request. The form names its supply `totalSupply`, which the
      create route does not read, so the request carries no supply. */
  function FromForm(f: TokenForm.Form): (d: TokenData)
    ensures d.name == f.name && d.symbol == f.symbol && d.description == f.description
    ensures d.image.Some? <==> f.image.Some?
    ensures f.image.Some? ==> d.image == Some(FileAsJson)
    ensures d.decimals == DecimalsOf(f.decimals)
    ensures d.supply.None?
  {
    TokenData(f.name, f.symbol, f.description, if f.image.Some? then Some(FileAsJson) else None,
              DecimalsOf(f.decimals), None)
  }

  /** `handleTokenCreate`, reached from the form shown on step 1: keep the
      data and go to review. */
  function Submit(s: State, f: TokenForm.Form): (t: State)
    ensures s.step == 1 ==> t == s.(data := FromForm(f), step := 2)
    ensures s.step != 1 ==> t == s
  {
    if s.step == 1 then s.(data := FromForm(f), step := 2) else s
  }

  const ConnectFirst: string := "Please connect your wallet first"
  const PaymentFailed: string := "Failed to initiate payment. Please try again."

  /** What `handlePayment` does with the checkout route's answer: follow a
      session URL, or record the failure. */
  function AfterCheckout(s: State, reply: Reply<PaymentCheckout.StripeAnswer>): (t: State)
    ensures t.step == s.step && t.data == s.data
    ensures t.status == Paying <==> reply.Ok? && reply.body.Created? && reply.body.url != ""
    ensures t.status == Paying ==> t.redirect == Some(reply.body.url) && t.error.None?
    ensures t.status != Paying ==> t.status == Error && t.error == Some(PaymentFailed)
  {
    if reply.Ok? && reply.body.Created? && reply.body.url != "" then
      s.(status := Paying, error := None, redirect := Some(reply.body.url))
    else s.(status := Error, error := Some(PaymentFailed))
  }

  /** The body the page posts: `amount`, name and symbol, but no tier, no
      wallet and no liquidity. */
  function PaymentBodyAsWritten(d: TokenData): (b: PaymentCheckout.Body)
    ensures b.tier.None? && b.liquiditySOL.None?
  {
    PaymentCheckout.Body(None, None, Some(d.name), Some(d.symbol), None)
  }

  /** "Pay & Continue" as written, shown on step 2 and disabled while
      paying. */
  function PayAsWritten(s: State, wallet: Option<string>, stripe: PaymentCheckout.StripeAnswer): (t: State)
    ensures s.step != 2 || s.status == Paying ==> t == s
    ensures s.step == 2 && s.status != Paying && wallet.None? ==> t == s.(error := Some(ConnectFirst))
  {
    if s.step != 2 || s.status == Paying then s
    else if wallet.None? then s.(error := Some(ConnectFirst))
    else AfterCheckout(s, PaymentCheckout.Checkout(PaymentBodyAsWritten(s.data), stripe).reply)
  }

  /** Whatever Stripe would do, the route refuses the tierless body and the
      page lands in `error`. */
  lemma PaymentAlwaysFails(s: State, wallet: string, stripe: PaymentCheckout.StripeAnswer)
    requires s.step == 2 && s.status != Paying
    ensures PayAsWritten(s, Some(wallet), stripe).status == Error
    ensures PayAsWritten(s, Some(wallet), stripe).redirect == s.redirect
  {
    assert PaymentCheckout.ParseTier(None).None?;
  }

  /** The body the route reads, as evidently intended: a tier it prices
      (the basic launch), the wallet and the liquidity. */
  function PaymentBody(d: TokenData, wallet: string, liquiditySOL: real): (b: PaymentCheckout.Body)
    ensures PaymentCheckout.ParseTier(b.tier).Some? && b.liquiditySOL.Some?
    ensures b.tokenName == Some(d.name) && b.creatorWallet == Some(wallet)
  {
    PaymentCheckout.Body(Some("BASIC"), Some(wallet), Some(d.name), Some(d.symbol), Some(liquiditySOL))
  }

  /** "Pay & Continue" with the intended body. */
  function Pay(s: State, wallet: Option<string>, liquiditySOL: real, stripe: PaymentCheckout.StripeAnswer): (t: State)
    ensures s.step != 2 || s.status == Paying ==> t == s
    ensures s.step == 2 && s.status != Paying && wallet.None? ==> t == s.(error := Some(ConnectFirst))
    ensures t.step == s.step && t.data == s.data
  {
    if s.step != 2 || s.status == Paying then s
    else if wallet.None? then s.(error := Some(ConnectFirst))
    else AfterCheckout(s, PaymentCheckout.Checkout(PaymentBody(s.data, wallet.value, liquiditySOL), stripe).reply)
  }

  /** With the intended body a created session is followed. */
  lemma PaymentRedirects(s: State, wallet: string, liquiditySOL: real, id: string, url: string)
    requires s.step == 2 && s.status != Paying && url != ""
    ensures var t := Pay(s, Some(wallet), liquiditySOL, PaymentCheckout.Created(id, url));
            t.status == Paying && t.redirect == Some(url)
  {
  }

  /** What the deploy route (`memecoin/deploy`, not part of this model)
      answers. */
  datatype DeployAnswer = Deployed(mint: string, signature: string) | DeployFailed(message: string)

  /** Everything outside the page that a deployment depends on. */
  datatype Chain = Chain(validKey: bool, mint: string, rent: nat, blockhash: string, rpcFails: bool,
                         phantom: bool, deployed: DeployAnswer)

  /** The create request `{...tokenData, creatorWallet}`: every field of
      the token data and the creator's wallet. */
  function CreateRequest(d: TokenData, wallet: string): (r: MemecoinCreateRoute.Request)
    ensures r.name == Some(d.name) && r.symbol == Some(d.symbol) && r.creatorWallet == Some(wallet)
    ensures r.description == Some(d.description) && r.image == d.image
    ensures r.decimals == d.decimals && r.supply == d.supply
  {
    MemecoinCreateRoute.Request(Some(d.name), Some(d.symbol), Some(d.description), d.image, d.decimals, d.supply, Some(wallet))
  }

  /** A launch from the form mints the route's default supply at the form's
      decimals, whatever total supply the form shows, and a chosen file
      becomes the image. */
  lemma FormReachesRoute(f: TokenForm.Form, wallet: string, validKey: bool, mint: string, rent: nat, blockhash: string)
    requires DecimalsOf(f.decimals).Some?
    ensures var r := MemecoinCreateRoute.Post(CreateRequest(FromForm(f), wallet), validKey, mint, rent, blockhash, false);
      r.Ok? ==>
        && r.body.metadata.decimals == Text.DigitsValue(f.decimals)
        && r.body.metadata.supply == MemecoinCreateRoute.BaseUnits(MemecoinCreateRoute.DefaultSupply, Text.DigitsValue(f.decimals))
        && (f.image.Some? ==> r.body.metadata.image == FileAsJson)
  {
  }

  /** The Deploy button: shown on step 3 until success, enabled only while
      idle with a connected wallet. */
  predicate DeployEnabled(s: State, connected: bool) {
    s.step == 3 && s.status == Idle && connected
  }

  /** `handleDeploy` as written: the create request goes to
      `/api/incoin/create`, which no route serves, so reading its answer as
      JSON throws (`jsonError` is the parser's message). */
  function DeployAsWritten(s: State, connected: bool, wallet: Option<string>, jsonError: string): (t: State)
    ensures !DeployEnabled(s, connected) ==> t == s
    ensures DeployEnabled(s, connected) && wallet.None? ==> t == s.(error := Some(ConnectFirst))
    ensures DeployEnabled(s, connected) && wallet.Some? ==> t == s.(status := Error, error := Some(jsonError))
  {
    if !DeployEnabled(s, connected) then s
    else if wallet.None? then s.(error := Some(ConnectFirst))
    else s.(status := Error, error := Some(jsonError))
  }

  /** The path the page posts its create request to. */
  lemma CreatePathMissing()
    ensures "/api/incoin/create" !in Routes.Api && "/api/incoin/deploy" !in Routes.Api
    ensures Routes.MemecoinCreate in Routes.Api && Routes.MemecoinDeploy in Routes.Api
  {
  }

  /** `handleDeploy` with the create route it evidently means. */
  function Deploy(s: State, connected: bool, wallet: Option<string>, c: Chain): (t: State)
    ensures !DeployEnabled(s, connected) ==> t == s
    ensures DeployEnabled(s, connected) && wallet.None? ==> t == s.(error := Some(ConnectFirst))
    ensures DeployEnabled(s, connected) && wallet.Some? ==>
      (t.status == Success <==> MemecoinCreateRoute.Post(CreateRequest(s.data, wallet.value), c.validKey, c.mint, c.rent, c.blockhash, c.rpcFails).Ok?
                                && c.phantom && c.deployed.Deployed?)
    ensures t.status == Success && t != s ==> t.step == 4 && t.mint == Some(c.deployed.mint) && t.signature == Some(c.deployed.signature)
    ensures DeployEnabled(s, connected) && wallet.Some? && t.status != Success ==> t.status == Error && t.step == 3 && t.error.Some? && t.error.value != ""
  {
    if !DeployEnabled(s, connected) then s
    else if wallet.None? then s.(error := Some(ConnectFirst))
    else
      var created := MemecoinCreateRoute.Post(CreateRequest(s.data, wallet.value), c.validKey, c.mint, c.rent, c.blockhash, c.rpcFails);
      if created.Fail? then s.(status := Error, error := Some(if created.error != "" then created.error else "Failed to create token"))
      else if !c.phantom then s.(status := Error, error := Some("Phantom wallet not found"))
      else match c.deployed
        case Deployed(m, sig) => s.(status := Success, step := 4, mint := Some(m), signature := Some(sig), error := None)
        case DeployFailed(msg) => s.(status := Error, error := Some(if msg != "" then msg else "Failed to deploy token"))
  }

  /** Details missing from the data stop the deployment at the create
      route, with its message. */
  lemma DeployNeedsDetails(s: State, wallet: string, c: Chain)
    requires DeployEnabled(s, true) && s.data.description == ""
    ensures Deploy(s, true, Some(wallet), c).error == Some("Name, symbol, description, and creator wallet are required")
  {
  }

  /** "Back", shown strictly between the first and the last step. */
  function Back(s: State): (t: State)
    ensures 1 < s.step < 4 ==> t == s.(step := s.step - 1)
    ensures !(1 < s.step < 4) ==> t == s
  {
    if 1 < s.step < 4 then s.(step := s.step - 1) else s
  }

  /** "Create Another Token", shown on step 4: everything back to the
      start. */
  function Reset(s: State): (t: State)
    ensures s.step == 4 ==> t == Initial
    ensures s.step != 4 ==> t == s
  {
    if s.step == 4 then Initial else s
  }

  datatype Event =
    | FormSubmitted(form: TokenForm.Form)
    | PayPressed(payer: Option<string>, liquiditySOL: real, stripe: PaymentCheckout.StripeAnswer)
    | DeployPressed(connected: bool, deployer: Option<string>, chain: Chain)
    | BackPressed
    | ResetPressed

  function Step(s: State, e: Event): State {
    match e
    case FormSubmitted(f) => Submit(s, f)
    case PayPressed(w, l, st) => Pay(s, w, l, st)
    case DeployPressed(on, w, c) => Deploy(s, on, w, c)
    case BackPressed => Back(s)
    case ResetPressed => Reset(s)
  }

  function Run(s: State, es: seq<Event>): State
    decreases |es|
  {
    if |es| == 0 then s else Run(Step(s, es[0]), es[1..])
  }

  /** No event moves the page to step 3: paying leaves the page for Stripe
      and the page it returns to starts again at step 1, since the step in
      the return URL is never read. So from a fresh page the Deploy button
      is never shown. */
  lemma {:induction false} StepThreeUnreachable(s: State, es: seq<Event>)
    requires s.step == 1 || s.step == 2
    ensures Run(s, es).step == 1 || Run(s, es).step == 2
    decreases |es|
  {
    if |es| > 0 {
      var t := Step(s, es[0]);
      assert t.step == 1 || t.step == 2;
      StepThreeUnreachable(t, es[1..]);
    }
  }

  /** Back from review keeps the submitted data. */
  lemma BackKeepsData(s: State, f: TokenForm.Form)
    requires s.step == 1
    ensures var t := Back(Submit(s, f));
            t.step == 1 && t.data == FromForm(f)
  {
  }
}

=== FILE: leaderboard.dfy ===
/** /api/leaderboard (app/api/leaderboard/route.ts): GET ranks the rows the
    database returns for the chosen sort column, falling back to a fixed
    board on a database error; POST upserts a trader's totals. The
    database's ordering and limit are its own: the rows it answers with
    are a parameter, and `SortedEntries` shows the ranking keeps their
    order. Each avatar is `Math.random()`'s pick, the draw for row `i`
    being `draw(i)`. */
module Leaderboard {
  import opened Basics
  import opened Http
  import opened Text
  import opened StatsTable

  /** The `order` column for the `type` parameter (`pnl` when absent). */
  function SortColumn(kind: Option<string>): (c: Column)
    ensures c == TotalPnl <==> !Present(kind) || kind == Some("pnl")
    ensures c == TotalVolume <==> kind == Some("volume")
    ensures c == WinRate <==> Present(kind) && kind != Some("pnl") && kind != Some("volume")
  {
    var k := if Present(kind) then kind.value else "pnl";
    if k == "pnl" then TotalPnl else if k == "volume" then TotalVolume else WinRate
  }

  const DefaultLimit: nat := 50

  /** The query the route sends: descending on one column, at most `limit`
      rows. */
  datatype Query = Query(column: Column, limit: nat)

  function QueryOf(kind: Option<string>, limit: Option<nat>): (q: Query)
    ensures q.column == SortColumn(kind)
    ensures q.limit == if limit.Some? then limit.value else DefaultLimit
  {
    Query(SortColumn(kind), if limit.Some? then limit.value else DefaultLimit)
  }

  /** One board line; `wallet` is absent from the fixed board's lines. */
  datatype Entry = Entry(rank: nat, user: string, wallet: Option<string>, pnl: real, volume: real,
                         winRate: real, totalTrades: real, avatar: string)

  const Avatars: seq<string> := ["\U{1F451}", "\U{1F680}", "\U{1F48E}", "\U{26A1}", "\U{1F3AF}",
                                 "\U{1F525}", "\U{1F4AA}", "\U{1F31F}", "\U{1F3C6}", "\U{2B50}"]

  /** The name shown: the username, else `Trader` and the first six
      characters of the wallet. */
  function DisplayName(r: Row): (name: string)
    ensures Present(r.username) ==> name == r.username.value
    ensures !Present(r.username) ==> name == "Trader" + Take(r.wallet, 6) && |name| <= 12
  {
    if Present(r.username) then r.username.value else "Trader" + Take(r.wallet, 6)
  }

  function EntryOf(r: Row, i: nat, u: real): (e: Entry)
    requires 0.0 <= u < 1.0
    ensures e.rank == i + 1 && e.wallet == Some(r.wallet) && e.user == DisplayName(r)
    ensures e.pnl == Number(r, TotalPnl) && e.volume == Number(r, TotalVolume)
    ensures e.winRate == Number(r, WinRate) && e.totalTrades == Number(r, TotalTrades)
    ensures e.avatar in Avatars
  {
    Entry(i + 1, DisplayName(r), Some(r.wallet), Number(r, TotalPnl), Number(r, TotalVolume),
          Number(r, WinRate), Number(r, TotalTrades), Avatars[RandomIndex(u, |Avatars|)])
  }

  /** `data.map((user, index) => …)`. */
  function Shape(rows: seq<Row>, draw: nat -> real): (es: seq<Entry>)
    requires forall i: nat :: 0.0 <= draw(i) < 1.0
    ensures |es| == |rows|
    ensures forall i :: 0 <= i < |rows| ==> es[i] == EntryOf(rows[i], i, draw(i))
  {
    seq(|rows|, i requires 0 <= i < |rows| => EntryOf(rows[i], i, draw(i)))
  }

  /** The board shown when the database fails. */
  const MockBoard: seq<Entry> := [
    Entry(1, "TradeKing", None, 45230.50, 5200000.0, 72.5, 342.0, "\U{1F451}"),
    Entry(2, "MoonShot", None, 38920.25, 4100000.0, 68.3, 298.0, "\U{1F680}"),
    Entry(3, "DeFiPro", None, 32450.75, 3800000.0, 65.1, 267.0, "\U{1F48E}"),
    Entry(4, "LeverageKing", None, 28100.00, 3200000.0, 63.8, 245.0, "\U{26A1}"),
    Entry(5, "OptionMaster", None, 25340.50, 2900000.0, 61.2, 223.0, "\U{1F3AF}")]

  datatype DbAnswer = Rows(rows: seq<Row>) | DbError

  /** GET: the board for the database's answer to `QueryOf(kind, limit)`. */
  function Get(answer: DbAnswer, draw: nat -> real): (board: seq<Entry>)
    requires forall i: nat :: 0.0 <= draw(i) < 1.0
    ensures answer.DbError? ==> board == MockBoard
    ensures answer.Rows? ==> |board| == |answer.rows|
    ensures answer.Rows? ==> forall i :: 0 <= i < |board| ==>
      board[i].rank == i + 1 && board[i].wallet == Some(answer.rows[i].wallet)
    ensures answer.Rows? ==> forall i :: 0 <= i < |board| ==>
      && board[i].user == DisplayName(answer.rows[i])
      && board[i].pnl == Number(answer.rows[i], TotalPnl) && board[i].volume == Number(answer.rows[i], TotalVolume)
      && board[i].winRate == Number(answer.rows[i], WinRate) && board[i].totalTrades == Number(answer.rows[i], TotalTrades)
      && board[i].avatar == Avatars[RandomIndex(draw(i), |Avatars|)]
  {
    match answer
    case DbError => MockBoard
    case Rows(rows) => Shape(rows, draw)
  }

  /** The fixed board is ranked 1 to 5 by falling profit. */
  lemma MockBoardRanked()
    ensures forall i :: 0 <= i < |MockBoard| ==> MockBoard[i].rank == i + 1
    ensures forall i, j :: 0 <= i < j < |MockBoard| ==> MockBoard[i].pnl > MockBoard[j].pnl
  {
  }

  /** The value an entry shows for a sort column. */
  function Shown(e: Entry, c: Column): real {
    if c == TotalPnl then e.pnl else if c == TotalVolume then e.volume else if c == WinRate then e.winRate
    else e.totalTrades
  }

  /** Rows in descending order of a column (nulls read as 0) give a board
      in descending order of the figure shown for it. */
  lemma SortedEntries(rows: seq<Row>, draw: nat -> real, kind: Option<string>)
    requires forall i: nat :: 0.0 <= draw(i) < 1.0
    requires forall i, j :: 0 <= i < j < |rows| ==> Number(rows[i], SortColumn(kind)) >= Number(rows[j], SortColumn(kind))
    ensures var b := Get(Rows(rows), draw);
            forall i, j :: 0 <= i < j < |b| ==> Shown(b[i], SortColumn(kind)) >= Shown(b[j], SortColumn(kind))
  {
  }

  datatype Posted = Posted(table: seq<Row>, reply: Reply<seq<Row>>)

  /** POST: upserts the supplied totals (an absent field is left alone);
      the answer holds the wallet's rows after the write. */
  function Post(t: seq<Row>, wallet: Option<string>, pnl: Option<real>, volume: Option<real>, trades: Option<real>,
                now: int, fails: bool): (o: Posted)
    ensures !Present(wallet) ==> o == Posted(t, Fail(BadRequest, "Wallet address required"))
    ensures Present(wallet) && fails ==> o == Posted(t, Fail(ServerError, "Failed to update stats"))
    ensures Present(wallet) && !fails ==>
      && o.table == Upsert(t, wallet.value, Supply(Supply(Supply(map[], TotalPnl, pnl), TotalVolume, volume), TotalTrades, trades), now)
      && o.reply.Ok? && |o.reply.body| > 0
      && (forall r :: r in o.reply.body ==> r in o.table && r.wallet == wallet.value)
  {
    if !Present(wallet) then Posted(t, Fail(BadRequest, "Wallet address required"))
    else if fails then Posted(t, Fail(ServerError, "Failed to update stats"))
    else
      var patch := Supply(Supply(Supply(map[], TotalPnl, pnl), TotalVolume, volume), TotalTrades, trades);
      var u := Upsert(t, wallet.value, patch, now);
      var mine := OfWallet(u, wallet.value);
      Posted(u, Ok(mine))
  }

  /** The rows of one wallet, in table order. */
  function OfWallet(t: seq<Row>, wallet: string): (m: seq<Row>)
    ensures forall r :: r in m <==> r in t && r.wallet == wallet
    ensures Subsequence(m, t)
    ensures Has(t, wallet) ==> |m| > 0
  {
    if |t| == 0 then []
    else
      var rest := OfWallet(t[1..], wallet);
      var m := if t[0].wallet == wallet then [t[0]] + rest else rest;
      FilterStep((r: Row) => r.wallet == wallet, t, rest, m);
      assert Has(t, wallet) ==> |m| > 0 by {
        if Has(t, wallet) {
          var i :| 0 <= i < |t| && t[i].wallet == wallet;
          assert t[i] in m;
        }
      }
      m
  }

  /** Every row of the wallet is kept as often as the table holds it, and no
      other is; so the rows of a wallet are counted by `|OfWallet|`. */
  lemma {:induction false} OfWalletCounts(t: seq<Row>, wallet: string)
    ensures forall r :: multiset(OfWallet(t, wallet))[r] == if r.wallet == wallet then multiset(t)[r] else 0
  {
    if |t| > 0 {
      OfWalletCounts(t[1..], wallet);
      FilterCountStep((r: Row) => r.wallet == wallet, t, OfWallet(t[1..], wallet), OfWallet(t, wallet));
    }
  }
}

=== FILE: ledger.dfy ===
/** The `pending_rewards` table shared by the Stripe webhook (which adds
    purchase rewards), the pending-rewards route (which lists them) and the
    claim route (which marks them claimed). The table is a sequence of rows
    in storage order; timestamps are milliseconds since the epoch, which
    order the same way as the ISO strings the routes compare. */
module Ledger {
  import opened Basics

  datatype Reward = Reward(
    id: nat,
    wallet: string,
    amount: real,
    source: string,
    sourceId: Option<string>,
    createdAt: int,
    expiresAt: int,
    claimed: bool,
    claimedAt: Option<int>)

  /** The filter both reward routes use: this wallet's rows that are not
      claimed and whose expiry is not before `now`. */
  predicate Claimable(r: Reward, wallet: string, now: int) {
    r.wallet == wallet && !r.claimed && r.expiresAt >= now
  }

  /** The rows matching `Claimable`, in table order. */
  function Select(t: seq<Reward>, wallet: string, now: int): (s: seq<Reward>)
    ensures |s| <= |t|
    ensures forall r :: r in s <==> r in t && Claimable(r, wallet, now)
    ensures Subsequence(s, t)
  {
    if |t| == 0 then []
    else
      var rest := Select(t[1..], wallet, now);
      var s := if Claimable(t[0], wallet, now) then [t[0]] + rest else rest;
      FilterStep(r => Claimable(r, wallet, now), t, rest, s);
      s
  }

  /** Every claimable reward is selected as often as the table holds it, and no other is. */
  lemma {:induction false} SelectCounts(t: seq<Reward>, wallet: string, now: int)
    ensures forall r :: multiset(Select(t, wallet, now))[r] == if Claimable(r, wallet, now) then multiset(t)[r] else 0
  {
    if |t| > 0 {
      SelectCounts(t[1..], wallet, now);
      FilterCountStep(r => Claimable(r, wallet, now), t, Select(t[1..], wallet, now), Select(t, wallet, now));
    }
  }

  lemma {:induction false} SelectEmpty(t: seq<Reward>, wallet: string, now: int)
    ensures Select(t, wallet, now) == [] <==> forall i :: 0 <= i < |t| ==> !Claimable(t[i], wallet, now)
  {
    var s := Select(t, wallet, now);
    if s != [] {
      assert s[0] in s;
    }
    if exists i :: 0 <= i < |t| && Claimable(t[i], wallet, now) {
      var i :| 0 <= i < |t| && Claimable(t[i], wallet, now);
      assert t[i] in t;
    }
  }

  function Amounts(rs: seq<Reward>): (a: seq<real>)
    ensures |a| == |rs| && forall i :: 0 <= i < |rs| ==> a[i] == rs[i].amount
  {
    seq(|rs|, i requires 0 <= i < |rs| => rs[i].amount)
  }

  /** `rs.reduce((sum, r) => sum + r.amount, 0)`. */
  function Total(rs: seq<Reward>): real {
    Sum(Amounts(rs))
  }

  function Ids(rs: seq<Reward>): (ids: set<nat>)
    ensures forall r :: r in rs ==> r.id in ids
    ensures forall k :: k in ids ==> exists r :: r in rs && r.id == k
  {
    set r | r in rs :: r.id
  }

  /** `update({ claimed: true, claimed_at: now }).in('id', ids)`. */
  function MarkClaimed(t: seq<Reward>, ids: set<nat>, now: int): (u: seq<Reward>)
    ensures |u| == |t|
    ensures forall i :: 0 <= i < |t| ==>
      u[i] == if t[i].id in ids then t[i].(claimed := true, claimedAt := Some(now)) else t[i]
  {
    seq(|t|, i requires 0 <= i < |t| =>
      if t[i].id in ids then t[i].(claimed := true, claimedAt := Some(now)) else t[i])
  }

  /** Row ids are a key. */
  predicate UniqueIds(t: seq<Reward>) {
    forall i, j :: 0 <= i < j < |t| ==> t[i].id != t[j].id
  }

  /** At most one row per payment source (the webhook's idempotence key). */
  predicate UniqueSources(t: seq<Reward>) {
    forall i, j :: 0 <= i < j < |t| && t[i].sourceId.Some? ==> t[i].sourceId != t[j].sourceId
  }

  /** After marking every selected row, nothing is left to select. */
  lemma MarkSelectedEmpties(t: seq<Reward>, wallet: string, now: int, at: int)
    ensures Select(MarkClaimed(t, Ids(Select(t, wallet, now)), at), wallet, now) == []
  {
    var sel := Select(t, wallet, now);
    var u := MarkClaimed(t, Ids(sel), at);
    forall i | 0 <= i < |u|
      ensures !Claimable(u[i], wallet, now)
    {
      if Claimable(t[i], wallet, now) {
        assert t[i] in t;
        assert t[i] in sel;
      }
    }
    SelectEmpty(u, wallet, now);
  }

  /** With unique ids, marking the selection changes exactly the selected
      rows: other wallets' rows, claimed rows and expired rows stay as they
      were. */
  lemma MarkTouchesOnlySelected(t: seq<Reward>, wallet: string, now: int, at: int)
    requires UniqueIds(t)
    ensures forall i :: 0 <= i < |t| ==>
      (MarkClaimed(t, Ids(Select(t, wallet, now)), at)[i] != t[i] <==> Claimable(t[i], wallet, now))
  {
    var sel := Select(t, wallet, now);
    var ids := Ids(sel);
    forall i | 0 <= i < |t|
      ensures t[i].id in ids <==> Claimable(t[i], wallet, now)
    {
      if t[i].id in ids {
        var r :| r in sel && r.id == t[i].id;
        var j :| 0 <= j < |t| && t[j] == r;
        assert i == j;
      }
      if Claimable(t[i], wallet, now) {
        assert t[i] in t;
      }
    }
  }
}

=== FILE: memecoincreate.dfy ===
/** /api/memecoin/create (app/api/memecoin/create/route.ts): checks a token
    request, builds its metadata and an unsigned transaction that creates
    the mint account. Public-key parsing, the new keypair, the rent quote
    and the blockhash come from Solana and are parameters. */
module MemecoinCreateRoute {
  import opened Basics
  import opened Http

  /** The request body; an absent field is `None` (a JSON `undefined`). */
  datatype Request = Request(
    name: Option<string>, symbol: Option<string>, description: Option<string>,
    image: Option<string>, decimals: Option<nat>, supply: Option<real>, creatorWallet: Option<string>)

  const DefaultDecimals: nat := 9
  const DefaultSupply: real := 1000000.0

  /** The size in bytes of an SPL mint account. */
  const MintSpace: nat := 82
  const TokenProgram: string := "TokenkegQfeZyiNwAJbNbGKPFXCWuBvf9Ss623VQ5DA"
  const Placeholder: string := "https://via.placeholder.com/200?text="

  datatype Metadata = Metadata(
    name: string, symbol: string, description: string, image: string, fileUri: string,
    category: string, externalUrl: string, decimals: nat, supply: real)

  datatype Instruction = CreateAccount(from: string, newAccount: string, space: nat, lamports: nat, programId: string)

  datatype Transaction = Transaction(instructions: seq<Instruction>, recentBlockhash: string, feePayer: string)

  datatype Created = Created(mintAddress: string, metadata: Metadata, transaction: Transaction)

  /** The fields the route insists on. */
  predicate Complete(req: Request) {
    Present(req.name) && Present(req.symbol) && Present(req.description) && Present(req.creatorWallet)
  }

  /** `image || placeholder?text=<symbol>`. */
  function ImageOf(image: Option<string>, symbol: string): (url: string)
    ensures Present(image) ==> url == image.value
    ensures !Present(image) ==> |url| >= |Placeholder| && url[..|Placeholder|] == Placeholder && url[|Placeholder|..] == symbol
  {
    if Present(image) then image.value else Placeholder + symbol
  }

  /** The supply in base units: whole tokens times ten to the decimals. */
  function BaseUnits(supply: real, decimals: nat): (u: real)
    ensures supply >= 0.0 ==> u >= supply
    ensures decimals == 0 ==> u == supply
  {
    PowAtLeastOne(10.0, decimals);
    supply * Pow(10.0, decimals)
  }

  /** Each extra decimal multiplies the base units by ten. */
  lemma BaseUnitsStep(supply: real, decimals: nat)
    ensures BaseUnits(supply, decimals + 1) == 10.0 * BaseUnits(supply, decimals)
  {
  }

  /** A request without supply or decimals mints 10^15 base units. */
  lemma DefaultBaseUnits()
    ensures BaseUnits(DefaultSupply, DefaultDecimals) == 1000000000000000.0
  {
    assert Pow(10.0, 3) == 1000.0;
    assert Pow(10.0, 6) == 1000000.0 by { assert Pow(10.0, 6) == 1000.0 * Pow(10.0, 3); }
    assert Pow(10.0, 9) == 1000000000.0 by { assert Pow(10.0, 9) == 1000.0 * Pow(10.0, 6); }
  }

  /** POST. `validKey` is whether `new PublicKey(creatorWallet)` accepts the
      address; `mint` the generated keypair's address; `rent` and `blockhash`
      the node's answers, `rpcFails` any failure reaching it. */
  function Post(req: Request, validKey: bool, mint: string, rent: nat, blockhash: string, rpcFails: bool): (r: Reply<Created>)
    ensures !Complete(req) <==>
            r == Fail(BadRequest, "Name, symbol, description, and creator wallet are required")
    ensures r == Fail(BadRequest, "Invalid creator wallet address") <==>
            Complete(req) && !validKey
    ensures r.Fail? && r.status == ServerError <==> r == Fail(ServerError, "Failed to create token")
    ensures r.Ok? <==> Complete(req) && validKey && !rpcFails
    ensures r.Ok? ==>
      var m := r.body.metadata;
      && m.name == req.name.value && m.symbol == req.symbol.value && m.description == req.description.value
      && m.image == m.fileUri == ImageOf(req.image, req.symbol.value)
      && m.decimals == req.decimals.GetOr(DefaultDecimals)
      && m.supply == BaseUnits(req.supply.GetOr(DefaultSupply), m.decimals)
      && m.category == "image" && m.externalUrl == "https://optik-ecosystem.com"
      && r.body.mintAddress == mint
      && r.body.transaction.recentBlockhash == blockhash
      && r.body.transaction.feePayer == req.creatorWallet.value
      && r.body.transaction.instructions == [CreateAccount(req.creatorWallet.value, mint, MintSpace, rent, TokenProgram)]
  {
    if !Complete(req) then
      Fail(BadRequest, "Name, symbol, description, and creator wallet are required")
    else if !validKey then Fail(BadRequest, "Invalid creator wallet address")
    else if rpcFails then Fail(ServerError, "Failed to create token")
    else
      var decimals := req.decimals.GetOr(DefaultDecimals);
      var image := ImageOf(req.image, req.symbol.value);
      var m := Metadata(req.name.value, req.symbol.value, req.description.value, image, image,
                        "image", "https://optik-ecosystem.com", decimals,
                        BaseUnits(req.supply.GetOr(DefaultSupply), decimals));
      var wallet := req.creatorWallet.value;
      Ok(Created(mint, m, Transaction([CreateAccount(wallet, mint, MintSpace, rent, TokenProgram)], blockhash, wallet)))
  }
}

=== FILE: memecoinpricing.dfy ===
/** The memecoin factory's price list and business figures
    (lib/memecoin-pricing.ts): four launch tiers, two monthly revenue
    projections, the secondary revenue streams and the competitor table.
    The file holds data only; the members below state how its figures
    hang together. */
module MemecoinPricing {

  datatype TierName = Basic | Standard | Premium | Enterprise

  /** The price a tier is listed at, with the marketing fields that matter
      for the model (feature lists and limit texts are left out). */
  datatype Tier = Tier(name: string, priceUSD: real, priceSOL: real, popular: bool)

  /** The dollar price of one SOL the SOL prices are worked out at. */
  const SolUsd: real := 200.0

  /** `MEMECOIN_TIERS`. */
  function TierOf(t: TierName): (r: Tier)
    ensures r.priceSOL * SolUsd == r.priceUSD
    ensures r.priceUSD > 0.0
    ensures r.popular <==> t == Standard
  {
    match t
    case Basic => Tier("Basic Launch", 100.0, 0.5, false)
    case Standard => Tier("Standard Launch", 500.0, 2.5, true)
    case Premium => Tier("Premium Launch", 2500.0, 12.5, false)
    case Enterprise => Tier("Enterprise Launch", 10000.0, 50.0, false)
  }

  /** The order the tiers are listed in. */
  function Rank(t: TierName): nat {
    match t
    case Basic => 0
    case Standard => 1
    case Premium => 2
    case Enterprise => 3
  }

  /** A later tier always costs more, in dollars and in SOL. */
  lemma PricesIncrease(a: TierName, b: TierName)
    requires Rank(a) < Rank(b)
    ensures TierOf(a).priceUSD < TierOf(b).priceUSD
    ensures TierOf(a).priceSOL < TierOf(b).priceSOL
  {
  }

  // ------------------------------------------------------------ projections

  datatype Scenario = Conservative | Optimistic

  /** One tier's projected launches and revenue. */
  datatype Line = Line(count: nat, revenue: real)

  /** `REVENUE_PROJECTIONS[scenario][tier]`. */
  function LineOf(s: Scenario, t: TierName): (l: Line)
    ensures l.revenue == l.count as real * TierOf(t).priceUSD
  {
    var k := if s == Conservative then 1 else 5;
    match t
    case Basic => Line(500 * k, 50000.0 * k as real)
    case Standard => Line(300 * k, 150000.0 * k as real)
    case Premium => Line(150 * k, 375000.0 * k as real)
    case Enterprise => Line(50 * k, 500000.0 * k as real)
  }

  /** The scenario's `total` and `totalRevenue` fields. */
  function Total(s: Scenario): nat {
    if s == Conservative then 1000 else 5000
  }

  function TotalRevenue(s: Scenario): real {
    if s == Conservative then 1075000.0 else 5375000.0
  }

  /** The listed totals are the sums of the tier lines. */
  lemma ProjectionTotals(s: Scenario)
    ensures LineOf(s, Basic).count + LineOf(s, Standard).count + LineOf(s, Premium).count
            + LineOf(s, Enterprise).count == Total(s)
    ensures LineOf(s, Basic).revenue + LineOf(s, Standard).revenue + LineOf(s, Premium).revenue
            + LineOf(s, Enterprise).revenue == TotalRevenue(s)
  {
  }

  /** The tier mix is 50/30/15/5 percent of all launches. */
  lemma ProjectionMix(s: Scenario)
    ensures LineOf(s, Basic).count * 100 == Total(s) * 50
    ensures LineOf(s, Standard).count * 100 == Total(s) * 30
    ensures LineOf(s, Premium).count * 100 == Total(s) * 15
    ensures LineOf(s, Enterprise).count * 100 == Total(s) * 5
  {
  }

  // ------------------------------------------------------------ secondary revenue

  /** `SECONDARY_REVENUE.tradingFees`. */
  const TradingFeePercent: real := 0.5
  const EstimatedMonthlyVolume: real := 10000000.0
  const TradingMonthlyRevenue: real := 50000.0

  /** `SECONDARY_REVENUE.stakingFees`. */
  const StakingFeePercent: real := 5.0
  const EstimatedStaked: real := 1000000.0
  const StakingMonthlyRevenue: real := 4167.0

  /** `SECONDARY_REVENUE.premiumListings`. */
  const ListingPricePerDay: real := 500.0
  const AverageListings: real := 20.0
  const ListingsMonthlyRevenue: real := 300000.0

  /** `SECONDARY_REVENUE.analytics`. */
  const AnalyticsPricePerMonth: real := 100.0
  const AnalyticsSubscribers: real := 500.0
  const AnalyticsMonthlyRevenue: real := 50000.0

  /** Each stream's monthly revenue follows from its own figures (a
      30-day month for listings); the staking figure is the staking fee
      on the staked amount over a year, per month, to the nearest dollar. */
  lemma SecondaryConsistent()
    ensures EstimatedMonthlyVolume * TradingFeePercent / 100.0 == TradingMonthlyRevenue
    ensures ListingPricePerDay * AverageListings * 30.0 == ListingsMonthlyRevenue
    ensures AnalyticsPricePerMonth * AnalyticsSubscribers == AnalyticsMonthlyRevenue
    ensures var exact := EstimatedStaked * StakingFeePercent / 100.0 / 12.0;
            StakingMonthlyRevenue - 0.5 <= exact < StakingMonthlyRevenue + 0.5
  {
  }

  // ------------------------------------------------------------ competitors

  datatype Competitor = PumpFun | Raydium | Optik

  datatype Offer = Offer(creationFee: real, tradingFee: real)

  /** `COMPETITIVE_ANALYSIS`. */
  function OfferOf(c: Competitor): (o: Offer)
    ensures c == Optik ==> o.creationFee == TierOf(Standard).priceUSD && o.tradingFee == TradingFeePercent
  {
    match c
    case PumpFun => Offer(5.0, 1.0)
    case Raydium => Offer(80.0, 0.25)
    case Optik => Offer(500.0, 0.5)
  }

  /** Optik charges the most to create a token, and a trading fee between
      the two competitors'. */
  lemma OptikPositioning()
    ensures OfferOf(Optik).creationFee > OfferOf(PumpFun).creationFee
    ensures OfferOf(Optik).creationFee > OfferOf(Raydium).creationFee
    ensures OfferOf(Raydium).tradingFee < OfferOf(Optik).tradingFee < OfferOf(PumpFun).tradingFee
  {
  }
}

=== FILE: openai.dfy ===
/** lib/openai.ts: the chat message shapes, request validation, message
    sanitising, the token estimate and the history truncation that keeps a
    prompt within a token budget. The OpenAI calls themselves are not
    modelled. */
module OpenAi {
  import opened Basics
  import opened Text

  datatype Role = System | User | Assistant

  datatype ChatMessage = ChatMessage(role: Role, content: string)

  datatype Prompt = General | TokenCreation | MarketAnalysis | TechnicalSupport

  /** `createSystemMessage` / `createUserMessage` / `createAssistantMessage`;
      the prompt texts are named, not reproduced. */
  function SystemMessage(p: Prompt, text: Prompt -> string): (m: ChatMessage)
    ensures m.role == System && m.content == text(p)
  {
    ChatMessage(System, text(p))
  }

  function UserMessage(content: string): (m: ChatMessage)
    ensures m.role == User && m.content == content
  {
    ChatMessage(User, content)
  }

  function AssistantMessage(content: string): (m: ChatMessage)
    ensures m.role == Assistant && m.content == content
  {
    ChatMessage(Assistant, content)
  }

  /** `estimateTokens`: `Math.ceil(length / 4)`. */
  function EstimateTokens(text: string): (n: nat)
    ensures 4 * n >= |text| > 4 * n - 4
  {
    (|text| + 3) / 4
  }

  function Tokens(ms: seq<ChatMessage>): nat {
    if |ms| == 0 then 0 else Tokens(ms[..|ms| - 1]) + EstimateTokens(ms[|ms| - 1].content)
  }

  /** The non-system messages, in order. */
  function Conversation(ms: seq<ChatMessage>): (c: seq<ChatMessage>)
    ensures |c| <= |ms|
    ensures forall i :: 0 <= i < |c| ==> c[i].role != System
  {
    if |ms| == 0 then []
    else
      var last := ms[|ms| - 1];
      Conversation(ms[..|ms| - 1]) + (if last.role == System then [] else [last])
  }

  /** Every non-system message, and only those, is in the conversation. */
  lemma {:induction false} ConversationMembers(ms: seq<ChatMessage>, m: ChatMessage)
    ensures m in Conversation(ms) <==> m in ms && m.role != System
  {
    if |ms| > 0 {
      var init := ms[..|ms| - 1];
      assert ms == init + [ms[|ms| - 1]];
      ConversationMembers(init, m);
    }
  }

  /** The backwards loop of `truncateMessages`: from the newest message,
      skip system messages and keep the others while they fit the budget,
      stopping at the first that does not. */
  function Recent(ms: seq<ChatMessage>, budget: int): seq<ChatMessage>
  {
    if |ms| == 0 then []
    else
      var last := ms[|ms| - 1];
      if last.role == System then Recent(ms[..|ms| - 1], budget)
      else if EstimateTokens(last.content) > budget then []
      else Recent(ms[..|ms| - 1], budget - EstimateTokens(last.content)) + [last]
  }

  predicate IsSuffix<T(==)>(a: seq<T>, b: seq<T>) {
    |a| <= |b| && a == b[|b| - |a|..]
  }

  /** What the loop keeps is a suffix of the conversation... */
  lemma {:induction false} RecentIsSuffix(ms: seq<ChatMessage>, budget: int)
    ensures IsSuffix(Recent(ms, budget), Conversation(ms))
  {
    if |ms| > 0 {
      var init := ms[..|ms| - 1];
      var last := ms[|ms| - 1];
      if last.role == System {
        RecentIsSuffix(init, budget);
      } else if EstimateTokens(last.content) <= budget {
        var b := budget - EstimateTokens(last.content);
        RecentIsSuffix(init, b);
        var r0 := Recent(init, b);
        var c0 := Conversation(init);
        assert (c0 + [last])[|c0| + 1 - (|r0| + 1)..] == c0[|c0| - |r0|..] + [last];
      }
    }
  }

  /** ...whose estimate fits the budget... */
  lemma {:induction false} RecentFits(ms: seq<ChatMessage>, budget: int)
    ensures budget < 0 ==> Recent(ms, budget) == []
    ensures budget >= 0 ==> Tokens(Recent(ms, budget)) <= budget
  {
    if |ms| > 0 {
      var init := ms[..|ms| - 1];
      var last := ms[|ms| - 1];
      if last.role == System {
        RecentFits(init, budget);
      } else if EstimateTokens(last.content) <= budget {
        var b := budget - EstimateTokens(last.content);
        RecentFits(init, b);
        TokensAppend(Recent(init, b), last);
      }
    }
  }

  /** ...and is the longest such: the next older conversation message
      would not have fitted. */
  lemma {:induction false} RecentIsLongest(ms: seq<ChatMessage>, budget: int)
    ensures Longest(Recent(ms, budget), Conversation(ms), budget)
  {
    if |ms| > 0 {
      var init := ms[..|ms| - 1];
      var last := ms[|ms| - 1];
      if last.role == System {
        RecentIsLongest(init, budget);
        SystemLastSkipped(ms, budget);
      } else if EstimateTokens(last.content) <= budget {
        var b := budget - EstimateTokens(last.content);
        RecentIsLongest(init, b);
        RecentNoLonger(init, b);
        FittingLastKept(ms, budget);
        LongestSnoc(Recent(init, b), Conversation(init), last, b);
      } else {
        OversizedLastStops(ms, budget);
      }
    }
  }

  /** The kept part is never longer than the conversation. */
  lemma {:induction false} RecentNoLonger(ms: seq<ChatMessage>, budget: int)
    ensures |Recent(ms, budget)| <= |Conversation(ms)|
  {
    if |ms| > 0 {
      var init := ms[..|ms| - 1];
      var last := ms[|ms| - 1];
      if last.role == System {
        RecentNoLonger(init, budget);
      } else if EstimateTokens(last.content) <= budget {
        RecentNoLonger(init, budget - EstimateTokens(last.content));
      }
    }
  }

  /** `r` is the longest suffix of `c` within `budget`: the message of `c`
      just before `r` would overflow it. */
  predicate Longest(r: seq<ChatMessage>, c: seq<ChatMessage>, budget: int) {
    |r| < |c| ==> EstimateTokens(c[|c| - |r| - 1].content) + Tokens(r) > budget
  }

  lemma SystemLastSkipped(ms: seq<ChatMessage>, budget: int)
    requires |ms| > 0 && ms[|ms| - 1].role == System
    ensures Recent(ms, budget) == Recent(ms[..|ms| - 1], budget)
    ensures Conversation(ms) == Conversation(ms[..|ms| - 1])
  {
    assert Conversation(ms) == Conversation(ms[..|ms| - 1]) + [];
  }

  lemma FittingLastKept(ms: seq<ChatMessage>, budget: int)
    requires |ms| > 0 && ms[|ms| - 1].role != System
    requires EstimateTokens(ms[|ms| - 1].content) <= budget
    ensures Recent(ms, budget) == Recent(ms[..|ms| - 1], budget - EstimateTokens(ms[|ms| - 1].content)) + [ms[|ms| - 1]]
    ensures Conversation(ms) == Conversation(ms[..|ms| - 1]) + [ms[|ms| - 1]]
  {
  }

  lemma OversizedLastStops(ms: seq<ChatMessage>, budget: int)
    requires |ms| > 0 && ms[|ms| - 1].role != System
    requires EstimateTokens(ms[|ms| - 1].content) > budget
    ensures Longest(Recent(ms, budget), Conversation(ms), budget)
  {
    var c := Conversation(ms);
    assert Recent(ms, budget) == [];
    assert c == Conversation(ms[..|ms| - 1]) + [ms[|ms| - 1]];
    assert c[|c| - 1] == ms[|ms| - 1];
  }

  /** One more message at the end of both the kept part and the
      conversation keeps the kept part maximal. */
  lemma LongestSnoc(r: seq<ChatMessage>, c: seq<ChatMessage>, last: ChatMessage, b: int)
    requires |r| <= |c| && Longest(r, c, b)
    ensures Longest(r + [last], c + [last], b + EstimateTokens(last.content))
  {
    TokensAppend(r, last);
    if |r| < |c| {
      assert (c + [last])[|c| - |r| - 1] == c[|c| - |r| - 1];
    }
  }

  lemma TokensAppend(r: seq<ChatMessage>, m: ChatMessage)
    ensures Tokens(r + [m]) == Tokens(r) + EstimateTokens(m.content)
  {
    assert (r + [m])[..|r|] == r;
  }

  /** `truncateMessages(messages, maxTokens)`. A leading system message is
      kept first and its estimate charged; the others are `unshift`ed in
      front of it, so it ends up last. */
  function Truncate(ms: seq<ChatMessage>, maxTokens: int): (r: seq<ChatMessage>)
    ensures !(|ms| > 0 && ms[0].role == System) ==>
      IsSuffix(r, Conversation(ms)) && (maxTokens >= 0 ==> Tokens(r) <= maxTokens)
    ensures |ms| > 0 && ms[0].role == System ==> |r| > 0 && r[|r| - 1] == ms[0]
  {
    if |ms| > 0 && ms[0].role == System then
      Recent(ms, maxTokens - EstimateTokens(ms[0].content)) + [ms[0]]
    else
      RecentIsSuffix(ms, maxTokens);
      RecentFits(ms, maxTokens);
      Recent(ms, maxTokens)
  }

  /** The imperative loop of the source, shown to compute `Truncate`. */
  method TruncateMessages(ms: seq<ChatMessage>, maxTokens: int) returns (kept: seq<ChatMessage>)
    ensures kept == Truncate(ms, maxTokens)
  {
    var total := 0;
    kept := [];
    if |ms| > 0 && ms[0].role == System {
      kept := [ms[0]];
      total := EstimateTokens(ms[0].content);
    }
    ghost var system := kept;
    ghost var budget := maxTokens - total;
    ghost var left := budget;
    var i := |ms| - 1;
    assert ms[..i + 1] == ms;
    ghost var front: seq<ChatMessage> := [];
    while i >= 0
      invariant -1 <= i < |ms|
      invariant left == maxTokens - total
      invariant Recent(ms[..i + 1], left) + front == Recent(ms, budget)
      invariant kept == front + system
      decreases i
    {
      var m := ms[i];
      if m.role == System {
        RecentSkips(ms, i, left);
        i := i - 1;
        continue;
      }
      var t := EstimateTokens(m.content);
      if total + t > maxTokens {
        RecentStops(ms, i, left);
        break;
      }
      TakeStep(ms, i, left, front, Recent(ms, budget));
      front := [m] + front;
      kept := [m] + kept;
      total := total + t;
      left := left - t;
      i := i - 1;
    }
    assert Recent(ms[..i + 1], left) == [] by {
      if i < 0 { assert ms[..i + 1] == []; }
    }
    assert front == Recent(ms, budget);
    if |ms| > 0 && ms[0].role == System {
      assert kept == Recent(ms, maxTokens - EstimateTokens(ms[0].content)) + [ms[0]];
    } else {
      assert kept == Recent(ms, maxTokens);
    }
  }

  /** One step of the loop over `ms[..i + 1]`: a system message is skipped... */
  lemma RecentSkips(ms: seq<ChatMessage>, i: nat, b: int)
    requires i < |ms| && ms[i].role == System
    ensures Recent(ms[..i + 1], b) == Recent(ms[..i], b)
  {
    assert ms[..i + 1][..i] == ms[..i];
  }

  /** ...one that does not fit ends the loop... */
  lemma RecentStops(ms: seq<ChatMessage>, i: nat, b: int)
    requires i < |ms| && ms[i].role != System && EstimateTokens(ms[i].content) > b
    ensures Recent(ms[..i + 1], b) == []
  {
  }

  /** ...and one that fits is kept in front of the newer ones. */
  lemma RecentTakes(ms: seq<ChatMessage>, i: nat, b: int)
    requires i < |ms| && ms[i].role != System && EstimateTokens(ms[i].content) <= b
    ensures Recent(ms[..i + 1], b) == Recent(ms[..i], b - EstimateTokens(ms[i].content)) + [ms[i]]
  {
    assert ms[..i + 1][..i] == ms[..i];
  }

  /** The loop invariant after a kept message: the messages still to visit,
      with the smaller budget, followed by those kept so far. */
  lemma TakeStep(ms: seq<ChatMessage>, i: nat, b: int, front: seq<ChatMessage>, whole: seq<ChatMessage>)
    requires i < |ms| && ms[i].role != System && EstimateTokens(ms[i].content) <= b
    requires Recent(ms[..i + 1], b) + front == whole
    ensures Recent(ms[..i], b - EstimateTokens(ms[i].content)) + ([ms[i]] + front) == whole
  {
    RecentTakes(ms, i, b);
    var older := Recent(ms[..i], b - EstimateTokens(ms[i].content));
    assert older + [ms[i]] + front == older + ([ms[i]] + front);
  }

  /** The system message always survives, last; the rest is the newest part
      of the conversation that fits beside it. */
  lemma TruncateKeepsSystem(ms: seq<ChatMessage>, maxTokens: int)
    requires |ms| > 0 && ms[0].role == System
    ensures var r := Truncate(ms, maxTokens);
            |r| > 0 && r[|r| - 1] == ms[0]
            && IsSuffix(r[..|r| - 1], Conversation(ms))
  {
    var b := maxTokens - EstimateTokens(ms[0].content);
    var rest := Recent(ms, b);
    RecentIsSuffix(ms, b);
    assert Truncate(ms, maxTokens) == rest + [ms[0]];
    assert (rest + [ms[0]])[..|rest|] == rest;
  }

  /** With a system prompt and one short user message, the prompt comes
      back after the user message. */
  lemma SystemMovesLast()
    ensures var sys := ChatMessage(System, "be brief");
            var hi := ChatMessage(User, "hi");
            Truncate([sys, hi], 8000) == [hi, sys]
  {
    var sys := ChatMessage(System, "be brief");
    var hi := ChatMessage(User, "hi");
    var ms := [sys, hi];
    assert EstimateTokens(sys.content) == 2;
    assert EstimateTokens(hi.content) == 1;
    assert ms[..1] == [sys];
    assert [sys][..0] == [];
    assert Recent([sys], 7997) == [];
    assert Recent(ms, 7998) == [hi];
  }

  /** The evidently intended truncation: the system prompt first, then the
      newest conversation that fits beside it. */
  function TruncateIntended(ms: seq<ChatMessage>, maxTokens: int): (r: seq<ChatMessage>)
    ensures |ms| > 0 && ms[0].role == System ==> |r| > 0 && r[0] == ms[0] && IsSuffix(r[1..], Conversation(ms))
    ensures !(|ms| > 0 && ms[0].role == System) ==> IsSuffix(r, Conversation(ms))
  {
    if |ms| > 0 && ms[0].role == System then
      var rest := Recent(ms, maxTokens - EstimateTokens(ms[0].content));
      RecentIsSuffix(ms, maxTokens - EstimateTokens(ms[0].content));
      assert ([ms[0]] + rest)[1..] == rest;
      [ms[0]] + rest
    else
      RecentIsSuffix(ms, maxTokens);
      Recent(ms, maxTokens)
  }

  /** The corrected order keeps the same messages, the prompt moved to the
      front. */
  lemma IntendedIsRotation(ms: seq<ChatMessage>, maxTokens: int)
    requires |ms| > 0 && ms[0].role == System
    ensures var w := Truncate(ms, maxTokens);
            TruncateIntended(ms, maxTokens) == [w[|w| - 1]] + w[..|w| - 1]
  {
    var w := Truncate(ms, maxTokens);
    assert w[..|w| - 1] == Recent(ms, maxTokens - EstimateTokens(ms[0].content));
  }

  /** A system message after the first is never kept. */
  lemma LaterSystemDropped(ms: seq<ChatMessage>, maxTokens: int, i: nat)
    requires 0 < i < |ms| && ms[i].role == System && ms[i] != ms[0]
    ensures ms[i] !in Truncate(ms, maxTokens)
  {
    var b := if |ms| > 0 && ms[0].role == System then maxTokens - EstimateTokens(ms[0].content) else maxTokens;
    RecentIsSuffix(ms, b);
  }

  /** An incoming message as JSON: role and content may be missing. */
  datatype RawMessage = RawMessage(role: Option<string>, content: Option<string>)

  /** An incoming request: missing, or with `messages` that may not be an
      array. */
  datatype RawRequest = RawRequest(messages: Option<seq<RawMessage>>)

  predicate WellFormed(m: RawMessage) {
    Present(m.role) && Present(m.content) && m.role.value in {"system", "user", "assistant"}
  }

  function AllWellFormed(ms: seq<RawMessage>): (ok: bool)
    ensures ok <==> forall i :: 0 <= i < |ms| ==> WellFormed(ms[i])
  {
    if |ms| == 0 then true
    else
      assert forall i :: 1 <= i < |ms| ==> ms[i] == ms[1..][i - 1];
      WellFormed(ms[0]) && AllWellFormed(ms[1..])
  }

  /** `validateChatRequest`. */
  function ValidateChatRequest(request: Option<RawRequest>): (ok: bool)
    ensures ok <==> request.Some? && request.value.messages.Some? && |request.value.messages.value| > 0
                    && forall i :: 0 <= i < |request.value.messages.value| ==> WellFormed(request.value.messages.value[i])
  {
    request.Some? && request.value.messages.Some? && |request.value.messages.value| > 0
    && AllWellFormed(request.value.messages.value)
  }

  function RoleOf(r: string): Role
    requires r in {"system", "user", "assistant"}
  {
    if r == "system" then System else if r == "user" then User else Assistant
  }

  /** A valid request reads as chat messages, one per entry. */
  function Messages(request: RawRequest): (ms: seq<ChatMessage>)
    requires ValidateChatRequest(Some(request))
    ensures |ms| == |request.messages.value|
    ensures forall i :: 0 <= i < |ms| ==> ms[i].content == request.messages.value[i].content.value && ms[i].content != ""
  {
    var raw := request.messages.value;
    seq(|raw|, i requires 0 <= i < |raw| => ChatMessage(RoleOf(raw[i].role.value), raw[i].content.value))
  }

  predicate LineTerminator(c: char) {
    c == '\n' || c == '\r' || c == '\U{2028}' || c == '\U{2029}'
  }

  function LowerAt(s: string, i: nat, n: nat): string
    requires i + n <= |s|
  {
    ToLower(s[i..i + n])
  }

  /** The first index at or after `from` holding `c`. */
  function IndexOf(s: string, c: char, from: nat): (k: Option<nat>)
    decreases |s| - from
    ensures k.Some? ==> from <= k.value < |s| && s[k.value] == c
    ensures k.Some? ==> forall j :: from <= j < k.value ==> s[j] != c
    ensures k.None? ==> forall j :: from <= j < |s| ==> s[j] != c
  {
    if from >= |s| then None else if s[from] == c then Some(from) else IndexOf(s, c, from + 1)
  }

  /** The lazy `.*?<\/script>`: the first `</script>` (any case) at or
      after `from` with no line terminator before it. */
  function CloseScript(s: string, from: nat): (k: Option<nat>)
    decreases |s| - from
    ensures k.Some? ==> from <= k.value && k.value + 9 <= |s|
  {
    if from + 9 <= |s| && LowerAt(s, from, 9) == "</script>" then Some(from)
    else if from >= |s| || LineTerminator(s[from]) then None
    else CloseScript(s, from + 1)
  }

  /** The length of a `<script[^>]*>.*?<\/script>` match (`i` flag) at the
      start of `s`, if there is one. */
  function ScriptMatch(s: string): (n: Option<nat>)
    ensures n.Some? ==> 0 < n.value <= |s|
  {
    if 7 <= |s| && LowerAt(s, 0, 7) == "<script" then
      match IndexOf(s, '>', 7)
      case None => None
      case Some(j) =>
        match CloseScript(s, j + 1)
        case None => None
        case Some(k) => Some(k + 9)
    else None
  }

  /** `.replace(/<script[^>]*>.*?<\/script>/gi, '')`. */
  function StripScripts(s: string): (r: string)
    decreases |s|
    ensures |r| <= |s|
    ensures IndexOf(s, '<', 0).None? ==> r == s
  {
    if |s| == 0 then ""
    else
      match ScriptMatch(s)
      case Some(n) => StripScripts(s[n..])
      case None =>
        assert s[0] != '<' ==> IndexOf(s[1..], '<', 0).None? == IndexOf(s, '<', 0).None? by {
          if s[0] != '<' {
            if IndexOf(s, '<', 0).None? {
              assert forall j :: 0 <= j < |s| - 1 ==> s[1..][j] == s[j + 1];
            } else {
              var k := IndexOf(s, '<', 0).value;
              assert s[1..][k - 1] == '<';
            }
          }
        }
        [s[0]] + StripScripts(s[1..])
  }

  /** `.replace(/<[^>]*>/g, '')`: every `<` with a `>` somewhere after it
      starts a tag, which ends at the first such `>`. */
  function StripTags(s: string): (r: string)
    decreases |s|
    ensures |r| <= |s|
  {
    if |s| == 0 then ""
    else if s[0] == '<' && IndexOf(s, '>', 1).Some? then StripTags(s[IndexOf(s, '>', 1).value + 1..])
    else [s[0]] + StripTags(s[1..])
  }

  /** No complete tag survives: no kept `<` has a `>` after it. */
  predicate NoTag(r: string) {
    forall i, j :: 0 <= i < j < |r| && r[i] == '<' ==> r[j] != '>'
  }

  lemma {:induction false} NoTagLeft(s: string)
    ensures NoTag(StripTags(s))
  {
    if |s| > 0 {
      if s[0] == '<' && IndexOf(s, '>', 1).Some? {
        var k := IndexOf(s, '>', 1).value;
        assert StripTags(s) == StripTags(s[k + 1..]);
        NoTagLeft(s[k + 1..]);
      } else {
        var t := StripTags(s[1..]);
        var r := [s[0]] + t;
        assert StripTags(s) == r;
        NoTagLeft(s[1..]);
        if s[0] == '<' {
          forall j | 0 <= j < |s| - 1 ensures s[1..][j] != '>' {
            assert s[1..][j] == s[j + 1];
          }
          StripTagsKeepsOnly(s[1..], '>');
        }
        forall i, j | 0 <= i < j < |r| && r[i] == '<' ensures r[j] != '>' {
          assert r[j] == t[j - 1];
          if i > 0 {
            assert r[i] == t[i - 1];
            assert 0 <= i - 1 < j - 1 < |t| && t[i - 1] == '<';
            assert NoTag(t);
          } else {
            assert s[0] == '<';
            assert t[j - 1] != '>';
          }
        }
        assert NoTag(r);
      }
    }
  }

  /** Stripping only removes characters: one absent from `s` is absent
      from the result. */
  lemma {:induction false} StripTagsKeepsOnly(s: string, c: char)
    requires forall j :: 0 <= j < |s| ==> s[j] != c
    ensures forall j :: 0 <= j < |StripTags(s)| ==> StripTags(s)[j] != c
  {
    if |s| > 0 {
      if s[0] == '<' && IndexOf(s, '>', 1).Some? {
        StripTagsKeepsOnly(s[IndexOf(s, '>', 1).value + 1..], c);
      } else {
        StripTagsKeepsOnly(s[1..], c);
      }
    }
  }

  lemma {:induction false} StripTagsPlain(s: string)
    requires forall j :: 0 <= j < |s| ==> s[j] != '<'
    ensures StripTags(s) == s
  {
    if |s| > 0 {
      StripTagsPlain(s[1..]);
    }
  }

  /** `sanitizeMessage`: scripts and tags removed, trimmed, at most 10000
      characters. */
  function SanitizeMessage(content: string): (r: string)
    ensures |r| <= 10000 && |r| <= |content|
    ensures NoTag(r)
  {
    var u := StripTags(StripScripts(content));
    NoTagLeft(StripScripts(content));
    var v := TrimStart(u);
    NoTagSlice(u, |u| - |v|, |u|);
    var t := TrimEnd(v);
    NoTagSlice(v, 0, |t|);
    assert t == Trim(u);
    var r := Take(t, 10000);
    NoTagSlice(t, 0, |r|);
    r
  }

  /** A piece of text without tags has none either. */
  lemma NoTagSlice(s: string, a: nat, b: nat)
    requires a <= b <= |s| && NoTag(s)
    ensures NoTag(s[a..b])
  {
    var p := s[a..b];
    forall i, j | 0 <= i < j < |p| && p[i] == '<'
      ensures p[j] != '>'
    {
      assert p[i] == s[a + i] && p[j] == s[a + j];
    }
  }

  /** Text without `<` is only trimmed and cut to length. */
  lemma SanitizePlain(content: string)
    requires forall j :: 0 <= j < |content| ==> content[j] != '<'
    ensures SanitizeMessage(content) == Take(Trim(content), 10000)
  {
    assert IndexOf(content, '<', 0).None?;
    StripTagsPlain(content);
  }

  /** A closed script element is removed with its body. */
  lemma ScriptRemoved()
    ensures StripTags(StripScripts(ScriptThenText)) == "hi"
  {
    var s := ScriptThenText;
    ScriptThenTextMatches();
    assert s[18..] == "hi";
    assert StripScripts(s) == StripScripts("hi");
    assert IndexOf("hi", '<', 0).None? by {
      assert "hi"[0] != '<' && "hi"[1] != '<';
    }
    StripTagsPlain("hi");
  }

  const ScriptThenText := "<script>x</script>hi"

  lemma ScriptThenTextMatches()
    ensures ScriptMatch(ScriptThenText) == Some(18)
  {
    var s := ScriptThenText;
    OpensScript();
    assert IndexOf(s, '>', 7) == Some(7);
    ClosesScript();
  }

  lemma OpensScript()
    ensures LowerAt(ScriptThenText, 0, 7) == "<script"
  {
    var s := ScriptThenText;
    assert s[0..7] == "<script";
  }

  lemma ClosesScript()
    ensures CloseScript(ScriptThenText, 8) == Some(9)
  {
    var s := ScriptThenText;
    assert LowerAt(s, 8, 9)[0] == 'x';
    assert s[9..18] == "</script>";
    assert LowerAt(s, 9, 9) == "</script>";
  }
}

=== FILE: optikgpt.dfy ===
/** /api/optik-gpt (app/api/optik-gpt/route.ts): the chat assistant. The
    history is mapped to OpenAI roles behind a fixed system prompt; in demo
    mode a canned answer is chosen by keywords instead of calling the model.
    The model's reply and its token count are parameters. */
module OptikGptRoute {
  import opened Basics
  import opened Http
  import opened Text
  import OpenAi

  /** A history entry as the page sends it; its role may be `optik`. */
  datatype Turn = Turn(role: string, content: string)

  predicate Forwardable(t: Turn) {
    t.role == "user" || t.role == "assistant" || t.role == "optik"
  }

  /** The history entries passed to the model, `optik` read as
      `assistant`; other roles are dropped. */
  function Forwarded(history: seq<Turn>): (r: seq<OpenAi.ChatMessage>)
    ensures |r| <= |history|
    ensures forall i :: 0 <= i < |r| ==> r[i].role != OpenAi.System
  {
    if |history| == 0 then []
    else
      var t := history[0];
      var head := if !Forwardable(t) then []
                  else [OpenAi.ChatMessage(if t.role == "user" then OpenAi.User else OpenAi.Assistant, t.content)];
      head + Forwarded(history[1..])
  }

  /** A history made only of the three accepted roles is forwarded entry for
      entry, with its text unchanged. */
  lemma {:induction false} ForwardedKeepsAll(history: seq<Turn>)
    requires forall i :: 0 <= i < |history| ==> Forwardable(history[i])
    ensures var r := Forwarded(history);
            |r| == |history|
            && forall i :: 0 <= i < |r| ==>
                 (r[i].content == history[i].content && (r[i].role == OpenAi.User <==> history[i].role == "user"))
  {
    if |history| > 0 {
      ForwardedKeepsAll(history[1..]);
      var r := Forwarded(history);
      var rest := Forwarded(history[1..]);
      forall i | 1 <= i < |r|
        ensures r[i] == rest[i - 1] && history[i] == history[1..][i - 1]
      {
      }
    }
  }

  /** The messages sent to the model: the system prompt, the forwarded
      history, then the new message as the user's. */
  function Prompt(systemPrompt: string, history: seq<Turn>, message: string): (ms: seq<OpenAi.ChatMessage>)
    ensures |ms| >= 2
    ensures ms[0] == OpenAi.ChatMessage(OpenAi.System, systemPrompt)
    ensures ms[|ms| - 1] == OpenAi.ChatMessage(OpenAi.User, message)
    ensures forall i :: 0 < i < |ms| ==> ms[i].role != OpenAi.System
  {
    [OpenAi.ChatMessage(OpenAi.System, systemPrompt)] + Forwarded(history) + [OpenAi.ChatMessage(OpenAi.User, message)]
  }

  /** `!process.env.OPENAI_API_KEY || NEXT_PUBLIC_DEMO_MODE === 'true'`. */
  function DemoMode(apiKey: Option<string>, demoFlag: Option<string>): (demo: bool)
    ensures demo <==> !Present(apiKey) || demoFlag == Some("true")
  {
    !Present(apiKey) || demoFlag == Some("true")
  }

  /** The canned answers of `generateDemo`, by subject. */
  datatype Topic = AlreadyCovered | Trends | Names | Strategy | Vault | Menu

  /** Some earlier `optik` answer contains the first 20 characters of the
      (lower-cased) question. */
  function Answered(history: seq<Turn>, lower: string): (b: bool)
    ensures b <==> exists i :: 0 <= i < |history| && history[i].role == "optik"
                              && Contains(ToLower(history[i].content), Take(lower, 20))
  {
    if |history| == 0 then false
    else
      assert forall i :: 1 <= i < |history| ==> history[i] == history[1..][i - 1];
      (history[0].role == "optik" && Contains(ToLower(history[0].content), Take(lower, 20)))
      || Answered(history[1..], lower)
  }

  /** `generateDemo`: the first matching rule wins. */
  function Demo(message: string, history: seq<Turn>): (t: Topic)
    ensures var lower := ToLower(message);
            && (t == AlreadyCovered <==> Answered(history, lower) && !Contains(lower, "more"))
            && (t == Menu <==> t != AlreadyCovered && !Contains(lower, "trend") && !Contains(lower, "hot")
                               && !Contains(lower, "name") && !Contains(lower, "strategy") && !Contains(lower, "launch")
                               && !Contains(lower, "vault") && !Contains(lower, "liquidity"))
  {
    var lower := ToLower(message);
    if Answered(history, lower) && !Contains(lower, "more") then AlreadyCovered
    else if Contains(lower, "trend") || Contains(lower, "hot") then Trends
    else if Contains(lower, "name") then Names
    else if Contains(lower, "strategy") || Contains(lower, "launch") then Strategy
    else if Contains(lower, "vault") || Contains(lower, "liquidity") then Vault
    else Menu
  }

  /** The demo answer ignores letter case. */
  lemma DemoIgnoresCase(message: string, history: seq<Turn>)
    ensures Demo(ToLower(message), history) == Demo(message, history)
  {
    ToLowerIdempotent(message);
  }

  /** Without an earlier assistant answer nothing counts as already
      covered, and asking for "more" always gets a fresh answer. */
  lemma NeverCoveredFirst(message: string, history: seq<Turn>)
    requires (forall i :: 0 <= i < |history| ==> history[i].role != "optik") || Contains(ToLower(message), "more")
    ensures Demo(message, history) != AlreadyCovered
  {
  }

  /** A question mentioning trends (and not already covered) gets the
      trends answer, whatever else it mentions. */
  lemma TrendsFirst(message: string, history: seq<Turn>)
    requires Contains(ToLower(message), "trend")
    requires !Answered(history, ToLower(message))
    ensures Demo(message, history) == Trends
  {
  }

  datatype Answer = DemoAnswer(topic: Topic) | ModelAnswer(response: string, tokensUsed: nat)

  /** POST. `completion` and `totalTokens` are what the model returned. */
  function Post(message: Option<string>, history: seq<Turn>, demo: bool,
                completion: Option<string>, totalTokens: Option<nat>): (r: Reply<Answer>)
    ensures r.Fail? <==> message.None? || Trim(message.value) == ""
    ensures r.Fail? ==> r == Fail(BadRequest, "Message required")
    ensures r.Ok? && demo ==> r.body == DemoAnswer(Demo(message.value, history))
    ensures r.Ok? && !demo ==> r.body.ModelAnswer?
                               && (Present(completion) ==> r.body.response == completion.value)
                               && (!Present(completion) ==> r.body.response == "Please rephrase.")
                               && r.body.tokensUsed == totalTokens.GetOr(0)
  {
    if message.None? || Trim(message.value) == "" then Fail(BadRequest, "Message required")
    else if demo then Ok(DemoAnswer(Demo(message.value, history)))
    else Ok(ModelAnswer(if Present(completion) then completion.value else "Please rephrase.", totalTokens.GetOr(0)))
  }

  /** A blank message is refused in either mode. */
  lemma BlankRefused(history: seq<Turn>, demo: bool, completion: Option<string>, totalTokens: Option<nat>)
    ensures Post(Some("  "), history, demo, completion, totalTokens) == Fail(BadRequest, "Message required")
  {
    assert IsSpace(' ');
    TrimEmptyIffAllSpace("  ");
  }
}

=== FILE: paymentcheckout.dfy ===
/** POST /api/payment/create-checkout
    (app/api/payment/create-checkout/route.ts): the Stripe checkout for a
    token launch, priced in cents from the tier with a 2.5% platform fee.
    The Stripe call is a parameter: the session it creates, or the error
    it throws. */
module PaymentCheckout {
  import opened Basics
  import opened Http
  import opened Text
  import RevenueCalculator

  /** `TIER_PRICING[tier]` in cents, for the three names it lists. */
  function ParseTier(tier: Option<string>): (t: Option<RevenueCalculator.LaunchTier>)
    ensures t.Some? <==> tier == Some("BASIC") || tier == Some("STANDARD") || tier == Some("PREMIUM")
    ensures tier == Some("BASIC") ==> t == Some(RevenueCalculator.Basic)
    ensures tier == Some("STANDARD") ==> t == Some(RevenueCalculator.Standard)
    ensures tier == Some("PREMIUM") ==> t == Some(RevenueCalculator.Premium)
  {
    if tier == Some("BASIC") then Some(RevenueCalculator.Basic)
    else if tier == Some("STANDARD") then Some(RevenueCalculator.Standard)
    else if tier == Some("PREMIUM") then Some(RevenueCalculator.Premium)
    else None
  }

  /** The enterprise tier of the price list cannot be bought here. */
  lemma EnterpriseRejected()
    ensures ParseTier(Some("ENTERPRISE")).None?
  {
  }

  function TierCents(t: RevenueCalculator.LaunchTier): (c: nat)
    ensures c as real == 100.0 * RevenueCalculator.LaunchFee(t)
  {
    match t
    case Basic => 10000
    case Standard => 50000
    case Premium => 250000
  }

  /** `Math.floor(basePrice * 0.025)` on whole cents. */
  function PlatformFeeCents(base: nat): (f: nat)
    ensures f * 40 <= base < (f + 1) * 40
  {
    base / 40
  }

  datatype LineItem = LineItem(currency: string, name: string, unitAmount: nat, quantity: nat)

  /** What the route asks Stripe for; `liquiditySOL` is the number whose
      `toString()` goes into the metadata. */
  datatype SessionRequest = SessionRequest(
    lineItems: seq<LineItem>, mode: string,
    tier: string, creatorWallet: Option<string>, tokenName: Option<string>, tokenSymbol: Option<string>,
    liquiditySOL: real, platformFee: string)

  datatype Body = Body(tier: Option<string>, creatorWallet: Option<string>, tokenName: Option<string>,
                       tokenSymbol: Option<string>, liquiditySOL: Option<real>)

  datatype StripeAnswer = Created(sessionId: string, url: string) | StripeFailed(message: string)

  datatype Outcome = Outcome(sent: Option<SessionRequest>, reply: Reply<StripeAnswer>)

  /** The `TypeError` a missing `liquiditySOL` raises on `.toString()`. */
  const MissingLiquidity: string := "Cannot read properties of undefined (reading 'toString')"

  function Checkout(body: Body, stripe: StripeAnswer): (o: Outcome)
    ensures ParseTier(body.tier).None? ==> o == Outcome(None, Fail(BadRequest, "Invalid tier"))
    ensures ParseTier(body.tier).Some? && body.liquiditySOL.None? ==> o == Outcome(None, Fail(ServerError, MissingLiquidity))
    ensures ParseTier(body.tier).Some? && body.liquiditySOL.Some? ==>
      var base := TierCents(ParseTier(body.tier).value);
      && o.sent.Some?
      && o.sent.value.lineItems == [LineItem("usd", body.tier.value + " Token Launch", base + PlatformFeeCents(base), 1)]
      && o.sent.value.mode == "payment"
      && o.sent.value.platformFee == NatToString(PlatformFeeCents(base))
      && o.sent.value.liquiditySOL == body.liquiditySOL.value
      && (stripe.Created? ==> o.reply == Ok(stripe))
      && (stripe.StripeFailed? ==> o.reply == Fail(ServerError, if stripe.message != "" then stripe.message else "Payment failed"))
  {
    match ParseTier(body.tier)
    case None => Outcome(None, Fail(BadRequest, "Invalid tier"))
    case Some(t) =>
      if body.liquiditySOL.None? then Outcome(None, Fail(ServerError, MissingLiquidity))
      else
        var base := TierCents(t);
        var fee := PlatformFeeCents(base);
        var req := SessionRequest([LineItem("usd", body.tier.value + " Token Launch", base + fee, 1)], "payment",
                                  body.tier.value, body.creatorWallet, body.tokenName, body.tokenSymbol,
                                  body.liquiditySOL.value, NatToString(fee));
        match stripe
        case Created(_, _) => Outcome(Some(req), Ok(stripe))
        case StripeFailed(m) => Outcome(Some(req), Fail(ServerError, if m != "" then m else "Payment failed"))
  }

  /** The charged totals are 102.5% of the tier price, in cents: 10250,
      51250 and 256250, the launch totals of the revenue calculator. */
  lemma ChargedTotals(t: RevenueCalculator.LaunchTier)
    ensures var base := TierCents(t);
            && (base + PlatformFeeCents(base)) as real == 100.0 * RevenueCalculator.LaunchRevenueOf(t).total
            && PlatformFeeCents(base) as real == 100.0 * RevenueCalculator.LaunchRevenueOf(t).platformFee
            && (t == RevenueCalculator.Basic ==> base + PlatformFeeCents(base) == 10250)
            && (t == RevenueCalculator.Standard ==> base + PlatformFeeCents(base) == 51250)
            && (t == RevenueCalculator.Premium ==> base + PlatformFeeCents(base) == 256250)
  {
  }
}

=== FILE: pendingrewards.dfy ===
/** GET /api/arcade/pending-rewards (app/api/arcade/pending-rewards/route.ts):
    the wallet's claimable rewards, each reduced to the fields the arcade
    page shows. A failed query (`fails`) answers with an empty list. */
module PendingRewards {
  import opened Basics
  import opened Http
  import opened Ledger
  import ClaimRewards

  /** The client-side `PendingReward` record. */
  datatype View = View(id: nat, amount: real, source: string, createdAt: int, expiresAt: int)

  function ToView(r: Reward): (v: View)
    ensures v.id == r.id && v.amount == r.amount && v.source == r.source
    ensures v.createdAt == r.createdAt && v.expiresAt == r.expiresAt
  {
    View(r.id, r.amount, r.source, r.createdAt, r.expiresAt)
  }

  function Views(rs: seq<Reward>): (vs: seq<View>)
    ensures |vs| == |rs| && forall i :: 0 <= i < |rs| ==> vs[i] == ToView(rs[i])
  {
    seq(|rs|, i requires 0 <= i < |rs| => ToView(rs[i]))
  }

  function Pending(t: seq<Reward>, wallet: Option<string>, now: int, fails: bool): (r: Reply<seq<View>>)
    ensures r.Fail? <==> !Present(wallet)
    ensures r.Fail? ==> r.status == BadRequest
    ensures Present(wallet) && fails ==> r == Ok([])
    ensures Present(wallet) && !fails ==> r == Ok(Views(Select(t, wallet.value, now)))
  {
    if !Present(wallet) then Fail(BadRequest, "Wallet address required")
    else if fails then Ok([])
    else Ok(Views(Select(t, wallet.value, now)))
  }

  /** The sum of listed amounts, as the arcade page computes it. */
  function ViewTotal(vs: seq<View>): real {
    Sum(seq(|vs|, i requires 0 <= i < |vs| => vs[i].amount))
  }

  /** Listing and claiming use the same filter: with both queries working,
      the total the page shows is the amount a claim at the same instant
      credits, and the number listed is the number claimed. */
  lemma ListedIsClaimed(db: ClaimRewards.Db, wallet: Option<string>, now: nat)
    requires Present(wallet) && Select(db.rewards, wallet.value, now) != []
    ensures var listed := Pending(db.rewards, wallet, now, false).body;
            var claimed := ClaimRewards.Claim(db, wallet, now, false, false, false).reply.body;
            ViewTotal(listed) == claimed.amount && |listed| == claimed.rewardsClaimed
  {
    var sel := Select(db.rewards, wallet.value, now);
    var vs := Views(sel);
    assert seq(|vs|, i requires 0 <= i < |vs| => vs[i].amount) == Amounts(sel);
  }
}

=== FILE: perpsclient.dfy ===
/** The perpetuals trading client (lib/perps-client.ts): positions held in
    a keyed map, opened at and closed against the oracle's price, with
    long/short profit and loss, a liquidation price, derived user stats and
    the revenue-share claim. Transactions are simulated in the source too;
    local-storage persistence is not modelled. */
module PerpsClient {
  import opened Basics
  import opened Text
  import PriceOracle

  datatype Side = Long | Short

  /** `+1` for a long position, `−1` for a short one. */
  function Direction(s: Side): real {
    if s == Long then 1.0 else -1.0
  }

  /** A position; `liquidationPrice` is `None` where the source's division
      by a zero leverage gives a non-finite number. */
  datatype Position = Position(
    pair: PriceOracle.Pair, side: Side, size: real, entry: real, current: real,
    pnl: real, leverage: real, liquidationPrice: Option<real>, timestamp: int)

  // ------------------------------------------------------------ formulas

  /** `calculatePnL`: the relative price move, scaled by size and leverage,
      signed by the side. */
  function PnL(p: Position, price: real): (r: real)
    requires p.entry != 0.0
    ensures price == p.entry ==> r == 0.0
    ensures r == Direction(p.side) * ((price - p.entry) / p.entry) * p.size * p.leverage
  {
    var diff := price - p.entry;
    var sign := if p.side == Long then 1.0 else -1.0;
    diff / p.entry * p.size * p.leverage * sign
  }

  /** The same position taken on the other side earns exactly the opposite. */
  lemma OppositeSides(p: Position, price: real)
    requires p.entry != 0.0
    ensures PnL(p.(side := Long), price) == -PnL(p.(side := Short), price)
  {
  }

  /** The share of margin lost at liquidation. */
  const LiquidationThreshold: real := 0.9

  /** `calculateLiquidationPrice`: the price at which 90% of the margin is
      gone, below the entry for a long and above it for a short. */
  function Liquidation(entry: real, leverage: real, isLong: bool): (r: Option<real>)
    ensures r.None? <==> leverage == 0.0
    ensures leverage > 0.0 && entry > 0.0 ==> (isLong ==> r.value < entry) && (!isLong ==> r.value > entry)
  {
    if leverage == 0.0 then None
    else
      var move := 1.0 / leverage * LiquidationThreshold;
      if isLong then Some(entry * (1.0 - move)) else Some(entry * (1.0 + move))
  }

  /** At its liquidation price every position has lost exactly 90% of its
      size, on either side. */
  lemma LossAtLiquidation(entry: real, size: real, leverage: real, isLong: bool, t: int, pair: PriceOracle.Pair)
    requires entry != 0.0 && leverage != 0.0
    ensures var liq := Liquidation(entry, leverage, isLong).value;
            var p := Position(pair, if isLong then Long else Short, size, entry, entry, 0.0, leverage, Some(liq), t);
            PnL(p, liq) == -LiquidationThreshold * size
  {
    var m := 1.0 / leverage * LiquidationThreshold;
    var liq := Liquidation(entry, leverage, isLong).value;
    var moved := (liq - entry) / entry;
    assert moved == if isLong then -m else m by {
      if isLong {
        assert liq - entry == entry * -m;
      } else {
        assert liq - entry == entry * m;
      }
    }
    assert m * leverage == LiquidationThreshold;
  }

  // ------------------------------------------------------------ the position map

  /** One key of the `positions` map with its position. */
  datatype Entry = Entry(key: string, pos: Position)

  /** The `Map<string, Position>` in insertion order. */
  type Book = seq<Entry>

  function Keys(b: Book): (ks: seq<string>)
    ensures |ks| == |b|
  {
    if |b| == 0 then [] else [b[0].key] + Keys(b[1..])
  }

  /** No key occurs twice, as in any map. */
  predicate Distinct(b: Book) {
    |b| == 0 || (b[0].key !in Keys(b[1..]) && Distinct(b[1..]))
  }

  /** `positions.get(k)`. */
  function Lookup(b: Book, k: string): (r: Option<Position>)
    ensures r.Some? <==> k in Keys(b)
    ensures r.Some? ==> Entry(k, r.value) in b
  {
    if |b| == 0 then None
    else if b[0].key == k then Some(b[0].pos)
    else Lookup(b[1..], k)
  }

  /** `positions.set(k, p)`: replaces in place when `k` is a key, else
      appends. */
  function Put(b: Book, k: string, p: Position): (r: Book)
    ensures forall x :: x in Keys(r) <==> x in Keys(b) || x == k
    ensures |r| == if k in Keys(b) then |b| else |b| + 1
    ensures forall e :: e in r ==> e == Entry(k, p) || e in b
  {
    if |b| == 0 then [Entry(k, p)]
    else if b[0].key == k then [Entry(k, p)] + b[1..]
    else
      var r := [b[0]] + Put(b[1..], k, p);
      assert r[1..] == Put(b[1..], k, p);
      r
  }

  /** After `set`, `k` maps to `p` and every other key to what it did. */
  lemma {:induction false} PutLookup(b: Book, k: string, p: Position, x: string)
    ensures Lookup(Put(b, k, p), x) == if x == k then Some(p) else Lookup(b, x)
  {
    if |b| > 0 && b[0].key != k {
      PutLookup(b[1..], k, p, x);
      assert Put(b, k, p)[1..] == Put(b[1..], k, p);
    } else if |b| > 0 {
      assert Put(b, k, p)[1..] == b[1..];
    }
  }

  lemma {:induction false} PutDistinct(b: Book, k: string, p: Position)
    requires Distinct(b)
    ensures Distinct(Put(b, k, p))
  {
    if |b| > 0 && b[0].key != k {
      PutDistinct(b[1..], k, p);
      assert Put(b, k, p)[1..] == Put(b[1..], k, p);
    } else if |b| > 0 {
      assert Put(b, k, p)[1..] == b[1..];
    }
  }

  /** `positions.delete(k)`. */
  function Remove(b: Book, k: string): (r: Book)
    ensures forall x :: x in Keys(r) <==> x in Keys(b) && x != k
    ensures |r| <= |b|
  {
    if |b| == 0 then []
    else if b[0].key == k then Remove(b[1..], k)
    else
      var r := [b[0]] + Remove(b[1..], k);
      assert r[1..] == Remove(b[1..], k);
      r
  }

  /** After `delete`, `k` is gone and every other key keeps its position. */
  lemma {:induction false} RemoveLookup(b: Book, k: string, x: string)
    ensures Lookup(Remove(b, k), x) == if x == k then None else Lookup(b, x)
  {
    if |b| > 0 {
      RemoveLookup(b[1..], k, x);
      if b[0].key != k {
        assert Remove(b, k)[1..] == Remove(b[1..], k);
      }
    }
  }

  lemma {:induction false} RemoveDistinct(b: Book, k: string)
    requires Distinct(b)
    ensures Distinct(Remove(b, k))
  {
    if |b| > 0 {
      RemoveDistinct(b[1..], k);
      if b[0].key != k {
        assert Remove(b, k)[1..] == Remove(b[1..], k);
      }
    }
  }

  /** Deleting a key that was just added gives the map back. */
  lemma {:induction false} RemovePut(b: Book, k: string, p: Position)
    requires k !in Keys(b)
    ensures Remove(Put(b, k, p), k) == b
  {
    if |b| > 0 {
      RemovePut(b[1..], k, p);
      assert Put(b, k, p)[1..] == Put(b[1..], k, p);
    }
  }

  // ------------------------------------------------------------ keys

  /** The key `${pair}-${Date.now()}`: the pair's name, a dash, and the
      decimal digits of the clock, which read back as the clock. */
  function PositionKey(pair: PriceOracle.Pair, now: nat): (k: string)
    ensures var n := |PriceOracle.PairName(pair)|;
            && |k| > n + 1 && k[..n] == PriceOracle.PairName(pair) && k[n] == '-'
            && (forall i :: n < i < |k| ==> '0' <= k[i] <= '9')
            && DigitsValue(k[n + 1..]) == now
  {
    var k := PriceOracle.PairName(pair) + "-" + NatToString(now);
    var n := |PriceOracle.PairName(pair)|;
    assert k[n + 1..] == NatToString(now);
    NatToStringValue(now);
    k
  }

  /** Different pairs or different milliseconds give different keys, and
      so two positions of the same pair opened in the same millisecond
      share one key (the second overwrites the first). */
  lemma KeyInjective(p1: PriceOracle.Pair, t1: nat, p2: PriceOracle.Pair, t2: nat)
    ensures PositionKey(p1, t1) == PositionKey(p2, t2) <==> p1 == p2 && t1 == t2
  {
    if PositionKey(p1, t1) == PositionKey(p2, t2) {
      var k := PositionKey(p1, t1);
      assert k[0] == PriceOracle.PairName(p1)[0];
      assert k[0] == PriceOracle.PairName(p2)[0];
      var n := |PriceOracle.PairName(p1) + "-"|;
      assert k[n..] == NatToString(t1);
      assert k[n..] == NatToString(t2);
      NatToStringValue(t1);
      NatToStringValue(t2);
    }
  }

  // ------------------------------------------------------------ the client

  const NotConnected: string := "Wallet not connected"
  const NoPrice: string := "Price data not available"
  const NotFound: string := "Position not found"

  /** The calls that move funds need a key and a signer. */
  predicate CanTrade(w: Wallet) {
    w.publicKey.Some? && w.canSign
  }

  /** Every stored position can be valued (its entry is not zero). */
  predicate Sound(b: Book) {
    forall i :: 0 <= i < |b| ==> b[i].pos.entry != 0.0
  }

  datatype Opened = Opened(book: Book, result: Result<string>)

  /** `openPosition`: a simulated position at the oracle price, with no
      profit or loss yet, stored under its key. */
  function Open(b: Book, w: Wallet, cache: PriceOracle.Cache, pair: PriceOracle.Pair,
                size: real, isLong: bool, leverage: real, now: nat): (o: Opened)
    ensures !CanTrade(w) ==> o == Opened(b, Throws(NotConnected))
    ensures CanTrade(w) && pair !in cache ==> o == Opened(b, Throws(NoPrice))
    ensures CanTrade(w) && pair in cache ==>
      var entry := cache[pair].price;
      && o.result == Returns(PositionKey(pair, now))
      && Lookup(o.book, o.result.value) == Some(Position(pair, if isLong then Long else Short, size, entry, entry,
                                                         0.0, leverage, Liquidation(entry, leverage, isLong), now))
      && (forall k :: k != o.result.value ==> Lookup(o.book, k) == Lookup(b, k))
    ensures Distinct(b) ==> Distinct(o.book)
    ensures Sound(b) && (pair in cache ==> cache[pair].price != 0.0) ==> Sound(o.book)
  {
    if !CanTrade(w) then Opened(b, Throws(NotConnected))
    else if pair !in cache then Opened(b, Throws(NoPrice))
    else
      var entry := cache[pair].price;
      var key := PositionKey(pair, now);
      var pos := Position(pair, if isLong then Long else Short, size, entry, entry,
                          0.0, leverage, Liquidation(entry, leverage, isLong), now);
      var r := Put(b, key, pos);
      assert forall x :: Lookup(r, x) == if x == key then Some(pos) else Lookup(b, x) by {
        forall x ensures Lookup(r, x) == if x == key then Some(pos) else Lookup(b, x) {
          PutLookup(b, key, pos, x);
        }
      }
      assert Distinct(b) ==> Distinct(r) by {
        if Distinct(b) { PutDistinct(b, key, pos); }
      }
      assert Sound(b) && entry != 0.0 ==> Sound(r) by {
        if Sound(b) && entry != 0.0 {
          forall i | 0 <= i < |r| ensures r[i].pos.entry != 0.0 {
            assert r[i] in r;
          }
        }
      }
      Opened(r, Returns(key))
  }

  datatype Closed = Closed(book: Book, result: Result<real>)

  /** `closePosition`: removes that key only and returns the position's
      profit or loss at the oracle's price. */
  function Close(b: Book, w: Wallet, cache: PriceOracle.Cache, key: string): (o: Closed)
    requires Sound(b)
    ensures !CanTrade(w) ==> o == Closed(b, Throws(NotConnected))
    ensures CanTrade(w) && Lookup(b, key).None? ==> o == Closed(b, Throws(NotFound))
    ensures CanTrade(w) && Lookup(b, key).Some? && Lookup(b, key).value.pair !in cache ==> o == Closed(b, Throws(NoPrice))
    ensures o.result.Returns? ==>
      && Lookup(b, key).Some?
      && o.book == Remove(b, key)
      && Lookup(o.book, key).None?
      && (forall x :: x != key ==> Lookup(o.book, x) == Lookup(b, x))
      && o.result.value == PnL(Lookup(b, key).value, cache[Lookup(b, key).value.pair].price)
    ensures o.result.Throws? ==> o.book == b
  {
    if !CanTrade(w) then Closed(b, Throws(NotConnected))
    else
      match Lookup(b, key)
      case None => Closed(b, Throws(NotFound))
      case Some(pos) =>
        if pos.pair !in cache then Closed(b, Throws(NoPrice))
        else
          assert pos.entry != 0.0 by { EntryOf(b, key); }
          var r := Remove(b, key);
          assert forall x :: Lookup(r, x) == if x == key then None else Lookup(b, x) by {
            forall x ensures Lookup(r, x) == if x == key then None else Lookup(b, x) {
              RemoveLookup(b, key, x);
            }
          }
          Closed(Remove(b, key), Returns(PnL(pos, cache[pos.pair].price)))
  }

  lemma EntryOf(b: Book, key: string)
    requires Sound(b) && Lookup(b, key).Some?
    ensures Lookup(b, key).value.entry != 0.0
  {
    var e := Entry(key, Lookup(b, key).value);
    var i :| 0 <= i < |b| && b[i] == e;
  }

  /** Opening a position and closing it again at an unchanged price gives
      back the map as it was and a profit of exactly zero. */
  lemma OpenThenClose(b: Book, w: Wallet, cache: PriceOracle.Cache, pair: PriceOracle.Pair,
                      size: real, isLong: bool, leverage: real, now: nat)
    requires Sound(b) && CanTrade(w) && pair in cache && cache[pair].price != 0.0
    requires PositionKey(pair, now) !in Keys(b)
    ensures var o := Open(b, w, cache, pair, size, isLong, leverage, now);
            Close(o.book, w, cache, o.result.value) == Closed(b, Returns(0.0))
  {
    var o := Open(b, w, cache, pair, size, isLong, leverage, now);
    var entry := cache[pair].price;
    var pos := Position(pair, if isLong then Long else Short, size, entry, entry,
                        0.0, leverage, Liquidation(entry, leverage, isLong), now);
    assert o.book == Put(b, PositionKey(pair, now), pos);
    RemovePut(b, PositionKey(pair, now), pos);
  }

  /** `getUserPositions` revalues every position whose pair has a price
      (the stored objects themselves are updated). */
  function Revalue(p: Position, cache: PriceOracle.Cache): (q: Position)
    requires p.entry != 0.0
    ensures q.entry == p.entry && q.pair == p.pair && q.side == p.side
    ensures p.pair in cache ==> q.current == cache[p.pair].price && q.pnl == PnL(p, cache[p.pair].price)
    ensures p.pair !in cache ==> q == p
  {
    if p.pair in cache then p.(current := cache[p.pair].price, pnl := PnL(p, cache[p.pair].price)) else p
  }

  function Refresh(b: Book, cache: PriceOracle.Cache): (r: Book)
    requires Sound(b)
    ensures |r| == |b| && Sound(r)
    ensures forall i :: 0 <= i < |b| ==> r[i] == Entry(b[i].key, Revalue(b[i].pos, cache))
  {
    seq(|b|, i requires 0 <= i < |b| => Entry(b[i].key, Revalue(b[i].pos, cache)))
  }

  function Pnls(b: Book): (xs: seq<real>)
    ensures |xs| == |b| && forall i :: 0 <= i < |b| ==> xs[i] == b[i].pos.pnl
  {
    seq(|b|, i requires 0 <= i < |b| => b[i].pos.pnl)
  }

  /** How many of the values are strictly positive. */
  function Wins(xs: seq<real>): (n: nat)
    ensures n <= |xs|
    ensures n == 0 <==> forall i :: 0 <= i < |xs| ==> xs[i] <= 0.0
  {
    if |xs| == 0 then 0
    else (if xs[0] > 0.0 then 1 else 0) + Wins(xs[1..])
  }

  datatype UserStats = UserStats(
    totalPnL: real, winRate: real, totalTrades: nat, avgWin: real, rank: nat,
    volume: real, multiplier: real, streak: nat, revenueShare: real,
    optikBalance: real, stakedOptik: real)

  /** `winRate`: the share of winning trades in percent, 0 with no trades. */
  function WinRate(wins: nat, trades: nat): (rate: real)
    requires wins <= trades
    ensures 0.0 <= rate <= 100.0
    ensures trades > 0 ==> rate * trades as real == wins as real * 100.0
    ensures trades == 0 ==> rate == 0.0
  {
    if trades > 0 then
      RatioAtMostOne(wins, trades);
      (wins as real / trades as real) * 100.0
    else 0.0
  }

  lemma RatioAtMostOne(a: nat, b: nat)
    requires a <= b && b > 0
    ensures 0.0 <= a as real / b as real <= 1.0
  {
    var q := a as real / b as real;
    assert q * b as real == a as real;
  }

  /** `avgWin`: the total profit per winning trade, 0 with no winner. */
  function AvgWin(pnls: seq<real>): (avg: real)
    ensures Wins(pnls) > 0 ==> avg * Wins(pnls) as real == Sum(pnls)
    ensures Wins(pnls) == 0 ==> avg == 0.0
  {
    if Wins(pnls) > 0 then Sum(pnls) / Wins(pnls) as real else 0.0
  }

  /** The stats for a list of revalued positions; the rank, streak and
      balances are fixed placeholders. */
  function StatsOf(pnls: seq<real>): (s: UserStats)
    ensures s.totalPnL == Sum(pnls) && s.totalTrades == |pnls|
    ensures s.winRate == WinRate(Wins(pnls), |pnls|) && s.avgWin == AvgWin(pnls)
    ensures 1.0 <= s.multiplier <= 2.0 && s.multiplier == 1.0 + s.winRate / 100.0
    ensures s.revenueShare == s.totalPnL * 0.1 && s.volume == |pnls| as real * 1000.0
    ensures s.rank == 42 && s.streak == 0 && s.optikBalance == 50000.0 && s.stakedOptik == 25000.0
  {
    var total := Sum(pnls);
    var rate := WinRate(Wins(pnls), |pnls|);
    UserStats(total, rate, |pnls|, AvgWin(pnls), 42,
              |pnls| as real * 1000.0, 1.0 + rate / 100.0, 0, total * 0.1, 50000.0, 25000.0)
  }

  datatype StatsOutcome = StatsOutcome(book: Book, result: Result<UserStats>)

  /** `getUserStats`: needs a key only; revalues the positions (which
      updates them) and derives the stats from their profits and losses. */
  function GetUserStats(b: Book, w: Wallet, cache: PriceOracle.Cache): (o: StatsOutcome)
    requires Sound(b)
    ensures w.publicKey.None? ==> o == StatsOutcome(b, Throws(NotConnected))
    ensures w.publicKey.Some? ==> o == StatsOutcome(Refresh(b, cache), Returns(StatsOf(Pnls(Refresh(b, cache)))))
    ensures Sound(o.book)
  {
    if w.publicKey.None? then StatsOutcome(b, Throws(NotConnected))
    else
      var r := Refresh(b, cache);
      StatsOutcome(r, Returns(StatsOf(Pnls(r))))
  }

  /** `claimRewards`: refuses unless the revenue share (a tenth of the
      total profit) is positive. */
  function ClaimRewards(b: Book, w: Wallet, cache: PriceOracle.Cache): (o: Opened)
    requires Sound(b)
    ensures !CanTrade(w) ==> o == Opened(b, Throws(NotConnected))
    ensures CanTrade(w) ==> o.book == Refresh(b, cache)
    ensures CanTrade(w) ==>
      (o.result == Returns("claim-signature") <==> Sum(Pnls(Refresh(b, cache))) > 0.0)
    ensures o.result.Throws? && CanTrade(w) ==> o.result.message == "No rewards to claim"
  {
    if !CanTrade(w) then Opened(b, Throws(NotConnected))
    else
      var s := GetUserStats(b, w, cache);
      var stats := s.result.value;
      if stats.revenueShare <= 0.0 then Opened(s.book, Throws("No rewards to claim"))
      else Opened(s.book, Returns("claim-signature"))
  }

  /** `joinCompetition`: a fixed signature for any competition. */
  function JoinCompetition(w: Wallet, competitionId: int): (r: Result<string>)
    ensures r.Throws? <==> !CanTrade(w)
    ensures r.Returns? ==> r.value == "competition-entry-signature"
  {
    if !CanTrade(w) then Throws(NotConnected) else Returns("competition-entry-signature")
  }

  /** With no open position there is nothing to claim. */
  lemma EmptyBookNoClaim(w: Wallet, cache: PriceOracle.Cache)
    ensures ClaimRewards([], w, cache).result.Throws?
  {
    assert Pnls(Refresh([], cache)) == [];
  }
}

=== FILE: positions.dfy ===
/** /api/positions (app/api/positions/route.ts): the `positions` table of
    recorded trades. GET lists a wallet's positions newest first, POST opens
    one, PUT updates or closes one. The database's failures are flags;
    `now` is the request time; ids are assigned one past the largest in
    the table. */
module PositionsRoute {
  import opened Basics
  import opened Http

  datatype PosRow = PosRow(
    id: nat, wallet: string, pair: string, side: string, size: real, entryPrice: real,
    currentPrice: Option<real>, leverage: Option<real>, liquidationPrice: Option<real>, pnl: Option<real>,
    status: string, createdAt: int, updatedAt: int, closedAt: Option<int>, exitPrice: Option<real>)

  /** A row of `wallet`, with `status` unless that is `None`. */
  predicate Matches(r: PosRow, wallet: string, status: Option<string>) {
    r.wallet == wallet && (status.None? || r.status == status.value)
  }

  /** The rows of `wallet`, restricted to `status` unless it is `None`, in
      table order. */
  function Matching(t: seq<PosRow>, wallet: string, status: Option<string>): (m: seq<PosRow>)
    ensures forall r :: r in m <==> r in t && Matches(r, wallet, status)
    ensures |m| <= |t|
    ensures Subsequence(m, t)
  {
    if |t| == 0 then []
    else
      var rest := Matching(t[1..], wallet, status);
      var m := if Matches(t[0], wallet, status) then [t[0]] + rest else rest;
      FilterStep((r: PosRow) => Matches(r, wallet, status), t, rest, m);
      m
  }

  /** Every matching row is listed as often as the table holds it, and no other is. */
  lemma {:induction false} MatchingCounts(t: seq<PosRow>, wallet: string, status: Option<string>)
    ensures forall r :: multiset(Matching(t, wallet, status))[r] == if Matches(r, wallet, status) then multiset(t)[r] else 0
  {
    if |t| > 0 {
      MatchingCounts(t[1..], wallet, status);
      FilterCountStep((r: PosRow) => Matches(r, wallet, status), t, Matching(t[1..], wallet, status), Matching(t, wallet, status));
    }
  }

  /** The `status` filter: `open` when absent or empty, none for `all`. */
  function StatusFilter(status: Option<string>): (f: Option<string>)
    ensures f.None? <==> status == Some("all")
    ensures !Present(status) ==> f == Some("open")
    ensures Present(status) && status != Some("all") ==> f == status
  {
    var s := if Present(status) then status.value else "open";
    if s == "all" then None else Some(s)
  }

  /** GET. With the table in creation order, `.order('created_at',
      { ascending: false })` is the matching rows reversed; a database
      error answers an empty list. */
  function Get(t: seq<PosRow>, wallet: Option<string>, status: Option<string>, fails: bool): (reply: Reply<seq<PosRow>>)
    ensures !Present(wallet) ==> reply == Fail(BadRequest, "Wallet address required")
    ensures Present(wallet) && fails ==> reply == Ok([])
    ensures Present(wallet) && !fails ==> reply.Ok?
    ensures Present(wallet) && !fails ==>
      (forall r :: r in reply.body <==> r in t && r.wallet == wallet.value
                                        && (status == Some("all") || r.status == StatusFilter(status).value))
    ensures Present(wallet) && !fails ==>
      multiset(reply.body) == multiset(Matching(t, wallet.value, StatusFilter(status)))
  {
    if !Present(wallet) then Fail(BadRequest, "Wallet address required")
    else if fails then Ok([])
    else
      var m := Matching(t, wallet.value, StatusFilter(status));
      var out := Reverse(m);
      assert forall r :: r in out <==> r in m by {
        forall r ensures r in out <==> r in m {
          if r in m {
            var i :| 0 <= i < |m| && m[i] == r;
            assert out[|m| - 1 - i] == r;
          }
        }
      }
      Ok(out)
  }

  predicate CreationOrdered(t: seq<PosRow>) {
    forall i, j :: 0 <= i < j < |t| ==> t[i].createdAt <= t[j].createdAt
  }

  lemma {:induction false} MatchingOrdered(t: seq<PosRow>, wallet: string, status: Option<string>)
    requires CreationOrdered(t)
    ensures CreationOrdered(Matching(t, wallet, status))
  {
    if |t| > 0 {
      MatchingOrdered(t[1..], wallet, status);
      var rest := Matching(t[1..], wallet, status);
      forall r | r in rest ensures t[0].createdAt <= r.createdAt {
        var k :| 0 <= k < |t[1..]| && t[1..][k] == r;
        assert t[k + 1] == r;
      }
    }
  }

  /** GET answers newest first when rows were stored in creation order. */
  lemma NewestFirst(t: seq<PosRow>, wallet: string, status: Option<string>)
    requires wallet != "" && CreationOrdered(t)
    ensures var reply := Get(t, Some(wallet), status, false);
            forall i, j :: 0 <= i < j < |reply.body| ==> reply.body[i].createdAt >= reply.body[j].createdAt
  {
    MatchingOrdered(t, wallet, StatusFilter(status));
  }

  function MaxId(t: seq<PosRow>): (m: nat)
    ensures forall r :: r in t ==> r.id <= m
  {
    if |t| == 0 then 0
    else
      assert forall r :: r in t <==> r == t[0] || r in t[1..];
      MaxI(t[0].id, MaxId(t[1..]))
  }

  predicate UniqueIds(t: seq<PosRow>) {
    forall i, j :: 0 <= i < j < |t| ==> t[i].id != t[j].id
  }

  datatype Opening = Opening(wallet: Option<string>, pair: Option<string>, side: Option<string>, size: Option<real>,
                             entryPrice: Option<real>, leverage: Option<real>, liquidationPrice: Option<real>)

  /** The fields POST insists on, each truthy: a size or entry price of 0
      is refused like a missing one. */
  predicate Complete(b: Opening) {
    Present(b.wallet) && Present(b.pair) && Present(b.side) && PresentNum(b.size) && PresentNum(b.entryPrice)
  }

  datatype Changed = Changed(table: seq<PosRow>, reply: Reply<PosRow>)

  /** POST: inserts an open position priced at its entry with no profit. */
  function Post(t: seq<PosRow>, b: Opening, now: int, fails: bool): (o: Changed)
    ensures !Complete(b) ==> o == Changed(t, Fail(BadRequest, "Missing required fields"))
    ensures Complete(b) && fails ==> o == Changed(t, Fail(ServerError, "Failed to create position"))
    ensures Complete(b) && !fails ==>
      && o.reply.Ok? && o.table == t + [o.reply.body]
      && (forall r :: r in t ==> r.id < o.reply.body.id)
      && o.reply.body.wallet == b.wallet.value && o.reply.body.status == "open"
      && o.reply.body.size == b.size.value && o.reply.body.entryPrice == b.entryPrice.value
      && o.reply.body.currentPrice == b.entryPrice && o.reply.body.pnl == Some(0.0)
      && o.reply.body.leverage == b.leverage && o.reply.body.liquidationPrice == b.liquidationPrice
      && o.reply.body.pair == b.pair.value && o.reply.body.side == b.side.value
      && o.reply.body.createdAt == now && o.reply.body.updatedAt == now
      && o.reply.body.closedAt.None? && o.reply.body.exitPrice.None?
  {
    if !Complete(b) then Changed(t, Fail(BadRequest, "Missing required fields"))
    else if fails then Changed(t, Fail(ServerError, "Failed to create position"))
    else
      var r := PosRow(MaxId(t) + 1, b.wallet.value, b.pair.value, b.side.value, b.size.value, b.entryPrice.value,
                      b.entryPrice, b.leverage, b.liquidationPrice, Some(0.0), "open", now, now, None, None);
      Changed(t + [r], Ok(r))
  }

  /** Opening keeps ids unique and, with a later clock, creation order. */
  lemma PostKeepsInvariants(t: seq<PosRow>, b: Opening, now: int)
    requires UniqueIds(t) && CreationOrdered(t)
    requires forall r :: r in t ==> r.createdAt <= now
    ensures UniqueIds(Post(t, b, now, false).table) && CreationOrdered(Post(t, b, now, false).table)
  {
    if Complete(b) {
      var u := Post(t, b, now, false).table;
      assert forall i :: 0 <= i < |t| ==> u[i] == t[i] && t[i] in t;
    }
  }

  datatype Change = Change(positionId: Option<nat>, currentPrice: Option<real>, pnl: Option<real>, status: Option<string>)

  /** `updateData` applied to one row: supplied fields overwrite, a truthy
      status is set, and `closed` also stamps the close time and records
      the current price (when sent) as the exit price. */
  function Apply(r: PosRow, c: Change, now: int): (u: PosRow)
    ensures u.id == r.id && u.wallet == r.wallet && u.entryPrice == r.entryPrice && u.size == r.size
    ensures u.updatedAt == now
    ensures u.currentPrice == (if c.currentPrice.Some? then c.currentPrice else r.currentPrice)
    ensures u.pnl == (if c.pnl.Some? then c.pnl else r.pnl)
    ensures u.status == (if Present(c.status) then c.status.value else r.status)
    ensures c.status == Some("closed") ==> u.closedAt == Some(now)
                                           && u.exitPrice == (if c.currentPrice.Some? then c.currentPrice else r.exitPrice)
    ensures c.status != Some("closed") ==> u.closedAt == r.closedAt && u.exitPrice == r.exitPrice
  {
    var u := r.(updatedAt := now);
    var u := if c.currentPrice.Some? then u.(currentPrice := c.currentPrice) else u;
    var u := if c.pnl.Some? then u.(pnl := c.pnl) else u;
    if Present(c.status) then
      var u := u.(status := c.status.value);
      if c.status.value == "closed" then
        u.(closedAt := Some(now), exitPrice := if c.currentPrice.Some? then c.currentPrice else u.exitPrice)
      else u
    else u
  }

  function UpdateWhere(t: seq<PosRow>, id: nat, c: Change, now: int): (u: seq<PosRow>)
    ensures |u| == |t|
    ensures forall i :: 0 <= i < |t| ==> u[i] == if t[i].id == id then Apply(t[i], c, now) else t[i]
  {
    seq(|t|, i requires 0 <= i < |t| => if t[i].id == id then Apply(t[i], c, now) else t[i])
  }

  /** The number of rows carrying an id. */
  function CountId(t: seq<PosRow>, id: nat): (n: nat)
    ensures n <= |t|
    ensures n == 0 <==> forall r :: r in t ==> r.id != id
  {
    if |t| == 0 then 0
    else
      assert forall r :: r in t <==> r == t[0] || r in t[1..];
      (if t[0].id == id then 1 else 0) + CountId(t[1..], id)
  }

  /** The first row holding an id. */
  function IndexOfId(t: seq<PosRow>, id: nat): (i: nat)
    requires CountId(t, id) != 0
    ensures i < |t| && t[i].id == id
  {
    if t[0].id == id then 0 else 1 + IndexOfId(t[1..], id)
  }

  /** PUT: `.single()` answers the updated row when exactly one row has the
      id, and an error otherwise. */
  function Put(t: seq<PosRow>, c: Change, now: int, fails: bool): (o: Changed)
    ensures c.positionId.None? || c.positionId == Some(0) ==> o == Changed(t, Fail(BadRequest, "Position ID required"))
    ensures c.positionId.Some? && c.positionId.value != 0 ==>
      var id := c.positionId.value;
      && (fails ==> o == Changed(t, Fail(ServerError, "Failed to update position")))
      && (!fails ==> o.table == UpdateWhere(t, id, c, now))
      && (!fails && CountId(t, id) != 1 ==> o.reply == Fail(ServerError, "Failed to update position"))
      && (!fails && CountId(t, id) == 1 ==> o.reply.Ok? && o.reply.body in o.table && o.reply.body.id == id)
  {
    if c.positionId.None? || c.positionId.value == 0 then Changed(t, Fail(BadRequest, "Position ID required"))
    else if fails then Changed(t, Fail(ServerError, "Failed to update position"))
    else
      var id := c.positionId.value;
      var u := UpdateWhere(t, id, c, now);
      if CountId(t, id) == 1 then
        var i := IndexOfId(t, id);
        Changed(u, Ok(u[i]))
      else Changed(u, Fail(ServerError, "Failed to update position"))
  }

  /** A position opened and then closed at a price is listed as closed, with
      that exit price, and no longer among the open ones. */
  lemma OpenThenClose(t: seq<PosRow>, b: Opening, price: real, now: int, later: int)
    requires Complete(b) && UniqueIds(t)
    ensures var posted := Post(t, b, now, false);
            var id := posted.reply.body.id;
            var closed := Put(posted.table, Change(Some(id), Some(price), None, Some("closed")), later, false);
            && closed.reply.Ok?
            && closed.reply.body.status == "closed" && closed.reply.body.exitPrice == Some(price)
            && closed.reply.body.closedAt == Some(later)
            && closed.reply.body in Get(closed.table, b.wallet, Some("closed"), false).body
            && closed.reply.body !in Get(closed.table, b.wallet, None, false).body
  {
    var posted := Post(t, b, now, false);
    var r := posted.reply.body;
    var u := posted.table;
    var c := Change(Some(r.id), Some(price), None, Some("closed"));
    IdCountedOnce(t, r);
    var closed := Put(u, c, later, false);
    var v := UpdateWhere(u, r.id, c, later);
    assert v[|t|] == Apply(r, c, later);
    assert closed.reply.body.id == r.id;
  }

  lemma IdCountedOnce(t: seq<PosRow>, r: PosRow)
    requires forall x :: x in t ==> x.id < r.id
    ensures CountId(t + [r], r.id) == 1
  {
    CountIdAppend(t, r, r.id);
  }

  lemma {:induction false} CountIdAppend(t: seq<PosRow>, r: PosRow, id: nat)
    ensures CountId(t + [r], id) == CountId(t, id) + (if r.id == id then 1 else 0)
  {
    if |t| == 0 {
      assert t + [r] == [r];
      assert ([r])[1..] == [];
    } else {
      assert (t + [r])[1..] == t[1..] + [r];
      CountIdAppend(t[1..], r, id);
    }
  }
}

=== FILE: priceoracle.dfy ===
/** The price cache behind the perpetuals client (lib/price-oracle.ts): one
    entry per market pair, refreshed from Pyth feeds with fixed fallback
    prices, and a process-wide single instance. Each feed answer is a
    parameter (`Fetch`); `Date.now()` is `now`. */
module PriceOracle {
  import opened Basics

  datatype Pair = SolPerp | BtcPerp | EthPerp | OptikPerp

  /** The keys of `PRICE_FEEDS`. */
  const AllPairs: set<Pair> := {SolPerp, BtcPerp, EthPerp, OptikPerp}

  lemma EveryPairListed(p: Pair)
    ensures p in AllPairs
  {
  }

  function PairName(p: Pair): string {
    match p
    case SolPerp => "SOL-PERP"
    case BtcPerp => "BTC-PERP"
    case EthPerp => "ETH-PERP"
    case OptikPerp => "OPTIK-PERP"
  }

  datatype PriceData = PriceData(price: real, confidence: real, timestamp: int)

  type Cache = map<Pair, PriceData>

  /** The development fallback prices. */
  function MockPrice(p: Pair): (r: real)
    ensures r > 0.0
  {
    match p
    case SolPerp => 98.42
    case BtcPerp => 43250.50
    case EthPerp => 2245.80
    case OptikPerp => 0.85
  }

  const MockConfidence: real := 0.01

  function MockEntry(p: Pair, now: int): PriceData {
    PriceData(MockPrice(p), MockConfidence, now)
  }

  /** `useMockPrices`: every pair gets its fallback price. */
  function UseMockPrices(c: Cache, now: int): (d: Cache)
    ensures d.Keys == AllPairs
    ensures forall p :: p in d ==> d[p].price == MockPrice(p) && d[p].confidence == MockConfidence && d[p].timestamp == now
  {
    map p | p in AllPairs :: MockEntry(p, now)
  }

  /** `getPrice`: the cached entry, however old (staleness only logs a
      warning), or null when there is none. */
  function GetPrice(c: Cache, p: Pair): (r: Option<PriceData>)
    ensures r.Some? <==> p in c
    ensures r.Some? ==> r.value == c[p]
  {
    if p in c then Some(c[p]) else None
  }

  /** `getAllPrices`: one entry per feed pair. */
  function GetAllPrices(c: Cache): (m: map<Pair, Option<PriceData>>)
    ensures m.Keys == AllPairs
    ensures forall p :: p in m ==> m[p] == GetPrice(c, p)
  {
    map p | p in AllPairs :: GetPrice(c, p)
  }

  /** What one feed request gave: a price with its (possibly missing)
      confidence, an answer without a usable (non-zero) price, or an error. */
  datatype Fetch = Got(price: real, confidence: Option<real>) | NoPrice | Failed

  /** The new cache entry for one pair after its request. */
  function Refreshed(prev: Option<PriceData>, p: Pair, f: Fetch, now: int): (r: Option<PriceData>)
    ensures f.Got? && f.price != 0.0 ==> r == Some(PriceData(f.price, OrZero(f.confidence), now))
    ensures (f.NoPrice? || (f.Got? && f.price == 0.0)) ==> r == prev
    ensures f.Failed? ==> r == if prev.Some? then prev else Some(MockEntry(p, now))
  {
    match f
    case Got(price, conf) => if price != 0.0 then Some(PriceData(price, OrZero(conf), now)) else prev
    case NoPrice => prev
    case Failed => if prev.Some? then prev else Some(MockEntry(p, now))
  }

  /** `updatePrices`: without a Pyth client every pair falls back to its
      mock; otherwise each pair is refreshed from its own request. */
  function UpdatePrices(c: Cache, hasClient: bool, fetch: Pair -> Fetch, now: int): (d: Cache)
    ensures !hasClient ==> d == UseMockPrices(c, now)
    ensures hasClient ==> forall p :: GetPrice(d, p) == Refreshed(GetPrice(c, p), p, fetch(p), now)
  {
    if !hasClient then UseMockPrices(c, now)
    else
      var d := map p | p in AllPairs && Refreshed(GetPrice(c, p), p, fetch(p), now).Some? ::
                 Refreshed(GetPrice(c, p), p, fetch(p), now).value;
      assert forall p :: p in AllPairs by {
        forall p ensures p in AllPairs { EveryPairListed(p); }
      }
      d
  }

  /** `initialize`: a Pyth client that cannot be set up leaves the fallback
      prices; otherwise the first refresh fills the cache, and a pair is
      priced afterwards exactly when it was before, its request failed, or
      its feed reported a non-zero price. The two-second refresh timer is
      left out. */
  function Initialize(c: Cache, setupFails: bool, fetch: Pair -> Fetch, now: int): (d: Cache)
    ensures setupFails ==> d.Keys == AllPairs && forall p :: p in d ==> d[p].price == MockPrice(p)
    ensures !setupFails ==> forall p :: p in d <==> p in c || fetch(p).Failed? || (fetch(p).Got? && fetch(p).price != 0.0)
    ensures !setupFails ==> forall p :: GetPrice(d, p) == Refreshed(GetPrice(c, p), p, fetch(p), now)
  {
    if setupFails then UseMockPrices(c, now)
    else
      var d := UpdatePrices(c, true, fetch, now);
      assert forall p :: GetPrice(d, p).Some? <==> p in c || fetch(p).Failed? || (fetch(p).Got? && fetch(p).price != 0.0);
      d
  }

  /** A refresh never loses a price: every pair cached before is cached
      after, and a failed request leaves a cached price exactly as it was. */
  lemma UpdateKeepsPrices(c: Cache, hasClient: bool, fetch: Pair -> Fetch, now: int, p: Pair)
    requires p in c
    ensures p in UpdatePrices(c, hasClient, fetch, now)
    ensures hasClient && fetch(p).Failed? ==> UpdatePrices(c, hasClient, fetch, now)[p] == c[p]
  {
    if hasClient {
      assert GetPrice(UpdatePrices(c, hasClient, fetch, now), p).Some?;
    } else {
      EveryPairListed(p);
    }
  }

  /** After any refresh that ends in errors only, every pair has a price. */
  lemma FailedUpdateFillsAll(c: Cache, fetch: Pair -> Fetch, now: int, p: Pair)
    requires fetch(p).Failed?
    ensures p in UpdatePrices(c, true, fetch, now)
  {
    assert GetPrice(UpdatePrices(c, true, fetch, now), p).Some?;
  }

  /** Every cached price is positive. */
  predicate Positive(c: Cache) {
    forall p :: p in c ==> c[p].price > 0.0
  }

  /** `simulatePriceMovement`: each cached price moves by
      `(u − 0.5)·1%` for its draw `u` of `Math.random()`; uncached pairs
      stay uncached and confidence is kept. */
  function Simulate(c: Cache, draw: Pair -> real, now: int): (d: Cache)
    requires forall p :: 0.0 <= draw(p) < 1.0
    ensures d.Keys == c.Keys
    ensures forall p :: p in c ==>
      && d[p].confidence == c[p].confidence
      && d[p].price == c[p].price * (1.0 + (draw(p) - 0.5) * 0.01)
    ensures Positive(c) ==> Positive(d)
  {
    map p | p in c :: PriceData(c[p].price * (1.0 + (draw(p) - 0.5) * 0.01), c[p].confidence, now)
  }

  /** The simulated move stays within half a percent either way. */
  lemma SimulateBounded(c: Cache, draw: Pair -> real, now: int, p: Pair)
    requires forall q :: 0.0 <= draw(q) < 1.0
    requires p in c && c[p].price > 0.0
    ensures var d := Simulate(c, draw, now);
            0.995 * c[p].price <= d[p].price < 1.005 * c[p].price
  {
  }

  /** Mock and refreshed prices keep the cache positive when the feeds
      only ever report positive prices. */
  lemma UpdatePositive(c: Cache, hasClient: bool, fetch: Pair -> Fetch, now: int)
    requires Positive(c)
    requires forall p :: fetch(p).Got? ==> fetch(p).price >= 0.0
    ensures Positive(UpdatePrices(c, hasClient, fetch, now))
  {
    var d := UpdatePrices(c, hasClient, fetch, now);
    forall p | p in d
      ensures d[p].price > 0.0
    {
      if hasClient {
        assert GetPrice(d, p) == Refreshed(GetPrice(c, p), p, fetch(p), now);
      }
    }
  }

  /** The module-level `oracleInstance` slot and the instance a call
      returns. */
  datatype Registry = Registry(slot: Option<nat>, returned: nat)

  /** `getPriceOracle`: creates the instance on first use (`created` names
      it) and returns the stored one ever after. */
  function GetPriceOracle(instance: Option<nat>, created: nat): (r: Registry)
    ensures r.slot == Some(r.returned)
    ensures instance.Some? ==> r.returned == instance.value
    ensures instance.None? ==> r.returned == created
  {
    match instance
    case Some(i) => Registry(instance, i)
    case None => Registry(Some(created), created)
  }

  /** Every later call returns the instance the first call created and
      leaves the slot as it is. */
  lemma SingleInstance(instance: Option<nat>, created1: nat, created2: nat)
    ensures var first := GetPriceOracle(instance, created1);
            GetPriceOracle(first.slot, created2) == first
  {
  }
}

=== FILE: revenuecalculator.dfy ===
/** The revenue arithmetic (lib/revenue-calculator.ts): the fee charged on
    a token launch, the split of trading fees between the token's creator
    and the platform, and a revenue projection from a launch rate. */
module RevenueCalculator {
  import MemecoinPricing

  /** The tiers `calculateLaunchRevenue` accepts. */
  datatype LaunchTier = Basic | Standard | Premium

  function AsTier(t: LaunchTier): MemecoinPricing.TierName {
    match t
    case Basic => MemecoinPricing.Basic
    case Standard => MemecoinPricing.Standard
    case Premium => MemecoinPricing.Premium
  }

  /** `REVENUE_CONFIG.LAUNCH_FEES`. */
  function LaunchFee(t: LaunchTier): (fee: real)
    ensures fee == MemecoinPricing.TierOf(AsTier(t)).priceUSD
  {
    match t
    case Basic => 100.0
    case Standard => 500.0
    case Premium => 2500.0
  }

  const PlatformFeePercent: real := 2.5
  const TradingFeePercent: real := 0.5
  const OptikShareTrading: real := 50.0
  const CreatorShareTrading: real := 50.0
  const OptikGptCost: real := 1.0

  /** The fee percentage here is the one the price list advertises. */
  lemma TradingFeeAdvertised()
    ensures TradingFeePercent == MemecoinPricing.TradingFeePercent
  {
  }

  datatype LaunchRevenue = LaunchRevenue(launchFee: real, platformFee: real, total: real)

  /** `calculateLaunchRevenue`: the tier's fee plus a 2.5% platform fee. */
  function LaunchRevenueOf(t: LaunchTier): (r: LaunchRevenue)
    ensures r.launchFee == MemecoinPricing.TierOf(AsTier(t)).priceUSD
    ensures r.platformFee * 40.0 == r.launchFee
    ensures r.total == r.launchFee * 1.025
  {
    var fee := LaunchFee(t);
    var platform := fee * PlatformFeePercent / 100.0;
    LaunchRevenue(fee, platform, fee + platform)
  }

  /** A basic launch brings in 102.5 dollars. */
  lemma BasicLaunchTotal()
    ensures LaunchRevenueOf(Basic).total == 102.5
  {
  }

  datatype FeeShare = FeeShare(totalFee: real, creatorShare: real, optikShare: real)

  /** `calculateTradingFeeShare`: a 0.5% fee on the volume, split evenly. */
  function TradingFeeShare(volume: real): (s: FeeShare)
    ensures s.totalFee * 200.0 == volume
    ensures s.creatorShare + s.optikShare == s.totalFee
    ensures s.creatorShare == s.optikShare
    ensures volume >= 0.0 ==> s.optikShare >= 0.0
  {
    var total := volume * TradingFeePercent / 100.0;
    FeeShare(total, total * (CreatorShareTrading / 100.0), total * (OptikShareTrading / 100.0))
  }

  datatype Daily = Daily(launches: real, platformFees: real, trading: real, total: real)

  datatype Projection = Projection(daily: Daily, weekly: real, monthly: real, quarterly: real, yearly: real)

  /** `projectRevenue`: a day of standard launches with their platform
      fees and the platform's share of their trading, and the day scaled
      to a week, month, quarter and year. */
  function ProjectRevenue(tokensPerDay: real, avgVolumePerToken: real): (p: Projection)
    ensures p.daily.total == p.daily.launches + p.daily.platformFees + p.daily.trading
    ensures p.daily.launches == tokensPerDay * LaunchFee(Standard)
    ensures p.daily.trading == TradingFeeShare(tokensPerDay * avgVolumePerToken).optikShare
  {
    var launches := tokensPerDay * LaunchFee(Standard);
    var platform := launches * (PlatformFeePercent / 100.0);
    var trading := TradingFeeShare(tokensPerDay * avgVolumePerToken).optikShare;
    var total := launches + platform + trading;
    Projection(Daily(launches, platform, trading, total), total * 7.0, total * 30.0, total * 90.0, total * 365.0)
  }

  /** Per launched token a day brings 512.5 dollars of launch and platform
      fees plus a quarter percent of its trading volume; every longer period
      is that day times its number of days. */
  lemma ProjectionClosedForm(tokensPerDay: real, avgVolumePerToken: real)
    ensures var p := ProjectRevenue(tokensPerDay, avgVolumePerToken);
            && p.daily.total == tokensPerDay * (512.5 + avgVolumePerToken / 400.0)
            && p.daily.platformFees == LaunchRevenueOf(Standard).platformFee * tokensPerDay
            && p.weekly == 7.0 * p.daily.total && p.monthly == 30.0 * p.daily.total
            && p.quarterly == 90.0 * p.daily.total && p.yearly == 365.0 * p.daily.total
  {
    var v := tokensPerDay * avgVolumePerToken;
    assert TradingFeeShare(v).optikShare == v / 400.0;
  }
}

=== FILE: routes.dfy ===
/** The API paths of the `app/api` route handlers considered here, among
    them the two memecoin routes the token form and the launch page post
    to. */
module Routes {
  const Api: set<string> := {
    "/api/arcade/achievements", "/api/arcade/claim-rewards", "/api/arcade/daily-stats",
    "/api/arcade/games", "/api/arcade/leaderboard", "/api/arcade/pending-rewards",
    "/api/arcade/submit-score", "/api/competitions", "/api/gpt/chat", "/api/leaderboard",
    "/api/memecoin/create", "/api/memecoin/deploy", "/api/optik-gpt",
    "/api/payment/create-checkout", "/api/payment/webhook", "/api/positions",
    "/api/revenue/projections", "/api/revenue/stats", "/api/revenue/withdraw", "/api/stripe/create-checkout-session",
    "/api/user-stats", "/api/webhooks/stripe"
  }

  const MemecoinCreate: string := "/api/memecoin/create"
  const MemecoinDeploy: string := "/api/memecoin/deploy"
}

=== FILE: security.dfy ===
/** middleware/security.ts: an in-memory sliding-window rate limiter keyed
    by caller, input sanitising and the internal API-key check. The
    limiter's map is an explicit state passed in and returned; `now` is
    `Date.now()`. */
module Security {
  import opened Basics
  import opened Text

  /** Request times per caller (`rateLimitMap`). */
  type Limiter = map<string, seq<int>>

  /** The stored times still inside the window, in the order they were stored. */
  function Recent(times: seq<int>, now: int, window: int): (r: seq<int>)
    ensures |r| <= |times|
    ensures forall t :: t in r <==> t in times && now - t < window
    ensures Subsequence(r, times)
  {
    if |times| == 0 then []
    else
      var rest := Recent(times[1..], now, window);
      var r := if now - times[0] < window then [times[0]] + rest else rest;
      FilterStep(t => now - t < window, times, rest, r);
      r
  }

  /** Every time inside the window is kept as often as it was stored (two
      requests in one millisecond count twice), and no other is. */
  lemma {:induction false} RecentCounts(times: seq<int>, now: int, window: int)
    ensures forall t :: multiset(Recent(times, now, window))[t] == if now - t < window then multiset(times)[t] else 0
  {
    if |times| > 0 {
      RecentCounts(times[1..], now, window);
      FilterCountStep(t => now - t < window, times, Recent(times[1..], now, window), Recent(times, now, window));
    }
  }

  function History(m: Limiter, id: string): seq<int> {
    if id in m then m[id] else []
  }

  datatype Decision = Decision(allowed: bool, limiter: Limiter)

  /** `rateLimit(identifier, limit, windowMs)`; the defaults are ten requests
      in 60000 ms. */
  function RateLimit(m: Limiter, id: string, limit: int, window: int, now: int): (d: Decision)
    ensures var recent := Recent(History(m, id), now, window);
            d.allowed <==> |recent| < limit
    ensures !d.allowed ==> d.limiter == m
    ensures d.allowed ==> d.limiter == m[id := Recent(History(m, id), now, window) + [now]]
    ensures forall k :: k != id ==> (k in d.limiter <==> k in m) && (k in m ==> d.limiter[k] == m[k])
  {
    var recent := Recent(History(m, id), now, window);
    if |recent| >= limit then Decision(false, m)
    else Decision(true, m[id := recent + [now]])
  }

  /** With one limit throughout, no caller ever has more than `limit`
      times stored. */
  predicate WithinLimit(m: Limiter, limit: int) {
    forall k :: k in m ==> |m[k]| <= limit
  }

  lemma StaysWithinLimit(m: Limiter, id: string, limit: int, window: int, now: int)
    requires WithinLimit(m, limit)
    ensures WithinLimit(RateLimit(m, id, limit, window, now).limiter, limit)
  {
  }

  /** A caller with `limit` requests inside the window is refused, and
      refusing records nothing, so it stays refused until time moves on. */
  lemma SaturatedRefused(m: Limiter, id: string, limit: int, window: int, now: int)
    requires |Recent(History(m, id), now, window)| >= limit
    ensures var d := RateLimit(m, id, limit, window, now);
            !d.allowed && RateLimit(d.limiter, id, limit, window, now) == d
  {
  }

  /** A fresh caller gets exactly `limit` requests through at one instant. */
  lemma {:induction false} BurstAllowed(m: Limiter, id: string, limit: nat, window: int, now: int, k: nat)
    requires window > 0 && k <= limit
    requires History(m, id) == []
    ensures |History(Burst(m, id, limit, window, now, k), id)| == k
    ensures forall i :: 0 <= i < k ==> History(Burst(m, id, limit, window, now, k), id)[i] == now
  {
    if k > 0 {
      BurstAllowed(m, id, limit, window, now, k - 1);
      var prev := Burst(m, id, limit, window, now, k - 1);
      var h := History(prev, id);
      RecentAllInside(h, now, window);
      var d := RateLimit(prev, id, limit, window, now);
      assert d.allowed && d.limiter == prev[id := h + [now]];
      assert Burst(m, id, limit, window, now, k) == d.limiter;
      assert History(d.limiter, id) == h + [now];
    }
  }

  /** `k` requests from one caller at the same instant. */
  function Burst(m: Limiter, id: string, limit: int, window: int, now: int, k: nat): Limiter {
    if k == 0 then m else RateLimit(Burst(m, id, limit, window, now, k - 1), id, limit, window, now).limiter
  }

  lemma {:induction false} RecentAllInside(times: seq<int>, now: int, window: int)
    requires window > 0 && forall i :: 0 <= i < |times| ==> times[i] == now
    ensures Recent(times, now, window) == times
  {
    if |times| > 0 {
      RecentAllInside(times[1..], now, window);
    }
  }

  /** `sanitizeInput`: angle brackets removed, trimmed, at most 1000
      characters. */
  function SanitizeInput(input: string): (r: string)
    ensures |r| <= 1000 && |r| <= |input|
    ensures forall i :: 0 <= i < |r| ==> r[i] != '<' && r[i] != '>'
  {
    var d := Drop(input, {'<', '>'});
    TrimWithin(d, {'<', '>'});
    var t := Trim(d);
    var r := Take(t, 1000);
    assert forall i :: 0 <= i < |r| ==> r[i] == t[i];
    r
  }

  /** Clean input comes back as it was. */
  lemma SanitizeClean(input: string)
    requires |input| <= 1000 && forall i :: 0 <= i < |input| ==> input[i] != '<' && input[i] != '>'
    requires |input| == 0 || (!IsSpace(input[0]) && !IsSpace(input[|input| - 1]))
    ensures SanitizeInput(input) == input
  {
    DropNoBrackets(input);
    TrimUnchanged(input);
  }

  /** Brackets are removed and nothing else: when what is left has no
      white space at its ends and fits the 1000-character cut, it is the
      answer. */
  lemma SanitizeKeepsText(input: string)
    requires var d := Drop(input, {'<', '>'});
             |d| <= 1000 && (|d| == 0 || (!IsSpace(d[0]) && !IsSpace(d[|d| - 1])))
    ensures SanitizeInput(input) == Drop(input, {'<', '>'})
  {
    TrimUnchanged(Drop(input, {'<', '>'}));
  }

  /** A bracket inside text is cut out and the text around it kept. */
  lemma BracketsCut()
    ensures Drop("a<b>c", {'<', '>'}) == "abc"
  {
    var bad := {'<', '>'};
    assert Drop("c", bad) == "c" by { assert "c"[1..] == ""; }
    assert Drop(">c", bad) == "c" by { assert ">c"[1..] == "c"; }
    assert Drop("b>c", bad) == "bc" by { assert "b>c"[1..] == ">c"; }
    assert Drop("<b>c", bad) == "bc" by { assert "<b>c"[1..] == "b>c"; }
    assert "a<b>c"[1..] == "<b>c";
  }

  lemma DropNoBrackets(input: string)
    requires forall i :: 0 <= i < |input| ==> input[i] != '<' && input[i] != '>'
    ensures Drop(input, {'<', '>'}) == input
  {
    assert forall i :: 0 <= i < |input| ==> input[i] !in {'<', '>'};
  }

  /** `validateApiKey`: equal to the configured `INTERNAL_API_KEY`; with
      none configured no key passes. */
  function ValidateApiKey(key: string, configured: Option<string>): (ok: bool)
    ensures ok <==> configured == Some(key)
  {
    configured.Some? && configured.value == key
  }

}

=== FILE: snake.dfy ===
/** The arcade's Snake game (components/arcade/SnakeGame.tsx) on a 20 by 20
    grid: a timer tick moves the head one cell in the current direction, the
    snake dies on a wall or on itself, and eating food grows it by one
    segment, scores 10 points and speeds the timer up by 2%, never below
    50 ms. The two `Math.random()` draws of a food placement are parameters;
    the timer itself is the caller deciding when to call `Tick`. */
module Snake {
  import opened Basics

  const GridSize: int := 20
  const InitialSpeed: real := 150.0
  const MinSpeed: real := 50.0
  const FoodPoints: nat := 10

  datatype Point = Point(x: int, y: int)

  function Add(p: Point, d: Point): Point {
    Point(p.x + d.x, p.y + d.y)
  }

  predicate InGrid(p: Point) {
    0 <= p.x < GridSize && 0 <= p.y < GridSize
  }

  /** One of the four unit steps. */
  predicate IsUnit(d: Point) {
    (d.x == 0 && (d.y == 1 || d.y == -1)) || (d.y == 0 && (d.x == 1 || d.x == -1))
  }

  predicate Adjacent(p: Point, q: Point) {
    IsUnit(Point(q.x - p.x, q.y - p.y))
  }

  /** A non-empty body of distinct cells inside the grid, each segment next
      to the one before it. */
  predicate WellShaped(sn: seq<Point>) {
    && |sn| >= 1
    && (forall i :: 0 <= i < |sn| ==> InGrid(sn[i]))
    && (forall i, j :: 0 <= i < j < |sn| ==> sn[i] != sn[j])
    && (forall i :: 0 <= i < |sn| - 1 ==> Adjacent(sn[i], sn[i + 1]))
  }

  /** Pushing a free neighbouring cell as the new head keeps the body well
      shaped, whether or not the tail is then dropped. */
  lemma PushShaped(sn: seq<Point>, head: Point)
    requires WellShaped(sn) && InGrid(head) && head !in sn && Adjacent(head, sn[0])
    ensures WellShaped([head] + sn)
    ensures WellShaped([head] + sn[..|sn| - 1])
  {
    var grown := [head] + sn;
    forall i, j | 0 <= i < j < |grown|
      ensures grown[i] != grown[j]
    {
      if i > 0 {
        assert grown[i] == sn[i - 1] && grown[j] == sn[j - 1];
      } else {
        assert grown[j] in sn;
      }
    }
    var moved := [head] + sn[..|sn| - 1];
    assert moved == grown[..|sn|];
  }

  datatype State = State(
    snake: seq<Point>,
    food: Point,
    direction: Point,
    playing: bool,
    score: nat,
    over: bool,
    speed: real)

  /** A well-formed game: a non-empty snake of distinct cells inside the grid,
      each segment next to the one before it, a unit direction, a timer
      between 50 and 150 ms, and 10 points for every segment grown. */
  predicate Valid(s: State) {
    && WellShaped(s.snake)
    && IsUnit(s.direction)
    && MinSpeed <= s.speed <= InitialSpeed
    && s.score == FoodPoints * (|s.snake| - 1)
    && InGrid(s.food)
  }

  /** The state before the first game starts. */
  function Initial(): (s: State)
    ensures Valid(s) && !s.playing && !s.over
  {
    State([Point(10, 10)], Point(15, 10), Point(1, 0), false, 0, false, InitialSpeed)
  }

  /** `generateFood`: a cell drawn uniformly from the grid, possibly under the
      snake. */
  function GenerateFood(rx: real, ry: real): (p: Point)
    requires 0.0 <= rx < 1.0 && 0.0 <= ry < 1.0
    ensures InGrid(p)
  {
    Point(RandomIndex(rx, GridSize), RandomIndex(ry, GridSize))
  }

  /** `startGame`: a one-cell snake at the centre heading right, new food,
      score zero, full timer. */
  function StartGame(s: State, rx: real, ry: real): (t: State)
    requires 0.0 <= rx < 1.0 && 0.0 <= ry < 1.0
    ensures Valid(t) && t.playing && !t.over
    ensures t.snake == [Point(10, 10)] && t.score == 0 && t.speed == InitialSpeed
    ensures t.direction == Point(1, 0) && t.food == GenerateFood(rx, ry)
  {
    State([Point(10, 10)], GenerateFood(rx, ry), Point(1, 0), true, 0, false, InitialSpeed)
  }

  datatype Key = ArrowUp | ArrowDown | ArrowLeft | ArrowRight | OtherKey

  /** The direction an arrow key asks for; another key asks for none. */
  function Wanted(k: Key): (d: Option<Point>)
    ensures d.Some? ==> IsUnit(d.value)
  {
    match k
    case ArrowUp => Some(Point(0, -1))
    case ArrowDown => Some(Point(0, 1))
    case ArrowLeft => Some(Point(-1, 0))
    case ArrowRight => Some(Point(1, 0))
    case OtherKey => None
  }

  /** Two unit steps along different axes. */
  predicate Perpendicular(a: Point, b: Point) {
    (a.x == 0) != (b.x == 0)
  }

  function Opposite(d: Point): Point {
    Point(-d.x, -d.y)
  }

  /** The key handler as written: ignored unless playing, and a turn is
      accepted when it is perpendicular to the current direction. */
  function KeyPressAsWritten(s: State, k: Key): (t: State)
    requires IsUnit(s.direction)
    ensures t.(direction := s.direction) == s
    ensures t.direction == s.direction || (Wanted(k).Some? && t.direction == Wanted(k).value)
    ensures IsUnit(t.direction)
    ensures t.direction != Opposite(s.direction)
    ensures t.direction != s.direction ==>
      s.playing && Wanted(k) == Some(t.direction) && Perpendicular(t.direction, s.direction)
    ensures s.playing && Wanted(k).Some? && Perpendicular(Wanted(k).value, s.direction) ==>
      t.direction == Wanted(k).value
  {
    if !s.playing then s
    else
      match Wanted(k)
      case None => s
      case Some(d) =>
        if (d.x == 0 && s.direction.y == 0) || (d.y == 0 && s.direction.x == 0) then
          assert d != Opposite(s.direction) by {
            if d.x == 0 { assert Opposite(s.direction).y == 0 && d.y != 0; }
            else { assert Opposite(s.direction).x == 0 && d.x != 0; }
          }
          s.(direction := d)
        else s
  }

  /** The step the head took last: from the neck to the head, or the current
      direction while the snake has no neck. */
  function LastStep(s: State): Point
    requires |s.snake| >= 1
  {
    if |s.snake| >= 2 then Point(s.snake[0].x - s.snake[1].x, s.snake[0].y - s.snake[1].y)
    else s.direction
  }

  /** The key handler as intended: a turn is accepted when it is
      perpendicular to the step the head last took, so that any number of
      presses between two ticks cannot send the head back into the neck. */
  function KeyPress(s: State, k: Key): (t: State)
    requires Valid(s)
    ensures Valid(t)
    ensures t.(direction := s.direction) == s
    ensures t.direction == s.direction || (Wanted(k).Some? && t.direction == Wanted(k).value)
    ensures t.direction != s.direction ==>
      s.playing && Wanted(k) == Some(t.direction) && Perpendicular(t.direction, LastStep(s))
    ensures s.playing && Wanted(k).Some? && Perpendicular(Wanted(k).value, LastStep(s)) ==>
      t.direction == Wanted(k).value
  {
    if !s.playing || Wanted(k).None? then s
    else
      var d := Wanted(k).value;
      if Perpendicular(d, LastStep(s)) then s.(direction := d) else s
  }

  /** The head does not face its own neck. */
  predicate FacesAway(s: State)
    requires |s.snake| >= 1
  {
    |s.snake| >= 2 ==> Add(s.snake[0], s.direction) != s.snake[1]
  }

  /** What a tick does, and the score handed to `onGameOver` when it ends the
      game. */
  datatype TickResult = TickResult(state: State, ended: Option<nat>)

  /** The head's next cell. */
  function NextHead(s: State): Point
    requires |s.snake| >= 1
  {
    Add(s.snake[0], s.direction)
  }

  /** `endGame`: stop, mark the game over, report the score. */
  function EndGame(s: State): (t: TickResult)
    ensures t.state == s.(playing := false, over := true)
    ensures t.ended == Some(s.score)
  {
    TickResult(s.(playing := false, over := true), Some(s.score))
  }

  /** One run of the game-loop timer. Without a running game nothing
      happens. A head leaving the grid or landing on any segment, the tail
      included, ends the game and leaves the snake as it was. Otherwise the
      head is pushed; on food the snake keeps its tail, scores, gets new food
      and a faster timer, else the tail is dropped. */
  function Tick(s: State, rx: real, ry: real): (t: TickResult)
    requires Valid(s) && 0.0 <= rx < 1.0 && 0.0 <= ry < 1.0
    ensures Valid(t.state)
    ensures !s.playing ==> t == TickResult(s, None)
    ensures t.ended.Some? <==> s.playing && (!InGrid(NextHead(s)) || NextHead(s) in s.snake)
    ensures t.ended.Some? ==> t.state.snake == s.snake && !t.state.playing && t.ended.value == s.score
    ensures t.ended.Some? ==> t.state.over && t.state.(playing := s.playing, over := s.over) == s
    ensures s.playing && t.ended.None? ==>
      && t.state.playing
      && (NextHead(s) == s.food ==> |t.state.snake| == |s.snake| + 1)
      && (NextHead(s) != s.food ==> |t.state.snake| == |s.snake|)
      && t.state.snake[0] == NextHead(s)
      && t.state.snake[1..] == s.snake[..|t.state.snake| - 1]
      && t.state.direction == s.direction && t.state.over == s.over
    ensures s.playing && t.ended.None? && NextHead(s) == s.food ==>
      && t.state.score == s.score + FoodPoints
      && t.state.speed == MaxR(MinSpeed, s.speed * 0.98)
      && t.state.food == GenerateFood(rx, ry)
    ensures s.playing && t.ended.None? && NextHead(s) != s.food ==> t.state.(snake := s.snake) == s
    ensures t.state.speed <= s.speed
  {
    if !s.playing then TickResult(s, None)
    else
      var head := NextHead(s);
      if !InGrid(head) || head in s.snake then EndGame(s)
      else if head == s.food then
        var grown := [head] + s.snake;
        assert grown[1..] == s.snake;
        PushShaped(s.snake, head);
        TickResult(s.(snake := grown, score := s.score + FoodPoints,
                      food := GenerateFood(rx, ry), speed := MaxR(MinSpeed, s.speed * 0.98)), None)
      else
        var moved := [head] + s.snake[..|s.snake| - 1];
        assert moved[1..] == s.snake[..|s.snake| - 1];
        PushShaped(s.snake, head);
        TickResult(s.(snake := moved), None)
  }

  /** A tick keeps the head facing away from the neck: the new neck is the old
      head, one step behind. */
  lemma TickFacesAway(s: State, rx: real, ry: real)
    requires Valid(s) && FacesAway(s) && 0.0 <= rx < 1.0 && 0.0 <= ry < 1.0
    ensures FacesAway(Tick(s, rx, ry).state)
  {
  }

  /** The intended key handler keeps the head facing away from the neck. */
  lemma KeyPressFacesAway(s: State, k: Key)
    requires Valid(s) && FacesAway(s)
    ensures FacesAway(KeyPress(s, k))
  {
    var t := KeyPress(s, k);
    if |s.snake| >= 2 && t.direction != s.direction {
      assert Adjacent(s.snake[0], s.snake[1]);
    }
  }

  /** With the intended handler, a tick after any presses never ends the game
      on the neck: the cell the head enters is never the second segment. */
  lemma NeverIntoNeck(s: State, k1: Key, k2: Key)
    requires Valid(s) && FacesAway(s)
    ensures var t := KeyPress(KeyPress(s, k1), k2);
      |t.snake| >= 2 ==> NextHead(t) != t.snake[1]
  {
    KeyPressFacesAway(s, k1);
    KeyPressFacesAway(KeyPress(s, k1), k2);
  }

  /** A snake of two heading right, with its neck to the left of its head. */
  function TwoLong(): (s: State)
    ensures Valid(s) && FacesAway(s) && s.playing
  {
    State([Point(10, 10), Point(9, 10)], Point(0, 0), Point(1, 0), true, FoodPoints, false, InitialSpeed)
  }

  /** As written, Up then Left pressed before the next tick turns the snake
      back on itself, and that tick ends the game on the neck. */
  lemma QuickTurnEndsGame()
    ensures var t := KeyPressAsWritten(KeyPressAsWritten(TwoLong(), ArrowUp), ArrowLeft);
      && t.direction == Opposite(TwoLong().direction)
      && NextHead(t) == t.snake[1]
      && Tick(t, 0.0, 0.0).ended == Some(FoodPoints)
  {
    var t := KeyPressAsWritten(KeyPressAsWritten(TwoLong(), ArrowUp), ArrowLeft);
    assert NextHead(t) == t.snake[1];
    assert NextHead(t) in t.snake;
  }

  /** With the intended handler the same presses only turn the snake up, and
      the tick moves on. */
  lemma QuickTurnIntended()
    ensures var t := KeyPress(KeyPress(TwoLong(), ArrowUp), ArrowLeft);
      && t.direction == Point(0, -1)
      && Tick(t, 0.0, 0.0).ended == None
  {
    var s1 := KeyPress(TwoLong(), ArrowUp);
    assert s1.direction == Point(0, -1);
    var t := KeyPress(s1, ArrowLeft);
    assert t.direction == Point(0, -1);
    assert NextHead(t) == Point(10, 9);
    assert NextHead(t) !in t.snake;
  }

  /** The timer only speeds up, and stays between 50 and 150 ms; the score
      counts the segments grown. */
  lemma TickBookkeeping(s: State, rx: real, ry: real)
    requires Valid(s) && 0.0 <= rx < 1.0 && 0.0 <= ry < 1.0
    ensures var t := Tick(s, rx, ry).state;
      && MinSpeed <= t.speed <= s.speed
      && t.score == FoodPoints * (|t.snake| - 1)
      && t.score >= s.score
  {
  }
}

=== FILE: staking.dfy ===
/** The OPTIK token page's staking calculator (app/optik-token/page.tsx):
    four lock periods with rising APY and multiplier, and the reward a stake
    earns over its period at a simple daily rate. `parseFloat` of the amount
    field is a parameter (`None` for NaN); staking itself is not live. */
module Staking {
  import opened Basics

  datatype Tier = Tier(days: nat, apy: real, multiplier: real)

  /** `STAKING_TIERS`, in the order listed. */
  const Tiers: seq<Tier> := [Tier(30, 15.0, 1.25), Tier(90, 18.0, 1.5), Tier(180, 24.0, 2.0), Tier(365, 36.0, 3.0)]

  /** The tier selected when the page opens. */
  function DefaultTier(): (t: Tier)
    ensures t in Tiers && t.days == 365
    ensures forall u :: u in Tiers ==> u.apy <= t.apy && u.multiplier <= t.multiplier
  {
    Tiers[3]
  }

  /** Longer locks pay strictly more: days, APY and multiplier all rise. */
  lemma TiersIncrease(i: nat, j: nat)
    requires i < j < |Tiers|
    ensures Tiers[i].days < Tiers[j].days
    ensures Tiers[i].apy < Tiers[j].apy
    ensures Tiers[i].multiplier < Tiers[j].multiplier
  {
  }

  /** `calculateRewards`: `(parseFloat(amount) || 0) * apy / 365 / 100 * days`. */
  function Rewards(parsed: Option<real>, t: Tier): (r: real)
    ensures r == OrZero(parsed) * t.apy * t.days as real / 36500.0
    ensures parsed.None? ==> r == 0.0
  {
    var dailyRate := t.apy / 365.0 / 100.0;
    OrZero(parsed) * dailyRate * t.days as real
  }

  /** A full year at 36% earns 36% of the stake. */
  lemma YearEarnsApy(amount: real)
    ensures Rewards(Some(amount), DefaultTier()) == amount * 0.36
  {
  }

  /** For a positive stake, a longer tier always earns more. */
  lemma LongerEarnsMore(amount: real, i: nat, j: nat)
    requires amount > 0.0 && i < j < |Tiers|
    ensures Rewards(Some(amount), Tiers[i]) < Rewards(Some(amount), Tiers[j])
  {
    TiersIncrease(i, j);
    var a := Tiers[i].apy * Tiers[i].days as real;
    var b := Tiers[j].apy * Tiers[j].days as real;
    assert a < b by {
      assert Tiers[i].apy * Tiers[i].days as real < Tiers[j].apy * Tiers[i].days as real;
      assert Tiers[j].apy * Tiers[i].days as real < Tiers[j].apy * Tiers[j].days as real;
    }
    assert amount * a < amount * b;
  }

  /** The "total return": `parseFloat(amount) + rewards`, NaN (`None`) when
      the field does not parse, although the rewards then read 0. */
  function TotalReturn(parsed: Option<real>, t: Tier): (r: Option<real>)
    ensures r.None? <==> parsed.None?
    ensures r.Some? ==> r.value == parsed.value * (1.0 + t.apy * t.days as real / 36500.0)
  {
    if parsed.None? then None else Some(parsed.value + Rewards(parsed, t))
  }

  /** The total return never falls below the stake for a non-negative
      amount. */
  lemma ReturnCoversStake(amount: real, t: Tier)
    requires amount >= 0.0 && t in Tiers
    ensures TotalReturn(Some(amount), t).value >= amount
  {
    assert t.apy * t.days as real >= 0.0;
  }
}

=== FILE: statstable.dfy ===
/** The `user_stats` table the leaderboard and user-stats routes share:
    one row per wallet with nullable numeric columns. A row's numbers are a
    map from column to value, a column without a key holding null. The
    table is taken to be keyed by `wallet_address`, which is what the
    routes' upserts, naming no conflict column, rely on. */
module StatsTable {
  import opened Basics

  datatype Column =
    | TotalPnl | WinRate | TotalTrades | AvgWin | TotalVolume | WinStreak
    | Multiplier | RevenueShare | OptikBalance | StakedOptik

  const Columns: set<Column> := {TotalPnl, WinRate, TotalTrades, AvgWin, TotalVolume, WinStreak,
                                  Multiplier, RevenueShare, OptikBalance, StakedOptik}

  lemma AllColumns(c: Column)
    ensures c in Columns
  {
  }

  datatype Row = Row(wallet: string, username: Option<string>, fields: map<Column, real>, updatedAt: Option<int>)

  /** A column's value, `None` for null. */
  function Value(r: Row, c: Column): (v: Option<real>)
    ensures v.Some? <==> c in r.fields
  {
    if c in r.fields then Some(r.fields[c]) else None
  }

  /** `value || 0` on a column. */
  function Number(r: Row, c: Column): real {
    OrZero(Value(r, c))
  }

  predicate Has(t: seq<Row>, wallet: string) {
    exists i :: 0 <= i < |t| && t[i].wallet == wallet
  }

  /** The wallet's rows with the supplied columns overwritten and the
      update time set; other rows as they were. */
  function Update(t: seq<Row>, wallet: string, patch: map<Column, real>, now: int): (u: seq<Row>)
    ensures |u| == |t|
    ensures forall i :: 0 <= i < |t| ==>
      u[i] == if t[i].wallet == wallet then t[i].(fields := t[i].fields + patch, updatedAt := Some(now)) else t[i]
  {
    seq(|t|, i requires 0 <= i < |t| =>
      if t[i].wallet == wallet then t[i].(fields := t[i].fields + patch, updatedAt := Some(now)) else t[i])
  }

  /** `upsert` keyed on `wallet_address`: columns absent from the request
      (`undefined` values are dropped from the JSON) keep their value on an
      existing row and are null on a new one. */
  function Upsert(t: seq<Row>, wallet: string, patch: map<Column, real>, now: int): (u: seq<Row>)
    ensures Has(u, wallet)
    ensures Has(t, wallet) ==> u == Update(t, wallet, patch, now)
    ensures !Has(t, wallet) ==> u == t + [Row(wallet, None, patch, Some(now))]
  {
    if Has(t, wallet) then
      var u := Update(t, wallet, patch, now);
      var i :| 0 <= i < |t| && t[i].wallet == wallet;
      assert u[i].wallet == wallet;
      u
    else
      var u := t + [Row(wallet, None, patch, Some(now))];
      assert u[|t|].wallet == wallet;
      u
  }

  /** After an upsert every row of the wallet holds each supplied value, and
      every unsupplied column and every other wallet's row is unchanged. */
  lemma UpsertEffect(t: seq<Row>, wallet: string, patch: map<Column, real>, now: int, i: nat, c: Column)
    requires i < |t|
    ensures var u := Upsert(t, wallet, patch, now);
            && (t[i].wallet != wallet ==> u[i] == t[i])
            && (t[i].wallet == wallet && c in patch ==> Value(u[i], c) == Some(patch[c]))
            && (t[i].wallet == wallet && c !in patch ==> Value(u[i], c) == Value(t[i], c))
  {
    assert Has(t, wallet) || t[i].wallet != wallet;
  }

  /** Adds a request field to a patch when it is supplied. */
  function Supply(m: map<Column, real>, c: Column, v: Option<real>): (p: map<Column, real>)
    ensures v.Some? ==> p == m[c := v.value]
    ensures v.None? ==> p == m
  {
    if v.Some? then m[c := v.value] else m
  }
}

=== FILE: stripesession.dfy ===
/** POST /api/stripe/create-checkout-session
    (app/api/stripe/create-checkout-session/route.ts): the Stripe checkout
    for an OPTIK credit pack. The Stripe call is a parameter: the URL of
    the session it creates, or a failure. */
module StripeSession {
  import opened Basics
  import opened Http
  import opened Text
  import StripeWebhook

  datatype Package = Package(name: string, description: string, amountCents: nat, optik: nat, interval: Option<string>)

  /** `PACKAGES[packageId]`. */
  function PackageOf(id: Option<string>): (p: Option<Package>)
    ensures p.Some? <==> id == Some("small") || id == Some("medium") || id == Some("large")
    ensures p.Some? ==> p.value.interval.None? && p.value.amountCents > 0
  {
    if id == Some("small") then Some(Package("Starter Pack", "500 OPTIK Tokens", 2500, 500, None))
    else if id == Some("medium") then Some(Package("Pro Pack", "1,000 OPTIK + 100 Bonus!", 5000, 1100, None))
    else if id == Some("large") then Some(Package("Whale Pack", "2,000 OPTIK + 500 Bonus!", 10000, 2500, None))
    else None
  }

  /** The packs agree with the store's: $25 for 500, $50 for 1,100 and
      $100 for 2,500 OPTIK; a bigger pack gives more OPTIK per dollar. */
  lemma PackTable()
    ensures PackageOf(Some("small")).value.amountCents == 25 * 100 && PackageOf(Some("small")).value.optik == 500
    ensures PackageOf(Some("medium")).value.amountCents == 50 * 100 && PackageOf(Some("medium")).value.optik == 1100
    ensures PackageOf(Some("large")).value.amountCents == 100 * 100 && PackageOf(Some("large")).value.optik == 2500
    ensures PackageOf(Some("small")).value.optik * 2 < PackageOf(Some("medium")).value.optik
    ensures PackageOf(Some("medium")).value.optik * 2 < PackageOf(Some("large")).value.optik
  {
  }

  datatype LineItem = LineItem(currency: string, name: string, description: string, unitAmount: nat,
                               recurring: Option<string>, quantity: nat)

  datatype SessionRequest = SessionRequest(
    lineItems: seq<LineItem>, mode: string, walletAddress: string, optikAmount: string, packageId: string)

  /** Stripe's answer: the checkout URL, or a thrown error. */
  datatype StripeAnswer = Created(url: string) | StripeFailed

  datatype Outcome = Outcome(sent: Option<SessionRequest>, reply: Reply<string>)

  function Create(wallet: Option<string>, packageId: Option<string>, stripe: StripeAnswer): (o: Outcome)
    ensures !Present(wallet) ==> o == Outcome(None, Fail(BadRequest, "Wallet address is required"))
    ensures Present(wallet) && PackageOf(packageId).None? ==> o == Outcome(None, Fail(BadRequest, "Invalid package ID"))
    ensures Present(wallet) && PackageOf(packageId).Some? ==>
      var p := PackageOf(packageId).value;
      && o.sent == Some(SessionRequest([LineItem("usd", p.name, p.description, p.amountCents, None, 1)], "payment",
                                       wallet.value, NatToString(p.optik), packageId.value))
      && (stripe.Created? ==> o.reply == Ok(stripe.url))
      && (stripe.StripeFailed? ==> o.reply == Fail(ServerError, "Internal Error"))
  {
    if !Present(wallet) then Outcome(None, Fail(BadRequest, "Wallet address is required"))
    else
      match PackageOf(packageId)
      case None => Outcome(None, Fail(BadRequest, "Invalid package ID"))
      case Some(p) =>
        var subscription := p.interval.Some?;
        var item := LineItem("usd", p.name, p.description, p.amountCents,
                             if subscription then p.interval else None, 1);
        var req := SessionRequest([item], if subscription then "subscription" else "payment",
                                  wallet.value, NatToString(p.optik), packageId.value);
        match stripe
        case Created(url) => Outcome(Some(req), Ok(url))
        case StripeFailed => Outcome(Some(req), Fail(ServerError, "Internal Error"))
  }

  /** The session completed for a pack carries its OPTIK amount in the
      metadata, so the webhook credits exactly the pack's OPTIK; without
      the metadata it would credit 20 per dollar, which is right for the
      small pack only (the others include a bonus). */
  lemma WebhookCreditsPack(id: string, sessionId: string, buyer: string)
    requires PackageOf(Some(id)).Some?
    ensures var p := PackageOf(Some(id)).value;
            var s := StripeWebhook.Session(sessionId, Some(buyer), None, Some(p.optik as real), p.amountCents);
            StripeWebhook.OptikAmount(s) == p.optik as real
    ensures var p := PackageOf(Some(id)).value;
            var s := StripeWebhook.Session(sessionId, Some(buyer), None, None, p.amountCents);
            StripeWebhook.OptikAmount(s) == p.optik as real <==> id == "small"
  {
  }
}

=== FILE: stripewebhook.dfy ===
/** POST /api/webhooks/stripe (app/api/webhooks/stripe/route.ts): a
    completed checkout becomes one pending purchase reward for the buyer,
    at most once per checkout session. Signature checking is the Stripe
    library's: an event that fails it arrives here as `None`. The audit
    insert into `payments` ignores its own failure and does not affect the
    answer, so it is not part of the model. The new row's id is the one
    the database assigns (`freshId`); `insertFails` is a failed insert. */
module StripeWebhook {
  import opened Basics
  import opened Ledger

  const CompletedEvent: string := "checkout.session.completed"
  const YearMs: int := 365 * 24 * 60 * 60 * 1000

  /** The session fields the handler reads. `metaAmount` is the parsed
      `metadata.optikAmount` when that string is present and non-empty. */
  datatype Session = Session(
    id: string,
    metaWallet: Option<string>,
    clientReference: Option<string>,
    metaAmount: Option<real>,
    amountTotal: int)

  datatype Event = Event(kind: string, session: Session)

  /** A plain-text `NextResponse`. */
  datatype TextReply = TextReply(status: nat, text: string)

  datatype Outcome = Outcome(rewards: seq<Reward>, reply: TextReply)

  /** `metadata.walletAddress || client_reference_id`. */
  function Buyer(s: Session): (w: Option<string>)
    ensures Present(s.metaWallet) ==> w == s.metaWallet
    ensures !Present(s.metaWallet) ==> w == s.clientReference
  {
    if Present(s.metaWallet) then s.metaWallet else s.clientReference
  }

  /** The OPTIK credited: the metadata amount, else 20 per dollar paid
      (`amount_total` is in cents), so a $25 payment gives 500. */
  function OptikAmount(s: Session): (a: real)
    ensures s.metaAmount.Some? ==> a == s.metaAmount.value
    ensures s.metaAmount.None? ==> a * 5.0 == s.amountTotal as real
  {
    if s.metaAmount.Some? then s.metaAmount.value else s.amountTotal as real / 100.0 * 20.0
  }

  /** How many reward rows name this checkout session as their source. */
  function SourceCount(t: seq<Reward>, sessionId: string): (n: nat)
    ensures n <= |t|
    ensures n == 0 <==> forall i :: 0 <= i < |t| ==> t[i].sourceId != Some(sessionId)
  {
    if |t| == 0 then 0
    else
      var rest := SourceCount(t[1..], sessionId);
      assert forall i :: 0 < i < |t| ==> t[i] == t[1..][i - 1];
      (if t[0].sourceId == Some(sessionId) then 1 else 0) + rest
  }

  /** The duplicate check: `.single()` yields the existing row only when
      exactly one row matches, so two matching rows read as none. */
  predicate Processed(t: seq<Reward>, sessionId: string) {
    SourceCount(t, sessionId) == 1
  }

  lemma {:induction false} SourceCountAppend(t: seq<Reward>, r: Reward, sessionId: string)
    ensures SourceCount(t + [r], sessionId)
         == SourceCount(t, sessionId) + (if r.sourceId == Some(sessionId) then 1 else 0)
  {
    if |t| == 0 {
      assert t + [r] == [r];
      assert ([r])[1..] == [];
    } else {
      assert (t + [r])[1..] == t[1..] + [r];
      SourceCountAppend(t[1..], r, sessionId);
    }
  }

  lemma {:induction false} SourceCountUnique(t: seq<Reward>, sessionId: string)
    requires UniqueSources(t)
    ensures SourceCount(t, sessionId) <= 1
  {
    if |t| > 0 {
      assert UniqueSources(t[1..]) by {
        forall i, j | 0 <= i < j < |t[1..]| && t[1..][i].sourceId.Some?
          ensures t[1..][i].sourceId != t[1..][j].sourceId
        {
          assert t[1..][i] == t[i + 1] && t[1..][j] == t[j + 1];
        }
      }
      SourceCountUnique(t[1..], sessionId);
      if t[0].sourceId == Some(sessionId) {
        forall i | 0 <= i < |t[1..]| ensures t[1..][i].sourceId != Some(sessionId) {
          assert t[1..][i] == t[i + 1];
        }
      }
    }
  }

  /** On a table the handler keeps (one row per source), the duplicate
      check finds a session exactly when some row records it. */
  lemma ProcessedIffRecorded(t: seq<Reward>, sessionId: string)
    requires UniqueSources(t)
    ensures Processed(t, sessionId) <==> exists i :: 0 <= i < |t| && t[i].sourceId == Some(sessionId)
  {
    SourceCountUnique(t, sessionId);
  }

  function NewReward(s: Session, wallet: string, now: int, freshId: nat): (r: Reward)
    ensures r.source == "purchase" && r.sourceId == Some(s.id) && r.wallet == wallet
    ensures r.expiresAt == now + YearMs && r.amount == OptikAmount(s) && !r.claimed
  {
    Reward(freshId, wallet, OptikAmount(s), "purchase", Some(s.id), now, now + YearMs, false, None)
  }

  /** The `checkout.session.completed` handling. `lookupFails` is a failed
      duplicate lookup, whose error the route does not read, so that it
      finds no row; `insertFails` is a failed insert of the reward. */
  function Handle(t: seq<Reward>, ev: Option<Event>, now: int, freshId: nat, lookupFails: bool, insertFails: bool): (o: Outcome)
    ensures ev.None? ==> o == Outcome(t, TextReply(400, "Webhook Error"))
    ensures ev.Some? && ev.value.kind != CompletedEvent ==> o == Outcome(t, TextReply(200, "OK"))
    ensures ev.Some? && ev.value.kind == CompletedEvent ==>
      var s := ev.value.session;
      var found := !lookupFails && Processed(t, s.id);
      && (!Present(Buyer(s)) ==> o == Outcome(t, TextReply(400, "Missing user identifier")))
      && (Present(Buyer(s)) && found ==> o == Outcome(t, TextReply(200, "Already processed")))
      && (Present(Buyer(s)) && !found && insertFails ==>
            o == Outcome(t, TextReply(500, "Database Error")))
      && (Present(Buyer(s)) && !found && !insertFails ==>
            o == Outcome(t + [NewReward(s, Buyer(s).value, now, freshId)], TextReply(200, "OK")))
    ensures o.rewards == t || |o.rewards| == |t| + 1
  {
    match ev
    case None => Outcome(t, TextReply(400, "Webhook Error"))
    case Some(e) =>
      if e.kind != CompletedEvent then Outcome(t, TextReply(200, "OK"))
      else
        var s := e.session;
        var wallet := Buyer(s);
        if !Present(wallet) then Outcome(t, TextReply(400, "Missing user identifier"))
        else if !lookupFails && Processed(t, s.id) then Outcome(t, TextReply(200, "Already processed"))
        else if insertFails then Outcome(t, TextReply(500, "Database Error"))
        else Outcome(t + [NewReward(s, wallet.value, now, freshId)], TextReply(200, "OK"))
  }

  /** Stripe may deliver an event more than once: on a table with one row
      per source, a redelivery whose duplicate lookup is answered, at any
      later time and whether or not its insert would fail, adds nothing. */
  lemma Idempotent(t: seq<Reward>, ev: Option<Event>, now: int, id: nat, now2: int, id2: nat, f2: bool)
    requires UniqueSources(t)
    ensures var t1 := Handle(t, ev, now, id, false, false).rewards;
            Handle(t1, ev, now2, id2, false, f2).rewards == t1
  {
    if ev.Some? && ev.value.kind == CompletedEvent && Present(Buyer(ev.value.session))
       && !Processed(t, ev.value.session.id) {
      var s := ev.value.session;
      SourceCountUnique(t, s.id);
      SourceCountAppend(t, NewReward(s, Buyer(s).value, now, id), s.id);
    }
  }

  /** With two rows for one session the duplicate check sees none, so a
      redelivery adds a third: the check relies on the table holding one
      row per source, which `KeepsKeys` maintains. */
  lemma DuplicatesDefeatCheck(r: Reward, s: Session, ev: Event, now: int, id: nat)
    requires r.sourceId == Some(s.id) && ev == Event(CompletedEvent, s) && Present(Buyer(s))
    ensures |Handle([r, r], Some(ev), now, id, false, false).rewards| == 3
  {
    assert SourceCount([r, r], s.id) == 2 by {
      assert [r, r][1..] == [r];
      assert ([r])[1..] == [];
    }
  }

  /** A redelivery whose duplicate lookup fails is taken as new: the
      reward is credited a second time and the session's source appears
      twice. */
  lemma FailedLookupReinserts(t: seq<Reward>, ev: Event, now: int, id: nat)
    requires ev.kind == CompletedEvent && Present(Buyer(ev.session)) && Processed(t, ev.session.id)
    ensures var o := Handle(t, Some(ev), now, id, true, false);
            o.reply == TextReply(200, "OK") && SourceCount(o.rewards, ev.session.id) == 2
            && !UniqueSources(o.rewards)
  {
    var s := ev.session;
    var r := NewReward(s, Buyer(s).value, now, id);
    var u := t + [r];
    SourceCountAppend(t, r, s.id);
    assert !UniqueSources(u) by {
      var i :| 0 <= i < |t| && t[i].sourceId == Some(s.id);
      assert u[i] == t[i] && u[|t|] == r;
    }
  }

  /** Given a fresh id from the database the handler keeps the table keyed
      by row id and, when its duplicate lookup is answered, by payment
      source (`FailedLookupReinserts` shows the other case). */
  lemma KeepsKeys(t: seq<Reward>, ev: Option<Event>, now: int, freshId: nat, lookupFails: bool, insertFails: bool)
    requires UniqueSources(t) && UniqueIds(t)
    requires forall i :: 0 <= i < |t| ==> t[i].id != freshId
    ensures !lookupFails ==> UniqueSources(Handle(t, ev, now, freshId, lookupFails, insertFails).rewards)
    ensures UniqueIds(Handle(t, ev, now, freshId, lookupFails, insertFails).rewards)
  {
    if ev.Some? {
      SourceCountUnique(t, ev.value.session.id);
    }
  }
}

=== FILE: taptoearn.dfy ===
/** The arcade's tap-to-earn clicker (components/arcade/TapToEarn.tsx): each
    tap spends energy equal to the tap power and earns tap power plus a
    combo bonus, times a multiplier that grows with the combo; energy
    regenerates up to a cap; four upgrades are bought from the balance at a
    price that grows geometrically with their level. Each React handler and
    each timer callback is one atomic step here; the timers themselves are
    the caller deciding when to call `Regen`, `AutoEarn` and `Decay`. */
module TapToEarn {
  import opened Basics

  datatype Upgrade = TapPower | EnergyMax | Recharge | AutoEarnUp

  datatype Levels = Levels(tapPower: nat, energyMax: nat, recharge: nat, autoEarn: nat)
  {
    function Get(u: Upgrade): nat {
      match u
      case TapPower => tapPower
      case EnergyMax => energyMax
      case Recharge => recharge
      case AutoEarnUp => autoEarn
    }

    function Bump(u: Upgrade): (l: Levels)
      ensures l.Get(u) == Get(u) + 1
      ensures forall v :: v != u ==> l.Get(v) == Get(v)
    {
      match u
      case TapPower => this.(tapPower := tapPower + 1)
      case EnergyMax => this.(energyMax := energyMax + 1)
      case Recharge => this.(recharge := recharge + 1)
      case AutoEarnUp => this.(autoEarn := autoEarn + 1)
    }
  }

  datatype State = State(
    balance: real,
    energy: real,
    maxEnergy: real,
    tapPower: nat,
    multiplier: real,
    combo: nat,
    totalTaps: nat,
    peakCombo: nat,
    autoEarnRate: nat,
    levels: Levels)

  const StartEnergy: real := 1000.0
  const EnergyStep: real := 100.0

  function Initial(): (s: State)
    ensures Valid(s)
  {
    State(0.0, StartEnergy, StartEnergy, 1, 1.0, 0, 0, 0, 0, Levels(1, 1, 1, 0))
  }

  /** The multiplier a combo of `c` taps has reached: each tap sets it from
      the combo count before that tap, so after `c` taps it reflects `c - 1`. */
  function MultiplierAt(c: nat): (m: real)
    ensures 1.0 <= m <= 3.0
  {
    if c == 0 then 1.0
    else if c - 1 > 50 then 3.0
    else if c - 1 > 25 then 2.0
    else if c - 1 > 10 then 1.5
    else 1.0
  }

  /** What the component keeps consistent: energy within [0, cap], a
      non-negative balance, the peak combo at least the live combo, the
      multiplier matching the combo, and the effect of each upgrade level
      (tap power, energy cap, auto-earn rate) in step with its level. */
  predicate Valid(s: State) {
    && 0.0 <= s.energy <= s.maxEnergy
    && s.balance >= 0.0
    && s.combo <= s.peakCombo
    && s.multiplier == MultiplierAt(s.combo)
    && s.tapPower == s.levels.tapPower
    && s.maxEnergy == StartEnergy + EnergyStep * (s.levels.energyMax as real - 1.0)
    && s.autoEarnRate == s.levels.autoEarn
  }

  // ---------------------------------------------------------------- costs

  function Base(u: Upgrade): real {
    match u
    case TapPower => 50.0
    case EnergyMax => 100.0
    case Recharge => 75.0
    case AutoEarnUp => 200.0
  }

  function Growth(u: Upgrade): real {
    match u
    case TapPower => 1.5
    case EnergyMax => 1.6
    case Recharge => 1.4
    case AutoEarnUp => 2.0
  }

  /** `Math.floor(base * Math.pow(growth, level))`. */
  function Cost(u: Upgrade, level: nat): (c: int)
    ensures c as real <= Base(u) * Pow(Growth(u), level) < c as real + 1.0
  {
    (Base(u) * Pow(Growth(u), level)).Floor
  }

  /** Every upgrade gets strictly dearer with each level: the unrounded
      price rises by at least base·(growth − 1) ≥ 25, more than the floor
      can absorb. */
  lemma CostIncreases(u: Upgrade, level: nat)
    ensures Cost(u, level) < Cost(u, level + 1)
  {
    var p := Pow(Growth(u), level);
    PowAtLeastOne(Growth(u), level);
    assert Pow(Growth(u), level + 1) == Growth(u) * p;
    var b := Base(u);
    assert b * (Growth(u) * p) - b * p == b * (Growth(u) - 1.0) * p;
    assert b * (Growth(u) - 1.0) >= 25.0;
    assert b * (Growth(u) - 1.0) * p >= 25.0;
  }

  lemma {:induction false} CostMonotone(u: Upgrade, lo: nat, hi: nat)
    requires lo <= hi
    ensures Cost(u, lo) <= Cost(u, hi)
    ensures lo < hi ==> Cost(u, lo) < Cost(u, hi)
    decreases hi - lo
  {
    if lo < hi {
      CostIncreases(u, lo);
      CostMonotone(u, lo + 1, hi);
    }
  }

  /** The prices shown for the starting levels. */
  lemma StartingCosts()
    ensures Cost(TapPower, 1) == 75
    ensures Cost(EnergyMax, 1) == 160
    ensures Cost(Recharge, 1) == 105
    ensures Cost(AutoEarnUp, 0) == 200
  {
    assert Pow(1.5, 1) == 1.5 * Pow(1.5, 0);
    assert Pow(1.6, 1) == 1.6 * Pow(1.6, 0);
    assert Pow(1.4, 1) == 1.4 * Pow(1.4, 0);
  }

  // --------------------------------------------------------------- tapping

  /** A tap: rejected (nothing changes) when energy is below tap power;
      otherwise it earns `(tapPower + ⌊combo/10⌋)·multiplier`, spends
      `tapPower` energy, extends the combo and raises the multiplier by the
      combo count from before the tap. */
  function Tap(s: State): (t: State)
    requires Valid(s)
    ensures Valid(t)
    ensures s.energy < s.tapPower as real ==> t == s
    ensures s.energy >= s.tapPower as real ==>
      && t.balance == s.balance + (s.tapPower + s.combo / 10) as real * s.multiplier
      && t.energy == s.energy - s.tapPower as real
      && t.combo == s.combo + 1
      && t.totalTaps == s.totalTaps + 1
      && t.peakCombo == MaxI(s.peakCombo, s.combo + 1)
      && t.multiplier == (if s.combo > 50 then 3.0 else if s.combo > 25 then 2.0
                          else if s.combo > 10 then 1.5 else s.multiplier)
      && t.levels == s.levels && t.maxEnergy == s.maxEnergy && t.tapPower == s.tapPower
    ensures t.peakCombo >= s.peakCombo && t.balance >= s.balance
  {
    if s.energy < s.tapPower as real then s
    else
      var earn := (s.tapPower + s.combo / 10) as real * s.multiplier;
      var m := if s.combo > 50 then 3.0 else if s.combo > 25 then 2.0
               else if s.combo > 10 then 1.5 else s.multiplier;
      s.(balance := s.balance + earn,
         energy := s.energy - s.tapPower as real,
         combo := s.combo + 1,
         totalTaps := s.totalTaps + 1,
         peakCombo := MaxI(s.peakCombo, s.combo + 1),
         multiplier := m)
  }

  /** The combo timeout: combo back to 0 and multiplier back to 1. */
  function Decay(s: State): (t: State)
    requires Valid(s)
    ensures Valid(t)
    ensures t.combo == 0 && t.multiplier == 1.0
    ensures t.balance == s.balance && t.energy == s.energy && t.peakCombo == s.peakCombo
  {
    if s.combo > 0 then s.(combo := 0, multiplier := 1.0) else s
  }

  /** One 100 ms regeneration step: `min(energy + 1 + 0.5·recharge, cap)`. */
  function Regen(s: State): (t: State)
    requires Valid(s)
    ensures Valid(t)
    ensures t.energy >= s.energy
    ensures t.energy == s.maxEnergy || t.energy == s.energy + 1.0 + 0.5 * s.levels.recharge as real
    ensures t.energy <= s.energy + 1.0 + 0.5 * s.levels.recharge as real
    ensures t.(energy := s.energy) == s
  {
    s.(energy := MinR(s.energy + 1.0 + 0.5 * s.levels.recharge as real, s.maxEnergy))
  }

  /** One second of passive income: the auto-earn rate is added to the
      balance (a zero rate runs no timer, which adds the same nothing). */
  function AutoEarn(s: State): (t: State)
    requires Valid(s)
    ensures Valid(t)
    ensures t.balance == s.balance + s.levels.autoEarn as real
    ensures t.(balance := s.balance) == s
  {
    if s.autoEarnRate > 0 then s.(balance := s.balance + s.autoEarnRate as real) else s
  }

  /** The price of the next level of `u` at the current levels. */
  function Price(s: State, u: Upgrade): int {
    Cost(u, s.levels.Get(u))
  }

  /** Buying an upgrade: rejected when the balance is below the price;
      otherwise the balance pays exactly the price, that upgrade's level
      rises by one and its effect applies (tap power +1, energy cap and
      energy +100, auto-earn +1; recharge acts only through its level). */
  function Purchase(s: State, u: Upgrade): (t: State)
    requires Valid(s)
    ensures Valid(t)
    ensures s.balance < Price(s, u) as real ==> t == s
    ensures s.balance >= Price(s, u) as real ==>
      && t.balance == s.balance - Price(s, u) as real
      && t.levels == s.levels.Bump(u)
      && t.tapPower == s.tapPower + (if u == TapPower then 1 else 0)
      && t.maxEnergy == s.maxEnergy + (if u == EnergyMax then EnergyStep else 0.0)
      && t.energy == s.energy + (if u == EnergyMax then EnergyStep else 0.0)
      && t.autoEarnRate == s.autoEarnRate + (if u == AutoEarnUp then 1 else 0)
      && t.combo == s.combo && t.multiplier == s.multiplier && t.totalTaps == s.totalTaps
  {
    var cost := Price(s, u);
    if s.balance < cost as real then s
    else
      var paid := s.(balance := s.balance - cost as real, levels := s.levels.Bump(u));
      match u
      case TapPower => paid.(tapPower := paid.tapPower + 1)
      case EnergyMax => paid.(maxEnergy := paid.maxEnergy + EnergyStep, energy := paid.energy + EnergyStep)
      case AutoEarnUp => paid.(autoEarnRate := paid.autoEarnRate + 1)
      case Recharge => paid
  }

  /** The first tap of a fresh combo by a tap-power-1 player earns exactly
      1 and leaves the multiplier at 1. */
  lemma FirstTapsEarnOne(s: State)
    requires Valid(s) && s.combo == 0 && s.tapPower == 1 && s.energy >= 1.0
    ensures Tap(s).balance == s.balance + 1.0
    ensures Tap(s).multiplier == 1.0
  {
  }

  /** The multiplier only grows along a combo and never passes 3. */
  lemma MultiplierMonotone(c: nat, d: nat)
    requires c <= d
    ensures MultiplierAt(c) <= MultiplierAt(d)
  {
  }
}

=== FILE: text.dfy ===
/** String helpers shared by the request handlers and pages: the parts of
    JavaScript's `String.prototype` the site relies on (`trim`, `toLowerCase`,
    `toUpperCase`, `includes`, `startsWith`, `slice`) and decimal rendering of
    naturals. Case mapping covers ASCII letters only. */
module Text {
  import opened Basics

  /** The characters `String.prototype.trim` removes (ECMAScript WhiteSpace and
      LineTerminator). */
  predicate IsSpace(c: char) {
    || c == ' ' || c == '\t' || c == '\n' || c == '\r'
    || c == '\U{000B}' || c == '\U{000C}' || c == '\U{00A0}' || c == '\U{FEFF}'
    || c == '\U{1680}' || ('\U{2000}' <= c <= '\U{200A}')
    || c == '\U{2028}' || c == '\U{2029}' || c == '\U{202F}' || c == '\U{205F}'
    || c == '\U{3000}'
  }

  predicate AllSpace(s: string) {
    forall i :: 0 <= i < |s| ==> IsSpace(s[i])
  }

  /** Drops leading white space; the result is a suffix of `s`. */
  function TrimStart(s: string): (r: string)
    ensures |r| <= |s| && r == s[|s| - |r|..]
    ensures forall i :: 0 <= i < |s| - |r| ==> IsSpace(s[i])
    ensures |r| > 0 ==> !IsSpace(r[0])
  {
    if |s| > 0 && IsSpace(s[0]) then TrimStart(s[1..]) else s
  }

  /** Drops trailing white space; the result is a prefix of `s`. */
  function TrimEnd(s: string): (r: string)
    ensures |r| <= |s| && r == s[..|r|]
    ensures forall i :: |r| <= i < |s| ==> IsSpace(s[i])
    ensures |r| > 0 ==> !IsSpace(r[|r| - 1])
  {
    if |s| > 0 && IsSpace(s[|s| - 1]) then TrimEnd(s[..|s| - 1]) else s
  }

  /** `s.trim()`: never longer than `s`, and with no white space at either
      end. */
  function Trim(s: string): (r: string)
    ensures |r| <= |s|
    ensures |r| > 0 ==> !IsSpace(r[0]) && !IsSpace(r[|r| - 1])
  {
    var u := TrimStart(s);
    var r := TrimEnd(u);
    assert |r| > 0 ==> r[0] == u[0];
    r
  }

  /** Trimming keeps the part of `s` between its leading and its trailing
      white space. */
  lemma TrimIsSlice(s: string)
    ensures var r := Trim(s);
            exists a :: 0 <= a && a + |r| <= |s| && r == s[a..a + |r|] && AllSpace(s[..a]) && AllSpace(s[a + |r|..])
  {
    var u := TrimStart(s);
    var r := TrimEnd(u);
    SliceBeforeSpace(s, u, r);
    LeadingSpace(s, u);
    var a := |s| - |u|;
    assert r == s[a..a + |r|] && AllSpace(s[..a]) && AllSpace(s[a + |r|..]);
  }

  /** What `TrimStart` skipped is white space. */
  lemma LeadingSpace(s: string, u: string)
    requires |u| <= |s|
    requires forall i :: 0 <= i < |s| - |u| ==> IsSpace(s[i])
    ensures AllSpace(s[..|s| - |u|])
  {
    var p := s[..|s| - |u|];
    forall i | 0 <= i < |p| ensures IsSpace(p[i]) {
      assert p[i] == s[i];
    }
  }

  /** A prefix `r` of a suffix `u` of `s`, followed in `u` by white space
      only, is the slice of `s` where `u` begins, and only white space
      follows it in `s`. */
  lemma SliceBeforeSpace(s: string, u: string, r: string)
    requires |u| <= |s| && u == s[|s| - |u|..]
    requires |r| <= |u| && r == u[..|r|]
    requires forall i :: |r| <= i < |u| ==> IsSpace(u[i])
    ensures var a := |s| - |u|;
            && a + |r| <= |s| && r == s[a..a + |r|]
            && AllSpace(s[a + |r|..])
  {
    var a := |s| - |u|;
    var tail := s[a + |r|..];
    forall i | 0 <= i < |tail| ensures IsSpace(tail[i]) {
      assert tail[i] == u[|r| + i];
    }
  }

  lemma TrimStartEmpty(s: string)
    ensures TrimStart(s) == "" <==> AllSpace(s)
  {
    var r := TrimStart(s);
    if |r| > 0 {
      assert r[0] == s[|s| - |r|];
    }
  }

  lemma TrimEndEmpty(s: string)
    ensures TrimEnd(s) == "" <==> AllSpace(s)
  {
    var r := TrimEnd(s);
    if |r| > 0 {
      assert r[|r| - 1] == s[|r| - 1];
    }
  }

  /** A string trims to "" exactly when it is all white space. */
  lemma TrimEmptyIffAllSpace(s: string)
    ensures Trim(s) == "" <==> AllSpace(s)
  {
    var t := TrimStart(s);
    TrimStartEmpty(s);
    TrimEndEmpty(t);
    if |t| > 0 {
      assert !IsSpace(t[0]);
    }
  }

  /** Trimming changes nothing when neither end is white space. */
  lemma TrimUnchanged(s: string)
    requires |s| == 0 || (!IsSpace(s[0]) && !IsSpace(s[|s| - 1]))
    ensures Trim(s) == s
  {
  }

  /** `s.replace(/[…]/g, '')`: every character of `bad` removed, every
      other character kept in order. */
  function Drop(s: string, bad: set<char>): (r: string)
    ensures |r| <= |s|
    ensures forall i :: 0 <= i < |r| ==> r[i] !in bad
    ensures forall c :: c in r <==> c in s && c !in bad
    ensures Subsequence(r, s)
    ensures (forall i :: 0 <= i < |s| ==> s[i] !in bad) ==> r == s
  {
    if |s| == 0 then ""
    else
      var rest := Drop(s[1..], bad);
      var r := if s[0] in bad then rest else [s[0]] + rest;
      FilterStep((c: char) => c !in bad, s, rest, r);
      assert (forall i :: 0 <= i < |s| ==> s[i] !in bad) ==> r == s by {
        if forall i :: 0 <= i < |s| ==> s[i] !in bad {
          assert forall i :: 0 <= i < |s[1..]| ==> s[1..][i] == s[i + 1];
          assert s == [s[0]] + s[1..];
        }
      }
      r
  }

  /** Every character outside `bad` is kept as often as the string holds
      it, and none of `bad` is. */
  lemma {:induction false} DropCounts(s: string, bad: set<char>)
    ensures forall c :: multiset(Drop(s, bad))[c] == if c !in bad then multiset(s)[c] else 0
  {
    if |s| > 0 {
      DropCounts(s[1..], bad);
      FilterCountStep((c: char) => c !in bad, s, Drop(s[1..], bad), Drop(s, bad));
    }
  }

  /** Trimming keeps a contiguous part of the string, so it adds no
      character. */
  lemma TrimWithin(s: string, bad: set<char>)
    requires forall i :: 0 <= i < |s| ==> s[i] !in bad
    ensures |Trim(s)| <= |s|
    ensures forall i :: 0 <= i < |Trim(s)| ==> Trim(s)[i] !in bad
  {
    var t := TrimStart(s);
    var r := TrimEnd(t);
    assert Trim(s) == r;
    forall i | 0 <= i < |r| ensures r[i] !in bad {
      assert r[i] == t[i] == s[|s| - |t| + i];
    }
  }

  /** `s.slice(0, n)` for n >= 0. */
  function Take(s: string, n: nat): (r: string)
    ensures |r| == if |s| <= n then |s| else n
    ensures r == s[..|r|]
  {
    if |s| <= n then s else s[..n]
  }

  function LowerChar(c: char): char {
    if 'A' <= c <= 'Z' then (c as int + 32) as char else c
  }

  function UpperChar(c: char): char {
    if 'a' <= c <= 'z' then (c as int - 32) as char else c
  }

  /** `s.toLowerCase()` on ASCII letters. */
  function ToLower(s: string): (r: string)
    ensures |r| == |s|
    ensures forall i :: 0 <= i < |s| ==> r[i] == LowerChar(s[i])
  {
    seq(|s|, i requires 0 <= i < |s| => LowerChar(s[i]))
  }

  /** `s.toUpperCase()` on ASCII letters. */
  function ToUpper(s: string): (r: string)
    ensures |r| == |s|
    ensures forall i :: 0 <= i < |s| ==> r[i] == UpperChar(s[i])
  {
    seq(|s|, i requires 0 <= i < |s| => UpperChar(s[i]))
  }

  /** Upper-casing twice is upper-casing once. */
  lemma ToUpperIdempotent(s: string)
    ensures ToUpper(ToUpper(s)) == ToUpper(s)
  {
  }

  /** Lower-casing twice is lower-casing once. */
  lemma ToLowerIdempotent(s: string)
    ensures ToLower(ToLower(s)) == ToLower(s)
  {
  }

  /** `s.startsWith(p)`. */
  predicate StartsWith(s: string, p: string) {
    |p| <= |s| && s[..|p|] == p
  }

  /** `s.includes(sub)`, computed by scanning start positions left to right. */
  function Contains(s: string, sub: string): bool
    decreases |s|
  {
    if StartsWith(s, sub) then true
    else if |s| == 0 then false
    else Contains(s[1..], sub)
  }

  /** Specification of `includes`: some window of `s` equals `sub`. */
  ghost predicate OccursAt(s: string, sub: string, i: int) {
    0 <= i && i + |sub| <= |s| && s[i..i + |sub|] == sub
  }

  lemma {:induction false} ContainsSpec(s: string, sub: string)
    ensures Contains(s, sub) <==> exists i :: OccursAt(s, sub, i)
    decreases |s|
  {
    if StartsWith(s, sub) {
      assert OccursAt(s, sub, 0);
    } else if |s| == 0 {
      if exists i :: OccursAt(s, sub, i) {
        assert false;
      }
    } else {
      ContainsSpec(s[1..], sub);
      if Contains(s, sub) {
        var i :| OccursAt(s[1..], sub, i);
        assert s[1..][i..i + |sub|] == s[i + 1..i + 1 + |sub|];
        assert OccursAt(s, sub, i + 1);
      }
      if exists i :: OccursAt(s, sub, i) {
        var i :| OccursAt(s, sub, i);
        if i == 0 {
          assert false;
        }
        assert s[1..][i - 1..i - 1 + |sub|] == s[i..i + |sub|];
        assert OccursAt(s[1..], sub, i - 1);
      }
    }
  }

  /** The empty string occurs in every string. */
  lemma ContainsEmpty(s: string)
    ensures Contains(s, "")
  {
    assert StartsWith(s, "");
  }

  function DigitChar(d: int): char
    requires 0 <= d < 10
  {
    ('0' as int + d) as char
  }

  /** Decimal rendering of a natural (`String(n)`), without leading zeros. */
  function NatToString(n: nat): (r: string)
    ensures |r| >= 1
    ensures forall i :: 0 <= i < |r| ==> '0' <= r[i] <= '9'
    ensures |r| > 1 ==> r[0] != '0'
    decreases n
  {
    if n < 10 then [DigitChar(n)]
    else
      var p := NatToString(n / 10);
      p + [DigitChar(n % 10)]
  }

  /** Values of a rendered decimal string. */
  function DigitsValue(s: string): nat
    requires forall i :: 0 <= i < |s| ==> '0' <= s[i] <= '9'
  {
    if |s| == 0 then 0 else 10 * DigitsValue(s[..|s| - 1]) + (s[|s| - 1] as int - '0' as int)
  }

  /** Rendering is faithful: reading the digits back gives the number. */
  lemma {:induction false} NatToStringValue(n: nat)
    ensures DigitsValue(NatToString(n)) == n
    decreases n
  {
    if n >= 10 {
      NatToStringValue(n / 10);
      var r := NatToString(n);
      assert r[..|r| - 1] == NatToString(n / 10);
    }
  }

  /** Three digits with leading zeros, for a group below a thousand. */
  function Pad3(k: nat): (r: string)
    requires k < 1000
    ensures |r| == 3
  {
    [DigitChar(k / 100), DigitChar(k / 10 % 10), DigitChar(k % 10)]
  }

  /** `n.toLocaleString()` in the `en-US` locale: digits grouped in
      thousands with commas. */
  function Grouped(n: nat): string
    decreases n
  {
    if n < 1000 then NatToString(n) else Grouped(n / 1000) + "," + Pad3(n % 1000)
  }

  /** The text with every comma removed. */
  function WithoutCommas(s: string): (r: string)
    ensures |r| <= |s|
  {
    if |s| == 0 then "" else (if s[0] == ',' then "" else [s[0]]) + WithoutCommas(s[1..])
  }

  lemma {:induction false} WithoutCommasAppend(a: string, b: string)
    ensures WithoutCommas(a + b) == WithoutCommas(a) + WithoutCommas(b)
  {
    if |a| == 0 {
      assert a + b == b;
    } else {
      assert (a + b)[1..] == a[1..] + b;
      WithoutCommasAppend(a[1..], b);
    }
  }

  lemma {:induction false} WithoutCommasDigits(s: string)
    requires forall i :: 0 <= i < |s| ==> '0' <= s[i] <= '9'
    ensures WithoutCommas(s) == s
  {
    if |s| > 0 {
      WithoutCommasDigits(s[1..]);
    }
  }

  /** The last three digits of a number of four or more digits are its
      remainder by a thousand. */
  lemma ThousandsSplit(n: nat)
    requires n >= 1000
    ensures NatToString(n) == NatToString(n / 1000) + Pad3(n % 1000)
  {
    var q, k := n / 1000, n % 1000;
    assert n / 10 == 100 * q + k / 10;
    assert n / 100 == 10 * q + k / 100;
    assert n / 10 / 10 == n / 100;
    assert n / 100 / 10 == q;
    assert n / 10 % 10 == k / 10 % 10;
    assert n / 100 % 10 == k / 100;
    assert n % 10 == k % 10;
    assert NatToString(n) == NatToString(n / 10) + [DigitChar(n % 10)];
    assert NatToString(n / 10) == NatToString(n / 100) + [DigitChar(n / 10 % 10)];
    assert NatToString(n / 100) == NatToString(q) + [DigitChar(n / 100 % 10)];
    assert Pad3(k) == [DigitChar(n / 100 % 10)] + [DigitChar(n / 10 % 10)] + [DigitChar(n % 10)];
  }

  /** Grouping only inserts commas: removing them gives the plain
      rendering back. */
  lemma {:induction false} GroupedDigits(n: nat)
    ensures WithoutCommas(Grouped(n)) == NatToString(n)
    decreases n
  {
    if n < 1000 {
      WithoutCommasDigits(NatToString(n));
    } else {
      GroupedDigits(n / 1000);
      ThousandsSplit(n);
      WithoutCommasAppend(Grouped(n / 1000), ",");
      WithoutCommasAppend(Grouped(n / 1000) + ",", Pad3(n % 1000));
      WithoutCommasDigits(Pad3(n % 1000));
      assert WithoutCommas(",") == "";
    }
  }

  /** `parts.join(sep)`. */
  function Join(parts: seq<string>, sep: string): string
  {
    if |parts| == 0 then ""
    else if |parts| == 1 then parts[0]
    else parts[0] + sep + Join(parts[1..], sep)
  }
}

=== FILE: tokenform.dfy ===
/** The memecoin form (components/memecoin/create-token-form.tsx): four
    steps of fields, an upper-cased symbol, and a create button that hands
    the data to the page or posts it. Rendering and animation are left out. */
module TokenForm {
  import opened Basics
  import opened Text
  import Routes

  /** The form's fields; numbers stay the strings the inputs hold, and the
      image is the chosen file's name. */
  datatype Form = Form(name: string, symbol: string, description: string,
                       totalSupply: string, decimals: string, image: Option<string>)

  const Initial: Form := Form("", "", "", "1000000", "9", None)

  datatype Field = Name | Description | TotalSupply | Decimals

  /** `handleInputChange` for the plain text fields. */
  function Edit(f: Form, field: Field, value: string): (g: Form)
    ensures field == Name ==> g == f.(name := value)
    ensures field == Description ==> g == f.(description := value)
    ensures field == TotalSupply ==> g == f.(totalSupply := value)
    ensures field == Decimals ==> g == f.(decimals := value)
    ensures g.symbol == f.symbol && g.image == f.image
  {
    match field
    case Name => f.(name := value)
    case Description => f.(description := value)
    case TotalSupply => f.(totalSupply := value)
    case Decimals => f.(decimals := value)
  }

  /** The symbol input: at most 10 characters (`maxLength`), upper-cased on
      every change. */
  function EditSymbol(f: Form, typed: string): (g: Form)
    ensures |g.symbol| <= 10 && |g.symbol| <= |typed|
    ensures forall i :: 0 <= i < |g.symbol| ==> !('a' <= g.symbol[i] <= 'z')
    ensures g == f.(symbol := g.symbol)
  {
    f.(symbol := ToUpper(Take(typed, 10)))
  }

  /** Typing the stored symbol back changes nothing. */
  lemma EditSymbolIdempotent(f: Form, typed: string)
    ensures var g := EditSymbol(f, typed);
            EditSymbol(g, g.symbol) == g
  {
    var s := Take(typed, 10);
    ToUpperIdempotent(s);
  }

  /** `handleImageUpload`: a chosen file replaces the image; none keeps it. */
  function Upload(f: Form, file: Option<string>): (g: Form)
    ensures file.Some? ==> g == f.(image := file)
    ensures file.None? ==> g == f
  {
    if file.Some? then f.(image := file) else f
  }

  /** "Next" is shown below step 4 and enabled once name and symbol are
      filled; it moves one step, never past 4. */
  function Next(step: nat, f: Form): (s: nat)
    requires 1 <= step <= 4
    ensures 1 <= s <= 4
    ensures s == step + 1 <==> step < 4 && f.name != "" && f.symbol != ""
    ensures s != step + 1 ==> s == step
  {
    if step < 4 && f.name != "" && f.symbol != "" then MinI(4, step + 1) else step
  }

  /** "Previous" is disabled on step 1 and otherwise moves one step back. */
  function Previous(step: nat): (s: nat)
    requires 1 <= step <= 4
    ensures 1 <= s <= 4
    ensures step > 1 ==> s == step - 1
    ensures step == 1 ==> s == 1
  {
    if step == 1 then step else MaxI(1, step - 1)
  }

  /** Back after next returns to the same step. */
  lemma NextThenPrevious(step: nat, f: Form)
    requires 1 <= step < 4 && f.name != "" && f.symbol != ""
    ensures Previous(Next(step, f)) == step
  {
  }

  /** The review step is reached only from a form with name and symbol. */
  lemma {:induction false} ReviewNeedsName(steps: nat, f: Form)
    requires f.name == "" || f.symbol == ""
    ensures Walk(1, f, steps) == 1
  {
    if steps > 0 {
      ReviewNeedsName(steps - 1, f);
    }
  }

  /** Pressing "Next" a number of times from a step. */
  function Walk(step: nat, f: Form, presses: nat): (s: nat)
    requires 1 <= step <= 4
    ensures 1 <= s <= 4
    decreases presses
  {
    if presses == 0 then step else Walk(Next(step, f), f, presses - 1)
  }

  /** With name and symbol, three presses reach the review step. */
  lemma ThreePressesToReview(f: Form)
    requires f.name != "" && f.symbol != ""
    ensures Walk(1, f, 3) == 4
  {
    assert Walk(3, f, 1) == Walk(4, f, 0) == 4;
    assert Walk(1, f, 3) == Walk(2, f, 2) == Walk(3, f, 1);
  }

  datatype Look = Completed | Active | Upcoming

  /** How the progress bar draws step `n` while on `step`. */
  function StepLook(step: nat, n: nat): (l: Look)
    ensures l == Completed <==> step > n
    ensures l == Active <==> step == n
  {
    if step > n then Completed else if step == n then Active else Upcoming
  }

  /** Exactly one step is active, and all before it are completed. */
  lemma OneActive(step: nat, n: nat, m: nat)
    requires StepLook(step, n) == Active && m < n
    ensures StepLook(step, m) == Completed && (m != n ==> StepLook(step, m) != Active)
  {
  }

  /** The create button is enabled with a wallet, a name and a symbol. */
  function CanCreate(connected: bool, f: Form): (ok: bool)
    ensures ok ==> f.name != "" && f.symbol != ""
    ensures ok <==> connected && f.name != "" && f.symbol != ""
  {
    connected && f.name != "" && f.symbol != ""
  }

  /** What pressing create does: nothing without a wallet, the page's
      callback when given one, otherwise a POST of the form. */
  datatype Submission = Ignored | Callback(data: Form) | Posted(path: string, data: Form)

  /** `handleCreateToken` as written: the fallback posts to
      `/api/incoin/create`. */
  function HandleCreateAsWritten(connected: bool, hasCallback: bool, f: Form): (s: Submission)
    ensures !connected <==> s == Ignored
    ensures connected && hasCallback ==> s == Callback(f)
    ensures connected && !hasCallback ==> s == Posted("/api/incoin/create", f)
  {
    if !connected then Ignored
    else if hasCallback then Callback(f)
    else Posted("/api/incoin/create", f)
  }

  /** No route serves the path the fallback posts to, so the request can
      only fail. */
  lemma FallbackPathMissing(f: Form)
    ensures var s := HandleCreateAsWritten(true, false, f);
            s.Posted? && s.path !in Routes.Api
  {
  }

  /** `handleCreateToken` posting to the create route, as evidently
      intended. */
  function HandleCreate(connected: bool, hasCallback: bool, f: Form): (s: Submission)
    ensures !connected <==> s == Ignored
    ensures connected && hasCallback ==> s == Callback(f)
    ensures s.Posted? ==> s.path in Routes.Api && s.data == f
  {
    if !connected then Ignored
    else if hasCallback then Callback(f)
    else Posted(Routes.MemecoinCreate, f)
  }

  /** Both versions agree except on the path. */
  lemma OnlyThePathDiffers(connected: bool, hasCallback: bool, f: Form)
    ensures var a := HandleCreateAsWritten(connected, hasCallback, f);
            var b := HandleCreate(connected, hasCallback, f);
            (a.Posted? <==> b.Posted?)
            && (a.Posted? ==> a.data == b.data && a.path != b.path)
            && (!a.Posted? ==> a == b)
  {
  }
}

=== FILE: userstats.dfy ===
/** /api/user-stats (app/api/user-stats/route.ts): GET returns a wallet's
    row with its profit rank, creating a zeroed row for a wallet that has
    none; POST upserts the trader's figures. `.single()` answers with no
    data unless exactly one row matches; `lookupFails` is any other
    database error, `insertFails` a failed insert of the new row. */
module UserStatsRoute {
  import opened Basics
  import opened Http
  import opened StatsTable
  import Leaderboard

  /** The zeroed figures of a new trader: every counter 0, multiplier 1. */
  function NewStats(wallet: string, now: int): (r: Row)
    ensures r.wallet == wallet && r.username.None?
    ensures forall c :: Value(r, c) == Some(if c == Multiplier then 1.0 else 0.0)
  {
    forall c: Column ensures c in Columns { AllColumns(c); }
    var zero := map c | c in Columns :: if c == Multiplier then 1.0 else 0.0;
    Row(wallet, None, zero, Some(now))
  }

  /** The fixed figures returned when the lookup fails. */
  function MockStats(wallet: string): (r: Row)
    ensures r.wallet == wallet
    ensures Value(r, TotalPnl) == Some(12450.50) && Value(r, TotalTrades) == Some(247.0)
  {
    Row(wallet, None, map[TotalPnl := 12450.50, WinRate := 68.5, TotalTrades := 247.0, AvgWin := 85.20,
                          TotalVolume := 1250000.0, WinStreak := 7.0, Multiplier := 2.5, RevenueShare := 1234.56,
                          OptikBalance := 50000.0, StakedOptik := 25000.0], None)
  }

  /** The count query: rows whose `total_pnl` is strictly greater than
      `x` (a null compares as neither greater nor smaller). */
  function CountAbove(t: seq<Row>, x: Option<real>): (n: nat)
    ensures n <= |t|
    ensures x.None? ==> n == 0
  {
    if |t| == 0 then 0
    else
      var above := x.Some? && Value(t[0], TotalPnl).Some? && Value(t[0], TotalPnl).value > x.value;
      (if above then 1 else 0) + CountAbove(t[1..], x)
  }

  /** `(count || 0) + 1`. */
  function Rank(t: seq<Row>, r: Row): (k: nat)
    ensures 1 <= k <= |t| + 1
  {
    CountAbove(t, Value(r, TotalPnl)) + 1
  }

  /** A trader with at least the profit of another never ranks below them,
      so equal profits share a rank. */
  lemma {:induction false} CountAboveMonotone(t: seq<Row>, x: real, y: real)
    requires x >= y
    ensures CountAbove(t, Some(x)) <= CountAbove(t, Some(y))
  {
    if |t| > 0 {
      CountAboveMonotone(t[1..], x, y);
    }
  }

  lemma RankOrder(t: seq<Row>, a: Row, b: Row)
    requires Value(a, TotalPnl).Some? && Value(b, TotalPnl).Some?
    requires Value(a, TotalPnl).value >= Value(b, TotalPnl).value
    ensures Rank(t, a) <= Rank(t, b)
    ensures Value(a, TotalPnl) == Value(b, TotalPnl) ==> Rank(t, a) == Rank(t, b)
  {
    CountAboveMonotone(t, Value(a, TotalPnl).value, Value(b, TotalPnl).value);
  }

  /** Nobody above means first place. */
  lemma {:induction false} TopIsFirst(t: seq<Row>, r: Row)
    requires forall i :: 0 <= i < |t| ==>
      (Value(t[i], TotalPnl).None? || Value(r, TotalPnl).None? || Value(t[i], TotalPnl).value <= Value(r, TotalPnl).value)
    ensures Rank(t, r) == 1
  {
    if |t| > 0 {
      TopIsFirst(t[1..], r);
    }
  }

  datatype Stats = Stats(row: Row, rank: Option<nat>)

  datatype Outcome = Outcome(table: seq<Row>, reply: Reply<Stats>)

  /** GET. `lookupFails` is a failed row lookup other than "no single
      row"; `insertFails` a failed insert of a new row; `countFails` a
      failed rank count, whose error the route ignores, so that the count
      reads as 0 and the rank as 1. */
  function Get(t: seq<Row>, wallet: Option<string>, now: int, lookupFails: bool, insertFails: bool, countFails: bool): (o: Outcome)
    ensures !Present(wallet) ==> o == Outcome(t, Fail(BadRequest, "Wallet address required"))
    ensures Present(wallet) && lookupFails ==> o == Outcome(t, Ok(Stats(MockStats(wallet.value), Some(42))))
    ensures Present(wallet) && !lookupFails ==>
      var mine := Leaderboard.OfWallet(t, wallet.value);
      && (|mine| == 1 && !countFails ==> o == Outcome(t, Ok(Stats(mine[0], Some(Rank(t, mine[0]))))))
      && (|mine| == 1 && countFails ==> o == Outcome(t, Ok(Stats(mine[0], Some(1)))))
      && (|mine| != 1 ==> o.reply == Ok(Stats(NewStats(wallet.value, now), None)))
      && (|mine| != 1 && !insertFails ==> o.table == t + [NewStats(wallet.value, now)])
      && (|mine| != 1 && insertFails ==> o.table == t)
  {
    if !Present(wallet) then Outcome(t, Fail(BadRequest, "Wallet address required"))
    else if lookupFails then Outcome(t, Ok(Stats(MockStats(wallet.value), Some(42))))
    else
      var mine := Leaderboard.OfWallet(t, wallet.value);
      if |mine| == 1 then Outcome(t, Ok(Stats(mine[0], Some(if countFails then 1 else Rank(t, mine[0])))))
      else
        var created := NewStats(wallet.value, now);
        Outcome(if insertFails then t else t + [created], Ok(Stats(created, None)))
  }

  /** A first visit creates the wallet's row; the next visit finds it and
      ranks it. */
  lemma SecondVisitFindsRow(t: seq<Row>, wallet: string, now: int, later: int)
    requires wallet != "" && !Has(t, wallet)
    ensures var o := Get(t, Some(wallet), now, false, false, false);
            var o2 := Get(o.table, Some(wallet), later, false, false, false);
            o2.table == o.table && o2.reply.Ok? && o2.reply.body.row == NewStats(wallet, now)
            && o2.reply.body.rank.Some?
  {
    var u := t + [NewStats(wallet, now)];
    NoRowsOfNewWallet(t, wallet);
    OfWalletAppend(t, NewStats(wallet, now), wallet);
    assert Get(t, Some(wallet), now, false, false, false).table == u;
  }

  /** A wallet without rows has nothing for `.eq` to match. */
  lemma {:induction false} NoRowsOfNewWallet(t: seq<Row>, wallet: string)
    requires !Has(t, wallet)
    ensures Leaderboard.OfWallet(t, wallet) == []
  {
    if |t| > 0 {
      forall i | 0 <= i < |t| - 1 ensures t[1..][i].wallet != wallet {
        assert t[1..][i] == t[i + 1];
      }
      NoRowsOfNewWallet(t[1..], wallet);
    }
  }

  lemma {:induction false} OfWalletAppend(t: seq<Row>, r: Row, wallet: string)
    ensures Leaderboard.OfWallet(t + [r], wallet) == Leaderboard.OfWallet(t, wallet) + (if r.wallet == wallet then [r] else [])
  {
    if |t| == 0 {
      assert t + [r] == [r];
      assert ([r])[1..] == [];
    } else {
      assert (t + [r])[1..] == t[1..] + [r];
      OfWalletAppend(t[1..], r, wallet);
    }
  }

  datatype Posted = Posted(table: seq<Row>, reply: Reply<Row>)

  /** The figures a POST may carry. */
  datatype Figures = Figures(
    pnl: Option<real>, winRate: Option<real>, totalTrades: Option<real>, avgWin: Option<real>,
    volume: Option<real>, streak: Option<real>, multiplier: Option<real>, revenueShare: Option<real>,
    optikBalance: Option<real>, stakedOptik: Option<real>)

  /** The figure a POST carries for a column. */
  function Figure(f: Figures, c: Column): Option<real> {
    match c
    case TotalPnl => f.pnl
    case WinRate => f.winRate
    case TotalTrades => f.totalTrades
    case AvgWin => f.avgWin
    case TotalVolume => f.volume
    case WinStreak => f.streak
    case Multiplier => f.multiplier
    case RevenueShare => f.revenueShare
    case OptikBalance => f.optikBalance
    case StakedOptik => f.stakedOptik
  }

  /** The columns a POST writes: exactly the figures it carries (the JSON
      encoding drops `undefined` fields). */
  function PatchOf(f: Figures): (m: map<Column, real>)
    ensures forall c :: c in m <==> Figure(f, c).Some?
    ensures forall c :: c in m ==> m[c] == Figure(f, c).value
  {
    forall c: Column ensures c in Columns { AllColumns(c); }
    map c | c in Columns && Figure(f, c).Some? :: Figure(f, c).value
  }

  /** POST: the wallet's row after upserting the figures. `.single()`
      turns an upsert that touched several rows of the wallet into an error
      answer, although the write has happened. */
  function Post(t: seq<Row>, wallet: Option<string>, f: Figures, now: int, fails: bool): (o: Posted)
    ensures !Present(wallet) ==> o == Posted(t, Fail(BadRequest, "Wallet address required"))
    ensures Present(wallet) && fails ==> o == Posted(t, Fail(ServerError, "Failed to update stats"))
    ensures Present(wallet) && !fails ==>
      && o.table == Upsert(t, wallet.value, PatchOf(f), now)
      && (o.reply.Ok? <==> |Leaderboard.OfWallet(o.table, wallet.value)| == 1)
      && (o.reply.Ok? ==> o.reply.body in o.table && o.reply.body.wallet == wallet.value)
      && (o.reply.Fail? ==> o.reply == Fail(ServerError, "Failed to update stats"))
  {
    if !Present(wallet) then Posted(t, Fail(BadRequest, "Wallet address required"))
    else if fails then Posted(t, Fail(ServerError, "Failed to update stats"))
    else
      var u := Upsert(t, wallet.value, PatchOf(f), now);
      var mine := Leaderboard.OfWallet(u, wallet.value);
      if |mine| == 1 then
        assert mine[0] in mine;
        Posted(u, Ok(mine[0]))
      else Posted(u, Fail(ServerError, "Failed to update stats"))
  }

  /** A new wallet's first POST stores exactly the figures it carries. */
  lemma FirstPostStoresFigures(t: seq<Row>, wallet: string, f: Figures, now: int)
    requires wallet != "" && !Has(t, wallet)
    ensures var o := Post(t, Some(wallet), f, now, false);
            o.reply == Ok(Row(wallet, None, PatchOf(f), Some(now)))
            && Value(o.reply.body, TotalPnl) == f.pnl
  {
    var r := Row(wallet, None, PatchOf(f), Some(now));
    NoRowsOfNewWallet(t, wallet);
    OfWalletAppend(t, r, wallet);
  }
}
